=== FILE: README.md ===
# dream-mecha core in Dafny

A model of the algorithmic core of dream-mecha, with proofs about it. Dream-mecha is a grid-based mecha game: pilots place polyomino pieces on an upgrade grid, launch their mechas against void enemies once a day, and trade pieces in a daily shop. Each source file is one Dafny module with the same name, written as immutable datatypes and pure functions. Each module's contracts state what the code promises.

The model has six groups.

- **Block-pattern generation.** The block maker window's numbered board and its frontier of valid cells (`BlockmakerGrid`). The random, stars and glyph generators, whole-grid mirroring, and the ASCII pattern text (`BlockmakerPatterns`, `BlockmakerGlyph`, `BlockmakerAscii`). The headless shape builders (`Headless`, `Shapes`) and the piece generator (`PieceGenerator`).
- **Placement grid and stats.** The mecha upgrade grid (`UpgradeGrid`): bounds and collision checks, place and remove, clockwise rotation that is undone when the turned piece no longer fits, and growth by one up to 18. The stat totals (`StatTotals`) and the protected stat calculator with its clamping and bounded history (`StatCalculator`).
- **Glyph text formats.** The blocklock glyph parser, the `symbol|size|r,c|r,c,n…` lock string and its parser, and glyph reconstruction (`Blocklock`). The `GATE-1.0-<type>-<hash>` portal codes and their verifier (`GatePortal`). The glyph-keyed gate with its adjacency map, glyph key, complexity level and ciphertext framing (`GateCreator`). Hashes are a `digest` parameter, an uninterpreted function that yields hex strings.
- **Validators.** The debugger's checks for pieces, enemies, the daily content file and stat overflow (`Debugger`). They run over decoded JSON values (`Json`).
- **Game state machines.**
  - `Fortress`: the fortress hit points.
  - `Mecha`: launching, healing, repair and the registry.
  - `Voidstate`: the voidstate level and void events.
  - `Combat`: the integer part of combat.
  - `Shop`: the shop and the player market.
  - `Game`: the game phase machine.
  - `Player`: player counters.
  - `Leaderboard`: leaderboard scoring and tiers.
  - `CombatHistory`: combat-history statistics.
- **Reasoning engine and registries.**
  - `Analyzer`: the energy-context analyzer's threshold classifiers.
  - `Strategies`: the strategy selector.
  - `Observer`: the observer's notes and trace summary.
  - `SolarCore` and `Energy`: the solar-core node registry and its shut-off machine.
  - `MemoryLogger`: the bounded memory log.
  - `Scene` and `ObjectManager`: the BlockVision scene and object registries.

Shared modules stand in for the Python features the code relies on:

| module | what it models |
|---|---|
| `Dicts` | insertion-ordered dictionaries |
| `PyText` | `split`, `strip`, `join`, `isdigit`, `int` on ASCII digits without underscores, `str`, negative indexing and slicing |
| `StableSort` | Python's stable `sorted` |
| `PyRandom` | `random`, with every draw an explicit roll |
| `Wrappers` | `Option` and `Result`, for None and for exceptions |

Randomness, clocks and hashes enter as parameters, and the contracts hold for every value of them. Three float formulas that rest on random draws are parameters too:
- combat damage and how much of it a defence lets through (`Combat.Strike`, `Combat.Absorb`);
- the enemy stats of a round (`Game.Scale`);
- the shop's piece generator (`Shop.Generator`).

Every other float computation the model covers is done in exact reals (`real`), with an explicit truncation wherever Python calls `int()`. This covers:
- the glyph multipliers (`StatCalculator.ScaleStat`);
- the board-efficiency points (`Leaderboard.BoardEfficiencyPoints`);
- the repair discount (`Player`);
- the rate thresholds and the min/max ratio test (`Analyzer`);
- density times range (`Energy.BoostPotential` and `Observer`);
- the consumption totals (`SolarCore`);
- the confidences (`Strategies`);
- the averages and rates (`CombatHistory`, `Observer`, `Leaderboard`).

Exact reals agree with Python's floats only away from rounding boundaries, and an integer converts to a float exactly only below 2^53. The lines under Left out, at the end, name the places where the difference reaches a contract.

## Model

| member | source | states |
|---|---|---|
| BlockmakerGrid.Cleared | blockmaker/blockmaker_window.py:220-227 | clearing leaves a well-formed board of the same size with no blocks |
| BlockmakerGrid.AddBlock | blockmaker/blockmaker_window.py:214-218 | `blocks[p] = k` maps `p` to `k`, keeps the board size, and appends `p` to the key order only when it is a new key |
| BlockmakerGrid.UpdateValidPositions | blockmaker/blockmaker_window.py:229-251 | the loop computes exactly the declared valid set: every cell of an empty board, otherwise the in-bounds free 4-neighbours of blocks |
| BlockmakerGrid.PlaceBlock | blockmaker/blockmaker_window.py:662-695 | an occupied cell or a board with 144 blocks is left alone; otherwise the cell is appended, numbered 1 on an empty board and the running counter otherwise, and the counter becomes that number plus one |
| BlockmakerGrid.PlaceBlockKeeps | blockmaker/blockmaker_window.py:662-695 | placing never removes or renumbers a block, adds at most one, and never takes the board past 144 |
| BlockmakerPatterns.ValidList | blockmaker/blockmaker_window.py:729 | the list handed to the random choice holds exactly the valid positions |
| BlockmakerPatterns.FreeCells | blockmaker/blockmaker_window.py:883-887 | the available positions are exactly the in-grid cells without a block |
| BlockmakerPatterns.Seeded | blockmaker/blockmaker_window.py:720-723 | the first block is numbered 1 at (n//2, n//2) |
| BlockmakerPatterns.RandomSteps | blockmaker/blockmaker_window.py:728-736 | every added block k sits on a free cell 4-adjacent to a block numbered below k, the numbers stay 1..count, and the loop stops only at the target, at 144 blocks or with no valid position left |
| BlockmakerPatterns.GrowStep | blockmaker/blockmaker_window.py:729-731 | adding the next number at a valid position keeps the board grown from the centre |
| BlockmakerPatterns.RandomPattern | blockmaker/blockmaker_window.py:711-748 | the pattern starts at the centre with 1, is grown by 4-adjacency, is numbered 1..count, and has at most the target (or just the seed) and at most 144 blocks |
| BlockmakerPatterns.AdjacentPositions | blockmaker/blockmaker_window.py:949-957 | the result holds exactly the in-grid 4-neighbours |
| BlockmakerPatterns.MirrorPositionOnEdge | blockmaker/blockmaker_window.py:959-973 | N, S, E, W project an in-grid cell onto that edge, keeping the other coordinate; any other direction leaves it unchanged |
| BlockmakerPatterns.StarChoice | blockmaker/blockmaker_window.py:889-930 | every stars placement is an in-grid cell that had no block |
| BlockmakerPatterns.StarsSteps | blockmaker/blockmaker_window.py:880-935 | the stars loop keeps the numbering 1..count, places only in-grid cells, and stops at the target or 144 blocks |
| BlockmakerPatterns.StarsPattern | blockmaker/blockmaker_window.py:860-947 | block 1 is at the centre, all blocks are in the grid, numbered in order, with no adjacency requirement and at most the target and 144 blocks |
| BlockmakerPatterns.MaxOr | blockmaker/blockmaker_window.py:1108 | `max(xs, default=d)` is d for an empty list and otherwise a member no smaller than any other |
| BlockmakerPatterns.ReflectInvolution | blockmaker/blockmaker_window.py:1102-1146 | reflecting a cell twice about the same axis gives it back |
| BlockmakerPatterns.MirrorNewImages | blockmaker/blockmaker_window.py:1110-1118 | the collected mirror images are all cells without a block, each the image of an existing block |
| BlockmakerPatterns.MirrorNewComplete | blockmaker/blockmaker_window.py:1110-1118 | every missing mirror image of an existing block is collected |
| BlockmakerPatterns.MirrorNewDistinct | blockmaker/blockmaker_window.py:1110-1118 | no mirror image is collected twice |
| BlockmakerPatterns.AddNumberedOrder | blockmaker/blockmaker_window.py:1116-1118 | adding fresh cells appends them to the block order |
| BlockmakerPatterns.AddNumberedKeeps | blockmaker/blockmaker_window.py:1116-1118 | adding fresh cells keeps every existing block and its number |
| BlockmakerPatterns.AddNumberedNumbers | blockmaker/blockmaker_window.py:1116-1118 | the k-th added cell is numbered next + k |
| BlockmakerPatterns.MirrorHorizontally | blockmaker/blockmaker_window.py:1102-1123 | the board stays well formed and gains exactly the missing images across the vertical axis, in order, and the block count afterwards exceeds every number on the board |
| BlockmakerPatterns.MirrorVertically | blockmaker/blockmaker_window.py:1125-1146 | the board stays well formed and gains exactly the missing images across the horizontal axis, in order, and the block count afterwards exceeds every number on the board |
| BlockmakerPatterns.MirrorEditor | blockmaker/blockmaker_window.py:1102-1146 | the editor after a mirror holds the mirrored board, and `block_count` is one more than the largest number on it, or 1 for an empty board |
| BlockmakerPatterns.MirrorCount | blockmaker/blockmaker_window.py:1108-1118 | `next_num` after the loop bounds every number of the mirrored board and exceeds the largest of them by exactly one |
| BlockmakerPatterns.MirrorThenPlace | blockmaker/blockmaker_window.py:1118 | after a mirror, the next hand-placed block is numbered above every block on the board, and none is renumbered |
| BlockmakerPatterns.MirrorGridKeeps | blockmaker/blockmaker_window.py:1102-1146 | mirroring never renumbers an existing block |
| BlockmakerPatterns.MirrorGridNumbers | blockmaker/blockmaker_window.py:1108-1118 | the added images are numbered max+1, max+2, … in order |
| BlockmakerPatterns.MirrorGridClosed | blockmaker/blockmaker_window.py:1102-1146 | after mirroring, the image of every occupied cell is occupied |
| BlockmakerGlyph.Perimeter | blockmaker/blockmaker_window.py:1079-1100 | the perimeter list of an n-grid (n >= 2) has 4n - 4 entries |
| BlockmakerGlyph.PerimeterOnBorder | blockmaker/blockmaker_window.py:1079-1100 | every entry is a border cell whose walk index is recovered from it |
| BlockmakerGlyph.PerimeterDistinct | blockmaker/blockmaker_window.py:1079-1100 | the 4n - 4 entries are pairwise distinct |
| BlockmakerGlyph.PerimeterCovers | blockmaker/blockmaker_window.py:1079-1100 | every border cell appears in the list |
| BlockmakerGlyph.PerimeterWalk | blockmaker/blockmaker_window.py:1079-1100 | the walk starts at (0, 0), consecutive entries are 4-adjacent and the last is adjacent to the first |
| BlockmakerGlyph.Run | blockmaker/blockmaker_window.py:1001-1018 | placing steps only extends the block order, keeps block_num - blocks_placed fixed, stops exactly once blocks_placed reaches the target, and never overshoots it |
| BlockmakerGlyph.RunAddsOnlySteps | blockmaker/blockmaker_window.py:1001-1063 | only cells named by a step are ever added |
| BlockmakerGlyph.RunFillsSteps | blockmaker/blockmaker_window.py:1001-1063 | a run that never reaches the target fills every cell its steps name |
| BlockmakerGlyph.RunCounted | blockmaker/blockmaker_window.py:1001-1063 | block numbers run 1, 2, … in placement order and the counters agree with the board |
| BlockmakerGlyph.RunPlacesFresh | blockmaker/blockmaker_window.py:1001-1018 | below the target, the k-th fresh step becomes the k-th new block |
| BlockmakerGlyph.RunAppend | blockmaker/blockmaker_window.py:999-1064 | running the stages one after the other is running their concatenation |
| BlockmakerGlyph.PerimeterSteps | blockmaker/blockmaker_window.py:999-1007 | the border stage places every perimeter cell unconditionally, in walk order |
| BlockmakerGlyph.CornerSteps | blockmaker/blockmaker_window.py:1009-1018 | the corner stage tries the four inner corners, each only when free |
| BlockmakerGlyph.RingCells | blockmaker/blockmaker_window.py:1030-1038 | a ring holds exactly the inner cells at Manhattan distance `radius` from the centre with column at most the centre column |
| BlockmakerGlyph.KeepDrawn | blockmaker/blockmaker_window.py:1039-1041 | the kept ring cells are a subset, and all of them are kept when every draw exceeds the skip chance |
| BlockmakerGlyph.PairSteps | blockmaker/blockmaker_window.py:1043-1063 | a ring cell yields either nothing or the cell followed by its mirror (r, n - 1 - c) |
| BlockmakerGlyph.UsedRadii | blockmaker/blockmaker_window.py:1025-1028 | the radii are sorted, lie in [2, (n - 1)//2), and number min(num_rings, available) |
| BlockmakerGlyph.GlyphTarget | blockmaker/blockmaker_window.py:981-990 | a spin-box value of at least 62 is the target; below it the target is drawn from [62, min(n², 100)], and the draw fails when n² < 62 |
| BlockmakerGlyph.GenerateGlyph | blockmaker/blockmaker_window.py:975-1077 | a glyph exists iff a target does; it keeps the grid size, places between 0 and target blocks, and leaves block_count = placed + 1 |
| BlockmakerGlyph.PairsFacts | blockmaker/blockmaker_window.py:1043-1063 | ring cells come in mirror pairs, never the centre, and none is placed unconditionally |
| BlockmakerGlyph.RingsFacts | blockmaker/blockmaker_window.py:1030-1063 | over all rings, the cells come in mirror pairs and never include the centre |
| BlockmakerGlyph.PerimeterMirror | blockmaker/blockmaker_window.py:1079-1100 | the mirror of a border cell is a border cell |
| BlockmakerGlyph.CornersMirror | blockmaker/blockmaker_window.py:1010 | the mirror of an inner corner is an inner corner |
| BlockmakerGlyph.GlyphStepsCells | blockmaker/blockmaker_window.py:999-1063 | the cells tried are exactly the border, the inner corners and the ring cells |
| BlockmakerGlyph.GlyphCellsMirror | blockmaker/blockmaker_window.py:999-1063 | the cells tried are closed under the left/right mirror |
| BlockmakerGlyph.GlyphSymmetric | blockmaker/blockmaker_window.py:1040-1064 | a glyph that ends at the final line short of its target is closed under (r, c) -> (r, n - 1 - c) |
| BlockmakerGlyph.GlyphCentreEmpty | blockmaker/blockmaker_window.py:1052-1054 | on grids of at least 5 the centre (n//2, n//2) is never filled |
| BlockmakerGlyph.GlyphStepAt | blockmaker/blockmaker_window.py:999-1018 | the border steps come first, then the four corner steps |
| BlockmakerGlyph.GlyphForcedFresh | blockmaker/blockmaker_window.py:999-1018 | the unconditional steps all land on new cells |
| BlockmakerGlyph.GlyphCounted | blockmaker/blockmaker_window.py:994-1064 | the glyph is numbered 1..placed in placement order and blocks_placed counts the blocks |
| BlockmakerGlyph.CornersInside | blockmaker/blockmaker_window.py:1010 | on grids of at least 4 the inner corners are four different cells off the border |
| BlockmakerGlyph.GlyphStepsDiffer | blockmaker/blockmaker_window.py:999-1018 | two different border or corner steps name different cells |
| BlockmakerGlyph.GlyphFreshAt | blockmaker/blockmaker_window.py:999-1018 | each border and corner step lands on a new cell |
| BlockmakerGlyph.GlyphPlacedAt | blockmaker/blockmaker_window.py:999-1018 | below the target, the k-th border or corner step becomes block k + 1 |
| BlockmakerGlyph.GlyphPerimeterFirst | blockmaker/blockmaker_window.py:999-1007 | the border takes the numbers 1..4n - 4 in walk order, as far as the target allows |
| BlockmakerGlyph.GlyphFixedFirst | blockmaker/blockmaker_window.py:999-1018 | the border takes 1..4n - 4 in walk order and, on grids of at least 4, the inner corners take 4n - 3..4n next, each cell numbered in placement order, as far as the target allows |
| BlockmakerAscii.BoundingBox | blockmaker/blockmaker_window.py:792-795 | the box bounds every block and each bound is attained by some block |
| BlockmakerAscii.Token | blockmaker/blockmaker_window.py:802-810 | a cell's token is a single word without spaces |
| BlockmakerAscii.RowTokens | blockmaker/blockmaker_window.py:800-811 | a row has one token per column of the box, in column order |
| BlockmakerAscii.RowLines | blockmaker/blockmaker_window.py:799-812 | one line per row of the box, in row order |
| BlockmakerAscii.TokenDecodes | blockmaker/blockmaker_window.py:802-810 | decoding a token gives back the cell's number ("+" for 1, "." for empty or the flash value) |
| BlockmakerAscii.RowLineJoin | blockmaker/blockmaker_window.py:800-812 | appending "tok " per cell and right-stripping equals joining the tokens with single spaces |
| BlockmakerAscii.RowLineSplits | blockmaker/blockmaker_window.py:800-812 | splitting a row line on whitespace gives its tokens back |
| BlockmakerAscii.PatternLineOneLine | blockmaker/blockmaker_window.py:796-813 | no line of the pattern contains a newline |
| BlockmakerAscii.AsciiPatternLines | blockmaker/blockmaker_window.py:788-813 | a non-empty pattern splits on newlines into "Block Pattern (N blocks):", 30 "=", and one line per row of the bounding box |
| BlockmakerAscii.AsciiRowDecodes | blockmaker/blockmaker_window.py:788-813 | the i-th token of a row line decodes to that cell's number, and is "+" exactly at block 1 |
| Blocklock.MaxNumber | blockmaker/blocklock.py:71 | the result bounds every block number, is attained by some block, and is 0 without blocks |
| Blocklock.MaxNumberPermutation | blockmaker/blocklock.py:71 | the largest number does not depend on the order of the blocks |
| Blocklock.TokenRows | blockmaker/blocklock.py:63-64 | each line's tokens are its stripped text split on whitespace |
| Blocklock.LastPlusRows | blockmaker/blocklock.py:63-67 | the anchor found is the last "+" in reading order, and None exactly when there is no "+" |
| Blocklock.ScanRow | blockmaker/blocklock.py:64-71 | scanning a row adds exactly its digit tokens as (row, col, n) and moves the anchor to its last "+" |
| Blocklock.ScanRows | blockmaker/blocklock.py:63-71 | scanning the rows collects exactly the digit tokens and keeps the last "+" as anchor |
| Blocklock.ParseGlyphStructure | blockmaker/blocklock.py:50-73 | grid_size is the number of lines, the blocks are exactly the digit tokens, the anchor is the last "+", and max_number is the largest number (0 if none) |
| Blocklock.SortedBlocks | blockmaker/blocklock.py:88 | sorting by number is a permutation of the blocks |
| Blocklock.LockParts | blockmaker/blocklock.py:75-93 | the lock fields are symbol, size, anchor and one field per block, present iff there is an anchor |
| Blocklock.CreateSpatialGatePattern | blockmaker/blocklock.py:75-93 | a lock is produced iff the glyph has an anchor (unpacking None raises otherwise) |
| Blocklock.CryptographicKey | blockmaker/blocklock.py:95-112 | the key is the first 32 characters of the digest of a string identical to the lock string |
| Blocklock.ParseInts | blockmaker/blocklock.py:148-153 | converting fields succeeds iff every field is an integer literal, giving their values in order, and otherwise fails on a bad field |
| Blocklock.UnpackBlock | blockmaker/blocklock.py:153 | `row, col, number = map(int, …)` succeeds iff there are exactly three integer fields |
| Blocklock.ParseBlocks | blockmaker/blocklock.py:151-154 | the block loop succeeds iff every block field parses, giving the blocks in order |
| Blocklock.ParseSpatialGatePattern | blockmaker/blocklock.py:139-161 | a lock whose first field is not the symbol is rejected; a parsed lock has its size, anchor and blocks from the fields and max_number their largest number |
| Blocklock.Blank | blockmaker/blocklock.py:170 | the initial grid is n by n dots |
| Blocklock.Put | blockmaker/blocklock.py:173-177 | a grid assignment succeeds iff both indices are valid Python indices, and keeps the grid square |
| Blocklock.PutCell | blockmaker/blocklock.py:173-177 | an assignment changes exactly the cell it addresses, with negative indices counting from the end |
| Blocklock.PutBlocks | blockmaker/blocklock.py:176-177 | drawing the blocks succeeds iff every block is inside the square |
| Blocklock.PutBlocksCell | blockmaker/blocklock.py:176-177 | each cell ends with the last block drawn there, or is untouched |
| Blocklock.ExactGrid | blockmaker/blocklock.py:163-177 | the redrawn grid exists iff the anchor and blocks fit the square |
| Blocklock.ExactGridCell | blockmaker/blocklock.py:163-177 | each redrawn cell is the last block drawn there, else the symbol at the anchor, else "." |
| Blocklock.ReconstructExactGlyph | blockmaker/blocklock.py:163-187 | the text is the rendering of the redrawn grid, rows joined by single spaces and lines by newlines |
| Blocklock.PairSplit | blockmaker/blocklock.py:84 | the anchor field `f"{r},{c}"` splits back into its two numbers |
| Blocklock.FieldRoundTrip | blockmaker/blocklock.py:89 | a block field parses back to the block (see also line 153 of the same file). |
| Blocklock.AnchorRoundTrip | blockmaker/blocklock.py:84 | the anchor field parses back to the anchor (see also line 148 of the same file). |
| Blocklock.FieldsRoundTrip | blockmaker/blocklock.py:151-154 | all block fields parse back to the blocks, in order (see also lines 88-89 of the same file). |
| Blocklock.LockSplit | blockmaker/blocklock.py:75-93 | for a symbol without the bar character, splitting the lock on bars gives back its fields |
| Blocklock.LockRoundTrip | blockmaker/blocklock.py:139-161 | parsing a lock gives back the glyph's size, anchor, number-sorted blocks and largest number (see also lines 75-93 of the same file). |
| Blocklock.LastAtParsed | blockmaker/blocklock.py:50-73 | a cell holds a block of the parsed glyph iff its token is a number, and then the block carries that value |
| Blocklock.LockVerifies | blockmaker/blocklock.py:114-137 | the lock of a parsed glyph that fits its square verifies, with the parsed data and the reconstruction |
| Blocklock.RedrawCell | blockmaker/blocklock.py:163-187 | every redrawn cell is the cell the glyph shows, with the symbol at the anchor |
| Blocklock.ExactRedraw | blockmaker/blocklock.py:163-187 | the lock of a square drawing redraws it exactly, with the symbol in place of the anchor "+" |
| Blocklock.DrawingVerifies | blockmaker/blocklock.py:163-187 | verifying the lock of a parsed glyph gives back the text of its single-spaced rows (see also lines 114-137 of the same file). |
| Blocklock.SigilRedraw | blockmaker/blocklock.py:163-187 | with "+" as symbol, a square single-spaced drawing is reconstructed exactly (stripped) (see also line 4 of the same file). |
| Blocklock.VerifyGateKey | blockmaker/blocklock.py:114-137 | verification is valid iff parsing and redrawing succeed, and any exception (a wrong first field included) becomes valid=False |
| Blocklock.GenerateKeyFromSigil | blockmaker/blocklock.py:28-48 | a symbol outside the list raises ValueError; otherwise the lock and key are those of the parsed glyph |
| Blocklock.GetKeyInfo | blockmaker/blocklock.py:189-207 | total_blocks is the numeric blocks plus one and entropy_bits is 8·total + 2·len(pattern) |
| Blocklock.CreateKeyFromBlockmakerGrid | blockmaker/blocklock.py:220-227 | the grid data is ignored and the lock is that of the placeholder drawing |
| Blocklock.GenerateRandomSymbol | blockmaker/blocklock.py:209-217 | the random symbol is one of the listed symbols |
| GatePortal.IntegrationName | blockmaker/gate_portal.py:33-42 | a type has a name exactly when it is one of the eight integration types, and the name is the one listed beside it |
| GatePortal.NameFrom | blockmaker/gate_portal.py:33-42 | searching the type table from position k finds a name exactly when some later entry carries the type |
| GatePortal.TypesUndashed | blockmaker/gate_portal.py:33-42 | no integration type contains '-', so a type never breaks the code's four fields |
| GatePortal.PortalCode | blockmaker/gate_portal.py:128-137 | the code is GATE, the version, the type and the first 32 digest characters of pattern:type joined by '-' |
| GatePortal.CodeSplits | blockmaker/gate_portal.py:134-136 | splitting a generated code on '-' gives back exactly its four fields, given a digest free of '-' |
| GatePortal.PortalMetadata | blockmaker/gate_portal.py:139-163 | the metadata names the type and symbol, counts the anchor among the blocks, estimates entropy as 8 per block plus 2 per character, and defaults the custom part to empty |
| GatePortal.VerificationHash | blockmaker/gate_portal.py:165-170 | the hash is the first 16 characters (all when shorter) of the digest of code:name:symbol |
| GatePortal.GenerateGatePortal | blockmaker/gate_portal.py:44-81 | an unknown symbol, then an unknown type, is rejected; otherwise a portal results exactly when the drawing has an anchor, and it carries the spatial pattern, the code, metadata and hash built from them |
| GatePortal.AsLookup | blockmaker/gate_portal.py:143-163 | looking up the generated metadata by key finds its integration name and symbol |
| GatePortal.FillStep | blockmaker/gate_portal.py:262-266 | a demonstration step keeps the grid square |
| GatePortal.FillNumbers | blockmaker/gate_portal.py:262-266 | the demonstration loop keeps the grid square |
| GatePortal.ReadingOrder | blockmaker/gate_portal.py:263-264 | reading-order position k of an n-wide grid is (k // n, k % n) and only that cell |
| GatePortal.RowInside | blockmaker/gate_portal.py:263-264 | positions below n * n fall inside the grid |
| GatePortal.StepCell | blockmaker/gate_portal.py:263-266 | a demonstration step writes only its own cell, and only when that cell is still '.' |
| GatePortal.FillCell | blockmaker/gate_portal.py:262-266 | after the loop a cell holds its reading-order number exactly when the number was visited and the cell was '.', and is unchanged otherwise |
| GatePortal.SimplifiedGrid | blockmaker/gate_portal.py:250-266 | building the simplified grid fails exactly when the anchor is not a pair of indices valid for the grid size |
| GatePortal.SimplifiedCell | blockmaker/gate_portal.py:250-266 | every cell of the simplified drawing is the symbol at the anchor, a number from 1 to min(10, n*n) - 1 where the cell was '.', or '.' |
| GatePortal.ReconstructFromMetadata | blockmaker/gate_portal.py:233-248 | missing keys default to '>', 12 and (0, 0), and a failed build becomes the reconstruction error text |
| GatePortal.VerifyGatePortal | blockmaker/gate_portal.py:172-231 | the format, type, version, hash length and hash checks run in that order, the first failure names the rejection, and the portal verifies exactly when all pass |
| GatePortal.CodeVerifies | blockmaker/gate_portal.py:128-137 | a code built by the generator passes every check of verification against the hash of its own metadata |
| GatePortal.GeneratedVerifies | blockmaker/gate_portal.py:44-81 | a freshly generated portal verifies against its own code, hash and metadata, given a digest of at least 32 characters without '-' |
| GatePortal.GetIntegrationTypes | blockmaker/gate_portal.py:297-300 | every listed integration type is paired with the name the type table gives it |
| GateCreator.RowBlocks | blockmaker/gate_creator.py:244-254 | a row's blocks are exactly its '+' and digit tokens from the given column on, left to right |
| GateCreator.GlyphBlocks | blockmaker/gate_creator.py:243-254 | the blocks are exactly the '+' and digit tokens of the drawing, in reading order |
| GateCreator.RunningMax | blockmaker/gate_creator.py:249-254 | the running maximum bounds every block number and is either the start value or some block's number |
| GateCreator.RunningMaxIsMax | blockmaker/gate_creator.py:236-254 | starting from 0, the running maximum is the largest block number, or 0 without blocks |
| GateCreator.Positions | blockmaker/gate_creator.py:269 | the position set holds exactly the occupied cells |
| GateCreator.Neighbours | blockmaker/gate_creator.py:266-270 | a block's neighbours are exactly its occupied up, down, left and right cells, at most four and without repeats |
| GateCreator.BuildAdjacency | blockmaker/gate_creator.py:261-273 | the map has one entry per block position, each listing exactly its adjacent blocks, and adjacency is symmetric |
| GateCreator.ParseGlyph | blockmaker/gate_creator.py:227-259 | every '+' and digit token becomes a block in reading order, the anchor is the last '+', the count and largest number follow the blocks, and the adjacency map covers exactly their positions |
| GateCreator.CreateGlyphKey | blockmaker/gate_creator.py:275-301 | raises ZeroDivisionError exactly when there are blocks and the largest number is 0 (the division at line 352); otherwise one transformation per block in ascending block number, the blocks permuted and not changed, each carrying its adjacency list, and as many encryption steps as blocks |
| GateCreator.AssessComplexity | blockmaker/gate_creator.py:384-401 | the combinations are n to the power n, HIGH exactly above 10^30 and LOW exactly at or below 10^15 |
| GateCreator.PowSelfMono | blockmaker/gate_creator.py:387 | n to the power n grows with n |
| GateCreator.LevelMonotone | blockmaker/gate_creator.py:384-401 | more blocks never lower the complexity level |
| GateCreator.LevelThresholds | blockmaker/gate_creator.py:384-401 | the level is LOW up to 13 blocks, MEDIUM from 14 to 22 and HIGH from 23 |
| GateCreator.CreateGateLock | blockmaker/gate_creator.py:303-326 | raises ZeroDivisionError exactly when the grid size or the block count is 0 (the divisions at lines 359-364); otherwise the lock keeps the drawing, a 32-character prefix of its digest, and the block count, grid size and anchor of the parse |
| GateCreator.ParsedZero | blockmaker/gate_creator.py:227-259 | a parsed drawing has at least one line, and its largest block number is 0 exactly when every block is numbered 0 |
| GateCreator.CreateGateFromGlyph | blockmaker/gate_creator.py:58-87 | raises ZeroDivisionError exactly when no block of the drawing has a number above 0 (no "+", every digit token 0, or no blocks at all); otherwise the gate has as many transformations and steps as blocks, at least one, the grid size is the line count, and its own drawing verifies and matches |
| GateCreator.VerifyGate | blockmaker/gate_creator.py:403-425 | a gate is valid exactly when the hashes agree and matches exactly when the drawings are equal |
| GateCreator.Frame | blockmaker/gate_creator.py:117-118 | the frame is as long as IV, tag and ciphertext together |
| GateCreator.Unframe | blockmaker/gate_creator.py:136-138 | the slices give a 12-byte IV and a 16-byte tag when the data holds 28 bytes, and an empty ciphertext otherwise |
| GateCreator.UnframeFrame | blockmaker/gate_creator.py:117-138 | slicing a frame of a 12-byte IV and 16-byte tag gives back the IV, the tag and the ciphertext |
| GateCreator.FrameUnframe | blockmaker/gate_creator.py:117-138 | the three slices always put the data back together |
| Headless.Full | dream_mecha/core/utils/headless_blockmaker.py:184-189 | a full rectangle has the given rows and columns and every cell filled |
| Headless.FullCount | dream_mecha/core/utils/headless_blockmaker.py:211-213 | a full rows-by-cols rectangle counts rows * cols blocks |
| Headless.SimpleShape | dream_mecha/core/utils/headless_blockmaker.py:159-179 | the shape is one of the listed shapes for 1, 2 or 3 blocks, and any other count takes the four-cell branch |
| Headless.SimpleShapeCount | dream_mecha/core/utils/headless_blockmaker.py:159-179 | the simple shape has exactly the requested count for 1 to 3 blocks and four cells otherwise |
| Headless.FillRowMajor | dream_mecha/core/utils/headless_blockmaker.py:192-209 | the fill loop with its two breaks fills exactly the first min(blocks, 36) cells of the 6x6 grid in row-major order |
| Headless.ComplexShape | dream_mecha/core/utils/headless_blockmaker.py:181-209 | up to six blocks give a full 2x3, 2x4 or 3x3 rectangle, more give the row-major prefix of a 6x6 grid |
| Headless.GenerateShape | dream_mecha/core/utils/headless_blockmaker.py:152-157 | up to four blocks use the simple shapes, more use the complex ones |
| Headless.GenerateShapeCount | dream_mecha/core/utils/headless_blockmaker.py:152-213 | the shape keeps the block count for 1 to 4 and 7 to 36 blocks, while 5 or 6 blocks give 6, 8 or 9 cells |
| Headless.ExpandShape | dream_mecha/core/utils/headless_blockmaker.py:215-242 | one empty cell next to a filled one is filled, adding exactly one block, and a shape without such a cell is unchanged |
| Headless.TrimShape | dream_mecha/core/utils/headless_blockmaker.py:244-258 | one filled cell is cleared, removing exactly one block, and an empty shape is unchanged |
| Headless.ChosenStat | dream_mecha/core/utils/headless_blockmaker.py:268-281 | the chosen stat is always one of the four, the named one when it is known and hp for an unknown name |
| Headless.ProperPieceStats | dream_mecha/core/utils/headless_blockmaker.py:260-305 | the whole value goes to the chosen stat and the other three stats are 0 |
| Headless.GeneratePiece | dream_mecha/core/utils/headless_blockmaker.py:91-121 | the piece is named after its block count and carries the generated shape and single-stat stats for that count |
| Headless.DailyPlan | dream_mecha/core/utils/headless_blockmaker.py:64-89 | there are 6 to 8 pieces, 2 or 3 small and 2 or 3 medium, and the large group is never negative |
| Headless.DailyBlockCounts | dream_mecha/core/utils/headless_blockmaker.py:64-89 | one block count per piece, small pieces of 1-2 blocks, then medium of 3-5, then large of 6-12 |
| Shapes.SetCell | dream_mecha/core/utils/headless_blockmaker.py:231 | writing a cell keeps every row's length and changes only that cell |
| Shapes.CountSet | dream_mecha/core/utils/headless_blockmaker.py:211-213 | writing a cell changes the block count by exactly what that cell gains or loses |
| Shapes.HasAdjacentBlock | dream_mecha/core/utils/headless_blockmaker.py:234-242 | a cell has a neighbour exactly when one of its four neighbours lies inside its own row's bounds and is filled |
| Shapes.ProbeFrom | dream_mecha/core/utils/headless_blockmaker.py:236-242 | the probes from the k-th on report a neighbour exactly when one of them is filled |
| Shapes.CellsOf | dream_mecha/core/utils/headless_blockmaker.py:217-223 | the row-major scan lists exactly the wanted cells, in row-major order |
| Shapes.FilledCount | dream_mecha/core/utils/headless_blockmaker.py:244-250 | the filled-cell scan lists exactly as many cells as count_blocks counts |
| Shapes.NoEmptyFull | dream_mecha/core/utils/headless_blockmaker.py:211-213 | with no empty cell left every cell is counted |
| Shapes.HasEmpty | dream_mecha/core/utils/piece_generator.py:126-133 | a square grid holding fewer than k * k blocks has an empty cell |
| Shapes.RowMajorPrefix | dream_mecha/core/utils/headless_blockmaker.py:196-207 | a k-by-k grid whose cells are filled exactly up to row-major position n |
| Shapes.PrefixCount | dream_mecha/core/utils/headless_blockmaker.py:192-209 | the row-major prefix holds min(n, k * k) blocks, and none for n <= 0 |
| PieceGenerator.SimpleShape | dream_mecha/core/utils/piece_generator.py:79-99 | the simple shape has exactly the requested count for 1 to 3 blocks and four cells otherwise |
| PieceGenerator.CeilSqrt | dream_mecha/core/utils/piece_generator.py:104 | for n >= 1 the grid side is the least k with k * k >= n |
| PieceGenerator.Start | dream_mecha/core/utils/piece_generator.py:106-115 | the empty grid with only its centre filled holds one block |
| PieceGenerator.GrowStep | dream_mecha/core/utils/piece_generator.py:117-144 | a round fills a frontier cell when there is one, otherwise any empty cell, otherwise nothing, and never clears a cell |
| PieceGenerator.Grown | dream_mecha/core/utils/piece_generator.py:117-144 | after m rounds with room left the grid holds m + 1 blocks and still has its centre |
| PieceGenerator.GenerateComplexShape | dream_mecha/core/utils/piece_generator.py:101-146 | the loop never stops early: the result is a square of side ceil(sqrt(n)) holding exactly n blocks with its centre filled |
| PieceGenerator.GenerateShape | dream_mecha/core/utils/piece_generator.py:72-77 | up to four blocks use the simple shapes, more give a square of exactly that many blocks |
| PieceGenerator.HasAdjacent | dream_mecha/core/utils/piece_generator.py:148-158 | a cell at column x and row y has a neighbour exactly when one of its four neighbours lies within the row count and is filled |
| PieceGenerator.SquareAdjacent | dream_mecha/core/utils/piece_generator.py:148-158 | on a square grid this probe agrees with the headless generator's, with (x, y) read as (column, row) |
| PieceGenerator.Exposed | dream_mecha/core/utils/piece_generator.py:226-232 | a cell has at most four open sides |
| PieceGenerator.CalculatePerimeter | dream_mecha/core/utils/piece_generator.py:216-234 | the perimeter is at most four per block and 0 for an empty shape |
| PieceGenerator.FullPerimeter | dream_mecha/core/utils/piece_generator.py:216-234 | a full rows-by-cols rectangle has perimeter 2 * (rows + cols) |
| PieceGenerator.FallbackPiece | dream_mecha/core/utils/piece_generator.py:246-261 | a single filled row of the requested length with 120 stat points per block in the ratio 100 : 10 : 5 : 5 and voidstate level 0 |
| PieceGenerator.LogGeneration | dream_mecha/core/utils/piece_generator.py:263-277 | the piece's entry is appended with its stat total and only the latest 100 entries are kept |
| PieceGenerator.DailyShopPlan | dream_mecha/core/utils/piece_generator.py:284-309 | there are 2 or 3 small, 2 or 3 medium and 1 or 2 large pieces |
| PieceGenerator.DailyShopBlocks | dream_mecha/core/utils/piece_generator.py:284-309 | the draw succeeds exactly for a non-negative voidstate, and then gives one count per piece in each group's band, the large ones 6 to 12 |
| Debugger.Then | dream_mecha/core/utils/debugger.py:70-75 | running one group of checks after another is valid exactly when both groups are |
| Debugger.Missing | dream_mecha/core/utils/debugger.py:78-82 | the missing-field checks pass exactly when every required field is present, with one message naming each absent field |
| Debugger.StatErrors | dream_mecha/core/utils/debugger.py:160-170 | the stat checks pass exactly when each required stat is present as a non-negative integer |
| Debugger.ValidatePiece | dream_mecha/core/utils/debugger.py:138-183 | a piece is valid exactly when it has every required field, an integer block count from 1 to 144, a stats object with the four non-negative integer stats and a non-negative integer price |
| Debugger.EnemyStats | dream_mecha/core/utils/debugger.py:201-207 | the enemy stat checks pass exactly when each present stat is a non-negative integer |
| Debugger.ValidateEnemy | dream_mecha/core/utils/debugger.py:185-215 | an enemy is valid exactly when it has every required field, its present stats are non-negative integers and its description is a non-blank string |
| Debugger.ValidateItem | dream_mecha/core/utils/debugger.py:107-124 | an item passes exactly when it is a good piece or a good enemy, as its list demands |
| Debugger.LooseMissing | dream_mecha/core/utils/debugger.py:147-151 | on a string or list item, the missing-field checks pass exactly when it contains every field (as a substring or as a list element), with one message naming each field it lacks |
| Debugger.ValidateValue | dream_mecha/core/utils/debugger.py:138-215 | a dictionary item is validated field by field; a string or list item raises TypeError exactly when it contains a field the validator then indexes (lines 154-155, 161-162, 177-178, 202-203, 209-210), and otherwise is invalid with a missing-field message for each field it lacks; any other item raises at the first `in` |
| Debugger.EmptyListPiece | dream_mecha/core/utils/debugger.py:147-151 | an empty list as a shop piece is reported invalid, not raised on |
| Debugger.PlainStringEnemy | dream_mecha/core/utils/debugger.py:194-198 | the string "xyz" as an enemy is reported invalid, not raised on |
| Debugger.IndexedStringRaises | dream_mecha/core/utils/debugger.py:177-178 | the string "price" as a shop piece raises, because it contains "price" and is then indexed with it |
| Debugger.RaisingItems | dream_mecha/core/utils/debugger.py:194-204 | a list holding "hp" as an enemy raises, and so does a number as a shop piece |
| Debugger.Prefixed | dream_mecha/core/utils/debugger.py:110-112 | each of an item's errors is reported prefixed with its label and index |
| Debugger.ValidateItems | dream_mecha/core/utils/debugger.py:104-124 | the list is checked without raising exactly when every item is a dictionary, or a string or list that contains none of the fields the validator goes on to index; it passes exactly when every item is good, and reports every item error under its index |
| Debugger.DateCheck | dream_mecha/core/utils/debugger.py:85-90 | a date that is not a string is a type error, and otherwise the date check passes exactly when an absent date or a parsable one |
| Debugger.VoidstateCheck | dream_mecha/core/utils/debugger.py:93-97 | the voidstate check passes exactly when the voidstate is absent or an integer of at least 1 |
| Debugger.ListCheck | dream_mecha/core/utils/debugger.py:100-124 | a list check raises exactly when the key holds a list with an item the validator cannot get through; otherwise it passes exactly when the key is absent or holds a list of good items |
| Debugger.ValidateDailyContent | dream_mecha/core/utils/debugger.py:68-136 | raises TypeError exactly when the date is present and not a string, or a present shop-piece or enemy list holds an item the validators cannot get through; otherwise the daily content is valid exactly when it has every required field, a parsable date, a voidstate of at least 1, and lists of good shop pieces and good enemies |
| Debugger.ValidateStatCalculation | dream_mecha/core/utils/debugger.py:237-256 | false exactly when some stat exceeds one hundred billion; otherwise a negative block count raises TypeError, because its power 2.5 is complex (line 248), and any other count gives true, the scaling estimate only warning |
| Debugger.WithinLimit | dream_mecha/core/utils/debugger.py:241-246 | the overflow loop passes exactly when no stat exceeds one hundred billion |
| Fortress.New | dream_mecha/core/managers/fortress_manager.py:16-21 | a new fortress is at its full hundred billion hit points and has never been attacked |
| Fortress.TakeDamage | dream_mecha/core/managers/fortress_manager.py:23-50 | a fallen fortress is left alone and reports the failure; otherwise it loses min(damage, hp), the loss is added to the total, and a new attack date adds one day under attack |
| Fortress.Repair | dream_mecha/core/managers/fortress_manager.py:52-59 | nothing is restored at full health, otherwise min(amount, missing hit points), and nothing else changes |
| Fortress.HealthyKept | dream_mecha/core/managers/fortress_manager.py:23-59 | damage and repair by non-negative amounts keep the hit points within 0 and the maximum |
| Fortress.DamageThenRepair | dream_mecha/core/managers/fortress_manager.py:23-59 | repairing the amount a survivable hit took restores the hit points |
| Fortress.FortressUnderAttack | dream_mecha/core/managers/fortress_manager.py:129-160 | with mechs defending nothing happens, and without them the fortress takes a thousand times the enemy power |
| Fortress.CheckFortressCondition | dream_mecha/core/managers/fortress_manager.py:166-177 | the fortress is attacked when nobody launched or every launched mecha went down |
| Fortress.IntField | dream_mecha/core/managers/fortress_manager.py:87-90 | a stored field is read when it is an integer and defaults when absent |
| Fortress.DateField | dream_mecha/core/managers/fortress_manager.py:91 | an absent attack date reads as none |
| Fortress.FromDict | dream_mecha/core/managers/fortress_manager.py:84-92 | loading an empty dictionary gives a new fortress |
| Fortress.ToDictGets | dream_mecha/core/managers/fortress_manager.py:73-81 | saving stores each of the five fields under its own key |
| Fortress.FromToDict | dream_mecha/core/managers/fortress_manager.py:73-92 | loading what was saved gives the same fortress back |
| Fortress.FromFields | dream_mecha/core/managers/fortress_manager.py:84-92 | any dictionary holding the five fields of a fortress loads as that fortress |
| Mecha.StateNamed | dream_mecha/core/systems/mecha_system.py:12-17 | a state is found exactly for the four state values, and it is the state with that value |
| Mecha.StateNameRoundTrip | dream_mecha/core/systems/mecha_system.py:12-17 | every state's value reads back as that state |
| Mecha.Heal | dream_mecha/core/systems/mecha_system.py:40-44 | healing changes only the hit points, returns the change, and from a valid state never passes the maximum while restoring the full amount or reaching the maximum |
| Mecha.NewMecha | dream_mecha/core/systems/mecha_system.py:81-89 | a new mecha has default stats, is ready, has an empty 8x8 grid and 5000 zoltans, and can launch |
| Mecha.Launch | dream_mecha/core/systems/mecha_system.py:91-97 | a mecha launches exactly when its stats are launchable, and otherwise nothing changes |
| Mecha.ApplyDamage | dream_mecha/core/systems/mecha_system.py:99-106 | damage never takes hit points below 0, a mecha at 0 is downed, and nothing but hit points and state changes (see also lines 33-38 of the same file). |
| Mecha.Repair | dream_mecha/core/systems/mecha_system.py:108-119 | only a downed mecha that can pay is repaired, paying the cost and returning to full health and ready; otherwise nothing changes |
| Mecha.RepairedLaunchable | dream_mecha/core/systems/mecha_system.py:108-119 | a repaired mecha with a positive maximum can launch again (see also lines 29-31 of the same file). |
| Mecha.ExpandGrid | dream_mecha/core/systems/mecha_system.py:121-128 | the request is accepted exactly below 18 |
| Mecha.CreateMecha | dream_mecha/core/systems/mecha_system.py:53-61 | a second mecha for a player is refused; otherwise the player gets a new mecha named as given or "Mecha-" plus the first eight characters of the id, and no other player's entry changes |
| Mecha.ResetDailyState | dream_mecha/core/systems/mecha_system.py:71-75 | every launched mecha is ready again, the others keep their state, and the registry keeps its keys and order |
| Mecha.LaunchedMechas | dream_mecha/core/systems/mecha_system.py:67-69 | the launched mechas are exactly the registered mechas in the launched state |
| Mecha.ResetClearsLaunched | dream_mecha/core/systems/mecha_system.py:67-75 | after the daily reset no mecha is launched |
| Mecha.GridRoundTrip | dream_mecha/core/systems/mecha_system.py:144-160 | the saved grid reads back as the same grid |
| Mecha.StatsRoundTrip | dream_mecha/core/systems/mecha_system.py:135-157 | the saved stats read back as the same stats |
| Mecha.ToDictGets | dream_mecha/core/systems/mecha_system.py:130-147 | saving stores each field under its own key |
| Mecha.FromToDict | dream_mecha/core/systems/mecha_system.py:130-163 | loading what was saved gives the same mecha back |
| Mecha.FromFields | dream_mecha/core/systems/mecha_system.py:150-163 | any dictionary holding the fields of a mecha loads as that mecha |
| Voidstate.New | dream_mecha/core/managers/voidstate_manager.py:15-20 | a new manager starts at voidstate 0 with no event recorded |
| Voidstate.Increase | dream_mecha/core/managers/voidstate_manager.py:26-28 | the voidstate rises by the amount but never above 100, and nothing else changes |
| Voidstate.Decrease | dream_mecha/core/managers/voidstate_manager.py:30-32 | the voidstate falls by the amount but never below 0, and nothing else changes |
| Voidstate.Reset | dream_mecha/core/managers/voidstate_manager.py:34-36 | the voidstate returns to 0 and nothing else changes |
| Voidstate.BoundedKept | dream_mecha/core/managers/voidstate_manager.py:26-32 | moving by non-negative amounts keeps the voidstate within 0 and 100 |
| Voidstate.IncreaseDecrease | dream_mecha/core/managers/voidstate_manager.py:26-32 | raising and then lowering by the same amount away from the cap returns to the start, and the reverse away from the floor |
| Voidstate.ShouldTriggerVoidEvent | dream_mecha/core/managers/voidstate_manager.py:38-56 | nothing triggers within the twelve-hour cooldown; otherwise fewer than 3 players over voidstate 10 trigger, and over voidstate 20 the 10% draw may |
| Voidstate.TriggerVoidEvent | dream_mecha/core/managers/voidstate_manager.py:58-84 | the event time is recorded, the event type is one of the five, and the bonuses are 50 zoltans per point and one enemy per five points for 24 hours |
| Voidstate.EventStartsCooldown | dream_mecha/core/managers/voidstate_manager.py:38-60 | for twelve hours after an event no other event triggers, and after that one may (see also lines 135-140 of the same file). |
| Voidstate.EnemyCount | dream_mecha/core/managers/voidstate_manager.py:100 | the enemy count is the base plus one per ten voidstate points |
| Voidstate.EnemyCountMonotone | dream_mecha/core/managers/voidstate_manager.py:100 | a higher voidstate never gives fewer enemies |
| Combat.New | dream_mecha/core/systems/combat_system.py:45-50 | a new combat system is preparing, with no mechas, enemies or log and voidstate 0 |
| Combat.AddMechaAsWritten | dream_mecha/core/systems/combat_system.py:52-65 | as written, every call fails, because the mecha has no launch check of that name |
| Combat.AddMecha | dream_mecha/core/systems/combat_system.py:52-65 | a launchable mecha not yet queued is launched and queued at the end; otherwise nothing changes |
| Combat.AddMechaDistinct | dream_mecha/core/systems/combat_system.py:57-62 | a mecha is queued at most once, and an accepted one is queued |
| Combat.AddMechaFreshMecha | dream_mecha/core/systems/combat_system.py:52-65 | a fresh mecha makes the written check fail and is queued by the intended one |
| Combat.EnemyCount | dream_mecha/core/systems/combat_system.py:73-76 | one enemy plus one per fifteen voidstate points, never more than five, and five exactly from voidstate 60 |
| Combat.EnemySpeed | dream_mecha/core/systems/combat_system.py:101-113 | an enemy's speed is 10 + 2v below voidstate 40 and no less from 40 on |
| Combat.GenerateEnemies | dream_mecha/core/systems/combat_system.py:67-80 | the enemies are replaced by the counted number, each at full health and at the new voidstate, and nothing else but the voidstate changes |
| Combat.FirstMax | dream_mecha/core/systems/combat_system.py:136 | the target is the first enemy with the most hit points |
| Combat.SpeedOrder | dream_mecha/core/systems/combat_system.py:128 | the attack order is a permutation of the queue, fastest first |
| Combat.AttackPhase | dream_mecha/core/systems/combat_system.py:130-154 | the attack phase never adds enemies, and an enemy brought to 0 leaves the list |
| Combat.Retaliate | dream_mecha/core/systems/combat_system.py:156-179 | retaliation keeps every mecha in its place and changes only its hit points and state |
| Combat.Reward | dream_mecha/core/systems/combat_system.py:292 | a living mecha earns the whole pool, a downed one half of it but at least 500 |
| Combat.TotalReward | dream_mecha/core/systems/combat_system.py:274-289 | the pool is 500 plus 200 per defeated enemy, 150 per voidstate point and 1000 for a clean sweep |
| Combat.RewardsFromOthers | dream_mecha/core/systems/combat_system.py:291-293 | a player with no mecha in the queue keeps the entry it had |
| Combat.RewardsFromLast | dream_mecha/core/systems/combat_system.py:291-293 | a player's last queued mecha decides that player's reward |
| Combat.RewardsAtLeast | dream_mecha/core/systems/combat_system.py:273-293 | every reward is at least 500 when the pool is |
| Combat.RewardsAsWritten | dream_mecha/core/systems/combat_system.py:280-287 | as written, the defeated count is taken from a list already cleared of defeated enemies, so the pool never holds the defeat bonus |
| Combat.CalculateRewards | dream_mecha/core/systems/combat_system.py:269-295 | the rewards are keyed by player, counting as defeated the enemies the round removed |
| Combat.RewardsPerMecha | dream_mecha/core/systems/combat_system.py:269-295 | each queued player is paid the reward of its last mecha for the pool of the round, and nobody else is paid |
| Combat.RewardsAtLeast500 | dream_mecha/core/systems/combat_system.py:273-293 | at a non-negative voidstate every reward is at least 500 |
| Combat.DefeatBonusLost | dream_mecha/core/systems/combat_system.py:280-287 | a round that destroys one of two enemies pays a living mecha 500 as written and 700 as intended |
| Combat.CountDowned | dream_mecha/core/systems/combat_system.py:196 | no more mechas are downed than were launched |
| Combat.ReportCountsAsWritten | dream_mecha/core/systems/combat_system.py:200-201 | as written, the report gives the remaining enemies as the total and none defeated |
| Combat.ReportCountsLost | dream_mecha/core/systems/combat_system.py:200-201 | a round that destroys one of two enemies reports one enemy in total and none defeated |
| Combat.Drift | dream_mecha/core/systems/combat_system.py:185-188 | the voidstate rises by one when an enemy survived, and otherwise falls by one but not below 0 |
| Combat.ResolveCombat | dream_mecha/core/systems/combat_system.py:119-202 | nothing happens without mechas or enemies; otherwise the round keeps the queue in order, reports totals, defeats and rewards against the enemies it started with, drifts the voidstate and ends resolved |
| Combat.ResetCombat | dream_mecha/core/systems/combat_system.py:297-302 | the system is preparing again with empty lists, and the voidstate is kept |
| CombatHistory.TallyOf | dream_mecha/core/managers/combat_history_manager.py:168-179 | the tally counts one battle per record, no more victories or survivals than battles, and has no highest level exactly for no records |
| CombatHistory.HighestIsMax | dream_mecha/core/managers/combat_history_manager.py:179 | the highest voidstate is one of the records' levels and at least every one of them |
| CombatHistory.SumBelowHighest | dream_mecha/core/managers/combat_history_manager.py:177-179 | the levels sum to at most the battle count times the highest level |
| CombatHistory.TallyConcat | dream_mecha/core/managers/combat_history_manager.py:168-179 | the tally of two stretches of records is the combination of their tallies |
| CombatHistory.CombineZero | dream_mecha/core/managers/combat_history_manager.py:168-179 | combining with the empty tally changes nothing |
| CombatHistory.CombineAssoc | dream_mecha/core/managers/combat_history_manager.py:168-179 | combining tallies is associative |
| CombatHistory.StatsFromRecords | dream_mecha/core/managers/combat_history_manager.py:153-194 | no records give all zeros without rates; otherwise the highest level is the largest level, the average is at most it, and the flawless rate and enemies per battle are the counts over the battles |
| CombatHistory.PlayerRecords | dream_mecha/core/managers/combat_history_manager.py:89 | the filter keeps exactly the records of the player, in saving order |
| CombatHistory.PlayerRecordsConcat | dream_mecha/core/managers/combat_history_manager.py:89 | filtering by player distributes over concatenation |
| CombatHistory.PlayerCombatStats | dream_mecha/core/managers/combat_history_manager.py:86-131 | a player's statistics count only their records, and have no rates exactly when the player has none |
| CombatHistory.SavingUpdatesOnlyOwner | dream_mecha/core/managers/combat_history_manager.py:86-131 | saving another player's battle leaves a player's statistics as they were, and saving their own adds exactly that battle to their tally |
| CombatHistory.PlayerIds | dream_mecha/core/managers/combat_history_manager.py:139-144 | the grouping has one key per player with records, without repeats |
| CombatHistory.AllCombatStats | dream_mecha/core/managers/combat_history_manager.py:133-151 | there is one entry exactly per player with records, holding that player's statistics |
| CombatHistory.ResultOfReport | dream_mecha/core/managers/combat_history_manager.py:206-217 | the result a combat report hands over carries no end hit points and no damage dealt |
| CombatHistory.CreateCombatRecordAsWritten | dream_mecha/core/managers/combat_history_manager.py:212-217 | as written, survival reads the end hit points with a default of 0 while damage taken defaults them to the current hit points |
| CombatHistory.ReportRecordsNeverSurvive | dream_mecha/core/managers/combat_history_manager.py:212-217 | every record made from a combat report says the mecha did not survive, though it took no damage |
| CombatHistory.CreateCombatRecord | dream_mecha/core/managers/combat_history_manager.py:196-237 | the record carries the player, battle id, the counts and rewards from the result with their defaults, is flawless exactly when no damage was taken and an enemy was defeated, and reads the end hit points with one default |
| CombatHistory.SurvivalCorrected | dream_mecha/core/managers/combat_history_manager.py:212-217 | a mecha with hit points after a reported battle survived by the corrected record and not by the written one |
| Shop.New | dream_mecha/core/systems/shop_system.py:28-31 | a new shop has no inventory, trades or purchases |
| Shop.GenerateDailyShop | dream_mecha/core/systems/shop_system.py:40-67 | the purchase counters are cleared, the trades kept, and the inventory replaced by 6 to 8 pieces, first 2 or 3 small of 1-2 blocks, then 2 or 3 medium of 3-5, then large of 6-12 |
| Shop.FindPiece | dream_mecha/core/systems/shop_system.py:243-247 | the search stops at the first piece with the id, or past the end when there is none |
| Shop.CountersKept | dream_mecha/core/systems/shop_system.py:253 | raising a player's counter keeps every counter non-negative |
| Shop.PurchasePiece | dream_mecha/core/systems/shop_system.py:236-258 | a purchase succeeds exactly when the player has not bought today and a piece has the id; it then removes the first such piece and counts the purchase for that player only, and otherwise nothing changes |
| Shop.OnePurchasePerDay | dream_mecha/core/systems/shop_system.py:236-258 | after a successful purchase the same player is refused any other piece until the counters are cleared (see also lines 299-301 of the same file). |
| Shop.ResetAllowsPurchase | dream_mecha/core/systems/shop_system.py:40-43 | after the daily reset every player may buy again (see also lines 299-301 of the same file). |
| Shop.AddPlayerTrade | dream_mecha/core/systems/shop_system.py:260-273 | a copy of the piece at the asking price, marked with its seller, joins the end of the market, and nothing else changes |
| Shop.FindTrade | dream_mecha/core/systems/shop_system.py:277-281 | the search stops at the first listing with the id not sold by the buyer, or past the end |
| Shop.PurchaseTrade | dream_mecha/core/systems/shop_system.py:275-289 | a trade succeeds exactly when a listing with the id comes from someone other than the buyer; the first such listing is removed and returned, and otherwise nothing changes |
| Shop.OwnListingNotForSale | dream_mecha/core/systems/shop_system.py:260-289 | a listing cannot be bought back by its seller and can be bought by anyone else |
| Shop.FloorSqrt | dream_mecha/core/systems/shop_system.py:173 | the square root taken is the largest k with k * k at most n |
| Shop.FallbackShape | dream_mecha/core/systems/shop_system.py:163-184 | one to three blocks give a single full row, more give the row-major prefix of a square one wider than the root, and a negative count fails |
| Shop.FallbackShapeCount | dream_mecha/core/systems/shop_system.py:163-184 | the fallback shape holds exactly the requested number of blocks |
| Shop.FillSquare | dream_mecha/core/systems/shop_system.py:174-182 | the fill loop marks exactly the first blocks cells in row-major order |
| Shop.PatternLines | dream_mecha/core/systems/shop_system.py:148 | the pattern lines are exactly the lines holding a block glyph |
| Shop.BoolRow | dream_mecha/core/systems/shop_system.py:155-159 | a row is filled exactly at the solid glyphs of its line |
| Shop.PatternToBoolGrid | dream_mecha/core/systems/shop_system.py:144-161 | one row per pattern line, and a single filled cell when no line holds a block glyph |
| Shop.FilledCellsAreSolid | dream_mecha/core/systems/shop_system.py:144-161 | a cell of the grid is filled exactly when its character is a solid glyph |
| Shop.CalculatePieceStats | dream_mecha/core/systems/shop_system.py:186-220 | all the power goes to one stat, the drawn one for random, the named one otherwise and hp for an unknown name |
| Game.New | dream_mecha/core/managers/game_manager.py:20-27 | a new game is at cycle 1 and voidstate 0, preparing, with nobody registered |
| Game.StartDailyCycle | dream_mecha/core/managers/game_manager.py:29-48 | a new cycle is preparing with the next number, no mecha launched and the combat queue empty, the same players, and a fresh shop of 6 to 8 pieces with the purchase counters cleared |
| Game.LaunchMecha | dream_mecha/core/managers/game_manager.py:50-59 | a registered player's mecha joins the round exactly when the game is preparing and the mecha is launchable and not yet queued, and the registered mecha is then launched too; otherwise nothing changes |
| Game.LaunchMechaAsWritten | dream_mecha/core/managers/game_manager.py:50-59 | as written, a registered player's launch while preparing always raises, and no launch ever succeeds |
| Game.LaunchKeepsSynced | dream_mecha/core/managers/game_manager.py:50-59 | launching keeps the combat queue in step with the registry |
| Game.FindPlayer | dream_mecha/core/managers/game_manager.py:89-91 | the search stops at the first mecha of the round belonging to the player, or past the end |
| Game.WriteBackAll | dream_mecha/core/managers/game_manager.py:76 | every registered mecha is refreshed from the round in place, keeping the registry's order |
| Game.WriteBackAgrees | dream_mecha/core/managers/game_manager.py:76 | after the round every player who fought has the stats and state it left, the others are as they were, and nothing but stats and state changes |
| Game.Credit | dream_mecha/core/managers/game_manager.py:90-92 | a registered player's zoltans grow by the amount, an unknown player is ignored, and nobody else changes |
| Game.DistributeRewards | dream_mecha/core/managers/game_manager.py:87-92 | every registered player's zoltans grow by that player's reward, rewards for unknown players are dropped, and nothing else changes |
| Game.ResolveCombat | dream_mecha/core/managers/game_manager.py:61-85 | combat is refused unless preparing; otherwise enemies are generated for the voidstate and total power, the round is fought, the voidstate follows the report, and the game ends resolved with the same players |
| Game.ResolveKeepsSynced | dream_mecha/core/managers/game_manager.py:61-85 | combat keeps the queue in step with the registry |
| Game.OneRoundPerCycle | dream_mecha/core/managers/game_manager.py:50-85 | once resolved, nobody launches and combat is refused until the next cycle starts |
| Player.NewPlayer | dream_mecha/core/managers/player_manager.py:102-111 | a new account joins and is last active now, with every counter at 0, no mecha and no pieces |
| Player.CreatePlayer | dream_mecha/core/managers/player_manager.py:23-31 | a known id is refused and leaves the accounts alone; otherwise the new account is registered under its id and no other account changes |
| Player.CreatePlayerOnce | dream_mecha/core/managers/player_manager.py:23-31 | an id can be registered once, and the second attempt fails |
| Player.UpdatePlayerActivity | dream_mecha/core/managers/player_manager.py:46-51 | a known player's last activity becomes now, unknown ids change nothing, and no other account changes |
| Player.CreateMecha | dream_mecha/core/managers/player_manager.py:114-121 | a player with a mecha is refused; otherwise the player gets a new mecha named as given or after the username, and nothing else changes |
| Player.OneMechaPerPlayer | dream_mecha/core/managers/player_manager.py:114-121 | a player gets at most one mecha |
| Player.AddPieceToLibrary | dream_mecha/core/managers/player_manager.py:123-125 | the piece is appended to the library, and nothing else changes |
| Player.EarnZoltans | dream_mecha/core/managers/player_manager.py:127-131 | the lifetime total grows by the amount, and so does the mecha's purse when there is a mecha |
| Player.EarnAdditive | dream_mecha/core/managers/player_manager.py:127-131 | earning twice is earning the sum once |
| Player.IncrementDaysPlayed | dream_mecha/core/managers/player_manager.py:133-135 | the days played grow by one, and nothing else changes |
| Player.IncrementCombatParticipation | dream_mecha/core/managers/player_manager.py:137-139 | the combat participation grows by one, and nothing else changes |
| Player.CountersCommute | dream_mecha/core/managers/player_manager.py:133-139 | the two counters are independent of the order they are raised in |
| Player.DaysInactive | dream_mecha/core/managers/player_manager.py:143 | the days inactive are the whole days since the last activity, rounded down |
| Player.RepairDiscount | dream_mecha/core/managers/player_manager.py:141-149 | the discount is half after a week away, a quarter after three days, and nothing before |
| Player.DiscountGrows | dream_mecha/core/managers/player_manager.py:141-149 | staying away longer never lowers the discount |
| Leaderboard.Trunc | dream_mecha/core/managers/leaderboard_manager.py:64 | int() of a number truncates toward zero |
| Leaderboard.BoardEfficiencyPoints | dream_mecha/core/managers/leaderboard_manager.py:54-64 | the board term is never negative for a non-negative count and at most 1000 for a board no fuller than its size |
| Leaderboard.CalculatePilotScore | dream_mecha/core/managers/leaderboard_manager.py:41-76 | combat points are 100 per enemy and 500 per flawless victory, progression points 300 per voidstate level plus one per whole 100 zoltans, mecha points 10 per stat point plus the board term, and the total is their sum |
| Leaderboard.ScoreMonotone | dream_mecha/core/managers/leaderboard_manager.py:41-76 | a combat record no worse in any counted figure never scores lower, all else equal |
| Leaderboard.NewBattleNoWorse | dream_mecha/core/managers/leaderboard_manager.py:78-94 | saving a battle with nothing negative in it never worsens the player's combat record |
| Leaderboard.SavePilotScore | dream_mecha/core/managers/leaderboard_manager.py:96-112 | the player's entry is replaced and no other entry changes |
| Leaderboard.UpdatePlayerScore | dream_mecha/core/managers/leaderboard_manager.py:78-94 | the score is worked out from the player's saved battles under the given username, and saved as the player's entry alone |
| Leaderboard.EntryIsGot | dream_mecha/core/managers/leaderboard_manager.py:142-149 | every entry of the board is what the board holds for its player |
| Leaderboard.Rows | dream_mecha/core/managers/leaderboard_manager.py:155-156 | the rows are numbered from 1 in order |
| Leaderboard.Sorted | dream_mecha/core/managers/leaderboard_manager.py:152 | the sorted entries are a permutation of the board in falling total |
| Leaderboard.RowsShowBoard | dream_mecha/core/managers/leaderboard_manager.py:141-156 | every row of the ranking shows its player's saved entry |
| Leaderboard.RowsCoverBoard | dream_mecha/core/managers/leaderboard_manager.py:141-156 | every player on the board has a row in the ranking |
| Leaderboard.Rankings | dream_mecha/core/managers/leaderboard_manager.py:136-158 | the ranking is cut at the limit, numbered from 1 in falling total, each row shows its player's entry, and a limit covering the board ranks every player |
| Leaderboard.FindRanking | dream_mecha/core/managers/leaderboard_manager.py:164-168 | the search returns a row of the player exactly when one exists |
| Leaderboard.GetPlayerRanking | dream_mecha/core/managers/leaderboard_manager.py:160-168 | the player's row among the first 1000 carries their saved entry, an unknown player has none, and every player has one on a board of at most 1000 |
| Leaderboard.TierOf | dream_mecha/core/managers/leaderboard_manager.py:194-197 | elite from 10000 points, veteran from 5000, experienced from 2000, novice below |
| Leaderboard.TiersPartition | dream_mecha/core/managers/leaderboard_manager.py:194-197 | every pilot falls in exactly one band |
| Leaderboard.AverageAtMostFirst | dream_mecha/core/managers/leaderboard_manager.py:183-190 | the truncated mean of scores in falling order is at most the first |
| Leaderboard.TopIsHighest | dream_mecha/core/managers/leaderboard_manager.py:185-186 | no player on the board scores above the top row |
| Leaderboard.GetLeaderboardSummary | dream_mecha/core/managers/leaderboard_manager.py:170-199 | an empty board gives all zeros and no top pilot; otherwise the count, the truncated mean, and the top row whose score no pilot exceeds, and band counts adding up to the count |
| StatTotals.Plus | dream_mecha/core/utils/stat_calculator.py:53 | adding totals adds each of the four stats |
| StatTotals.Single | dream_mecha/core/utils/stat_calculator.py:53 | a single value counts under its own stat and 0 under the others |
| StatTotals.PlusAssoc | dream_mecha/core/utils/stat_calculator.py:48-53 | adding totals is associative, so the pieces may be summed in stretches |
| StatCalculator.SummableCons | dream_mecha/core/utils/stat_calculator.py:51-53 | the values can be summed exactly when the first known stat holds an integer and the rest can be summed |
| StatCalculator.AllSummableCons | dream_mecha/core/utils/stat_calculator.py:48-53 | the pieces can be summed exactly when the first stat piece can and the rest can |
| StatCalculator.ValuesOfCons | dream_mecha/core/utils/stat_calculator.py:51-53 | a piece's total is its first known stat plus the total of the rest |
| StatCalculator.AddKnownSums | dream_mecha/core/utils/stat_calculator.py:51-53 | adding one piece's stats succeeds exactly when its known stats are integers, and adds exactly its known stats |
| StatCalculator.BaseStatsSums | dream_mecha/core/utils/stat_calculator.py:43-55 | the base totals succeed exactly when every known stat of every stat piece is an integer, and then each total is the sum of that stat over the stat pieces |
| StatCalculator.GlyphEffect | dream_mecha/core/utils/stat_calculator.py:87-99 | every multiplier is at least 1, and an unknown glyph type multiplies by 1 |
| StatCalculator.Trunc | dream_mecha/core/utils/stat_calculator.py:70 | int() of a real truncates toward zero |
| StatCalculator.ScaleStat | dream_mecha/core/utils/stat_calculator.py:70 | in exact arithmetic, scaling a non-negative stat by a multiplier of at least 1 never lowers it, and a multiplier of 1 leaves it unchanged |
| StatCalculator.ApplyGlyphEffects | dream_mecha/core/utils/stat_calculator.py:57-72 | without an active glyph the totals are unchanged, and non-negative totals never decrease |
| StatCalculator.Clamp | dream_mecha/core/utils/stat_calculator.py:107-110 | a value is clamped into 0 to one hundred billion, unchanged when already inside |
| StatCalculator.ValidateFinalStats | dream_mecha/core/utils/stat_calculator.py:101-118 | every stat is clamped into range, values in range are kept, and hp is capped at the total-hp limit |
| StatCalculator.ValidateIdempotent | dream_mecha/core/utils/stat_calculator.py:101-118 | validating validated stats changes nothing |
| StatCalculator.LogCalculation | dream_mecha/core/utils/stat_calculator.py:124-139 | the entry is appended and only the last 100 are kept |
| StatCalculator.GetCalculationHistory | dream_mecha/core/utils/stat_calculator.py:176-178 | the last limit entries are returned, and all of them for a limit of 0 |
| StatCalculator.CalculateGridStats | dream_mecha/core/utils/stat_calculator.py:22-41 | unsummable base stats give the safe stats and log nothing; otherwise the clamped result is in range, equals the validated base totals without glyphs, and is logged |
| StatCalculator.AllGood | dream_mecha/core/utils/stat_calculator.py:158-160 | the stat check passes exactly when every value is an integer in range |
| StatCalculator.ValidatePieceStats | dream_mecha/core/utils/stat_calculator.py:146-165 | a piece passes exactly when it has at most 144 filled cells and every stat value is an integer from 0 to one hundred billion |
| StatCalculator.SumValues | dream_mecha/core/utils/stat_calculator.py:171 | the sum exists exactly when every value is an integer, and in-range values sum to at most their count times the stat limit |
| StatCalculator.CalculatePiecePower | dream_mecha/core/utils/stat_calculator.py:167-174 | the power is the stat sum capped at four times the stat limit, and 0 when the values cannot be summed |
| StatCalculator.ValidatedPower | dream_mecha/core/utils/stat_calculator.py:146-174 | a piece that passes validation has power in range, equal to its stat sum when it has at most four stats |
| UpgradeGrid.New | dream_mecha/core/systems/grid_system.py:26-31 | a new board is empty, with side min(initial size, 18), and holds no pieces or glyphs |
| UpgradeGrid.RowFootprint | dream_mecha/core/systems/grid_system.py:44-45 | the cells of a row's footprint are exactly its filled cells shifted to the position |
| UpgradeGrid.Footprint | dream_mecha/core/systems/grid_system.py:43-45 | the footprint is exactly the cells the placed shape covers |
| UpgradeGrid.AllFree | dream_mecha/core/systems/grid_system.py:43-46 | the occupancy loop passes exactly when none of the listed cells is occupied |
| UpgradeGrid.Write | dream_mecha/core/systems/grid_system.py:59-62 | writing puts the id under every listed cell and leaves the others as they were |
| UpgradeGrid.Clear | dream_mecha/core/systems/grid_system.py:83-86 | clearing empties exactly the listed cells that hold the id and leaves the others as they were |
| UpgradeGrid.WriteThenClear | dream_mecha/core/systems/grid_system.py:59-86 | clearing what was just written onto free cells restores the occupancy |
| UpgradeGrid.ClearThenWrite | dream_mecha/core/systems/grid_system.py:59-86 | writing back cells that held the id before they were cleared restores the occupancy |
| UpgradeGrid.CanPlacePiece | dream_mecha/core/systems/grid_system.py:33-48 | a piece can be placed exactly when it fits on the board and none of its filled cells is occupied |
| UpgradeGrid.PlacePiece | dream_mecha/core/systems/grid_system.py:50-71 | placing succeeds exactly when the piece can be placed; it then writes the id under the filled cells, records the position, and stores the piece among the glyphs or the pieces by its type; otherwise nothing changes |
| UpgradeGrid.Lookup | dream_mecha/core/systems/grid_system.py:75 | a piece is found exactly when the id is stored, and a stat piece wins over a glyph with the same id |
| UpgradeGrid.RemovePiece | dream_mecha/core/systems/grid_system.py:73-94 | removing fails for an unknown id; otherwise the cells under the piece still holding its id are emptied and the id leaves both dictionaries, and nothing else changes |
| UpgradeGrid.PlaceFinds | dream_mecha/core/systems/grid_system.py:50-75 | a piece placed under a fresh id is what a lookup of that id finds |
| UpgradeGrid.PlaceThenRemove | dream_mecha/core/systems/grid_system.py:50-94 | placing a piece under a fresh id and removing it gives back the same occupancy and dictionary contents |
| UpgradeGrid.RotateShape | dream_mecha/core/systems/grid_system.py:106-112 | the quarter turn is a cols-by-rows rectangle whose entry (x, j) is the original's (rows - 1 - j, x) |
| UpgradeGrid.RotateTwice | dream_mecha/core/systems/grid_system.py:106-112 | two quarter turns reverse both rows and columns |
| UpgradeGrid.RotateFour | dream_mecha/core/systems/grid_system.py:106-112 | four quarter turns give back the original shape |
| UpgradeGrid.Turned | dream_mecha/core/systems/grid_system.py:114-115 | a turn rotates the shape and advances the rotation by 90 modulo 360, and nothing else changes |
| UpgradeGrid.FourTurns | dream_mecha/core/systems/grid_system.py:114-115 | four turns restore the shape and the rotation taken modulo 360 |
| UpgradeGrid.RotatePiece | dream_mecha/core/systems/grid_system.py:96-126 | an unknown id is refused with nothing changed; IndexError exactly when the stored piece has width 0, and then the piece has already been removed from the board and from both dicts; the board keeps its size and stays well formed |
| UpgradeGrid.RotateFound | dream_mecha/core/systems/grid_system.py:102-126 | once the piece is found, IndexError exactly for a width-0 shape (`new_shape` is empty and line 39 reads its first row), leaving the board as the removal left it; otherwise the board keeps its size and well-formedness |
| UpgradeGrid.FlatPieceRaises | dream_mecha/core/systems/grid_system.py:34-39 | a new piece of shape `[[]]` is placed successfully, and turning it then raises IndexError and leaves it off the board |
| UpgradeGrid.UndoQuarter | dream_mecha/core/systems/grid_system.py:115-124 | advancing a rotation by 90 and going back by 90, both modulo 360, gives the rotation modulo 360 |
| UpgradeGrid.TurnBack | dream_mecha/core/systems/grid_system.py:122-125 | the piece put back after a failed turn is the original with its rotation taken modulo 360 |
| UpgradeGrid.RotateTurns | dream_mecha/core/systems/grid_system.py:117-120 | a turn that fits stores the turned piece, puts its id under every cell of the turned shape, and leaves every cell outside both shapes as it was |
| UpgradeGrid.RotateRevert | dream_mecha/core/systems/grid_system.py:121-126 | a turn that does not fit leaves the occupancy as it was and the piece with its old shape and its rotation modulo 360 |
| UpgradeGrid.ExpandGrid | dream_mecha/core/systems/grid_system.py:128-143 | expanding fails at side 18; otherwise the side grows by one, the occupied cells stay, and the new row and column are empty |
| UpgradeGrid.AddStat | dream_mecha/core/systems/grid_system.py:152 | adding a stat succeeds exactly for the four known keys |
| UpgradeGrid.AddStatsSums | dream_mecha/core/systems/grid_system.py:151-152 | adding a piece's stats succeeds exactly when all its keys are known, and adds exactly its stats |
| UpgradeGrid.CalculateStatsSums | dream_mecha/core/systems/grid_system.py:145-161 | the totals succeed exactly when every stat key of every stat piece is known, and then each total is the sum of that stat over the stat pieces; glyphs add nothing |
| UpgradeGrid.Meets | dream_mecha/core/systems/grid_system.py:183-198 | the nested loops find a shared cell exactly when the two cell lists have one |
| UpgradeGrid.ShapesOverlap | dream_mecha/core/systems/grid_system.py:179-200 | two placed shapes overlap exactly when they cover a common cell |
| UpgradeGrid.OverlapSymmetric | dream_mecha/core/systems/grid_system.py:179-200 | overlap does not depend on which shape is named first |
| SolarCore.New | core/managers/solar_core_manager.py:32-51 | a fresh core is running and reachable, holds no nodes, and has a radiant damage of 100000000000.0 |
| SolarCore.ConsumptionPut | core/managers/solar_core_manager.py:68-101 | storing a node changes the active consumption by the new node's draw less the draw of the node it replaces |
| SolarCore.ConsumptionRemove | core/managers/solar_core_manager.py:68-107 | deleting a node takes its draw off the active consumption |
| SolarCore.CreateNode | core/managers/solar_core_manager.py:87-102 | creation succeeds exactly when the name is free; the new node is active with the given rate, creator, position, density and range and zero consumed, other nodes are untouched, and the consumption grows by the rate; a refusal changes nothing |
| SolarCore.RemoveNode | core/managers/solar_core_manager.py:104-109 | removal succeeds exactly when the name is known; the node goes, others are untouched, and its draw leaves the consumption; otherwise nothing changes |
| SolarCore.SetNodeActive | core/managers/solar_core_manager.py:111-116 | the flag is set exactly when the name is known; only that node's flag changes and the consumption moves by its rate; otherwise nothing changes |
| SolarCore.ToggleRestoresConsumption | core/managers/solar_core_manager.py:68-116 | switching an active node off and on again restores the consumption |
| SolarCore.AttemptShutOff | core/managers/solar_core_manager.py:168-201 | the shut-off succeeds exactly when the mechanism is reachable and the player is within 1, which switches the core off and deals the full radiant damage; within 5 it fails with half the damage; out of reach or further out it fails with no damage; a failure never changes the core |
| SolarCore.RestartCore | core/managers/solar_core_manager.py:203-208 | a restart succeeds exactly when the core is off, and the core is running afterwards with nothing else changed |
| SolarCore.ShutOffThenRestart | core/managers/solar_core_manager.py:168-208 | a successful shut-off followed by a restart gives back the core exactly as it was, and the restart reports success |
| SolarCore.StatusNodes | core/managers/solar_core_manager.py:152-163 | the status lists every node, in order, with all its fields |
| SolarCore.EnergyStatus | core/managers/solar_core_manager.py:146-166 | the status reports the active consumption and, for every name, the node stored under it with its fields, and no other names |
| Energy.ActiveCount | core/reasoning/analyzer.py:143 | the count of active nodes is at most the number of nodes, and it is zero exactly when no node is active |
| Analyzer.DetectCrisis | core/reasoning/analyzer.py:28-31 | a crisis is exactly a reported consumption above 200; a missing consumption counts as 0 |
| Analyzer.ActiveRates | core/reasoning/analyzer.py:40-50 | the list holds one rate per active node, and its values are exactly the rates of the active nodes |
| Analyzer.MinReal | core/reasoning/analyzer.py:53 | the minimum is one of the values and no value is below it |
| Analyzer.MaxReal | core/reasoning/analyzer.py:52 | the maximum is one of the values and no value is above it |
| Analyzer.RatioBelow | core/reasoning/analyzer.py:57-58 | for a positive maximum, the ratio is under 0.7 exactly when the minimum is under 0.7 times the maximum |
| Analyzer.DetectInefficiency | core/reasoning/analyzer.py:33-60 | no nodes is not inefficient, nodes with none active is, and otherwise it is inefficient exactly when the active rates show the disparity |
| Analyzer.HighNames | core/reasoning/analyzer.py:113-118 | the names listed are exactly those of the active nodes drawing more than 15 |
| Analyzer.LowNames | core/reasoning/analyzer.py:124-132 | the efficiency check fails with a division error exactly when an active node has a rate of 0; otherwise it lists exactly the names of the active nodes whose efficiency is under 0.5 |
| Analyzer.FlowIssues | core/reasoning/analyzer.py:104-137 | no nodes gives the single no-nodes issue; a division error exactly when an active node draws 0; otherwise at most two issues, and none exactly when at most three active nodes draw more than 15 and no active node is wasteful |
| Analyzer.StabilityFactors | core/reasoning/analyzer.py:267-284 | there are one or two factors; high consumption exactly above 100, insufficient nodes exactly under 3 active, too many exactly over 15, and the balanced note exactly when no other factor applies, then alone |
| Analyzer.AssessStability | core/reasoning/analyzer.py:139-174 | the score stays in [0, 1]; the level is stable exactly for a consumption of at most 100 with 2 to 15 active nodes, and unstable exactly for fewer than 2 active nodes with a consumption above 50 or more than 15 with one above 100; the factors are the stability factors |
| Analyzer.BalancedIsStable | core/reasoning/analyzer.py:139-174 | a system whose only factor is the balanced note is assessed stable (see also lines 267-284 of the same file). |
| Analyzer.RiskFactors | core/reasoning/analyzer.py:213-231 | at most five risk factors are counted |
| Analyzer.AssessRiskLevel | core/reasoning/analyzer.py:211-238 | the level is high, medium or low; high needs a consumption above 100 together with an alert or a learning rate under 0.3; a consumption above 150 or an alert state is never low |
| Analyzer.CrisisIsRisky | core/reasoning/analyzer.py:211-238 | a crisis is never assessed as low risk (see also lines 28-31 of the same file). |
| Analyzer.RiskMonotone | core/reasoning/analyzer.py:211-238 | with the same nodes and system state, more consumption never lowers the risk level |
| Analyzer.NodeDistribution | core/reasoning/analyzer.py:62-102 | no nodes gives an unclustered score of 0 and fewer than two active nodes an unclustered score of 1, both without gaps; otherwise the measured clustering and score, with at most ten gaps (see also line 265 of the same file). |
| Analyzer.UnderusedNodes | core/reasoning/analyzer.py:181-198 | there is an entry for every active node whose utilisation is under 0.3, and every entry is such a node's, with the improvement 1 minus the utilisation |
| Analyzer.OptimizationOpportunities | core/reasoning/analyzer.py:176-209 | the list holds the underused-node entries and nothing else, except one closing clustering entry worth 0.2, which is there exactly when the nodes are clustered |
| Analyzer.Analyze | core/reasoning/analyzer.py:16-26 | the analysis fails exactly when the flow check does; otherwise each field is the matching classifier applied to the same status |
| Strategies.PrioritiesDistinct | core/reasoning/strategies.py:17-45 | the five strategies' priorities are pairwise different |
| Strategies.IdsDistinct | core/reasoning/strategies.py:13-49 | the five strategy ids are pairwise different |
| Strategies.HasConditions | core/reasoning/strategies.py:18-46 | every strategy lists at least one condition |
| Strategies.UnknownConditionFails | core/reasoning/strategies.py:99-145 | a condition no strategy lists is never met |
| Strategies.CrisisExcludesMaintenance | core/reasoning/strategies.py:133-137 | crisis response and maintenance never apply to the same context (see also lines 39, 46 of the same file). |
| Strategies.IsApplicable | core/reasoning/strategies.py:89-97 | a strategy applies exactly when every one of its conditions holds |
| Strategies.Filter | core/reasoning/strategies.py:53-58 | the applicable list holds exactly the table's strategies that apply, at most as many as the table, without repeats |
| Strategies.MatchedCount | core/reasoning/strategies.py:150-154 | the number of met conditions is at most their number, equals it exactly when the strategy applies, and is zero exactly when none holds |
| Strategies.Clamp | core/reasoning/strategies.py:163 | the result lies in [0, 1], is the value itself inside that range and the nearer bound outside it |
| Strategies.BaseConfidence | core/reasoning/strategies.py:157 | the share of met conditions lies in [0, 1]; it is 1 for a strategy that applies, 0 when none holds, and 0.5 without conditions |
| Strategies.ShareBounds | core/reasoning/strategies.py:157 | a count of met conditions over a positive total lies in [0, 1], is 1 when all are met and 0 when none is |
| Strategies.Confidence | core/reasoning/strategies.py:147-163 | the confidence lies in [0, 1]; a strategy that applies gets the clamped 0.5 plus half the learning rate, one with no condition met gets 0 |
| Strategies.StrategyNotes | core/reasoning/strategies.py:169-196 | at most two reasons; maintenance gives its single note, and crisis response gives the crisis note exactly in a crisis and the high-risk note exactly at high risk |
| Strategies.Reasoning | core/reasoning/strategies.py:165-205 | the reasoning is never empty: the generic sentence when there are no notes, otherwise it starts with the first note |
| Strategies.StrictlyRanked | core/reasoning/strategies.py:70 | a sorted list without repeats taken from a table of distinct priorities is strictly ordered by priority |
| Strategies.RankedFacts | core/reasoning/strategies.py:53-70 | sorting the applicable strategies keeps exactly them and orders them strictly by priority |
| Strategies.Ranked | core/reasoning/strategies.py:53-70 | the ranked list holds exactly the applicable strategies, in strictly increasing priority |
| Strategies.Ids | core/reasoning/strategies.py:86 | the ids are listed in the order of the strategies |
| Strategies.FirstIsBest | core/reasoning/strategies.py:72-73 | the head of the ranked list has a smaller priority than every other applicable strategy |
| Strategies.FirstNotAlternative | core/reasoning/strategies.py:73-86 | the chosen id is not among the ids ranked after it |
| Strategies.Alternatives | core/reasoning/strategies.py:86 | the alternatives are the next at most two ranked ids, never the chosen one |
| Strategies.SelectStrategy | core/reasoning/strategies.py:51-87 | with nothing applicable, maintenance at confidence 0.5 with the default note and no alternatives; otherwise the applicable strategy of smallest priority at the confidence of a fully met strategy, with its reasoning and the next at most two applicable ids as alternatives |
| Strategies.CrisisWins | core/reasoning/strategies.py:38-87 | crisis response is chosen whenever it applies |
| Strategies.CrisisSelected | core/reasoning/strategies.py:51-87 | for an analyzed status in crisis and unstable, crisis response is chosen (see also lines 127-134 of the same file). |
| Strategies.EstimateEffectiveness | core/reasoning/strategies.py:223-233 | an unknown id is estimated at 0.5 now and in the long run, and every estimate lies strictly between 0 and 1 |
| Strategies.OnlyCrisisFavoursNow | core/reasoning/strategies.py:225-231 | crisis response is the only strategy rated better now than in the long run |
| Strategies.Lookup | core/reasoning/strategies.py:209-212 | the lookup fails exactly for an id not in the table, and otherwise finds the entry with that id |
| Strategies.LookupIn | core/reasoning/strategies.py:209-212 | the lookup in a table fails exactly for an id it lacks, and otherwise finds an entry with that id |
| Strategies.GetStrategyDetails | core/reasoning/strategies.py:207-221 | an unknown id gives nothing; a known one gives the details of its table entry |
| Strategies.DetailsOfEntry | core/reasoning/strategies.py:207-221 | asking for a table entry's details by its own id gives that entry's details |
| Observer.BoostZones | core/reasoning/observer.py:54-75 | there is a zone for every active node whose density times range exceeds 10, and every zone is such a node's, with that product as its potential |
| Observer.ReasoningNotes | core/reasoning/observer.py:97-114 | one or two notes: the high note exactly above a consumption of 100, the low note exactly under 10, the many note exactly over 10 active nodes, the few note exactly under 3, and the normal note exactly when none of these applies, then alone |
| Observer.NotesText | core/reasoning/observer.py:95-116 | splitting the joined text on "; " gives exactly the reasoning notes back, since no note contains ";"; the text starts with the first note and is that note alone when there is only one |
| Observer.NotesAvoidSeparator | core/reasoning/observer.py:95-116 | none of the notes the generator can produce contains ";" |
| Observer.Observe | core/reasoning/observer.py:35-48 | exactly one trace is appended and the earlier ones stay; it records the stage, the time, the consumption, the active and total node counts, the boost zones, the heart's state or the default one, and the notes text |
| Observer.RecentTraces | core/reasoning/observer.py:126-128 | an empty log gives nothing; otherwise the last count traces for a positive count, the whole log for 0, and the log less its first -count traces for a negative count |
| Observer.AllNotesAppend | core/reasoning/observer.py:144-147 | one more trace adds exactly the pieces of its notes text to the notes collected |
| Observer.ObserveAddsNotes | core/reasoning/observer.py:35-48 | an observation adds exactly its reasoning notes, and nothing else, to the notes the summary counts (see also lines 144-147 of the same file). |
| Observer.Occurrences | core/reasoning/observer.py:150-151 | a note has a positive count exactly when it occurs |
| Observer.NoteCounts | core/reasoning/observer.py:149-151 | the counts dictionary maps every note collected to its number of occurrences and has no other key |
| Observer.CountStep | core/reasoning/observer.py:151 | counting one more note raises its count by one and leaves the others, keeping the counts exact |
| Observer.MostCommon | core/reasoning/observer.py:153 | at most five entries of the counts, in descending count, and any entry left out counts no more than the fifth |
| Observer.TopCounts | core/reasoning/observer.py:149-153 | the most common notes carry their true counts, and a note left out is no more frequent than the fifth |
| Observer.TraceSummary | core/reasoning/observer.py:130-162 | zeros for an empty log; otherwise the trace count, the mean consumption, at most five most frequent notes with their true counts in descending order, and the number of zones recorded |
| Scene.New | blockvision/core/managers/scene_manager.py:47-50 | a new scene is empty, with no objects and the counter at zero, and satisfies the registry invariant |
| Scene.CreateObject | blockvision/core/managers/scene_manager.py:89-112 | the counter goes up by one and the object is stored under scene_obj_ and the new counter, with the given link and the origin position, unit scale and zero rotation where none is given; the scene becomes ready and no other object changes |
| Scene.CreateIsFresh | blockvision/core/managers/scene_manager.py:89-112 | under the registry invariant a created object's id was free, so the scene grows by one and the invariant still holds |
| Scene.RemoveObject | blockvision/core/managers/scene_manager.py:118-125 | an unknown id changes nothing; otherwise only that object goes, and the scene turns empty once nothing is left |
| Scene.RemoveKeepsInv | blockvision/core/managers/scene_manager.py:118-125 | removal keeps the registry invariant |
| Scene.FirstLinked | blockvision/core/managers/scene_manager.py:133-136 | the search finds nothing exactly when no object carries the link, and otherwise the first object in insertion order that does |
| Scene.GetObjectByManagerId | blockvision/core/managers/scene_manager.py:131-136 | the lookup gives None exactly when no stored object carries the link, and otherwise a stored object that does |
| Scene.SetField | blockvision/core/managers/scene_manager.py:142-158 | assigning a transform field makes that field read back the new value and leaves everything else about the object as before |
| Scene.UpdateObject | blockvision/core/managers/scene_manager.py:138-160 | an unknown id changes nothing; otherwise only the named field of that object changes |
| Scene.UpdateKeepsInv | blockvision/core/managers/scene_manager.py:138-160 | an update keeps the registry invariant |
| Scene.ClearScene | blockvision/core/managers/scene_manager.py:180-184 | clearing leaves no objects, the counter at zero and the scene empty |
| Scene.Views | blockvision/core/managers/scene_manager.py:166-174 | there is one view per object, in order, under the object's id |
| Scene.GetSceneData | blockvision/core/managers/scene_manager.py:162-178 | the data reports the state's name, a view of every object under its id and no other id, the fixed background and lighting, and the object count |
| Scene.CountMatchesState | blockvision/core/managers/scene_manager.py:122-177 | under the registry invariant the reported count is zero exactly when the reported state is empty |
| Scene.Apply | blockvision/core/managers/scene_manager.py:89-184 | every scene operation keeps the registry invariant |
| Scene.Run | blockvision/core/managers/scene_manager.py:89-184 | any sequence of scene operations keeps the registry invariant |
| Scene.EmptyIffNoObjects | blockvision/core/managers/scene_manager.py:122-123 | from a new scene, after any sequence of operations, the scene is empty exactly when it has no objects, it is otherwise ready, and the reported count agrees with the reported state (see also lines 48, 110, 184 of the same file). |
| ObjectManager.Template | blockvision/core/managers/object_manager.py:58-62 | a template exists exactly for cube, sphere and plane |
| ObjectManager.CubeWellFormed | blockvision/core/managers/object_manager.py:156-174 | the cube has eight distinct corners of the cube and six four-cornered faces whose corners are vertex indices in range |
| ObjectManager.CubeFacesPlanar | blockvision/core/managers/object_manager.py:160-173 | every face of the cube is flat: its corners share one coordinate |
| ObjectManager.New | blockvision/core/managers/object_manager.py:46-48 | a new registry holds no objects, has the counter at zero, and satisfies the registry invariant |
| ObjectManager.CreateTemplateObject | blockvision/core/managers/object_manager.py:130-154 | an unknown template gives None and changes nothing; otherwise the counter goes up and a model carrying the template's mesh is stored under obj_ and the new counter, named after the template and that number unless a name is given, and no other object changes |
| ObjectManager.CreateIsFresh | blockvision/core/managers/object_manager.py:130-154 | under the registry invariant a template object's id was free, so the registry grows by one and keeps the invariant |
| ObjectManager.DefaultNameMatchesId | blockvision/core/managers/object_manager.py:137-140 | the id and the default name of a template object carry the same number |
| ObjectManager.RemoveObject | blockvision/core/managers/object_manager.py:199-204 | an unknown id changes nothing; otherwise only that object goes |
| ObjectManager.RemoveKeepsInv | blockvision/core/managers/object_manager.py:199-204 | removal keeps the registry invariant |
| ObjectManager.OfType | blockvision/core/managers/object_manager.py:212 | the list holds exactly the objects of that type, at most as many as there are objects |
| ObjectManager.GetObjectsByType | blockvision/core/managers/object_manager.py:210-212 | the result holds exactly the registered objects of that type |
| ObjectManager.TypesPartition | blockvision/core/managers/object_manager.py:18-21 | the objects of the three types together are all the objects (see also lines 210-212 of the same file). |
| ObjectManager.GetObjectStatus | blockvision/core/managers/object_manager.py:214-224 | the status gives the total, the model and image counts, which with the flat objects make up the total, and the supported formats |
| ObjectManager.ClearAllObjects | blockvision/core/managers/object_manager.py:226-229 | clearing leaves no objects and the counter at zero, and the status then reports none |
| MemoryLogger.Log | core/managers/memory_logger.py:16-29 | the entry is appended last, and the log keeps the most recent entries up to 1000 |
| MemoryLogger.LogAllKeepsLatest | core/managers/memory_logger.py:16-29 | from a log within the cap, after any batch the log is exactly the most recent 1000 of everything logged, in order |
| MemoryLogger.LogWithinCap | core/managers/memory_logger.py:16-29 | from a log within the cap, logging never exceeds it, and the last entry is the last message logged |
| MemoryLogger.RecentLogs | core/managers/memory_logger.py:31-33 | the last count entries for a positive count, every entry for 0, and all but the first -count entries for a negative count |
| MemoryLogger.RecentAfterLog | core/managers/memory_logger.py:16-33 | right after logging, the most recent entry is the one just logged and the ten most recent end with it |
| MemoryLogger.Clear | core/managers/memory_logger.py:35-37 | after clearing, every recall gives nothing |

## Left out

- Qt user interface: the window's painting, mouse and drag handling, layouts, clipboard, debug widgets, and the `flash_block` timer (its -999 marker counts as an empty cell in the ASCII text). All BlockVision and reasoning-monitor GUI code is out too, because none of it computes model state.
- SHA-256, PBKDF2 key derivation and AES-GCM are foreign library calls. Hashes are the `digest` parameter. Only the byte framing of the cipher output (iv, tag, ciphertext) is modelled.
- Floating-point formulas are left out, because they need floats the model does not reason about. This covers:
  - stat and price powers with their variance in the headless blockmaker, the shop and the piece generator;
  - `_calculate_stats`, `_calculate_shape_factor` and `_generate_piece_name` of the piece generator, and `calculate_proper_piece_price`;
  - the combat damage formula and enemy creation, which are the `Strike`, `Absorb` and `Scale` parameters;
  - `MechaStats.take_damage`, where the damage dealt is a parameter;
  - the gate creator's complexity metrics and spatial weights;
  - the analyzer's distances, clustering flag, distribution score and coverage-gap grid, which come in as a measured `Distribution`;
  - `calculate_energy_boost` of the solar core;
  - percentages in the fortress reports.
- Randomness: every `random.*` draw is a natural-number roll, or a choice argument taken from the candidate set.
- Persistence and file I/O: the JSON save and load code of the fortress, players, leaderboard, combat history and grids; debugger logs and backups; observer trace files; the image loader; and `import_file` with its helpers in the object manager.
- Concurrency: the solar-core monitoring thread and the scene render thread, with their callbacks. The consumption the monitor keeps is computed on demand as the sum over active nodes.
- Console output is not modelled. This includes the memory logger's echo.
- Wall-clock time and dates are parameters: the fortress attack date, the voidstate cooldown, player inactivity, and timestamps and ids made from `datetime`.
- `get_scene_status`, the render callbacks, the singleton getters (`get_solar_core`, `get_scene_manager` and the like) and `get_all_strategies` are not modelled. They are plumbing around the modelled state.
- `initiate_combat` and `get_combat_status` of the combat system are not modelled, and neither is the combat-history saving that `resolve_combat` triggers. Both are file and report plumbing around `ResolveCombat`.
- The player's own grid-system object and the stray attributes `MechaSystem` sets on mechas are not modelled. No modelled operation reads them.
- `isdigit` accepts ASCII digits only. Python also accepts other Unicode digits.
- PyText.PyInt: Python's `int()` on a string also accepts single underscores between digits (`int("1_0")` is 10) and non-ASCII decimal digits (`int("١٢")` is 12). The model treats both as raising.
- Blocklock.ParseInts: inherits the PyText.PyInt gap. A block field such as `1_2` or one written in non-ASCII decimal digits fails here but parses in Python.
- Blocklock.UnpackBlock: inherits the PyText.PyInt gap, so `1_2,0,5` unpacks in Python and fails here.
- Blocklock.ParseSpatialGatePattern: the grid-size field inherits the PyText.PyInt gap. So Blocklock.VerifyGateKey reports valid=False for the lock `∑|1_0|0,0` with symbol `∑`, which Python accepts as a grid of size 10.
- UpgradeGrid.CanPlacePiece: requires a non-empty rectangular shape and a non-negative position. The code indexes `shape[0]`, and Python's negative indices would wrap around the board.
- Missing context keys in the strategy selector: the context is always the analyzer's complete record, so the defaults `_check_condition` applies to missing context keys never come into play.
- StatCalculator.SummableCons: Python adds float stat values as well, but the model has no float values (`OtherVal` stands only for values that cannot be added to an integer; booleans are the integers 0 and 1, as in Python), so "summable" here means "every known stat is an integer".
- StatCalculator.AddKnownSums: Python adds float stat values as well, but the model has no float values (`OtherVal` stands only for values that cannot be added to an integer; booleans are the integers 0 and 1, as in Python); the promise that the inner loop succeeds exactly when every known stat is an integer covers only dictionaries without floats.
- StatCalculator.BaseStatsSums: Python adds float stat values as well, but the model has no float values (`OtherVal` stands only for values that cannot be added to an integer; booleans are the integers 0 and 1, as in Python); for a "stat" piece with a float stat Python returns float totals, which the model does not describe.
- StatCalculator.CalculateGridStats: Python adds float stat values as well, but the model has no float values (`OtherVal` stands only for values that cannot be added to an integer; booleans are the integers 0 and 1, as in Python); the safe-stats fallback is promised only for grids whose stat values are integers or values that cannot be added at all. The glyph multiplier at stat_calculator.py:70 multiplies the stat as a float, and the model multiplies exact reals instead. A stat of about 2^1024 or more, or one whose product overflows the float range, raises OverflowError under an active glyph in Python. `calculate_grid_stats` catches it (lines 39-41) and returns the safe stats without logging. The model instead returns the clamped totals and logs them.
- StatCalculator.ScaleStat: computes `int(v * m)` in exact reals. Python first converts the integer stat to a float and rounds the product. The two agree while the product stays below 2^51. Above that, the float product can round across a whole number. Above 2^53 the conversion of the stat itself rounds, so the clause "a multiplier of 1 leaves the stat unchanged" holds for Python only below 2^53: `int((2**53 + 1) * 1.0)` is 2^53. From about 2^1024 on, Python raises OverflowError, which the model does not have.
- StatCalculator.ApplyGlyphEffects: inherits the float gap of StatCalculator.ScaleStat. For very large stats under an active glyph, the totals and the OverflowError of the float multiplication are not modelled.
- StatCalculator.SumValues: Python adds float stat values as well, but the model has no float values (`OtherVal` stands only for values that cannot be added to an integer; booleans are the integers 0 and 1, as in Python); `sum(stats.values())` of floats succeeds in Python and has no counterpart here.
- StatCalculator.CalculatePiecePower: Python adds float stat values as well, but the model has no float values (`OtherVal` stands only for values that cannot be added to an integer; booleans are the integers 0 and 1, as in Python); the power of a piece with float stats is not modelled.
- Debugger.ValidateStatCalculation: a block count so large that `block_count ** 2.5` overflows a float (above about 10^123) raises OverflowError in Python; the model returns true for it, since float ranges are not modelled.
- Leaderboard.BoardEfficiencyPoints: the points are `int(p / max(b, 1) * 1000)` computed exactly, where Python computes in floats; the two differ by one when the float product falls just short of a whole number, for example 201 pieces on a board of 100 give 2009 in Python and 2010 here.
- Fortress.TakeDamage: the body follows the code for negative damage too, which heals, but the contract speaks only of non-negative damage.
- Fortress.Repair: the contract fixes the amount repaired only for a non-negative repair.
- Fortress.FromDict: a stored field of the wrong JSON type (say a string for `hp`) gives None here. Python's `from_dict` copies any value unchecked into the fortress.
- Mecha.FromDict: as for Fortress.FromDict, a field of the wrong JSON type gives None. Python's `from_dict` copies the value unchecked.

## Findings

| source | as written | input that shows it | evidently intended | confidence | as-written member | corrected member |
|---|---|---|---|---|---|---|
| dream_mecha/core/systems/combat_system.py:54 | `add_mecha` calls `mecha.can_launch()`, which `Mecha` does not define, so every call raises AttributeError and no mecha is ever queued | any launchable mecha, for example a fresh one | check the mecha's launch rule (`stats.is_launchable()`) | not executed | Combat.AddMechaAsWritten, Combat.AddMechaFreshMecha, Game.LaunchMechaAsWritten | Combat.AddMecha, Game.LaunchMecha |
| dream_mecha/core/systems/combat_system.py:280-287 | `_calculate_rewards` counts defeated enemies in `self.enemies`, from which destroyed enemies were already removed, so the count is always 0 | one living mecha destroys one of two enemies at voidstate 0: it is paid 500 instead of 700 | count the enemies destroyed in the round | not executed | Combat.RewardsAsWritten, Combat.DefeatBonusLost | Combat.CalculateRewards |
| dream_mecha/core/systems/combat_system.py:200-201 | the combat report gives the remaining enemies as `total_enemies` and 0 as `enemies_defeated` | a round that destroys one of two enemies reports one enemy in total and none defeated | report the initial enemy count and the number destroyed | not executed | Combat.ReportCountsAsWritten, Combat.ReportCountsLost | Combat.ResolveCombat |
| dream_mecha/core/managers/combat_history_manager.py:217 | survival reads `mecha_hp_end` with default 0, and the combat report never includes it, so every record from a report says the mecha did not survive | any report, for example one where the mecha ends with all its hit points | default the end hit points to the current ones, as the damage computation on line 212 does | not executed | CombatHistory.CreateCombatRecordAsWritten, CombatHistory.ReportRecordsNeverSurvive | CombatHistory.CreateCombatRecord, CombatHistory.SurvivalCorrected |

=== FILE: analyzer.dfy ===
/** The energy-context analyzer of the reasoning engine
    (core/reasoning/analyzer.py): threshold classifiers over an energy
    status.  The geometric part (pairwise distances, the clustering flag,
    the distribution score and the coverage-gap grid) needs square roots
    and enters as a measured parameter. */
module Analyzer {
  import opened Wrappers
  import opened PyText
  import opened Dicts
  import opened Energy

  const CrisisThreshold: real := 200.0
  const InefficiencyThreshold: real := 0.7

  /** `_detect_crisis`: the consumption is above the crisis threshold. */
  function DetectCrisis(s: Status): (r: bool)
    ensures r <==> s.currentConsumption.Some? && s.currentConsumption.value > CrisisThreshold
  {
    Consumption(s) > CrisisThreshold
  }

  /** `node.get('consumption_rate', 0)` */
  function Rate(n: NodeInfo): real {
    n.consumptionRate.GetOr(0.0)
  }

  /** The rates of the active nodes, in dictionary order. */
  function ActiveRates(nodes: Dict<string, NodeInfo>): (rs: seq<real>)
    ensures |rs| == ActiveCount(nodes)
    ensures forall x :: x in rs <==> exists i :: 0 <= i < |nodes| && IsActive(nodes[i].1) && Rate(nodes[i].1) == x
  {
    if |nodes| == 0 then []
    else
      assert forall i :: 1 <= i < |nodes| ==> nodes[i] == nodes[1..][i - 1];
      (if IsActive(nodes[0].1) then [Rate(nodes[0].1)] else []) + ActiveRates(nodes[1..])
  }

  function MinReal(xs: seq<real>): (m: real)
    requires |xs| > 0
    ensures m in xs && forall x :: x in xs ==> m <= x
  {
    if |xs| == 1 then xs[0]
    else
      var t := MinReal(xs[1..]);
      assert forall x :: x in xs ==> x == xs[0] || x in xs[1..];
      if xs[0] <= t then xs[0] else t
  }

  function MaxReal(xs: seq<real>): (m: real)
    requires |xs| > 0
    ensures m in xs && forall x :: x in xs ==> x <= m
  {
    if |xs| == 1 then xs[0]
    else
      var t := MaxReal(xs[1..]);
      assert forall x :: x in xs ==> x == xs[0] || x in xs[1..];
      if t <= xs[0] then xs[0] else t
  }

  /** Independent reading of "a huge disparity": every rate is positive
      and some rate is below 0.7 of another. */
  predicate Disparity(rs: seq<real>) {
    && (forall x :: x in rs ==> x > 0.0)
    && exists x, y :: x in rs && y in rs && x < InefficiencyThreshold * y
  }

  lemma RatioBelow(mn: real, mx: real)
    requires mx > 0.0
    ensures mn / mx < InefficiencyThreshold <==> mn < InefficiencyThreshold * mx
  {
    assert mn == (mn / mx) * mx;
  }

  /** `_detect_inefficiency`: false without nodes, true when none is
      active, and otherwise true exactly when the active rates show a
      disparity. */
  function DetectInefficiency(s: Status): (r: bool)
    ensures |s.nodes| == 0 ==> !r
    ensures |s.nodes| > 0 && ActiveCount(s.nodes) == 0 ==> r
    ensures ActiveCount(s.nodes) > 0 ==> (r <==> Disparity(ActiveRates(s.nodes)))
  {
    if |s.nodes| == 0 then false
    else
      var rs := ActiveRates(s.nodes);
      if |rs| == 0 then true
      else
        var mx := MaxReal(rs);
        var mn := MinReal(rs);
        if mx > 0.0 && mn > 0.0 then
          RatioBelow(mn, mx);
          mn / mx < InefficiencyThreshold
        else false
  }

  const NoNodes := "No energy nodes active"
  const MultipleHigh := "Multiple high-consumption nodes: "
  const InefficientNodes := "Inefficient nodes detected: "
  const HighRate: real := 15.0

  predicate IsHigh(n: NodeInfo) {
    IsActive(n) && Rate(n) > HighRate
  }

  /** The names of the active nodes drawing more than 15, in order. */
  function HighNames(nodes: Dict<string, NodeInfo>): (r: seq<string>)
    ensures |r| <= |nodes|
    ensures forall k :: k in r <==> exists i :: 0 <= i < |nodes| && nodes[i].0 == k && IsHigh(nodes[i].1)
  {
    if |nodes| == 0 then []
    else
      assert forall i :: 1 <= i < |nodes| ==> nodes[i] == nodes[1..][i - 1];
      (if IsHigh(nodes[0].1) then [nodes[0].0] else []) + HighNames(nodes[1..])
  }

  /** `consumption_rate` read with the default 1.0, the divisor of the
      efficiency. */
  function Divisor(n: NodeInfo): real {
    n.consumptionRate.GetOr(1.0)
  }

  /** An active node whose efficiency cannot be computed. */
  predicate DividesByZero(n: NodeInfo) {
    IsActive(n) && Divisor(n) == 0.0
  }

  /** An active node whose boost potential per unit drawn is below 0.5. */
  predicate Wasteful(n: NodeInfo) {
    IsActive(n) && Divisor(n) != 0.0 && BoostPotential(n) / Divisor(n) < 0.5
  }

  /** The names of the wasteful nodes, or the division error the first
      active zero-rate node raises. */
  function LowNames(nodes: Dict<string, NodeInfo>): (r: Result<seq<string>>)
    ensures r.Err? <==> exists i :: 0 <= i < |nodes| && DividesByZero(nodes[i].1)
    ensures r.Ok? ==> forall k :: k in r.value <==> exists i :: 0 <= i < |nodes| && nodes[i].0 == k && Wasteful(nodes[i].1)
  {
    if |nodes| == 0 then Ok([])
    else
      assert forall i :: 1 <= i < |nodes| ==> nodes[i] == nodes[1..][i - 1];
      if DividesByZero(nodes[0].1) then Err("float division by zero")
      else
        match LowNames(nodes[1..])
        case Err(e) => Err(e)
        case Ok(rest) => Ok((if Wasteful(nodes[0].1) then [nodes[0].0] else []) + rest)
  }

  /** `_detect_flow_issues`: with no nodes, the single "no nodes" issue;
      otherwise an error if an active node draws 0, and else no issue at
      all exactly when at most three active nodes draw more than 15 and no
      active node is wasteful. */
  function FlowIssues(s: Status): (r: Result<seq<string>>)
    ensures |s.nodes| == 0 ==> r == Ok([NoNodes])
    ensures r.Err? <==> exists i :: 0 <= i < |s.nodes| && DividesByZero(s.nodes[i].1)
    ensures r.Ok? ==> |r.value| <= 2
    ensures r.Ok? && |s.nodes| > 0 ==>
      (r.value == [] <==> |HighNames(s.nodes)| <= 3 && forall i :: 0 <= i < |s.nodes| ==> !Wasteful(s.nodes[i].1))
  {
    if |s.nodes| == 0 then Ok([NoNodes])
    else
      var high := HighNames(s.nodes);
      match LowNames(s.nodes)
      case Err(e) => Err(e)
      case Ok(low) =>
        assert low == [] <==> forall i :: 0 <= i < |s.nodes| ==> !Wasteful(s.nodes[i].1) by {
          if low != [] { assert low[0] in low; }
          forall i | 0 <= i < |s.nodes| && Wasteful(s.nodes[i].1) ensures low != [] {
            assert s.nodes[i].0 in low;
          }
        }
        Ok((if |high| > 3 then [MultipleHigh + Join(high, ", ")] else [])
           + (if |low| > 0 then [InefficientNodes + Join(low, ", ")] else []))
  }

  const Stable := "stable"
  const Moderate := "moderate"
  const Unstable := "unstable"

  const HighConsumption := "High energy consumption"
  const Insufficient := "Insufficient active nodes"
  const TooMany := "Too many active nodes"
  const Balanced := "Balanced energy distribution"

  /** `_get_stability_factors`: never empty, each factor present exactly
      under its condition, and the balanced note exactly when no other
      factor applies. */
  function StabilityFactors(s: Status): (fs: seq<string>)
    ensures 1 <= |fs| <= 2
    ensures HighConsumption in fs <==> Consumption(s) > 100.0
    ensures Insufficient in fs <==> ActiveCount(s.nodes) < 3
    ensures TooMany in fs <==> ActiveCount(s.nodes) > 15
    ensures Balanced in fs <==> Consumption(s) <= 100.0 && 3 <= ActiveCount(s.nodes) <= 15
    ensures Balanced in fs <==> fs == [Balanced]
  {
    var n := ActiveCount(s.nodes);
    var fs := (if Consumption(s) > 100.0 then [HighConsumption] else [])
      + (if n < 3 then [Insufficient] else [])
      + (if n > 15 then [TooMany] else []);
    if fs == [] then [Balanced] else fs
  }

  datatype Stability = Stability(score: real, level: string, factors: seq<string>)

  /** `_assess_stability`.  The score stays in [0, 1]; the level is stable
      exactly when the consumption is at most 100 with 2 to 15 active
      nodes, and unstable exactly when under two active nodes meet a
      consumption above 50 or over fifteen meet one above 100. */
  function AssessStability(s: Status): (r: Stability)
    ensures 0.0 <= r.score <= 1.0
    ensures r.level == Stable || r.level == Moderate || r.level == Unstable
    ensures r.level == Stable <==> Consumption(s) <= 100.0 && 2 <= ActiveCount(s.nodes) <= 15
    ensures r.level == Unstable <==>
      || (ActiveCount(s.nodes) < 2 && Consumption(s) > 50.0)
      || (ActiveCount(s.nodes) > 15 && Consumption(s) > 100.0)
    ensures r.factors == StabilityFactors(s)
  {
    var c := Consumption(s);
    var n := ActiveCount(s.nodes);
    var score := 1.0 - (if c > 100.0 then 0.3 else if c > 50.0 then 0.1 else 0.0)
                     - (if n < 2 then 0.4 else if n > 15 then 0.2 else 0.0);
    var score := if score < 0.0 then 0.0 else score;
    var level := if score > 0.8 then Stable else if score > 0.5 then Moderate else Unstable;
    Stability(score, level, StabilityFactors(s))
  }

  /** A balanced system is a stable one. */
  lemma BalancedIsStable(s: Status)
    requires Balanced in StabilityFactors(s)
    ensures AssessStability(s).level == Stable
  {
  }

  /** The part of the engine's state the risk assessment reads. */
  datatype SystemState = SystemState(currentState: Option<string>, learningRate: Option<real>)

  function LearningRate(sys: SystemState): real {
    sys.learningRate.GetOr(0.5)
  }

  const High := "high"
  const Medium := "medium"
  const Low := "low"

  /** The risk factors `_assess_risk_level` counts. */
  function RiskFactors(s: Status, sys: SystemState): (n: nat)
    ensures n <= 5
  {
    (if Consumption(s) > 150.0 then 2 else if Consumption(s) > 100.0 then 1 else 0)
    + (if sys.currentState == Some("alert") then 2 else if LearningRate(sys) < 0.3 then 1 else 0)
    + (if ActiveCount(s.nodes) < 3 then 1 else 0)
  }

  /** `_assess_risk_level`: one of three levels; high risk needs a
      consumption above 100 together with an alert or a learning rate
      under 0.3, and a consumption above 150 is never low risk. */
  function AssessRiskLevel(s: Status, sys: SystemState): (r: string)
    ensures r == High || r == Medium || r == Low
    ensures r == High ==> Consumption(s) > 100.0 && (sys.currentState == Some("alert") || LearningRate(sys) < 0.3)
    ensures Consumption(s) > 150.0 ==> r != Low
    ensures sys.currentState == Some("alert") ==> r != Low
  {
    var n := RiskFactors(s, sys);
    if n >= 4 then High else if n >= 2 then Medium else Low
  }

  function RiskRank(level: string): nat {
    if level == High then 2 else if level == Medium then 1 else 0
  }

  /** A crisis is never a low-risk situation. */
  lemma CrisisIsRisky(s: Status, sys: SystemState)
    requires DetectCrisis(s)
    ensures AssessRiskLevel(s, sys) != Low
  {
  }

  /** More consumption never lowers the risk. */
  lemma RiskMonotone(s: Status, t: Status, sys: SystemState)
    requires t.nodes == s.nodes && Consumption(s) <= Consumption(t)
    ensures RiskRank(AssessRiskLevel(s, sys)) <= RiskRank(AssessRiskLevel(t, sys))
  {
    assert RiskFactors(s, sys) <= RiskFactors(t, sys);
  }

  /** The geometric measurements of `_analyze_node_distribution` for two or
      more active nodes: the clustering flag, the distribution score and
      the number of coverage gaps found. */
  datatype Distribution = Distribution(clustered: bool, distributionScore: real, gapCount: nat)

  /** `_analyze_node_distribution`: fixed answers without nodes or with
      fewer than two active ones; otherwise the measurement, with at most
      ten gaps kept. */
  function NodeDistribution(nodes: Dict<string, NodeInfo>, measured: Distribution): (r: Distribution)
    ensures |nodes| == 0 ==> r == Distribution(false, 0.0, 0)
    ensures |nodes| > 0 && ActiveCount(nodes) < 2 ==> r == Distribution(false, 1.0, 0)
    ensures r.gapCount <= 10
    ensures ActiveCount(nodes) >= 2 ==> r.clustered == measured.clustered && r.distributionScore == measured.distributionScore
  {
    if |nodes| == 0 then Distribution(false, 0.0, 0)
    else if ActiveCount(nodes) < 2 then Distribution(false, 1.0, 0)
    else measured.(gapCount := if measured.gapCount > 10 then 10 else measured.gapCount)
  }

  /** An entry of `_find_optimization_opportunities`. */
  datatype Opportunity =
    | Underutilized(nodeName: string, utilization: real, improvement: real)
    | Clustering(improvement: real)

  /** The utilisation ratio of a node: its rate over its density times its
      range, or 0 when that boost is not positive. */
  function Utilization(n: NodeInfo): real {
    var boost := n.density.GetOr(1.0) * n.range.GetOr(10.0);
    if boost > 0.0 then Rate(n) / boost else 0.0
  }

  predicate Underused(n: NodeInfo) {
    IsActive(n) && Utilization(n) < 0.3
  }

  function UnderusedEntry(name: string, n: NodeInfo): Opportunity {
    Underutilized(name, Utilization(n), 1.0 - Utilization(n))
  }

  /** The underutilised-node entries, one per active node whose ratio is
      under 0.3, in dictionary order. */
  function UnderusedNodes(nodes: Dict<string, NodeInfo>): (r: seq<Opportunity>)
    ensures |r| <= |nodes|
    ensures forall i :: 0 <= i < |nodes| && Underused(nodes[i].1) ==> UnderusedEntry(nodes[i].0, nodes[i].1) in r
    ensures forall o :: o in r ==> exists i :: 0 <= i < |nodes| && Underused(nodes[i].1) && o == UnderusedEntry(nodes[i].0, nodes[i].1)
  {
    if |nodes| == 0 then []
    else
      assert forall i :: 1 <= i < |nodes| ==> nodes[i] == nodes[1..][i - 1];
      (if Underused(nodes[0].1) then [UnderusedEntry(nodes[0].0, nodes[0].1)] else [])
      + UnderusedNodes(nodes[1..])
  }

  /** `_find_optimization_opportunities`: an entry for every underused
      active node and nothing else but, exactly when the nodes are clustered,
      one closing clustering entry worth 0.2. */
  function OptimizationOpportunities(nodes: Dict<string, NodeInfo>, measured: Distribution): (r: seq<Opportunity>)
    ensures Clustering(0.2) in r <==> NodeDistribution(nodes, measured).clustered
    ensures NodeDistribution(nodes, measured).clustered ==> r[|r| - 1] == Clustering(0.2)
    ensures forall i :: 0 <= i < |nodes| && Underused(nodes[i].1) ==> UnderusedEntry(nodes[i].0, nodes[i].1) in r
    ensures forall o :: o in r && o.Underutilized? ==>
      exists i :: 0 <= i < |nodes| && Underused(nodes[i].1) && o == UnderusedEntry(nodes[i].0, nodes[i].1)
    ensures forall o :: o in r ==> o.Underutilized? || o == Clustering(0.2)
  {
    UnderusedNodes(nodes) + (if NodeDistribution(nodes, measured).clustered then [Clustering(0.2)] else [])
  }

  /** The context `analyze` hands to the strategy selector. */
  datatype Analysis = Analysis(isCrisis: bool, isInefficient: bool, distribution: Distribution,
                               flowIssues: seq<string>, stability: Stability,
                               opportunities: seq<Opportunity>, riskLevel: string)

  /** `analyze`: every classifier on the same status; the division error of
      the flow check propagates. */
  function Analyze(s: Status, sys: SystemState, measured: Distribution): (r: Result<Analysis>)
    ensures r.Err? <==> FlowIssues(s).Err?
    ensures r.Ok? ==>
      && r.value.isCrisis == DetectCrisis(s)
      && r.value.isInefficient == DetectInefficiency(s)
      && r.value.distribution == NodeDistribution(s.nodes, measured)
      && r.value.flowIssues == FlowIssues(s).value
      && r.value.stability == AssessStability(s)
      && r.value.opportunities == OptimizationOpportunities(s.nodes, measured)
      && r.value.riskLevel == AssessRiskLevel(s, sys)
  {
    match FlowIssues(s)
    case Err(e) => Err(e)
    case Ok(issues) =>
      Ok(Analysis(DetectCrisis(s), DetectInefficiency(s), NodeDistribution(s.nodes, measured),
                  issues, AssessStability(s), OptimizationOpportunities(s.nodes, measured),
                  AssessRiskLevel(s, sys)))
  }
}

=== FILE: blocklock.dfy ===
/** The blocklock key scheme (blockmaker/blocklock.py).  A glyph is drawn as
    lines of whitespace-separated tokens: '+' marks the anchor, a decimal
    number marks a numbered block and anything else is an empty cell.  The
    glyph is encoded as a '|'-separated "lock" string, a hash of that string
    is the key, and a lock is parsed back and redrawn as a square glyph. */
module Blocklock {
  import opened Wrappers
  import opened PyText
  import StableSort
  import PyRandom

  /** The visual symbols a lock may start with (the source lists "∅" twice). */
  const Symbols: seq<string> := [
    ">", "<", "=", "!", "@", "#", "$", "%", "^", "&", "*",
    "(", ")", "-", "_", "+", "|", "\\", "/", "?", "~", "`",
    "°", "±", "§", "©", "®", "™", "¢", "£", "¥", "€", "¤",
    "¦", "¨", "¯", "´", "¸", "¹", "²", "³", "¼", "½", "¾",
    "×", "÷", "≠", "≈", "≤", "≥", "∞", "∑", "∏", "√", "∫",
    "∂", "∆", "∇", "∈", "∉", "∋", "∌", "∩", "∪", "⊂", "⊃",
    "⊆", "⊇", "⊕", "⊗", "⊥", "⊤", "∴", "∵", "∝", "∅", "∅",
    "⌈", "⌉", "⌊", "⌋", "〈", "〉", "⟨", "⟩", "⟪", "⟫", "⟦", "⟧"
  ]

  /** A numbered block: (row, column, number). */
  type Block = (int, int, int)

  function Number(b: Block): int { b.2 }

  /** `max(numbers) if blocks else 0` */
  function MaxNumber(bs: seq<Block>): (r: int)
    ensures forall b :: b in bs ==> b.2 <= r
    ensures |bs| > 0 ==> exists b :: b in bs && b.2 == r
    ensures |bs| == 0 ==> r == 0
  {
    if |bs| == 0 then 0
    else if |bs| == 1 then bs[0].2
    else
      var init := bs[..|bs| - 1];
      var m := MaxNumber(init);
      assert forall b :: b in bs ==> b in init || b == bs[|bs| - 1];
      if bs[|bs| - 1].2 > m then bs[|bs| - 1].2 else m
  }

  /** Two orderings of the same blocks have the same largest number. */
  lemma MaxNumberPermutation(a: seq<Block>, b: seq<Block>)
    requires multiset(a) == multiset(b)
    ensures MaxNumber(a) == MaxNumber(b)
  {
    assert forall x :: x in a <==> x in multiset(a);
    assert forall x :: x in b <==> x in multiset(b);
    if |a| > 0 {
      assert a[0] in multiset(b);
    }
  }

  predicate Counted(bs: seq<Block>) {
    forall b :: b in bs ==> b.0 >= 0 && b.1 >= 0 && b.2 >= 0
  }

  // ---------------------------------------------------------------------
  // Parsing a drawn glyph (_parse_glyph_structure)
  // ---------------------------------------------------------------------

  datatype Glyph = Glyph(gridSize: nat, blocks: seq<Block>, anchor: Option<(int, int)>, maxNumber: int)

  function Lines(sigil: string): seq<string> {
    SplitOn(Strip(sigil), '\n')
  }

  /** The tokens of every line: `line.strip().split()`. */
  function TokenRows(lines: seq<string>): (r: seq<seq<string>>)
    ensures |r| == |lines|
    ensures forall i :: 0 <= i < |lines| ==> r[i] == SplitWs(Strip(lines[i]))
  {
    seq(|lines|, i requires 0 <= i < |lines| => SplitWs(Strip(lines[i])))
  }

  function Tokens(sigil: string): seq<seq<string>> {
    TokenRows(Lines(sigil))
  }

  /** `b` is the block a digit token at its position denotes. */
  predicate DigitCell(toks: seq<seq<string>>, b: Block) {
    0 <= b.0 < |toks| && 0 <= b.1 < |toks[b.0]| && IsDigits(toks[b.0][b.1])
    && b.2 == DigitsValue(toks[b.0][b.1])
  }

  /** The last column at or after `col` holding '+'. */
  function LastPlus(xs: seq<string>, col: nat): (r: Option<nat>)
    ensures r.None? <==> forall k :: col <= k < |xs| ==> xs[k] != "+"
    ensures r.Some? ==> col <= r.value < |xs| && xs[r.value] == "+"
    ensures r.Some? ==> forall k :: r.value < k < |xs| ==> xs[k] != "+"
    decreases |xs| - col
  {
    if col >= |xs| then None
    else match LastPlus(xs, col + 1)
      case Some(j) => Some(j)
      case None => if xs[col] == "+" then Some(col) else None
  }

  /** The last '+' in reading order among the rows from `row` on. */
  function LastPlusRows(toks: seq<seq<string>>, row: nat): (r: Option<(int, int)>)
    ensures r.None? <==> forall i, k :: row <= i < |toks| && 0 <= k < |toks[i]| ==> toks[i][k] != "+"
    ensures r.Some? ==> row <= r.value.0 < |toks| && 0 <= r.value.1 < |toks[r.value.0]|
    ensures r.Some? ==> toks[r.value.0][r.value.1] == "+"
    ensures r.Some? ==> forall k :: r.value.1 < k < |toks[r.value.0]| ==> toks[r.value.0][k] != "+"
    ensures r.Some? ==> forall i, k :: r.value.0 < i < |toks| && 0 <= k < |toks[i]| ==> toks[i][k] != "+"
    decreases |toks| - row
  {
    if row >= |toks| then None
    else match LastPlusRows(toks, row + 1)
      case Some(p) => Some(p)
      case None =>
        match LastPlus(toks[row], 0)
        case Some(c) => Some((row, c))
        case None => None
  }

  /** The running maximum starts at 0 and only sees non-negative numbers. */
  predicate Tallied(g: Glyph) {
    Counted(g.blocks) && g.maxNumber == MaxNumber(g.blocks)
  }

  /** One step of the token loop. */
  function ScanToken(acc: Glyph, part: string, row: nat, col: nat): (r: Glyph)
    ensures r.gridSize == acc.gridSize
    ensures Tallied(acc) ==> Tallied(r)
    ensures r.anchor == if part == "+" then Some((row as int, col as int)) else acc.anchor
    ensures forall b :: b in r.blocks <==>
      (b in acc.blocks || (part != "+" && IsDigits(part) && b == (row as int, col as int, DigitsValue(part) as int)))
  {
    if part == "+" then acc.(anchor := Some((row, col)))
    else if IsDigits(part) then AddBlock(acc, (row, col, DigitsValue(part)))
    else acc
  }

  /** A number token: the block is appended and the maximum kept up. */
  function AddBlock(acc: Glyph, b: Block): (r: Glyph)
    ensures r.gridSize == acc.gridSize && r.anchor == acc.anchor
    ensures forall c :: c in r.blocks <==> c in acc.blocks || c == b
    ensures Tallied(acc) && b.0 >= 0 && b.1 >= 0 && b.2 >= 0 ==> Tallied(r)
  {
    var bs := acc.blocks + [b];
    assert bs[..|bs| - 1] == acc.blocks;
    assert forall c :: c in bs ==> c in acc.blocks || c == b;
    acc.(blocks := bs, maxNumber := if acc.maxNumber >= b.2 then acc.maxNumber else b.2)
  }

  /** The tokens of row `row` from column `col` on. */
  function ScanRow(acc: Glyph, toks: seq<seq<string>>, row: nat, col: nat): (r: Glyph)
    requires row < |toks| && col <= |toks[row]|
    ensures r.gridSize == acc.gridSize
    ensures Tallied(acc) ==> Tallied(r)
    ensures forall b :: b in r.blocks <==> b in acc.blocks || (b.0 == row && col <= b.1 && DigitCell(toks, b))
    ensures r.anchor == match LastPlus(toks[row], col)
      case Some(c) => Some((row as int, c as int))
      case None => acc.anchor
    decreases |toks[row]| - col
  {
    if col == |toks[row]| then acc
    else ScanRow(ScanToken(acc, toks[row][col], row, col), toks, row, col + 1)
  }

  /** The rows from `row` on. */
  function ScanRows(acc: Glyph, toks: seq<seq<string>>, row: nat): (r: Glyph)
    requires row <= |toks|
    ensures r.gridSize == acc.gridSize
    ensures Tallied(acc) ==> Tallied(r)
    ensures forall b :: b in r.blocks <==> b in acc.blocks || (row <= b.0 && DigitCell(toks, b))
    ensures r.anchor == match LastPlusRows(toks, row)
      case Some(p) => Some(p)
      case None => acc.anchor
    decreases |toks| - row
  {
    if row == |toks| then acc
    else ScanRows(ScanRow(acc, toks, row, 0), toks, row + 1)
  }

  /** `_parse_glyph_structure`: the blocks are exactly the digit tokens, the
      anchor is the last '+' in reading order, and the maximum number is the
      largest block number (0 without blocks). */
  function ParseGlyphStructure(sigil: string): (g: Glyph)
    ensures g.gridSize == |Lines(sigil)|
    ensures forall b :: b in g.blocks <==> DigitCell(Tokens(sigil), b)
    ensures g.anchor == LastPlusRows(Tokens(sigil), 0)
    ensures Tallied(g)
  {
    var start := Glyph(|Lines(sigil)|, [], None, 0);
    assert Tallied(start);
    ScanRows(start, Tokens(sigil), 0)
  }

  // ---------------------------------------------------------------------
  // The lock string and the key
  // ---------------------------------------------------------------------

  function Field(b: Block): string {
    ShowInt(b.0) + "," + ShowInt(b.1) + "," + ShowInt(b.2)
  }

  function Fields(bs: seq<Block>): (r: seq<string>)
    ensures |r| == |bs|
    ensures forall i :: 0 <= i < |bs| ==> r[i] == Field(bs[i])
  {
    seq(|bs|, i requires 0 <= i < |bs| => Field(bs[i]))
  }

  /** `sorted(blocks, key=lambda x: x[2])` */
  function SortedBlocks(bs: seq<Block>): (r: seq<Block>)
    ensures |r| == |bs| && multiset(r) == multiset(bs)
  {
    var r := StableSort.SortBy(bs, Number);
    assert |multiset(r)| == |r| && |multiset(bs)| == |bs|;
    r
  }

  /** The fields of the lock: symbol, size, anchor, then the blocks by number. */
  function LockParts(g: Glyph, symbol: string): (r: Option<seq<string>>)
    ensures r.Some? <==> g.anchor.Some?
    ensures r.Some? ==> |r.value| == 3 + |g.blocks| && r.value[0] == symbol
  {
    match g.anchor
    case None => None
    case Some(a) =>
      Some([symbol, ShowInt(g.gridSize), ShowInt(a.0) + "," + ShowInt(a.1)] + Fields(SortedBlocks(g.blocks)))
  }

  /** `_create_spatial_gate_pattern`; a glyph without an anchor cannot be
      unpacked (a TypeError), modelled as None. */
  function CreateSpatialGatePattern(g: Glyph, symbol: string): (r: Option<string>)
    ensures r.Some? <==> g.anchor.Some?
  {
    match LockParts(g, symbol)
    case None => None
    case Some(parts) => Some(Join(parts, "|"))
  }

  /** `_generate_cryptographic_key`: the first 32 characters of the digest of
      the key string, which is built exactly like the lock.  The SHA-256 hex
      digest is the parameter `digest`. */
  function CryptographicKey(g: Glyph, symbol: string, digest: string -> string): (r: Option<string>)
    ensures r.Some? <==> g.anchor.Some?
    ensures r.Some? ==> |r.value| <= 32
    ensures r.Some? ==> var d := digest(CreateSpatialGatePattern(g, symbol).value);
      |r.value| <= |d| && r.value == d[..|r.value|]
    ensures r.Some? && |digest(CreateSpatialGatePattern(g, symbol).value)| >= 32 ==> |r.value| == 32
  {
    match LockParts(g, symbol)
    case None => None
    case Some(keyData) => Some(SliceTo(digest(Join(keyData, "|")), 32))
  }

  // ---------------------------------------------------------------------
  // Parsing a lock (_parse_spatial_gate_pattern)
  // ---------------------------------------------------------------------

  /** The parsed lock: the anchor is whatever number of integers its field held. */
  datatype Spatial = Spatial(gridSize: int, anchor: seq<int>, blocks: seq<Block>, maxNumber: int)

  const InvalidFormat := "Invalid GATE pattern format"
  const IndexOutOfRange := "list index out of range"
  const AssignmentOutOfRange := "list assignment index out of range"

  function BadLiteral(s: string): string {
    "invalid literal for int() with base 10: '" + s + "'"
  }

  /** The message of a failed tuple unpacking of `got` values into `expected` names. */
  function UnpackError(expected: nat, got: nat): string {
    if got < expected then
      "not enough values to unpack (expected " + ShowInt(expected) + ", got " + ShowInt(got) + ")"
    else "too many values to unpack (expected " + ShowInt(expected) + ")"
  }

  /** The index of the first absent value at or after `from`, or `|xs|`. */
  function FirstNone<T>(xs: seq<Option<T>>, from: nat): (k: nat)
    requires from <= |xs|
    ensures from <= k <= |xs|
    ensures k < |xs| ==> xs[k].None?
    ensures forall i :: from <= i < k ==> xs[i].Some?
    decreases |xs| - from
  {
    if from == |xs| || xs[from].None? then from else FirstNone(xs, from + 1)
  }

  /** The index of the first failure at or after `from`, or `|rs|`. */
  function FirstErr<T>(rs: seq<Result<T>>, from: nat): (k: nat)
    requires from <= |rs|
    ensures from <= k <= |rs|
    ensures k < |rs| ==> rs[k].Err?
    ensures forall i :: from <= i < k ==> rs[i].Ok?
    decreases |rs| - from
  {
    if from == |rs| || rs[from].Err? then from else FirstErr(rs, from + 1)
  }

  /** `int` applied to each field. */
  function Ints(fields: seq<string>): (r: seq<Option<int>>)
    ensures |r| == |fields| && forall i :: 0 <= i < |fields| ==> r[i] == PyInt(fields[i])
  {
    seq(|fields|, i requires 0 <= i < |fields| => PyInt(fields[i]))
  }

  /** `[int(f) for f in fields]`: fails on the first field that is not an integer. */
  function ParseInts(fields: seq<string>): (r: Result<seq<int>>)
    ensures r.Ok? <==> forall i :: 0 <= i < |fields| ==> PyInt(fields[i]).Some?
    ensures r.Ok? ==> |r.value| == |fields|
    ensures r.Ok? ==> forall i :: 0 <= i < |fields| ==> PyInt(fields[i]) == Some(r.value[i])
    ensures r.Err? ==> exists i :: 0 <= i < |fields| && r.error == BadLiteral(fields[i]) && PyInt(fields[i]).None?
  {
    var ints := Ints(fields);
    var k := FirstNone(ints, 0);
    if k < |fields| then Err(BadLiteral(fields[k]))
    else Ok(seq(|fields|, i requires 0 <= i < |fields| => ints[i].value))
  }

  /** `row, col, number = map(int, fields)`: the unpacking converts at most
      four fields, failing on a bad one, then wants exactly three. */
  function UnpackBlock(f: seq<string>): (r: Result<Block>)
    ensures r.Ok? <==> |f| == 3 && forall i :: 0 <= i < 3 ==> PyInt(f[i]).Some?
    ensures r.Ok? ==> PyInt(f[0]) == Some(r.value.0) && PyInt(f[1]) == Some(r.value.1) && PyInt(f[2]) == Some(r.value.2)
  {
    UnpackInts(f, Ints(f))
  }

  /** The unpacking once each field's conversion is known. */
  function UnpackInts(f: seq<string>, ints: seq<Option<int>>): (r: Result<Block>)
    requires |ints| == |f|
    ensures r.Ok? <==> |f| == 3 && forall i :: 0 <= i < 3 ==> ints[i].Some?
    ensures r.Ok? ==> ints[0] == Some(r.value.0) && ints[1] == Some(r.value.1) && ints[2] == Some(r.value.2)
  {
    var k := FirstNone(ints, 0);
    if k < |f| && k < 4 then Err(BadLiteral(f[k]))
    else if |f| != 3 then Err(UnpackError(3, |f|))
    else Ok((ints[0].value, ints[1].value, ints[2].value))
  }

  function ParseBlock(part: string): Result<Block> {
    UnpackBlock(SplitOn(part, ','))
  }

  function Blocks(parts: seq<string>): (r: seq<Result<Block>>)
    ensures |r| == |parts| && forall i :: 0 <= i < |parts| ==> r[i] == ParseBlock(parts[i])
  {
    seq(|parts|, i requires 0 <= i < |parts| => ParseBlock(parts[i]))
  }

  /** The block loop: the first bad field's exception escapes. */
  function ParseBlocks(parts: seq<string>): (r: Result<seq<Block>>)
    ensures r.Ok? <==> forall i :: 0 <= i < |parts| ==> ParseBlock(parts[i]).Ok?
    ensures r.Ok? ==> |r.value| == |parts|
    ensures r.Ok? ==> forall i :: 0 <= i < |parts| ==> ParseBlock(parts[i]) == Ok(r.value[i])
  {
    var results := Blocks(parts);
    var k := FirstErr(results, 0);
    if k < |parts| then Err(results[k].error)
    else Ok(seq(|parts|, i requires 0 <= i < |parts| => results[i].value))
  }

  /** `_parse_spatial_gate_pattern` */
  function ParseSpatialGatePattern(pattern: string, symbol: string): (r: Result<Spatial>)
    ensures SplitOn(pattern, '|')[0] != symbol ==> r == Err(InvalidFormat)
    ensures r.Ok? ==> var parts := SplitOn(pattern, '|');
      |parts| >= 3 && parts[0] == symbol && PyInt(parts[1]) == Some(r.value.gridSize)
      && ParseInts(SplitOn(parts[2], ',')) == Ok(r.value.anchor)
      && ParseBlocks(parts[3..]) == Ok(r.value.blocks)
    ensures r.Ok? ==> r.value.maxNumber == MaxNumber(r.value.blocks)
  {
    ParseParts(SplitOn(pattern, '|'), symbol)
  }

  /** The lock after it is split at '|'. */
  function ParseParts(parts: seq<string>, symbol: string): (r: Result<Spatial>)
    requires |parts| > 0
    ensures parts[0] != symbol ==> r == Err(InvalidFormat)
    ensures r.Ok? ==>
      |parts| >= 3 && parts[0] == symbol && PyInt(parts[1]) == Some(r.value.gridSize)
      && ParseInts(SplitOn(parts[2], ',')) == Ok(r.value.anchor)
      && ParseBlocks(parts[3..]) == Ok(r.value.blocks)
    ensures r.Ok? ==> r.value.maxNumber == MaxNumber(r.value.blocks)
  {
    if parts[0] != symbol then Err(InvalidFormat)
    else if |parts| < 2 then Err(IndexOutOfRange)
    else match PyInt(parts[1])
      case None => Err(BadLiteral(parts[1]))
      case Some(size) =>
        if |parts| < 3 then Err(IndexOutOfRange)
        else
          var anchor :- ParseInts(SplitOn(parts[2], ','));
          var blocks :- ParseBlocks(parts[3..]);
          Ok(Spatial(size, anchor, blocks, MaxNumber(blocks)))
  }

  /** Well-formed parts parse to their values. */
  lemma ParsePartsOk(parts: seq<string>, symbol: string, size: int, anchor: seq<int>, blocks: seq<Block>)
    requires |parts| >= 3 && parts[0] == symbol && PyInt(parts[1]) == Some(size)
    requires ParseInts(SplitOn(parts[2], ',')) == Ok(anchor) && ParseBlocks(parts[3..]) == Ok(blocks)
    ensures ParseParts(parts, symbol) == Ok(Spatial(size, anchor, blocks, MaxNumber(blocks)))
  {
  }

  // ---------------------------------------------------------------------
  // Redrawing a parsed lock (_reconstruct_exact_glyph)
  // ---------------------------------------------------------------------

  type Canvas = seq<seq<string>>

  predicate Square(c: Canvas, n: nat) {
    |c| == n && forall i :: 0 <= i < n ==> |c[i]| == n
  }

  /** `[['.' for _ in range(n)] for _ in range(n)]` */
  function Blank(n: nat): (r: Canvas)
    ensures Square(r, n)
    ensures forall i, j :: 0 <= i < n && 0 <= j < n ==> r[i][j] == "."
  {
    seq(n, _ => seq(n, _ => "."))
  }

  /** `grid[row][col] = v`: reading the row and assigning into it both follow
      Python's negative-index rule and raise when out of range. */
  function Put(c: Canvas, n: nat, row: int, col: int, v: string): (r: Result<Canvas>)
    requires Square(c, n)
    ensures r.Ok? <==> PyIndex(row, n).Some? && PyIndex(col, n).Some?
    ensures r.Ok? ==> Square(r.value, n)
  {
    match PyIndex(row, n)
    case None => Err(IndexOutOfRange)
    case Some(i) =>
      match PyIndex(col, n)
      case None => Err(AssignmentOutOfRange)
      case Some(j) => Ok(c[i := c[i][j := v]])
  }

  /** An assignment changes the one cell it addresses. */
  lemma PutCell(c: Canvas, n: nat, row: int, col: int, v: string, i: nat, j: nat)
    requires Square(c, n) && i < n && j < n
    requires PyIndex(row, n).Some? && PyIndex(col, n).Some?
    ensures Put(c, n, row, col, v).value[i][j]
      == if Some(i) == PyIndex(row, n) && Some(j) == PyIndex(col, n) then v else c[i][j]
  {
  }

  /** Every block lies inside an n-by-n grid under Python's index rule. */
  predicate Inside(bs: seq<Block>, n: nat) {
    forall b :: b in bs ==> PyIndex(b.0, n).Some? && PyIndex(b.1, n).Some?
  }

  /** The number of the last block drawn at (i, j), if any. */
  function LastAt(bs: seq<Block>, n: nat, i: nat, j: nat): (r: Option<int>)
    ensures r.None? <==> forall b :: b in bs ==> !(PyIndex(b.0, n) == Some(i) && PyIndex(b.1, n) == Some(j))
    ensures r.Some? ==> exists b :: b in bs && PyIndex(b.0, n) == Some(i) && PyIndex(b.1, n) == Some(j) && b.2 == r.value
  {
    if |bs| == 0 then None
    else
      var b := bs[|bs| - 1];
      var init := bs[..|bs| - 1];
      assert forall x :: x in bs ==> x in init || x == b;
      if PyIndex(b.0, n) == Some(i) && PyIndex(b.1, n) == Some(j) then Some(b.2)
      else LastAt(init, n, i, j)
  }

  /** The blocks drawn in order; later blocks overwrite earlier ones. */
  function PutBlocks(c: Canvas, n: nat, bs: seq<Block>): (r: Result<Canvas>)
    requires Square(c, n)
    ensures r.Ok? <==> Inside(bs, n)
    ensures r.Ok? ==> Square(r.value, n)
  {
    if |bs| == 0 then Ok(c)
    else
      var b := bs[|bs| - 1];
      var init := bs[..|bs| - 1];
      assert forall x :: x in bs ==> x in init || x == b;
      match PutBlocks(c, n, init)
      case Err(e) => Err(e)
      case Ok(d) => Put(d, n, b.0, b.1, ShowInt(b.2))
  }

  /** A cell of `c` after drawing `bs`: the last block there wins. */
  function Over(c: Canvas, n: nat, bs: seq<Block>, i: nat, j: nat): string
    requires Square(c, n) && i < n && j < n
  {
    match LastAt(bs, n, i, j)
    case Some(v) => ShowInt(v)
    case None => c[i][j]
  }

  /** Drawing the blocks one after another leaves in each cell the number of
      the last block drawn there, and the cell untouched when none is. */
  lemma {:induction false} PutBlocksCell(c: Canvas, n: nat, bs: seq<Block>, i: nat, j: nat)
    requires Square(c, n) && Inside(bs, n) && i < n && j < n
    ensures PutBlocks(c, n, bs).value[i][j] == Over(c, n, bs, i, j)
  {
    if |bs| > 0 {
      var b := bs[|bs| - 1];
      var init := bs[..|bs| - 1];
      assert forall x :: x in init ==> x in bs;
      PutBlocksCell(c, n, init, i, j);
      var d := PutBlocks(c, n, init).value;
      assert PutBlocks(c, n, bs) == Put(d, n, b.0, b.1, ShowInt(b.2));
      PutCell(d, n, b.0, b.1, ShowInt(b.2), i, j);
      if PyIndex(b.0, n) == Some(i) && PyIndex(b.1, n) == Some(j) {
        assert LastAt(bs, n, i, j) == Some(b.2);
      } else {
        assert LastAt(bs, n, i, j) == LastAt(init, n, i, j);
      }
    }
  }

  /** The cell of the redrawn glyph at (i, j): the last block there, else the
      symbol at the anchor, else '.'. */
  function Drawn(sd: Spatial, symbol: string, n: nat, i: nat, j: nat): string
    requires |sd.anchor| == 2
  {
    match LastAt(sd.blocks, n, i, j)
    case Some(v) => ShowInt(v)
    case None =>
      if PyIndex(sd.anchor[0], n) == Some(i) && PyIndex(sd.anchor[1], n) == Some(j) then symbol else "."
  }

  function Side(sd: Spatial): nat {
    if sd.gridSize > 0 then sd.gridSize else 0
  }

  /** Everything the redraw indexes lies inside the grid. */
  predicate Drawable(sd: Spatial) {
    |sd.anchor| == 2 && PyIndex(sd.anchor[0], Side(sd)).Some? && PyIndex(sd.anchor[1], Side(sd)).Some?
    && Inside(sd.blocks, Side(sd))
  }

  /** The grid `_reconstruct_exact_glyph` fills in. */
  function ExactGrid(sd: Spatial, symbol: string): (r: Result<Canvas>)
    ensures r.Ok? <==> Drawable(sd)
    ensures r.Ok? ==> Square(r.value, Side(sd))
  {
    if |sd.anchor| != 2 then Err(UnpackError(2, |sd.anchor|))
    else
      var n := Side(sd);
      var c :- Put(Blank(n), n, sd.anchor[0], sd.anchor[1], symbol);
      PutBlocks(c, n, sd.blocks)
  }

  /** Each cell of the redrawn grid is the last block drawn there, else the
      symbol at the anchor, else '.'. */
  lemma ExactGridCell(sd: Spatial, symbol: string, i: nat, j: nat)
    requires Drawable(sd) && i < Side(sd) && j < Side(sd)
    ensures ExactGrid(sd, symbol).value[i][j] == Drawn(sd, symbol, Side(sd), i, j)
  {
    var n := Side(sd);
    var c := Put(Blank(n), n, sd.anchor[0], sd.anchor[1], symbol).value;
    PutCell(Blank(n), n, sd.anchor[0], sd.anchor[1], symbol, i, j);
    PutBlocksCell(c, n, sd.blocks, i, j);
  }

  function JoinRows(c: Canvas): (r: seq<string>)
    ensures |r| == |c|
    ensures forall i :: 0 <= i < |c| ==> r[i] == Join(c[i], " ")
  {
    seq(|c|, i requires 0 <= i < |c| => Join(c[i], " "))
  }

  /** Cells joined by single spaces, rows by newlines. */
  function Render(c: Canvas): string {
    Join(JoinRows(c), "\n")
  }

  /** `_reconstruct_exact_glyph` */
  function ReconstructExactGlyph(sd: Spatial, symbol: string): (r: Result<string>)
    ensures r.Ok? <==> Drawable(sd)
    ensures r.Ok? ==> r.value == Render(ExactGrid(sd, symbol).value)
  {
    var c :- ExactGrid(sd, symbol);
    Ok(Render(c))
  }

  // ---------------------------------------------------------------------
  // The lock round trip
  // ---------------------------------------------------------------------

  lemma ShowIntFree(x: int, c: char)
    requires c != '-' && !IsDigit(c)
    ensures c !in ShowInt(x)
  {
  }

  /** `f"{x},{y}"` splits back into its two numbers. */
  lemma PairSplit(x: int, y: int)
    ensures SplitOn(ShowInt(x) + "," + ShowInt(y), ',') == [ShowInt(x), ShowInt(y)]
  {
    var parts := [ShowInt(x), ShowInt(y)];
    ShowIntFree(x, ',');
    ShowIntFree(y, ',');
    assert Join(parts, ",") == ShowInt(x) + "," + ShowInt(y);
    SplitOnJoin(parts, ',');
  }

  /** A block field parses back to the block. */
  lemma FieldRoundTrip(b: Block)
    ensures ParseBlock(Field(b)) == Ok(b)
  {
    var parts := [ShowInt(b.0), ShowInt(b.1), ShowInt(b.2)];
    ShowIntFree(b.0, ',');
    ShowIntFree(b.1, ',');
    ShowIntFree(b.2, ',');
    assert parts[1..] == [ShowInt(b.1), ShowInt(b.2)];
    assert Join(parts[1..], ",") == ShowInt(b.1) + "," + ShowInt(b.2);
    assert Join(parts, ",") == Field(b);
    SplitOnJoin(parts, ',');
    UnpackShown(b);
  }

  lemma UnpackShown(b: Block)
    ensures UnpackBlock([ShowInt(b.0), ShowInt(b.1), ShowInt(b.2)]) == Ok(b)
  {
    PyIntShowInt(b.0);
    PyIntShowInt(b.1);
    PyIntShowInt(b.2);
    UnpackThree([ShowInt(b.0), ShowInt(b.1), ShowInt(b.2)], b);
  }

  /** Three fields that each parse to the matching coordinate unpack to
      the block. */
  lemma UnpackThree(f: seq<string>, b: Block)
    requires |f| == 3 && PyInt(f[0]) == Some(b.0) && PyInt(f[1]) == Some(b.1) && PyInt(f[2]) == Some(b.2)
    ensures UnpackBlock(f) == Ok(b)
  {
    var ints := Ints(f);
    assert ints[0] == Some(b.0) && ints[1] == Some(b.1) && ints[2] == Some(b.2);
    UnpackIntsThree(f, ints, b);
  }

  lemma UnpackIntsThree(f: seq<string>, ints: seq<Option<int>>, b: Block)
    requires |f| == 3 && |ints| == 3 && ints[0] == Some(b.0) && ints[1] == Some(b.1) && ints[2] == Some(b.2)
    ensures UnpackInts(f, ints) == Ok(b)
  {
    var r := UnpackInts(f, ints);
    assert r.Ok?;
  }

  /** With no absent value the search runs off the end. */
  lemma {:induction false} FirstNoneAll<T>(xs: seq<Option<T>>, from: nat)
    requires from <= |xs| && forall i :: from <= i < |xs| ==> xs[i].Some?
    ensures FirstNone(xs, from) == |xs|
    decreases |xs| - from
  {
    if from < |xs| {
      FirstNoneAll(xs, from + 1);
    }
  }

  /** The anchor field parses back to the anchor. */
  lemma AnchorRoundTrip(x: int, y: int)
    ensures ParseInts(SplitOn(ShowInt(x) + "," + ShowInt(y), ',')) == Ok([x, y])
  {
    PairSplit(x, y);
    IntsShown(x, y);
  }

  lemma IntsShown(x: int, y: int)
    ensures ParseInts([ShowInt(x), ShowInt(y)]) == Ok([x, y])
  {
    PyIntShowInt(x);
    PyIntShowInt(y);
    var ints := Ints([ShowInt(x), ShowInt(y)]);
    assert ints == [Some(x), Some(y)];
    FirstNoneAll(ints, 0);
    var r := ParseInts([ShowInt(x), ShowInt(y)]);
    assert r.Ok? && |r.value| == 2;
    assert r.value == [x, y];
  }

  lemma FieldsRoundTrip(bs: seq<Block>)
    ensures ParseBlocks(Fields(bs)) == Ok(bs)
  {
    var fs := Fields(bs);
    forall i | 0 <= i < |bs|
      ensures ParseBlock(fs[i]) == Ok(bs[i])
    {
      FieldRoundTrip(bs[i]);
    }
    var r := ParseBlocks(fs);
    assert r.Ok?;
    assert |r.value| == |bs|;
    forall i | 0 <= i < |bs|
      ensures r.value[i] == bs[i]
    {
      assert ParseBlock(fs[i]) == Ok(r.value[i]);
    }
    assert r.value == bs;
  }

  /** No field of a lock holds the separator when the symbol does not. */
  lemma LockSplit(g: Glyph, symbol: string)
    requires g.anchor.Some? && '|' !in symbol
    ensures SplitOn(CreateSpatialGatePattern(g, symbol).value, '|') == LockParts(g, symbol).value
  {
    var parts := LockParts(g, symbol).value;
    var a := g.anchor.value;
    var fs := Fields(SortedBlocks(g.blocks));
    assert parts == [symbol, ShowInt(g.gridSize), ShowInt(a.0) + "," + ShowInt(a.1)] + fs;
    forall i | 0 <= i < |parts|
      ensures '|' !in parts[i]
    {
      if i == 1 {
        ShowIntFree(g.gridSize, '|');
      } else if i == 2 {
        ShowIntFree(a.0, '|');
        ShowIntFree(a.1, '|');
      } else if i > 2 {
        var b := SortedBlocks(g.blocks)[i - 3];
        assert parts[i] == Field(b);
        ShowIntFree(b.0, '|');
        ShowIntFree(b.1, '|');
        ShowIntFree(b.2, '|');
      }
    }
    SplitOnJoin(parts, '|');
  }

  /** Parsing the lock of a parsed glyph gives back its size, its anchor, its
      blocks in number order and its largest number, for any symbol that
      does not contain the separator '|'. */
  lemma LockRoundTrip(g: Glyph, symbol: string)
    requires g.anchor.Some? && '|' !in symbol && Tallied(g)
    ensures ParseSpatialGatePattern(CreateSpatialGatePattern(g, symbol).value, symbol)
      == Ok(Spatial(g.gridSize, [g.anchor.value.0, g.anchor.value.1], SortedBlocks(g.blocks), g.maxNumber))
  {
    LockSplit(g, symbol);
    PartsRoundTrip(g, symbol);
  }

  /** The fields of a lock parse back to the glyph's data. */
  lemma PartsRoundTrip(g: Glyph, symbol: string)
    requires g.anchor.Some? && Tallied(g)
    ensures ParseParts(LockParts(g, symbol).value, symbol)
      == Ok(Spatial(g.gridSize, [g.anchor.value.0, g.anchor.value.1], SortedBlocks(g.blocks), g.maxNumber))
  {
    var a := g.anchor.value;
    var sorted := SortedBlocks(g.blocks);
    FieldsParse(symbol, g.gridSize, a.0, a.1, sorted);
    MaxNumberPermutation(sorted, g.blocks);
  }

  lemma FieldsParse(symbol: string, size: int, x: int, y: int, bs: seq<Block>)
    ensures ParseParts([symbol, ShowInt(size), ShowInt(x) + "," + ShowInt(y)] + Fields(bs), symbol)
      == Ok(Spatial(size, [x, y], bs, MaxNumber(bs)))
  {
    var head := [symbol, ShowInt(size), ShowInt(x) + "," + ShowInt(y)];
    var parts := head + Fields(bs);
    assert |parts| >= 3 && parts[0] == symbol && parts[1] == ShowInt(size)
      && parts[2] == ShowInt(x) + "," + ShowInt(y) && parts[3..] == Fields(bs);
    PyIntShowInt(size);
    AnchorRoundTrip(x, y);
    FieldsRoundTrip(bs);
    ParsePartsOk(parts, symbol, size, [x, y], bs);
  }

  // ---------------------------------------------------------------------
  // Redrawing the lock of a drawn glyph
  // ---------------------------------------------------------------------

  /** The anchor and every block fall inside the square the line count spans. */
  predicate WithinGrid(g: Glyph) {
    g.anchor.Some? && 0 <= g.anchor.value.1 < g.gridSize
    && forall b :: b in g.blocks ==> b.1 < g.gridSize
  }

  /** The cell a drawn glyph shows at (i, j) once its anchor carries `symbol`:
      a number token redrawn in decimal, the symbol at the anchor, else '.'. */
  function Expected(toks: seq<seq<string>>, anchor: (int, int), symbol: string, i: nat, j: nat): string
    requires i < |toks|
  {
    if j < |toks[i]| && IsDigits(toks[i][j]) then ShowInt(DigitsValue(toks[i][j]))
    else if (i as int, j as int) == anchor then symbol
    else "."
  }

  /** What parsing establishes about a glyph and the token rows it came from. */
  ghost predicate Parsed(g: Glyph, toks: seq<seq<string>>) {
    g.gridSize == |toks| && Tallied(g)
    && (forall b :: b in g.blocks <==> DigitCell(toks, b))
    && (g.anchor.Some? ==> var a := g.anchor.value;
         0 <= a.0 < |toks| && 0 <= a.1 < |toks[a.0]| && toks[a.0][a.1] == "+")
  }

  lemma ParsedGlyph(sigil: string)
    ensures Parsed(ParseGlyphStructure(sigil), Tokens(sigil))
  {
  }

  /** A position holds a block of the parsed glyph exactly when its token is
      a number, and then the last (indeed only) such block carries its value. */
  lemma LastAtParsed(g: Glyph, toks: seq<seq<string>>, i: nat, j: nat)
    requires Parsed(g, toks) && WithinGrid(g) && i < g.gridSize && j < g.gridSize
    ensures LastAt(SortedBlocks(g.blocks), g.gridSize, i, j)
      == if j < |toks[i]| && IsDigits(toks[i][j]) then Some(DigitsValue(toks[i][j]) as int) else None
  {
    var n := g.gridSize;
    var sorted := SortedBlocks(g.blocks);
    assert forall b :: b in sorted <==> b in g.blocks by {
      assert forall b :: b in sorted <==> b in multiset(sorted);
      assert forall b :: b in g.blocks <==> b in multiset(g.blocks);
    }
    var r := LastAt(sorted, n, i, j);
    if j < |toks[i]| && IsDigits(toks[i][j]) {
      var b := (i as int, j as int, DigitsValue(toks[i][j]) as int);
      assert DigitCell(toks, b);
      assert PyIndex(b.0, n) == Some(i) && PyIndex(b.1, n) == Some(j);
      assert r.Some?;
      var c :| c in sorted && PyIndex(c.0, n) == Some(i) && PyIndex(c.1, n) == Some(j) && c.2 == r.value;
      assert DigitCell(toks, c);
    } else {
      forall b | b in sorted
        ensures !(PyIndex(b.0, n) == Some(i) && PyIndex(b.1, n) == Some(j))
      {
        assert DigitCell(toks, b);
      }
    }
  }

  /** The spatial data the lock of `g` parses back to. */
  function LockData(g: Glyph): Spatial
    requires g.anchor.Some?
  {
    Spatial(g.gridSize, [g.anchor.value.0, g.anchor.value.1], SortedBlocks(g.blocks), g.maxNumber)
  }

  lemma LockDataDrawable(g: Glyph, toks: seq<seq<string>>)
    requires Parsed(g, toks) && WithinGrid(g)
    ensures Drawable(LockData(g)) && Side(LockData(g)) == g.gridSize
  {
    var n := g.gridSize;
    var sorted := SortedBlocks(g.blocks);
    forall b | b in sorted
      ensures PyIndex(b.0, n).Some? && PyIndex(b.1, n).Some?
    {
      assert b in multiset(sorted);
      assert b in g.blocks;
      assert DigitCell(toks, b);
    }
  }

  /** The lock of a parsed glyph that fits its square verifies. */
  lemma LockVerifies(g: Glyph, toks: seq<seq<string>>, symbol: string)
    requires Parsed(g, toks) && WithinGrid(g) && '|' !in symbol
    ensures var v := VerifyGateKey(CreateSpatialGatePattern(g, symbol).value, symbol);
      v.Valid? && v.spatial == LockData(g)
      && v.reconstructed == Render(ExactGrid(LockData(g), symbol).value)
  {
    LockRoundTrip(g, symbol);
    LockDataDrawable(g, toks);
  }

  /** Every cell of the grid redrawn from the lock of a parsed glyph that
      fits its square is the cell the glyph shows. */
  lemma {:induction false} RedrawCell(g: Glyph, toks: seq<seq<string>>, symbol: string, i: nat, j: nat)
    requires Parsed(g, toks) && WithinGrid(g)
    requires i < g.gridSize && j < g.gridSize
    ensures var c := ExactGrid(LockData(g), symbol);
      c.Ok? && i < |c.value| && j < |c.value[i]|
      && c.value[i][j] == Expected(toks, g.anchor.value, symbol, i, j)
  {
    LockDataDrawable(g, toks);
    ExactGridCell(LockData(g), symbol, i, j);
    LastAtParsed(g, toks, i, j);
  }

  /** A glyph drawn as a full square: n rows of n tokens, each '.' or a
      number in canonical decimal, except the anchor '+'. */
  ghost predicate Drawing(g: Glyph, toks: seq<seq<string>>) {
    Parsed(g, toks) && g.anchor.Some?
    && (forall i :: 0 <= i < |toks| ==> |toks[i]| == |toks|)
    && forall i, j :: 0 <= i < |toks| && 0 <= j < |toks| && (i, j) != g.anchor.value ==>
         toks[i][j] == "." || Canonical(toks[i][j])
  }

  /** The tokens with the anchor replaced by `symbol`. */
  function Marked(toks: seq<seq<string>>, a: (int, int), symbol: string): seq<seq<string>>
    requires 0 <= a.0 < |toks| && 0 <= a.1 < |toks[a.0]|
  {
    toks[a.0 := toks[a.0][a.1 := symbol]]
  }

  lemma MarkedPlus(toks: seq<seq<string>>, a: (int, int))
    requires 0 <= a.0 < |toks| && 0 <= a.1 < |toks[a.0]| && toks[a.0][a.1] == "+"
    ensures Marked(toks, a, "+") == toks
  {
    assert toks[a.0][a.1 := "+"] == toks[a.0];
  }

  lemma DrawingCell(g: Glyph, toks: seq<seq<string>>, symbol: string, i: nat, j: nat)
    requires Drawing(g, toks) && i < |toks| && j < |toks|
    ensures Expected(toks, g.anchor.value, symbol, i, j) == Marked(toks, g.anchor.value, symbol)[i][j]
  {
    var tok := toks[i][j];
    if IsDigits(tok) && (i, j) != g.anchor.value {
      ShowDigitsValue(tok);
    }
  }

  /** The lock of a square drawing redraws it exactly, with the symbol in
      place of the anchor '+'. */
  lemma {:induction false} ExactRedraw(g: Glyph, toks: seq<seq<string>>, symbol: string)
    requires Drawing(g, toks)
    ensures ExactGrid(LockData(g), symbol) == Ok(Marked(toks, g.anchor.value, symbol))
  {
    var n := |toks|;
    DrawingWithin(g, toks);
    LockDataDrawable(g, toks);
    var c := ExactGrid(LockData(g), symbol).value;
    var t := Marked(toks, g.anchor.value, symbol);
    forall i | 0 <= i < n
      ensures c[i] == t[i]
    {
      forall j | 0 <= j < n
        ensures c[i][j] == t[i][j]
      {
        RedrawCell(g, toks, symbol, i, j);
        DrawingCell(g, toks, symbol, i, j);
      }
    }
    assert c == t;
  }

  /** Verifying the lock of a parsed glyph whose redrawn grid is `c` gives
      back the text whose lines are the single-spaced rows of `c`. */
  lemma DrawingVerifies(g: Glyph, toks: seq<seq<string>>, c: Canvas, lines: seq<string>, text: string)
    requires Parsed(g, toks) && WithinGrid(g)
    requires ExactGrid(LockData(g), "+") == Ok(c)
    requires |lines| == |c| && forall i :: 0 <= i < |lines| ==> lines[i] == Join(c[i], " ")
    requires text == Join(lines, "\n")
    ensures var lock := CreateSpatialGatePattern(g, "+").value;
      VerifyGateKey(lock, "+") == Valid(text, "+", lock, LockData(g))
  {
    LockVerifies(g, toks, "+");
    RenderRows(c, lines, text);
    VerdictIs(CreateSpatialGatePattern(g, "+").value, "+", LockData(g), text);
  }

  /** A valid verdict is fixed by its spatial data and its redrawn text. */
  lemma VerdictIs(lock: string, symbol: string, data: Spatial, text: string)
    requires var v := VerifyGateKey(lock, symbol); v.Valid? && v.spatial == data && v.reconstructed == text
    ensures VerifyGateKey(lock, symbol) == Valid(text, symbol, lock, data)
  {
  }

  lemma DrawingWithin(g: Glyph, toks: seq<seq<string>>)
    requires Drawing(g, toks)
    ensures WithinGrid(g)
  {
    forall b | b in g.blocks
      ensures b.1 < g.gridSize
    {
      assert DigitCell(toks, b);
    }
  }

  lemma RenderRows(c: Canvas, lines: seq<string>, text: string)
    requires |lines| == |c| && forall i :: 0 <= i < |lines| ==> lines[i] == Join(c[i], " ")
    requires text == Join(lines, "\n")
    ensures Render(c) == text
  {
    assert JoinRows(c) == lines;
  }

  /** With '+' itself as the symbol, verifying the lock of a square drawing
      whose lines are single-spaced gives back the drawing, stripped. */
  lemma {:induction false} SigilRedraw(sigil: string)
    requires Drawing(ParseGlyphStructure(sigil), Tokens(sigil))
    requires forall i :: 0 <= i < |Lines(sigil)| ==> Lines(sigil)[i] == Join(Tokens(sigil)[i], " ")
    ensures var g := ParseGlyphStructure(sigil);
      var lock := CreateSpatialGatePattern(g, "+").value;
      VerifyGateKey(lock, "+") == Valid(Strip(sigil), "+", lock, LockData(g))
  {
    var g := ParseGlyphStructure(sigil);
    var toks := Tokens(sigil);
    JoinSplitOn(Strip(sigil), '\n');
    DrawingWithin(g, toks);
    ExactRedraw(g, toks, "+");
    MarkedPlus(toks, g.anchor.value);
    DrawingVerifies(g, toks, toks, Lines(sigil), Strip(sigil));
  }

  // ---------------------------------------------------------------------
  // The public operations
  // ---------------------------------------------------------------------

  datatype Verification =
    | Valid(reconstructed: string, symbol: string, pattern: string, spatial: Spatial)
    | Invalid(error: string)

  /** `verify_gate_key`: any exception becomes an invalid verdict. */
  function VerifyGateKey(pattern: string, symbol: string): (r: Verification)
    ensures r.Valid? <==> ParseSpatialGatePattern(pattern, symbol).Ok? && Drawable(ParseSpatialGatePattern(pattern, symbol).value)
    ensures r.Valid? ==> (r.symbol == symbol && r.pattern == pattern
      && r.spatial == ParseSpatialGatePattern(pattern, symbol).value
      && r.reconstructed == Render(ExactGrid(r.spatial, symbol).value))
    ensures SplitOn(pattern, '|')[0] != symbol ==> r == Invalid("Verification failed: " + InvalidFormat)
  {
    match ParseSpatialGatePattern(pattern, symbol)
    case Err(e) => Invalid("Verification failed: " + e)
    case Ok(sd) =>
      match ReconstructExactGlyph(sd, symbol)
      case Err(e) => Invalid("Verification failed: " + e)
      case Ok(text) => Valid(text, symbol, pattern, sd)
  }

  datatype GateKey = GateKey(key: string, lock: string)

  const NoAnchor := "cannot unpack non-iterable NoneType object"

  function UnknownSymbol(symbol: string): string {
    "Symbol '" + symbol + "' not in allowed visual symbols"
  }

  /** `generate_key_from_sigil` */
  function GenerateKeyFromSigil(sigil: string, symbol: string, digest: string -> string): (r: Result<GateKey>)
    ensures symbol !in Symbols ==> r == Err(UnknownSymbol(symbol))
    ensures r.Ok? <==> symbol in Symbols && ParseGlyphStructure(sigil).anchor.Some?
    ensures r.Ok? ==> var g := ParseGlyphStructure(sigil);
      Some(r.value.lock) == CreateSpatialGatePattern(g, symbol)
      && Some(r.value.key) == CryptographicKey(g, symbol, digest)
  {
    if symbol !in Symbols then Err(UnknownSymbol(symbol))
    else
      var g := ParseGlyphStructure(sigil);
      match CreateSpatialGatePattern(g, symbol)
      case None => Err(NoAnchor)
      case Some(lock) => Ok(GateKey(CryptographicKey(g, symbol, digest).value, lock))
  }

  datatype KeyInfo = KeyInfo(
    gatePattern: GateKey, symbol: string, gridSize: nat, totalBlocks: nat,
    maxNumber: int, anchor: Option<(int, int)>, entropyBits: nat, keyType: string)

  /** `get_key_info`: the block count includes the anchor, and the entropy
      estimate is 8 bits per block plus 2 per character of the drawing. */
  function GetKeyInfo(sigil: string, symbol: string, digest: string -> string): (r: Result<KeyInfo>)
    ensures r.Ok? <==> GenerateKeyFromSigil(sigil, symbol, digest).Ok?
    ensures r.Err? ==> r.error == GenerateKeyFromSigil(sigil, symbol, digest).error
    ensures r.Ok? ==> var g := ParseGlyphStructure(sigil);
      r.value.gatePattern == GenerateKeyFromSigil(sigil, symbol, digest).value
      && r.value.totalBlocks == |g.blocks| + 1 && r.value.anchor.Some?
      && r.value.entropyBits == 8 * r.value.totalBlocks + 2 * |sigil|
      && r.value.gridSize == |Lines(sigil)| && r.value.maxNumber == MaxNumber(g.blocks)
  {
    var g := ParseGlyphStructure(sigil);
    var gate :- GenerateKeyFromSigil(sigil, symbol, digest);
    var total := |g.blocks| + 1;
    Ok(KeyInfo(gate, symbol, g.gridSize, total, g.maxNumber, g.anchor, total * 8 + |sigil| * 2, "SPATIAL_GATE_PATTERN"))
  }

  /** The fixed drawing `_grid_to_sigil_pattern` returns for any grid data. */
  const PlaceholderSigil := "+ 2 3\n4 5 .\n6 . ."

  /** `create_key_from_blockmaker_grid`: the grid data is ignored in favour
      of the placeholder drawing. */
  function CreateKeyFromBlockmakerGrid(symbol: string, digest: string -> string): (r: Result<GateKey>)
    ensures symbol !in Symbols ==> r == Err(UnknownSymbol(symbol))
    ensures r.Ok? ==> Some(r.value.lock) == CreateSpatialGatePattern(ParseGlyphStructure(PlaceholderSigil), symbol)
  {
    GenerateKeyFromSigil(PlaceholderSigil, symbol, digest)
  }

  /** `generate_random_symbol`, with the draw as an explicit roll. */
  function GenerateRandomSymbol(roll: nat): (r: string)
    ensures r in Symbols
  {
    PyRandom.Choice(Symbols, roll).value
  }
}

=== FILE: blockmaker_ascii.dfy ===
/** The ASCII text of a block pattern (`generate_ascii_pattern`): a header
    line, a rule of 30 '=' and one line per row of the bounding box of the
    blocks, with "+" for block 1, the number for other blocks and "." for an
    empty cell or the flash value -999. */
module BlockmakerAscii {
  import opened Wrappers
  import opened PyText
  import opened BlockmakerGrid

  /** The flash marker the window stores while a block blinks. */
  const Flash: int := -999

  function MinOf(xs: seq<int>): (m: int)
    requires |xs| > 0
    ensures m in xs && forall i :: 0 <= i < |xs| ==> m <= xs[i]
  {
    if |xs| == 1 then xs[0]
    else
      var m := MinOf(xs[1..]);
      assert forall i :: 1 <= i < |xs| ==> xs[i] == xs[1..][i - 1];
      if xs[0] <= m then xs[0] else m
  }

  function MaxOf(xs: seq<int>): (m: int)
    requires |xs| > 0
    ensures m in xs && forall i :: 0 <= i < |xs| ==> xs[i] <= m
  {
    if |xs| == 1 then xs[0]
    else
      var m := MaxOf(xs[1..]);
      assert forall i :: 1 <= i < |xs| ==> xs[i] == xs[1..][i - 1];
      if xs[0] >= m then xs[0] else m
  }

  function Rows(b: Board): seq<int> {
    seq(|b.order|, i requires 0 <= i < |b.order| => b.order[i].0)
  }

  function Cols(b: Board): seq<int> {
    seq(|b.order|, i requires 0 <= i < |b.order| => b.order[i].1)
  }

  /** The bounding box (min row, max row, min column, max column) of the
      blocks: every block lies inside it and each bound is met by a block. */
  datatype Box = Box(r0: int, r1: int, c0: int, c1: int) {
    function Height(): int { r1 - r0 + 1 }
    function Width(): int { c1 - c0 + 1 }
  }

  function BoundingBox(b: Board): (box: Box)
    requires |b.order| > 0
    ensures box.r0 <= box.r1 && box.c0 <= box.c1
    ensures forall j :: 0 <= j < |b.order| ==>
      box.r0 <= b.order[j].0 <= box.r1 && box.c0 <= b.order[j].1 <= box.c1
    ensures box.r0 in Rows(b) && box.r1 in Rows(b) && box.c0 in Cols(b) && box.c1 in Cols(b)
  {
    assert b.order[0].0 == Rows(b)[0] && b.order[0].1 == Cols(b)[0];
    assert forall j :: 0 <= j < |b.order| ==> Rows(b)[j] == b.order[j].0 && Cols(b)[j] == b.order[j].1;
    Box(MinOf(Rows(b)), MaxOf(Rows(b)), MinOf(Cols(b)), MaxOf(Cols(b)))
  }

  /** The cell's text: "+" for block 1, "." for an empty cell or the flash
      value, otherwise the decimal number. */
  function Token(b: Board, p: Pos): (t: string)
    ensures IsWord(t)
  {
    if p !in b.num || b.num[p] == Flash then "."
    else if b.num[p] == 1 then "+"
    else ShowInt(b.num[p])
  }

  /** The tokens of row `row` for the `w` columns from `c0` on. */
  function RowTokens(b: Board, row: int, c0: int, w: nat): (ts: seq<string>)
    ensures |ts| == w
    ensures forall i :: 0 <= i < w ==> ts[i] == Token(b, (row, c0 + i))
  {
    seq(w, i => Token(b, (row, c0 + i)))
  }

  /** `line += tok + " "` over the tokens. */
  function Cat(ts: seq<string>): string {
    if |ts| == 0 then [] else ts[0] + " " + Cat(ts[1..])
  }

  /** One row of the pattern: the token concatenation, right-stripped. */
  function RowLine(b: Board, row: int, c0: int, w: nat): string {
    RStrip(Cat(RowTokens(b, row, c0, w)))
  }

  function Header(n: nat): string {
    "Block Pattern (" + ShowNat(n) + " blocks):"
  }

  /** `"=" * 30` */
  const Rule: string := Repeat('=', 30)

  /** The lines of `n` consecutive rows from `r0` on. */
  function RowLines(b: Board, r0: int, n: nat, c0: int, w: nat): (ls: seq<string>)
    ensures |ls| == n
    ensures forall k :: 0 <= k < n ==> ls[k] == RowLine(b, r0 + k, c0, w)
  {
    seq(n, k => RowLine(b, r0 + k, c0, w))
  }

  /** The lines of a non-empty pattern, before they are joined. */
  function PatternLines(b: Board): seq<string>
    requires |b.order| > 0
  {
    var box := BoundingBox(b);
    [Header(|b.order|), Rule] + RowLines(b, box.r0, box.Height(), box.c0, box.Width())
  }

  /** `generate_ascii_pattern` */
  function AsciiPattern(b: Board): string {
    if |b.order| == 0 then "No blocks placed" else Join(PatternLines(b), "\n")
  }

  /** What a token says about its cell: "+" is block 1, "." an empty cell,
      anything else the integer it spells. */
  function DecodeToken(t: string): Option<int> {
    if t == "+" then Some(1) else if t == "." then None else PyInt(t)
  }

  /** The number the pattern shows for a cell, if any. */
  function Shown(b: Board, p: Pos): Option<int> {
    if p in b.num && b.num[p] != Flash then Some(b.num[p]) else None
  }

  /** Decoding a cell's token gives back the cell's number. */
  lemma TokenDecodes(b: Board, p: Pos)
    ensures DecodeToken(Token(b, p)) == Shown(b, p)
  {
    if p in b.num && b.num[p] != Flash && b.num[p] != 1 {
      var k := b.num[p];
      PyIntShowInt(k);
      assert ShowInt(k) != "+" by { assert ShowInt(k)[0] in ShowInt(k); }
      assert ShowInt(k) != "." by { assert ShowInt(k)[0] in ShowInt(k); }
    }
  }

  lemma {:induction false} CatJoin(ts: seq<string>)
    requires |ts| >= 1
    ensures Cat(ts) == Join(ts, " ") + " "
  {
    if |ts| > 1 {
      CatJoin(ts[1..]);
    }
  }

  lemma {:induction false} JoinEndsWithLast(ts: seq<string>, sep: string)
    requires |ts| >= 1 && ts[|ts| - 1] != []
    ensures var s := Join(ts, sep);
      s != [] && s[|s| - 1] == ts[|ts| - 1][|ts[|ts| - 1]| - 1]
  {
    if |ts| > 1 {
      JoinEndsWithLast(ts[1..], sep);
    }
  }

  lemma {:induction false} JoinAvoids(ts: seq<string>, sep: string, c: char)
    requires c !in sep && forall i :: 0 <= i < |ts| ==> c !in ts[i]
    ensures c !in Join(ts, sep)
  {
    if |ts| > 1 {
      JoinAvoids(ts[1..], sep, c);
    }
  }

  /** A row line is its tokens joined by single spaces. */
  lemma RowLineJoin(b: Board, row: int, c0: int, w: nat)
    requires w >= 1
    ensures RowLine(b, row, c0, w) == Join(RowTokens(b, row, c0, w), " ")
  {
    var ts := RowTokens(b, row, c0, w);
    CatJoin(ts);
    var last := ts[|ts| - 1];
    assert IsWord(last);
    JoinEndsWithLast(ts, " ");
    assert !IsSpace(last[|last| - 1]);
    RStripSpace(Join(ts, " "));
  }

  /** Splitting a row line on whitespace gives its tokens back. */
  lemma RowLineSplits(b: Board, row: int, c0: int, w: nat)
    requires w >= 1
    ensures SplitWs(RowLine(b, row, c0, w)) == RowTokens(b, row, c0, w)
  {
    RowLineJoin(b, row, c0, w);
    var ts := RowTokens(b, row, c0, w);
    assert forall w :: w in ts ==> IsWord(w);
    SplitWsJoin(ts);
  }

  lemma RowLineOneLine(b: Board, row: int, c0: int, w: nat)
    requires w >= 1
    ensures '\n' !in RowLine(b, row, c0, w)
  {
    RowLineJoin(b, row, c0, w);
    var ts := RowTokens(b, row, c0, w);
    forall i | 0 <= i < |ts|
      ensures '\n' !in ts[i]
    {
      assert IsWord(ts[i]);
    }
    JoinAvoids(ts, " ", '\n');
  }

  lemma HeaderOneLine(n: nat)
    ensures '\n' !in Header(n)
  {
    var d := ShowNat(n);
    assert forall i :: 0 <= i < |d| ==> IsDigit(d[i]);
  }

  lemma RowLinesOneLine(b: Board, r0: int, n: nat, c0: int, w: nat, k: int)
    requires w >= 1 && 0 <= k < n
    ensures '\n' !in RowLines(b, r0, n, c0, w)[k]
  {
    RowLineOneLine(b, r0 + k, c0, w);
  }

  lemma RuleOneLine()
    ensures '\n' !in Rule
  {
  }

  /** Line `i` of a pattern contains no newline. */
  lemma PatternLineOneLine(b: Board, i: int)
    requires |b.order| > 0 && 0 <= i < |PatternLines(b)|
    ensures '\n' !in PatternLines(b)[i]
  {
    var box := BoundingBox(b);
    var rows := RowLines(b, box.r0, box.Height(), box.c0, box.Width());
    HeaderOneLine(|b.order|);
    RuleOneLine();
    if i >= 2 {
      RowLinesOneLine(b, box.r0, box.Height(), box.c0, box.Width(), i - 2);
    }
    FramedOneLine(Header(|b.order|), Rule, rows, i);
  }

  lemma FramedOneLine(h: string, r: string, rows: seq<string>, i: int)
    requires 0 <= i < |rows| + 2 && '\n' !in h && '\n' !in r
    requires i >= 2 ==> '\n' !in rows[i - 2]
    ensures '\n' !in ([h, r] + rows)[i]
  {
    if i >= 2 {
      assert ([h, r] + rows)[i] == rows[i - 2];
    }
  }

  /** A non-empty pattern is its header, the rule and one line per row of the
      bounding box, and splitting it on newlines recovers exactly those
      lines. */
  lemma AsciiPatternLines(b: Board)
    requires |b.order| > 0
    ensures |SplitOn(AsciiPattern(b), '\n')| == BoundingBox(b).Height() + 2
    ensures SplitOn(AsciiPattern(b), '\n')[0] == "Block Pattern (" + ShowNat(|b.order|) + " blocks):"
    ensures SplitOn(AsciiPattern(b), '\n')[1] == Rule
    ensures SplitOn(AsciiPattern(b), '\n')[2..]
         == RowLines(b, BoundingBox(b).r0, BoundingBox(b).Height(), BoundingBox(b).c0, BoundingBox(b).Width())
  {
    var box := BoundingBox(b);
    var rows := RowLines(b, box.r0, box.Height(), box.c0, box.Width());
    forall i | 0 <= i < |PatternLines(b)|
      ensures '\n' !in PatternLines(b)[i]
    {
      PatternLineOneLine(b, i);
    }
    SplitOnJoin(PatternLines(b), '\n');
    assert PatternLines(b)[2..] == rows;
  }

  /** Every row line decodes cell by cell to the numbers on the board: the
      i-th token of the line for row `row` shows cell (row, c0 + i). */
  lemma AsciiRowDecodes(b: Board, row: int, c0: int, w: nat, i: int)
    requires 0 <= i < w
    ensures var ts := SplitWs(RowLine(b, row, c0, w));
      |ts| == w
      && DecodeToken(ts[i]) == Shown(b, (row, c0 + i))
      && (ts[i] == "+" <==> (row, c0 + i) in b.num && b.num[(row, c0 + i)] == 1)
  {
    RowLineSplits(b, row, c0, w);
    TokenDecodes(b, (row, c0 + i));
  }
}

=== FILE: blockmaker_glyph.dfy ===
/** The glyph generator of the block maker window
    (`generate_glyph_pattern`): the whole border of the grid walked
    clockwise from (0, 0), the four inner corners, then rings of cells at a
    fixed Manhattan distance from the centre placed as left/right mirror
    pairs, stopping as soon as the target count is reached. */
module BlockmakerGlyph {
  import opened Wrappers
  import opened BlockmakerGrid
  import opened BlockmakerPatterns
  import opened PyRandom
  import StableSort

  // ---------------------------------------------------------------------
  // The border walk (`get_grid_perimeter_positions`)
  // ---------------------------------------------------------------------

  /** Top row, left to right. */
  function TopRow(n: nat): seq<Pos> {
    seq(n, c => (0, c))
  }

  /** Right column, rows 1 .. n-2 downwards. */
  function RightColumn(n: nat): seq<Pos> {
    seq(if n >= 2 then n - 2 else 0, i => (i + 1, n - 1))
  }

  /** Bottom row, right to left, corners included. */
  function BottomRow(n: nat): seq<Pos> {
    seq(n, i => (n - 1, n - 1 - i))
  }

  /** Left column, rows n-2 .. 1 upwards. */
  function LeftColumn(n: nat): seq<Pos> {
    seq(if n >= 2 then n - 2 else 0, i => (n - 2 - i, 0))
  }

  /** `get_grid_perimeter_positions` */
  function Perimeter(n: nat): (ps: seq<Pos>)
    ensures n >= 2 ==> |ps| == 4 * n - 4
  {
    TopRow(n) + RightColumn(n) + BottomRow(n) + LeftColumn(n)
  }

  /** The k-th cell of the walk in closed form. */
  function WalkCell(n: nat, k: int): Pos {
    if k < n then (0, k)
    else if k < 2 * n - 2 then (k - n + 1, n - 1)
    else if k < 3 * n - 2 then (n - 1, 3 * n - 3 - k)
    else (4 * n - 4 - k, 0)
  }

  /** Where a border cell sits in the walk. */
  function WalkIndex(n: nat, p: Pos): int {
    if p.0 == 0 then p.1
    else if p.0 == n - 1 then 3 * n - 3 - p.1
    else if p.1 == n - 1 then n - 1 + p.0
    else 4 * n - 4 - p.0
  }

  predicate OnBorder(n: int, p: Pos) {
    InGrid(n, p) && (p.0 == 0 || p.0 == n - 1 || p.1 == 0 || p.1 == n - 1)
  }

  lemma PerimeterCell(n: nat, k: int)
    requires n >= 2 && 0 <= k < 4 * n - 4
    ensures Perimeter(n)[k] == WalkCell(n, k)
  {
    var t, r, b, l := TopRow(n), RightColumn(n), BottomRow(n), LeftColumn(n);
    assert Perimeter(n) == t + r + b + l;
    if k < n {
      assert Perimeter(n)[k] == t[k];
    } else if k < 2 * n - 2 {
      assert Perimeter(n)[k] == r[k - n];
    } else if k < 3 * n - 2 {
      assert Perimeter(n)[k] == b[k - (2 * n - 2)];
    } else {
      assert Perimeter(n)[k] == l[k - (3 * n - 2)];
    }
  }

  /** Every cell of the walk is a border cell, and its index is recovered
      from it: the walk visits no cell twice. */
  lemma PerimeterOnBorder(n: nat, k: int)
    requires n >= 2 && 0 <= k < 4 * n - 4
    ensures OnBorder(n, Perimeter(n)[k]) && WalkIndex(n, Perimeter(n)[k]) == k
  {
    PerimeterCell(n, k);
  }

  /** The walk has 4n - 4 cells, all different. */
  lemma PerimeterDistinct(n: nat, i: int, j: int)
    requires n >= 2 && 0 <= i < j < 4 * n - 4
    ensures Perimeter(n)[i] != Perimeter(n)[j]
  {
    PerimeterOnBorder(n, i);
    PerimeterOnBorder(n, j);
  }

  /** Every border cell is on the walk. */
  lemma PerimeterCovers(n: nat, p: Pos)
    requires n >= 2 && OnBorder(n, p)
    ensures 0 <= WalkIndex(n, p) < 4 * n - 4 && Perimeter(n)[WalkIndex(n, p)] == p
  {
    PerimeterCell(n, WalkIndex(n, p));
  }

  /** The walk starts at (0, 0), each step moves to a 4-neighbour, and the
      last cell is next to the first, so the walk closes. */
  lemma PerimeterWalk(n: nat, k: int)
    requires n >= 2 && 0 <= k < 4 * n - 4
    ensures Perimeter(n)[0] == (0, 0)
    ensures k + 1 < 4 * n - 4 ==> Adjacent(Perimeter(n)[k], Perimeter(n)[k + 1])
    ensures k == 4 * n - 5 ==> Adjacent(Perimeter(n)[k], Perimeter(n)[0])
  {
    PerimeterCell(n, 0);
    PerimeterCell(n, k);
    if k + 1 < 4 * n - 4 {
      PerimeterCell(n, k + 1);
    }
  }

  // ---------------------------------------------------------------------
  // Placement with early stop
  // ---------------------------------------------------------------------

  /** One intended placement: `force` places even on an occupied cell (the
      border loop calls `add_block` unconditionally); otherwise the cell is
      skipped when it already holds a block. */
  datatype Step = Step(pos: Pos, force: bool)

  /** `block_num`, `blocks_placed` and whether the target was reached, which
      makes the generator return at once. */
  datatype GlyphState = GlyphState(board: Board, next: int, placed: int, stopped: bool)

  function StepCells(steps: seq<Step>): (ps: seq<Pos>)
    ensures |ps| == |steps| && forall i :: 0 <= i < |steps| ==> ps[i] == steps[i].pos
  {
    seq(|steps|, i requires 0 <= i < |steps| => steps[i].pos)
  }

  /** Places the steps in order until `blocks_placed >= target_blocks`. */
  function Run(st: GlyphState, steps: seq<Step>, target: int): (r: GlyphState)
    ensures r.board.size == st.board.size && st.board.order <= r.board.order
    ensures st.placed <= r.placed && r.next - r.placed == st.next - st.placed
    ensures st.stopped ==> r == st
    ensures r.stopped <==> st.stopped || (r.placed > st.placed && r.placed >= target)
    ensures !st.stopped && st.placed < target ==> r.placed <= target
    ensures Wf(st.board) ==> Wf(r.board)
    decreases |steps|
  {
    if st.stopped || steps == [] then st
    else
      var s := steps[0];
      if !s.force && s.pos in st.board.num then Run(st, steps[1..], target)
      else
        var placed := st.placed + 1;
        var st' := GlyphState(AddBlock(st.board, s.pos, st.next), st.next + 1, placed, placed >= target);
        Run(st', steps[1..], target)
  }

  /** One pass of the loop body on a run that has not stopped. */
  function Next(st: GlyphState, s: Step, target: int): GlyphState {
    if !s.force && s.pos in st.board.num then st
    else GlyphState(AddBlock(st.board, s.pos, st.next), st.next + 1, st.placed + 1, st.placed + 1 >= target)
  }

  lemma RunCons(st: GlyphState, steps: seq<Step>, target: int)
    requires !st.stopped && steps != []
    ensures Run(st, steps, target) == Run(Next(st, steps[0], target), steps[1..], target)
  {
  }

  /** A step keeps every block and occupies its own cell. */
  lemma NextOccupies(st: GlyphState, s: Step, target: int)
    ensures forall q :: q in st.board.num ==> q in Next(st, s, target).board.num
    ensures s.pos in Next(st, s, target).board.num
    ensures forall q :: q in Next(st, s, target).board.num ==> q in st.board.num || q == s.pos
  {
  }

  /** A fresh step appends its cell to the dictionary order. */
  lemma NextFresh(st: GlyphState, s: Step, target: int)
    requires s.pos !in st.board.num
    ensures Next(st, s, target).board == AddBlock(st.board, s.pos, st.next)
    ensures Next(st, s, target).board.order == st.board.order + [s.pos]
    ensures Next(st, s, target).placed == st.placed + 1
    ensures Next(st, s, target).stopped == (st.placed + 1 >= target)
  {
  }

  lemma StepCellsIn(steps: seq<Step>, p: Pos)
    requires |steps| > 0 && (p == steps[0].pos || p in StepCells(steps[1..]))
    ensures p in StepCells(steps)
  {
    if p == steps[0].pos {
      assert StepCells(steps)[0] == p;
    } else {
      var i :| 0 <= i < |steps| - 1 && StepCells(steps[1..])[i] == p;
      assert StepCells(steps)[i + 1] == p;
    }
  }


  /** Only cells named by a step are ever added. */
  lemma {:induction false} RunAddsOnlySteps(st: GlyphState, steps: seq<Step>, target: int, p: Pos)
    ensures p in Run(st, steps, target).board.num ==> p in st.board.num || p in StepCells(steps)
    decreases |steps|
  {
    if !st.stopped && steps != [] {
      RunCons(st, steps, target);
      NextOccupies(st, steps[0], target);
      RunAddsOnlySteps(Next(st, steps[0], target), steps[1..], target, p);
      if p !in st.board.num && p in Run(st, steps, target).board.num {
        StepCellsIn(steps, p);
      }
    }
  }

  lemma StepCellsCons(steps: seq<Step>, p: Pos)
    requires |steps| > 0 && p in StepCells(steps)
    ensures p == steps[0].pos || p in StepCells(steps[1..])
  {
    var i :| 0 <= i < |steps| && StepCells(steps)[i] == p;
    if i > 0 {
      assert StepCells(steps[1..])[i - 1] == p;
    }
  }

  /** A run that never reaches the target occupies every cell its steps
      name. */
  lemma {:induction false} RunFillsSteps(st: GlyphState, steps: seq<Step>, target: int, p: Pos)
    requires !Run(st, steps, target).stopped
    requires p in st.board.num || p in StepCells(steps)
    ensures p in Run(st, steps, target).board.num
    decreases |steps|
  {
    if steps != [] {
      if p in StepCells(steps) {
        StepCellsCons(steps, p);
      }
      RunCons(st, steps, target);
      NextOccupies(st, steps[0], target);
      RunFillsSteps(Next(st, steps[0], target), steps[1..], target, p);
    }
  }


  /** The counters agree with the board: blocks numbered 1, 2, ... in
      placement order, `blocks_placed` blocks, and `block_num` the next
      number. */
  ghost predicate Counted(st: GlyphState) {
    Numbered(st.board) && st.placed == |st.board.order| && st.next == st.placed + 1
  }

  /** Forced steps land on cells that are free when their turn comes. */
  ghost predicate ForcedFresh(b: Board, steps: seq<Step>) {
    (forall i :: 0 <= i < |steps| && steps[i].force ==> steps[i].pos !in b.num)
    && (forall j, i :: 0 <= j < i < |steps| && steps[i].force ==> steps[j].pos != steps[i].pos)
  }

  lemma ForcedFreshTail(b: Board, steps: seq<Step>, next: int)
    requires |steps| > 0 && ForcedFresh(b, steps)
    ensures ForcedFresh(AddBlock(b, steps[0].pos, next), steps[1..])
  {
    var b' := AddBlock(b, steps[0].pos, next);
    forall i | 0 <= i < |steps| - 1 && steps[1..][i].force
      ensures steps[1..][i].pos !in b'.num
    {
      assert steps[1..][i] == steps[i + 1];
    }
  }

  lemma ForcedFreshSkip(b: Board, steps: seq<Step>)
    requires |steps| > 0 && ForcedFresh(b, steps)
    ensures ForcedFresh(b, steps[1..])
  {
  }

  /** Placing the steps keeps the counters in agreement with the board. */
  lemma {:induction false} RunCounted(st: GlyphState, steps: seq<Step>, target: int)
    requires Counted(st) && ForcedFresh(st.board, steps)
    ensures Counted(Run(st, steps, target))
    decreases |steps|
  {
    if !st.stopped && steps != [] {
      var s := steps[0];
      if !s.force && s.pos in st.board.num {
        ForcedFreshSkip(st.board, steps);
        RunCounted(st, steps[1..], target);
      } else {
        var placed := st.placed + 1;
        var b' := AddBlock(st.board, s.pos, st.next);
        var st' := GlyphState(b', st.next + 1, placed, placed >= target);
        assert s.pos !in st.board.num;
        NumberedAdd(st.board, s.pos);
        ForcedFreshTail(st.board, steps, st.next);
        RunCounted(st', steps[1..], target);
      }
    }
  }

  /** A step that lands on a free cell no earlier step named. */
  ghost predicate FreshAt(b: Board, steps: seq<Step>, i: int)
    requires 0 <= i < |steps|
  {
    steps[i].pos !in b.num && forall j :: 0 <= j < i ==> steps[j].pos != steps[i].pos
  }

  lemma FreshAtTail(b: Board, steps: seq<Step>, next: int, i: int)
    requires 0 < i < |steps| && FreshAt(b, steps, i)
    ensures FreshAt(AddBlock(b, steps[0].pos, next), steps[1..], i - 1)
  {
    forall j | 0 <= j < i - 1
      ensures steps[1..][j].pos != steps[1..][i - 1].pos
    {
      assert steps[1..][j] == steps[j + 1];
    }
    assert steps[1..][i - 1] == steps[i];
  }

  lemma FreshUpToTail(b: Board, steps: seq<Step>, next: int, k: nat)
    requires 0 < k < |steps| && forall i :: 0 <= i <= k ==> FreshAt(b, steps, i)
    ensures forall i :: 0 <= i <= k - 1 ==> FreshAt(AddBlock(b, steps[0].pos, next), steps[1..], i)
  {
    forall i | 0 <= i <= k - 1
      ensures FreshAt(AddBlock(b, steps[0].pos, next), steps[1..], i)
    {
      FreshAtTail(b, steps, next, i + 1);
    }
  }

  /** While the target is not reached, the k-th of a run of fresh steps
      becomes the k-th new entry of the dictionary. */
  lemma {:induction false} RunPlacesFresh(st: GlyphState, steps: seq<Step>, target: int, k: nat)
    requires !st.stopped && k < |steps| && st.placed + k < target
    requires forall i :: 0 <= i <= k ==> FreshAt(st.board, steps, i)
    ensures |st.board.order| + k < |Run(st, steps, target).board.order|
    ensures Run(st, steps, target).board.order[|st.board.order| + k] == steps[k].pos
    decreases k
  {
    var st' := Next(st, steps[0], target);
    FreshHead(st, steps, target, k);
    if k > 0 {
      RunPlacesFresh(st', steps[1..], target, k - 1);
    }
  }

  /** The first of a run of fresh steps: it appends its cell, and the rest
      of the run stays fresh on the grown board. */
  lemma FreshHead(st: GlyphState, steps: seq<Step>, target: int, k: nat)
    requires !st.stopped && k < |steps| && st.placed + k < target
    requires forall i :: 0 <= i <= k ==> FreshAt(st.board, steps, i)
    ensures var st' := Next(st, steps[0], target);
      && Run(st, steps, target) == Run(st', steps[1..], target)
      && st'.board.order == st.board.order + [steps[0].pos]
      && st'.placed == st.placed + 1
      && |st.board.order| < |Run(st, steps, target).board.order|
      && Run(st, steps, target).board.order[|st.board.order|] == steps[0].pos
      && (k > 0 ==> !st'.stopped && steps[1..][k - 1] == steps[k]
                    && forall i :: 0 <= i <= k - 1 ==> FreshAt(st'.board, steps[1..], i))
  {
    assert FreshAt(st.board, steps, 0);
    RunCons(st, steps, target);
    NextFresh(st, steps[0], target);
    if k > 0 {
      FreshUpToTail(st.board, steps, st.next, k);
    }
  }

  /** Running two lists of steps one after the other is running their
      concatenation. */
  lemma {:induction false} RunAppend(st: GlyphState, a: seq<Step>, b: seq<Step>, target: int)
    ensures Run(st, a + b, target) == Run(Run(st, a, target), b, target)
    decreases |a|
  {
    if a == [] {
      assert a + b == b;
    } else if !st.stopped {
      assert (a + b)[0] == a[0] && (a + b)[1..] == a[1..] + b;
      var s := a[0];
      if !s.force && s.pos in st.board.num {
        RunAppend(st, a[1..], b, target);
      } else {
        var placed := st.placed + 1;
        var st' := GlyphState(AddBlock(st.board, s.pos, st.next), st.next + 1, placed, placed >= target);
        RunAppend(st', a[1..], b, target);
      }
    }
  }

  lemma StepCellsAppend(a: seq<Step>, b: seq<Step>)
    ensures StepCells(a + b) == StepCells(a) + StepCells(b)
  {
  }

  // ---------------------------------------------------------------------
  // The three stages
  // ---------------------------------------------------------------------

  /** `(grid_size // 2, grid_size // 2)` */
  function Centre(n: nat): Pos {
    (n / 2, n / 2)
  }

  /** The border, placed unconditionally. */
  function PerimeterSteps(n: nat): (steps: seq<Step>)
    ensures |steps| == |Perimeter(n)|
    ensures forall i :: 0 <= i < |steps| ==> steps[i] == Step(Perimeter(n)[i], true)
  {
    var ps := Perimeter(n);
    seq(|ps|, i requires 0 <= i < |ps| => Step(ps[i], true))
  }

  /** `inner_corners` */
  function InnerCorners(n: int): seq<Pos> {
    [(1, 1), (1, n - 2), (n - 2, 1), (n - 2, n - 2)]
  }

  /** The inner corners, each placed only when free. */
  function CornerSteps(n: int): (steps: seq<Step>)
    ensures |steps| == 4 && forall i :: 0 <= i < 4 ==> steps[i] == Step(InnerCorners(n)[i], false)
  {
    var cs := InnerCorners(n);
    [Step(cs[0], false), Step(cs[1], false), Step(cs[2], false), Step(cs[3], false)]
  }

  function Dist(p: Pos, q: Pos): int {
    (if p.0 < q.0 then q.0 - p.0 else p.0 - q.0) + (if p.1 < q.1 then q.1 - p.1 else p.1 - q.1)
  }

  /** The left half of a ring: inner cells at Manhattan distance `radius`
      from the centre with column at most the centre column, row by row. */
  function RingCells(n: nat, radius: int): (ps: seq<Pos>)
    ensures forall p :: p in ps <==>
      InGrid(n, p) && 1 <= p.0 <= n - 2 && 1 <= p.1 <= n - 2
      && Dist(p, Centre(n)) == radius && p.1 <= Centre(n).1
  {
    var c := Centre(n);
    Filter(BlockmakerPatterns.Cells(n), (p: Pos) =>
      1 <= p.0 <= n - 2 && 1 <= p.1 <= n - 2 && Dist(p, c) == radius && p.1 <= c.1)
  }

  /** `0.25 if ring_radius > 2 else 0.1` */
  function SkipChance(radius: int): real {
    if radius > 2 then 0.25 else 0.1
  }

  /** `[pos for pos in ps if random.random() > skip]` with the draws given;
      cells past the last draw are dropped. */
  function KeepDrawn(ps: seq<Pos>, draws: seq<real>, skip: real): (r: seq<Pos>)
    ensures forall p :: p in r ==> p in ps
    ensures |draws| >= |ps| && (forall i :: 0 <= i < |ps| ==> draws[i] > skip) ==> r == ps
  {
    if ps == [] || draws == [] then []
    else (if draws[0] > skip then [ps[0]] else []) + KeepDrawn(ps[1..], draws[1..], skip)
  }

  /** `any(abs(p[0]-c[0]) + abs(p[1]-c[1]) == 1 for c in inner_corners)` */
  predicate NextToCorner(n: int, p: Pos) {
    var cs := InnerCorners(n);
    Adjacent(cs[0], p) || Adjacent(cs[1], p) || Adjacent(cs[2], p) || Adjacent(cs[3], p)
  }

  /** The steps for one ring cell: the cell and its mirror image
      (r, n - 1 - c), or nothing when the pair touches an inner corner of a
      detached ring or covers the centre. */
  function PairSteps(n: nat, attach: bool, p: Pos): (steps: seq<Step>)
    ensures steps == [] || steps == [Step(p, false), Step(Reflect(LeftRight, n, p), false)]
  {
    var m := (p.0, n - 1 - p.1);
    if !attach && (NextToCorner(n, p) || NextToCorner(n, m)) then []
    else if p == Centre(n) || m == Centre(n) then []
    else [Step(p, false), Step(m, false)]
  }

  function PairsSteps(n: nat, attach: bool, ps: seq<Pos>): seq<Step> {
    if ps == [] then [] else PairSteps(n, attach, ps[0]) + PairsSteps(n, attach, ps[1..])
  }

  /** One ring: its left-half cells, thinned by the draws, as mirror pairs. */
  function RingSteps(n: nat, attach: bool, radius: int, draws: seq<real>): seq<Step> {
    PairsSteps(n, attach, KeepDrawn(RingCells(n, radius), draws, SkipChance(radius)))
  }

  /** The rings in order of radius, ring j thinned by `draws[j]`. */
  function RingsSteps(n: nat, attach: bool, radii: seq<int>, draws: seq<seq<real>>): seq<Step>
    decreases |radii|
  {
    if radii == [] then []
    else
      RingSteps(n, attach, radii[0], if draws == [] then [] else draws[0])
      + RingsSteps(n, attach, radii[1..], if draws == [] then [] else draws[1..])
  }

  /** `sorted(shuffled(range(2, (n - 1) // 2))[:num_rings])` */
  function UsedRadii(n: nat, count: int, swaps: seq<nat>): (radii: seq<int>)
    ensures StableSort.SortedBy(radii, (x: int) => x)
    ensures forall i :: 0 <= i < |radii| ==> 2 <= radii[i] < (n - 1) / 2
    ensures |radii| == if count < 0 then 0 else Min(count, |Range(2, (n - 1) / 2)|)
  {
    var all := Shuffle(Range(2, (n - 1) / 2), swaps);
    var chosen := all[..Min(if count < 0 then 0 else count, |all|)];
    forall i | 0 <= i < |chosen|
      ensures 2 <= chosen[i] < (n - 1) / 2
    {
      assert chosen[i] in multiset(all);
    }
    var radii := StableSort.SortBy(chosen, (x: int) => x);
    StableSort.SortBySorted(chosen, (x: int) => x);
    forall i | 0 <= i < |radii|
      ensures 2 <= radii[i] < (n - 1) / 2
    {
      assert radii[i] in multiset(chosen);
    }
    radii
  }

  function Min(a: int, b: int): int {
    if a < b then a else b
  }

  /** The random outcomes one glyph run depends on: the target roll when
      the spin box is below 62, `attach_ring`, the ring-count roll, the
      shuffle's rolls and one list of skip draws per ring. */
  datatype GlyphRolls = GlyphRolls(target: nat, attach: bool, rings: nat, swaps: seq<nat>, draws: seq<seq<real>>)

  /** Step 1: the spin box value when it is at least 62, otherwise
      `random.randint(62, min(n * n, 100))`, which raises when n * n < 62. */
  function GlyphTarget(n: nat, user: int, roll: nat): (t: Option<int>)
    ensures user >= 62 ==> t == Some(user)
    ensures user < 62 ==> (t.Some? <==> n * n >= 62)
    ensures t.Some? ==> t.value >= 62
    ensures user < 62 && t.Some? ==> t.value <= 100 && t.value <= n * n
  {
    if user < 62 then RandInt(62, Min(n * n, 100), roll) else Some(user)
  }

  /** The ring stage: `random.randint(2, 4)` rings of the used radii. */
  function GlyphRings(n: nat, rolls: GlyphRolls): seq<Step> {
    var count := RandInt(2, 4, rolls.rings).GetOr(2);
    RingsSteps(n, rolls.attach, UsedRadii(n, count, rolls.swaps), rolls.draws)
  }

  /** Every placement the generator attempts, in order. */
  function GlyphSteps(n: nat, rolls: GlyphRolls): seq<Step> {
    PerimeterSteps(n) + CornerSteps(n) + GlyphRings(n, rolls)
  }

  /** The finished glyph: the board, `block_count` (= the final `block_num`),
      `blocks_placed` and the target. */
  datatype Glyph = Glyph(board: Board, blockCount: int, placed: int, target: int) {
    /** The status line reports success exactly when the target was met;
        otherwise it reports a full grid. */
    predicate Complete() { placed == target }
  }

  /** `generate_glyph_pattern` followed by `_finalize_glyph`. */
  function GenerateGlyph(n: nat, user: int, rolls: GlyphRolls): (g: Option<Glyph>)
    ensures g.Some? <==> GlyphTarget(n, user, rolls.target).Some?
    ensures g.Some? ==> g.value.board.size == n && Wf(g.value.board)
    ensures g.Some? ==> 0 <= g.value.placed <= g.value.target
    ensures g.Some? ==> g.value.blockCount == g.value.placed + 1
  {
    var target :- GlyphTarget(n, user, rolls.target);
    var r := Run(GlyphState(Board(n, [], map[]), 1, 0, false), GlyphSteps(n, rolls), target);
    Some(Glyph(r.board, r.next, r.placed, target))
  }

  // ---------------------------------------------------------------------
  // What the stages promise
  // ---------------------------------------------------------------------

  predicate Unforced(steps: seq<Step>) {
    forall i :: 0 <= i < |steps| ==> !steps[i].force
  }

  /** The ring cells come in mirror pairs, none of them the centre, and
      none is forced. */
  lemma {:induction false} PairsFacts(n: nat, attach: bool, ps: seq<Pos>, p: Pos)
    ensures Unforced(PairsSteps(n, attach, ps))
    ensures p in StepCells(PairsSteps(n, attach, ps)) ==>
      p != Centre(n) && Reflect(LeftRight, n, p) in StepCells(PairsSteps(n, attach, ps))
  {
    if ps != [] {
      var a := PairSteps(n, attach, ps[0]);
      var b := PairsSteps(n, attach, ps[1..]);
      PairsFacts(n, attach, ps[1..], p);
      StepCellsAppend(a, b);
      assert PairsSteps(n, attach, ps) == a + b;
      if p in StepCells(a) {
        ReflectInvolution(LeftRight, n, ps[0]);
        assert StepCells(a) == [ps[0], Reflect(LeftRight, n, ps[0])];
      }
    }
  }

  lemma {:induction false} RingsFacts(n: nat, attach: bool, radii: seq<int>, draws: seq<seq<real>>, p: Pos)
    ensures Unforced(RingsSteps(n, attach, radii, draws))
    ensures p in StepCells(RingsSteps(n, attach, radii, draws)) ==>
      p != Centre(n) && Reflect(LeftRight, n, p) in StepCells(RingsSteps(n, attach, radii, draws))
    decreases |radii|
  {
    if radii != [] {
      var ds := if draws == [] then [] else draws[0];
      var rest := if draws == [] then [] else draws[1..];
      var a := RingSteps(n, attach, radii[0], ds);
      var b := RingsSteps(n, attach, radii[1..], rest);
      PairsFacts(n, attach, KeepDrawn(RingCells(n, radii[0]), ds, SkipChance(radii[0])), p);
      RingsFacts(n, attach, radii[1..], rest, p);
      StepCellsAppend(a, b);
      assert RingsSteps(n, attach, radii, draws) == a + b;
    }
  }

  /** The mirror image of a border cell is on the border walk. */
  lemma PerimeterMirror(n: nat, p: Pos)
    requires p in Perimeter(n)
    ensures Reflect(LeftRight, n, p) in Perimeter(n)
  {
    if n >= 2 {
      var k :| 0 <= k < |Perimeter(n)| && Perimeter(n)[k] == p;
      PerimeterOnBorder(n, k);
      PerimeterCovers(n, Reflect(LeftRight, n, p));
    } else {
      assert n == 1 && Perimeter(n) == [(0, 0), (0, 0)];
    }
  }

  lemma CornersMirror(n: nat, p: Pos)
    requires p in InnerCorners(n)
    ensures Reflect(LeftRight, n, p) in InnerCorners(n)
  {
  }

  /** Where the cells of the whole step list come from. */
  lemma GlyphStepsCells(n: nat, rolls: GlyphRolls, p: Pos)
    ensures p in StepCells(GlyphSteps(n, rolls)) <==>
      p in Perimeter(n) || p in InnerCorners(n) || p in StepCells(GlyphRings(n, rolls))
    ensures Unforced(GlyphRings(n, rolls))
  {
    var count := RandInt(2, 4, rolls.rings).GetOr(2);
    var radii := UsedRadii(n, count, rolls.swaps);
    var ps, cs, rs := PerimeterSteps(n), CornerSteps(n), GlyphRings(n, rolls);
    assert GlyphSteps(n, rolls) == ps + cs + rs;
    StepCellsAppend(ps + cs, rs);
    StepCellsAppend(ps, cs);
    assert StepCells(ps) == Perimeter(n);
    assert StepCells(cs) == InnerCorners(n);
    RingsFacts(n, rolls.attach, radii, rolls.draws, p);
  }

  function Start(n: nat): GlyphState {
    GlyphState(Board(n, [], map[]), 1, 0, false)
  }

  /** The cells the generator tries are closed under the left/right
      mirror. */
  lemma GlyphCellsMirror(n: nat, rolls: GlyphRolls, p: Pos)
    requires p in StepCells(GlyphSteps(n, rolls))
    ensures Reflect(LeftRight, n, p) in StepCells(GlyphSteps(n, rolls))
  {
    var q := Reflect(LeftRight, n, p);
    GlyphStepsCells(n, rolls, p);
    GlyphStepsCells(n, rolls, q);
    if p in Perimeter(n) {
      PerimeterMirror(n, p);
    } else if p in InnerCorners(n) {
      CornersMirror(n, p);
    } else {
      var count := RandInt(2, 4, rolls.rings).GetOr(2);
      RingsFacts(n, rolls.attach, UsedRadii(n, count, rolls.swaps), rolls.draws, p);
    }
  }

  /** A glyph that ends at the final line, short of its target, is
      symmetric under (r, c) -> (r, n - 1 - c): the border and the inner
      corners are symmetric and ring cells are placed or skipped in mirror
      pairs. */
  lemma GlyphSymmetric(n: nat, user: int, rolls: GlyphRolls, p: Pos)
    requires GenerateGlyph(n, user, rolls).Some?
    requires !GenerateGlyph(n, user, rolls).value.Complete()
    requires p in GenerateGlyph(n, user, rolls).value.board.num
    ensures Reflect(LeftRight, n, p) in GenerateGlyph(n, user, rolls).value.board.num
  {
    var target := GlyphTarget(n, user, rolls.target).value;
    var steps := GlyphSteps(n, rolls);
    var r := Run(Start(n), steps, target);
    assert GenerateGlyph(n, user, rolls).value.board == r.board;
    assert !r.stopped;
    RunAddsOnlySteps(Start(n), steps, target, p);
    GlyphCellsMirror(n, rolls, p);
    RunFillsSteps(Start(n), steps, target, Reflect(LeftRight, n, p));
  }

  /** On grids of at least 5 the centre stays empty: it is neither on the
      border nor an inner corner, and the ring stage skips it. */
  lemma GlyphCentreEmpty(n: nat, user: int, rolls: GlyphRolls)
    requires n >= 5 && GenerateGlyph(n, user, rolls).Some?
    ensures Centre(n) !in GenerateGlyph(n, user, rolls).value.board.num
  {
    var target := GlyphTarget(n, user, rolls.target).value;
    var steps := GlyphSteps(n, rolls);
    var c := Centre(n);
    assert GenerateGlyph(n, user, rolls).value.board == Run(Start(n), steps, target).board;
    GlyphStepsCells(n, rolls, c);
    assert c !in Perimeter(n) by {
      forall k | 0 <= k < |Perimeter(n)|
        ensures Perimeter(n)[k] != c
      {
        PerimeterOnBorder(n, k);
      }
    }
    assert c !in InnerCorners(n);
    var count := RandInt(2, 4, rolls.rings).GetOr(2);
    RingsFacts(n, rolls.attach, UsedRadii(n, count, rolls.swaps), rolls.draws, c);
    assert c !in StepCells(steps);
    RunAddsOnlySteps(Start(n), steps, target, c);
  }

  /** The border steps come first, then the four corner steps. */
  lemma GlyphStepAt(n: nat, rolls: GlyphRolls, j: int)
    requires 0 <= j < |Perimeter(n)| + 4
    ensures j < |GlyphSteps(n, rolls)|
    ensures j < |Perimeter(n)| ==> GlyphSteps(n, rolls)[j] == Step(Perimeter(n)[j], true)
    ensures j >= |Perimeter(n)| ==>
      GlyphSteps(n, rolls)[j] == Step(InnerCorners(n)[j - |Perimeter(n)|], false)
  {
    var ps, cs, rs := PerimeterSteps(n), CornerSteps(n), GlyphRings(n, rolls);
    assert GlyphSteps(n, rolls) == ps + cs + rs;
    assert GlyphSteps(n, rolls)[j] == (ps + cs)[j];
  }

  /** The corner steps are the only unforced steps before the rings, so the
      forced steps are exactly the border walk. */
  lemma GlyphForcedFresh(n: nat, rolls: GlyphRolls)
    requires n >= 2
    ensures ForcedFresh(Board(n, [], map[]), GlyphSteps(n, rolls))
  {
    var steps := GlyphSteps(n, rolls);
    var m := |Perimeter(n)|;
    GlyphStepsCells(n, rolls, (0, 0));
    assert steps == PerimeterSteps(n) + CornerSteps(n) + GlyphRings(n, rolls);
    forall j, i | 0 <= j < i < |steps| && steps[i].force
      ensures steps[j].pos != steps[i].pos
    {
      if i >= m + 4 {
        assert false;
      }
      GlyphStepAt(n, rolls, i);
      GlyphStepAt(n, rolls, j);
      PerimeterDistinct(n, j, i);
    }
  }

  /** Block numbers run 1, 2, ... in placement order, `blocks_placed` is the
      number of blocks and `block_count` the next number. */
  lemma GlyphCounted(n: nat, user: int, rolls: GlyphRolls)
    requires n >= 2 && GenerateGlyph(n, user, rolls).Some?
    ensures var g := GenerateGlyph(n, user, rolls).value;
      Numbered(g.board) && |g.board.order| == g.placed
  {
    var target := GlyphTarget(n, user, rolls.target).value;
    GlyphForcedFresh(n, rolls);
    RunCounted(Start(n), GlyphSteps(n, rolls), target);
  }

  /** The inner corners of a grid of at least 4 are four different cells
      off the border. */
  lemma CornersInside(n: nat, i: int, j: int)
    requires n >= 4 && 0 <= i < 4 && 0 <= j < 4
    ensures !OnBorder(n, InnerCorners(n)[i])
    ensures i != j ==> InnerCorners(n)[i] != InnerCorners(n)[j]
  {
  }

  /** The cell of the i-th border or corner step: the border walk, then on
      grids of at least 4 the inner corners in their listed order. */
  function FixedCell(n: nat, i: int): Pos
    requires n >= 2 && 0 <= i < 4 * n
  {
    if i < 4 * n - 4 then Perimeter(n)[i] else InnerCorners(n)[i - (4 * n - 4)]
  }

  lemma FixedDistinct(n: nat, j: int, i: int)
    requires n >= 2 && 0 <= j < i < 4 * n - 4 + (if n >= 4 then 4 else 0)
    ensures FixedCell(n, j) != FixedCell(n, i)
  {
    var m := 4 * n - 4;
    if i < m {
      PerimeterDistinct(n, j, i);
    } else if j < m {
      PerimeterOnBorder(n, j);
      CornersInside(n, i - m, i - m);
    } else {
      CornersInside(n, i - m, j - m);
    }
  }

  /** Two different border or corner steps name different cells. */
  lemma GlyphStepsDiffer(n: nat, rolls: GlyphRolls, j: int, i: int)
    requires n >= 2 && 0 <= j < i < 4 * n - 4 + (if n >= 4 then 4 else 0)
    ensures i < |GlyphSteps(n, rolls)| && GlyphSteps(n, rolls)[j].pos != GlyphSteps(n, rolls)[i].pos
  {
    GlyphStepFixed(n, rolls, i);
    GlyphStepFixed(n, rolls, j);
    FixedDistinct(n, j, i);
  }

  /** The border and corner steps each land on a new cell. */
  lemma GlyphFreshAt(n: nat, rolls: GlyphRolls, i: int)
    requires n >= 2 && 0 <= i < 4 * n - 4 + (if n >= 4 then 4 else 0)
    ensures i < |GlyphSteps(n, rolls)| && FreshAt(Board(n, [], map[]), GlyphSteps(n, rolls), i)
  {
    GlyphStepAt(n, rolls, i);
    forall j | 0 <= j < i
      ensures GlyphSteps(n, rolls)[j].pos != GlyphSteps(n, rolls)[i].pos
    {
      GlyphStepsDiffer(n, rolls, j, i);
    }
  }

  lemma GlyphFreshUpTo(n: nat, rolls: GlyphRolls, k: int)
    requires n >= 2 && 0 <= k < 4 * n - 4 + (if n >= 4 then 4 else 0)
    ensures k < |GlyphSteps(n, rolls)|
    ensures forall j :: 0 <= j <= k ==> FreshAt(Board(n, [], map[]), GlyphSteps(n, rolls), j)
  {
    GlyphFreshAt(n, rolls, k);
    forall j | 0 <= j <= k
      ensures FreshAt(Board(n, [], map[]), GlyphSteps(n, rolls), j)
    {
      GlyphFreshAt(n, rolls, j);
    }
  }

  /** While the target is not reached, the k-th border or corner step
      becomes block k + 1. */
  lemma GlyphPlacedAt(n: nat, rolls: GlyphRolls, target: int, k: nat)
    requires n >= 2 && k < 4 * n - 4 + (if n >= 4 then 4 else 0) && k < target
    ensures var r := Run(Start(n), GlyphSteps(n, rolls), target);
      k < |GlyphSteps(n, rolls)| && k < |r.board.order|
      && r.board.order[k] == GlyphSteps(n, rolls)[k].pos
      && r.board.order[k] in r.board.num && r.board.num[r.board.order[k]] == k + 1
  {
    var steps := GlyphSteps(n, rolls);
    GlyphFreshUpTo(n, rolls, k);
    RunPlacesFresh(Start(n), steps, target, k);
    GlyphForcedFresh(n, rolls);
    RunCounted(Start(n), steps, target);
  }

  /** `p` is the k-th block placed and carries the number k + 1. */
  predicate NumberedAt(b: Board, k: int, p: Pos) {
    0 <= k < |b.order| && b.order[k] == p && p in b.num && b.num[p] == k + 1
  }

  /** The border and then the inner corners take the numbers 1, 2, ... in
      order, as far as the target allows: the border 1 .. 4n - 4 and, on
      grids of at least 4, the inner corners 4n - 3 .. 4n. */
  lemma GlyphFixedFirst(n: nat, user: int, rolls: GlyphRolls, k: nat)
    requires n >= 2 && GenerateGlyph(n, user, rolls).Some?
    requires k < 4 * n - 4 + (if n >= 4 then 4 else 0) && k < GenerateGlyph(n, user, rolls).value.target
    ensures NumberedAt(GenerateGlyph(n, user, rolls).value.board, k, FixedCell(n, k))
  {
    RunFixed(n, rolls, GlyphTarget(n, user, rolls.target).value, k);
  }

  lemma RunFixed(n: nat, rolls: GlyphRolls, target: int, k: nat)
    requires n >= 2 && k < 4 * n - 4 + (if n >= 4 then 4 else 0) && k < target
    ensures NumberedAt(Run(Start(n), GlyphSteps(n, rolls), target).board, k, FixedCell(n, k))
  {
    GlyphStepFixed(n, rolls, k);
    GlyphPlacedAt(n, rolls, target, k);
  }

  /** The k-th border or corner step names the k-th fixed cell. */
  lemma GlyphStepFixed(n: nat, rolls: GlyphRolls, k: nat)
    requires n >= 2 && k < 4 * n - 4 + (if n >= 4 then 4 else 0)
    ensures k < |GlyphSteps(n, rolls)| && GlyphSteps(n, rolls)[k].pos == FixedCell(n, k)
  {
    assert |Perimeter(n)| == 4 * n - 4;
    GlyphStepAt(n, rolls, k);
  }

  /** The border takes the numbers 1 .. 4n - 4 in walk order, as far as the
      target allows. */
  lemma GlyphPerimeterFirst(n: nat, user: int, rolls: GlyphRolls, k: nat)
    requires n >= 2 && GenerateGlyph(n, user, rolls).Some?
    requires k < 4 * n - 4 && k < GenerateGlyph(n, user, rolls).value.target
    ensures NumberedAt(GenerateGlyph(n, user, rolls).value.board, k, Perimeter(n)[k])
  {
    GlyphFixedFirst(n, user, rolls, k);
  }
}

=== FILE: blockmaker_grid.dfy ===
/** The numbered-block board of the block maker window: a square grid whose
    occupied cells carry block numbers, kept in a dictionary that remembers
    insertion order, and the frontier of cells where the next block may go. */
module BlockmakerGrid {

  type Pos = (int, int)

  /** `order` lists the occupied cells in dictionary order; `num` gives each
      occupied cell its block number. */
  datatype Board = Board(size: nat, order: seq<Pos>, num: map<Pos, int>)

  /** The dictionary shape: every occupied cell listed exactly once. */
  ghost predicate Wf(b: Board) {
    (forall p :: p in b.num <==> p in b.order)
    && (forall i, j :: 0 <= i < j < |b.order| ==> b.order[i] != b.order[j])
  }

  predicate InGrid(n: int, p: Pos) {
    0 <= p.0 < n && 0 <= p.1 < n
  }

  predicate Adjacent(p: Pos, q: Pos) {
    (if p.0 < q.0 then q.0 - p.0 else p.0 - q.0) + (if p.1 < q.1 then q.1 - p.1 else p.1 - q.1) == 1
  }

  /** The four neighbours in the order the code visits them: up, down, left, right. */
  function Step(p: Pos, k: int): Pos
    requires 0 <= k < 4
  {
    if k == 0 then (p.0 - 1, p.1)
    else if k == 1 then (p.0 + 1, p.1)
    else if k == 2 then (p.0, p.1 - 1)
    else (p.0, p.1 + 1)
  }

  lemma AdjacentSteps(p: Pos, q: Pos)
    ensures Adjacent(p, q) <==> q == Step(p, 0) || q == Step(p, 1) || q == Step(p, 2) || q == Step(p, 3)
  {
  }

  /** `clear_grid`: no blocks on a board of the same size. */
  function Cleared(b: Board): (r: Board)
    ensures Wf(r) && r.size == b.size && r.order == [] && r.num == map[]
  {
    Board(b.size, [], map[])
  }

  /** `add_block`: `blocks[p] = k`, which keeps the position of an existing key. */
  function AddBlock(b: Board, p: Pos, k: int): (r: Board)
    ensures Wf(b) ==> Wf(r)
    ensures r.size == b.size
    ensures r.num == b.num[p := k]
    ensures r.order == if p in b.num then b.order else b.order + [p]
  {
    if p in b.num then b.(num := b.num[p := k])
    else b.(order := b.order + [p], num := b.num[p := k])
  }

  /** Whether `p` may receive the next block. */
  predicate IsValid(b: Board, p: Pos) {
    InGrid(b.size, p)
    && (b.order == [] || (p !in b.num && exists q :: q in b.num && Adjacent(q, p)))
  }

  /** The set `update_valid_positions` computes: every cell of an empty grid,
      otherwise the free in-grid cells next to some block. */
  function ValidPositions(b: Board): set<Pos> {
    set r, c | 0 <= r < b.size && 0 <= c < b.size && IsValid(b, (r, c)) :: (r, c)
  }

  predicate ReachedBy(b: Board, p: Pos, i: int)
    requires 0 <= i <= |b.order|
  {
    exists j :: 0 <= j < i && Adjacent(b.order[j], p)
  }

  predicate Open(b: Board, p: Pos) {
    InGrid(b.size, p) && p !in b.num
  }

  /** `update_valid_positions` as the code computes it: a scan of the whole
      grid when it is empty, otherwise the four neighbours of every block. */
  method UpdateValidPositions(b: Board) returns (valid: set<Pos>)
    requires Wf(b)
    ensures valid == ValidPositions(b)
  {
    valid := {};
    var n := b.size;
    if |b.order| == 0 {
      for r := 0 to n
        invariant forall p :: p in valid <==> InGrid(n, p) && p.0 < r
      {
        for c := 0 to n
          invariant forall p :: p in valid <==> InGrid(n, p) && (p.0 < r || (p.0 == r && p.1 < c))
        {
          valid := valid + {(r, c)};
        }
      }
    } else {
      for i := 0 to |b.order|
        invariant forall p :: p in valid <==> Open(b, p) && ReachedBy(b, p, i)
      {
        var q := b.order[i];
        for k := 0 to 4
          invariant forall p :: p in valid <==>
            Open(b, p) && (ReachedBy(b, p, i) || exists k' :: 0 <= k' < k && p == Step(q, k'))
        {
          var s := Step(q, k);
          if InGrid(n, s) && s !in b.num {
            valid := valid + {s};
          }
        }
        forall p
          ensures ReachedBy(b, p, i + 1) <==> ReachedBy(b, p, i) || exists k' :: 0 <= k' < 4 && p == Step(q, k')
        {
          AdjacentSteps(q, p);
          if ReachedBy(b, p, i + 1) && !ReachedBy(b, p, i) {
            assert Adjacent(b.order[i], p);
          }
        }
      }
      forall p
        ensures ReachedBy(b, p, |b.order|) <==> exists q :: q in b.num && Adjacent(q, p)
      {
        if exists q :: q in b.num && Adjacent(q, p) {
          var q :| q in b.num && Adjacent(q, p);
          var j :| 0 <= j < |b.order| && b.order[j] == q;
        }
      }
    }
  }

  /** The block-placement editor: the board and the number the next block gets. */
  datatype Editor = Editor(board: Board, blockCount: int)

  /** `handle_place_block`. */
  function PlaceBlock(e: Editor, p: Pos): (r: Editor)
    requires Wf(e.board)
    ensures Wf(r.board) && r.board.size == e.board.size
    ensures |e.board.order| >= 144 || p in e.board.num ==> r == e
    ensures |e.board.order| < 144 && p !in e.board.num ==>
      r.board.order == e.board.order + [p]
      && r.board.num[p] == (if e.board.order == [] then 1 else e.blockCount)
      && r.blockCount == r.board.num[p] + 1
  {
    if |e.board.order| >= 144 then e
    else if p in e.board.num then e
    else if e.board.order == [] then Editor(AddBlock(e.board, p, 1), 2)
    else Editor(AddBlock(e.board, p, e.blockCount), e.blockCount + 1)
  }

  /** Placing a block never overwrites or removes one, and never takes the
      board past 144 blocks. */
  lemma PlaceBlockKeeps(e: Editor, p: Pos)
    requires Wf(e.board) && |e.board.order| <= 144
    ensures var r := PlaceBlock(e, p);
      |r.board.order| <= 144
      && (forall q :: q in e.board.num ==> q in r.board.num && r.board.num[q] == e.board.num[q])
      && |r.board.order| <= |e.board.order| + 1
  {
  }
}

=== FILE: blockmaker_patterns.dfy ===
/** The pattern generators and transformations of the block maker window:
    random growth, the "stars" generator, whole-grid mirroring and the ASCII
    pattern text.  Every random draw is an explicit roll: a list choice
    `random.choice(xs)` becomes `xs[roll % |xs|]`, so each candidate is the
    outcome of some roll and every outcome is a candidate. */
module BlockmakerPatterns {
  import opened Wrappers
  import opened PyText
  import opened BlockmakerGrid

  function Filter<T(!new)>(s: seq<T>, f: T -> bool): (r: seq<T>)
    ensures forall x :: x in r <==> x in s && f(x)
    ensures |r| <= |s|
  {
    if |s| == 0 then []
    else (if f(s[0]) then [s[0]] else []) + Filter(s[1..], f)
  }

  function RowCells(r: int, n: nat): (cs: seq<Pos>)
    ensures forall p :: p in cs <==> p.0 == r && 0 <= p.1 < n
  {
    var cs := seq(n, c => (r, c));
    assert forall p: Pos :: p.0 == r && 0 <= p.1 < n ==> cs[p.1] == p;
    cs
  }

  function RowsCells(k: nat, n: nat): (cs: seq<Pos>)
    ensures forall p :: p in cs <==> 0 <= p.0 < k && 0 <= p.1 < n
  {
    if k == 0 then [] else RowsCells(k - 1, n) + RowCells(k - 1, n)
  }

  /** Every cell of an n-by-n grid in row-major order, the order of
      `for row in range(n): for col in range(n)`. */
  function Cells(n: nat): (cs: seq<Pos>)
    ensures forall p :: p in cs <==> InGrid(n, p)
  {
    RowsCells(n, n)
  }

  /** `list(valid_positions)`, enumerated row by row. */
  function ValidList(b: Board): (vs: seq<Pos>)
    ensures forall p :: p in vs <==> p in ValidPositions(b)
  {
    Filter(Cells(b.size), p => IsValid(b, p))
  }

  /** `available_positions` of the stars generator: the free cells, row by row. */
  function FreeCells(b: Board): (fs: seq<Pos>)
    ensures forall p :: p in fs <==> InGrid(b.size, p) && p !in b.num
  {
    Filter(Cells(b.size), p => p !in b.num)
  }

  /** The generator invariant shared by random and stars generation: the
      board dictionary holds blocks numbered 1, 2, ... in placement order. */
  ghost predicate Numbered(b: Board) {
    Wf(b) && forall i :: 0 <= i < |b.order| ==> b.order[i] in b.num && b.num[b.order[i]] == i + 1
  }

  /** Every cell after the first lies in the n-by-n grid. */
  ghost predicate InsideAfterFirst(n: int, order: seq<Pos>) {
    forall i :: 1 <= i < |order| ==> InGrid(n, order[i])
  }

  /** The cell at index `i` is next to an earlier one. */
  ghost predicate AttachedAt(order: seq<Pos>, i: int)
    requires 0 <= i < |order|
  {
    exists j :: 0 <= j < i && Adjacent(order[j], order[i])
  }

  /** Every cell after the first is next to an earlier one. */
  ghost predicate Attached(order: seq<Pos>) {
    forall i :: 1 <= i < |order| ==> AttachedAt(order, i)
  }

  /** Every block after the first sits next to a block with a smaller number. */
  ghost predicate Grown(b: Board) {
    Numbered(b) && |b.order| >= 1 && InsideAfterFirst(b.size, b.order) && Attached(b.order)
  }

  lemma AttachedAppend(order: seq<Pos>, p: Pos, j: int)
    requires Attached(order) && 0 <= j < |order| && Adjacent(order[j], p)
    ensures Attached(order + [p])
  {
    var o := order + [p];
    forall i | 1 <= i < |o|
      ensures AttachedAt(o, i)
    {
      if i < |order| {
        assert AttachedAt(order, i);
        var k :| 0 <= k < i && Adjacent(order[k], order[i]);
        assert o[k] == order[k] && o[i] == order[i];
      } else {
        assert o[j] == order[j] && o[i] == p;
      }
    }
  }

  /** A fresh board with block 1 in the centre cell (n//2, n//2). */
  function Seeded(n: nat): (b: Board)
    ensures Numbered(b) && b.order == [(n / 2, n / 2)] && b.size == n
  {
    AddBlock(Board(n, [], map[]), (n / 2, n / 2), 1)
  }

  /** The loop of `generate_random_pattern`, one roll per block. */
  function RandomSteps(b: Board, target: int, rolls: seq<nat>): (r: Board)
    requires Grown(b)
    ensures Grown(r) && r.size == b.size && b.order <= r.order
    ensures |r.order| <= |b.order| || |r.order| <= target
    ensures |b.order| <= 144 ==> |r.order| <= 144
    ensures |r.order| - |b.order| == |rolls|
         || |r.order| >= target || ValidList(r) == [] || |r.order| >= 144
    decreases |rolls|
  {
    var cand := ValidList(b);
    if |b.order| < target && cand != [] && |b.order| < 144 && rolls != [] then
      var p := cand[rolls[0] % |cand|];
      GrowStep(b, p);
      var r := RandomSteps(AddBlock(b, p, |b.order| + 1), target, rolls[1..]);
      assert b.order <= b.order + [p] <= r.order;
      r
    else
      b
  }

  /** Numbering a fresh cell with the next number keeps the numbering. */
  lemma NumberedAdd(b: Board, p: Pos)
    requires Numbered(b) && p !in b.num
    ensures var b' := AddBlock(b, p, |b.order| + 1);
      Numbered(b') && b'.order == b.order + [p] && b'.size == b.size
  {
    var b' := AddBlock(b, p, |b.order| + 1);
    forall i | 0 <= i < |b'.order|
      ensures b'.order[i] in b'.num && b'.num[b'.order[i]] == i + 1
    {
      if i < |b.order| {
        assert b'.order[i] == b.order[i] && b.order[i] in b.num;
      }
    }
  }

  /** Adding the next number at a valid position keeps the board grown. */
  lemma GrowStep(b: Board, p: Pos)
    requires Grown(b) && p in ValidPositions(b)
    ensures var b' := AddBlock(b, p, |b.order| + 1);
      Grown(b') && b'.order == b.order + [p]
  {
    ValidIsValid(b, p);
    NumberedAdd(b, p);
    var j := EarlierNeighbour(b, p);
    AttachedAppend(b.order, p, j);
    InsideAppend(b.size, b.order, p);
  }

  lemma ValidIsValid(b: Board, p: Pos)
    requires p in ValidPositions(b)
    ensures IsValid(b, p)
  {
  }

  /** The index of a placed block next to a valid cell of a started board. */
  lemma EarlierNeighbour(b: Board, p: Pos) returns (j: int)
    requires Numbered(b) && b.order != [] && IsValid(b, p)
    ensures 0 <= j < |b.order| && Adjacent(b.order[j], p)
  {
    var q :| q in b.num && Adjacent(q, p);
    j :| 0 <= j < |b.order| && b.order[j] == q;
  }

  lemma InsideAppend(n: int, order: seq<Pos>, p: Pos)
    requires InsideAfterFirst(n, order) && InGrid(n, p)
    ensures InsideAfterFirst(n, order + [p])
  {
    var o := order + [p];
    assert forall i :: 1 <= i < |o| ==> o[i] == (if i < |order| then order[i] else p);
  }

  /** `generate_random_pattern`: block 1 in the centre, then each block k on a
      free cell next to an earlier block, until the target, the 144-block
      limit or a full frontier stops it. */
  function RandomPattern(n: nat, target: int, rolls: seq<nat>): (r: Board)
    ensures Grown(r) && r.size == n
    ensures r.order[0] == (n / 2, n / 2) && r.num[(n / 2, n / 2)] == 1
    ensures 1 <= |r.order| <= 144 && (|r.order| == 1 || |r.order| <= target)
  {
    RandomSteps(Seeded(n), target, rolls)
  }

  /** `get_adjacent_positions`: the in-grid neighbours, up, down, left, right. */
  function AdjacentPositions(p: Pos, n: nat): (r: seq<Pos>)
    ensures forall q :: q in r <==> InGrid(n, q) && Adjacent(p, q)
  {
    var r := Filter([Step(p, 0), Step(p, 1), Step(p, 2), Step(p, 3)], q => InGrid(n, q));
    assert forall q :: Adjacent(p, q) <==> q in [Step(p, 0), Step(p, 1), Step(p, 2), Step(p, 3)] by {
      forall q ensures Adjacent(p, q) <==> q in [Step(p, 0), Step(p, 1), Step(p, 2), Step(p, 3)] {
        AdjacentSteps(p, q);
      }
    }
    r
  }

  /** `calculate_mirror_position` */
  function MirrorPosition(p: Pos, d: char, n: int): Pos {
    if d == 'N' then (0, p.1)
    else if d == 'S' then (n - 1, p.1)
    else if d == 'E' then (p.0, n - 1)
    else if d == 'W' then (p.0, 0)
    else p
  }

  /** The mirror position of an in-grid cell in a compass direction lies on
      that edge of the grid and keeps the other coordinate. */
  lemma MirrorPositionOnEdge(p: Pos, d: char, n: nat)
    requires InGrid(n, p)
    ensures var m := MirrorPosition(p, d, n);
      InGrid(n, m)
      && (d == 'N' ==> m.0 == 0 && m.1 == p.1)
      && (d == 'S' ==> m.0 == n - 1 && m.1 == p.1)
      && (d == 'E' ==> m.1 == n - 1 && m.0 == p.0)
      && (d == 'W' ==> m.1 == 0 && m.0 == p.0)
      && (d !in "NSEW" ==> m == p)
  {
  }

  const Compass: string := "NESW"

  /** The random draws of one stars step: `random.random() > 0.2`,
      `random.random() < 0.4`, the list choice and the compass choice. */
  datatype StarRoll = StarRoll(followMirror: bool, attract: bool, pick: nat, dir: nat)

  datatype StarState = StarState(board: Board, last: Pos, mirror: Option<(Pos, char)>)

  /** One pass of the stars loop body: the cell chosen and the mirror rule
      left for the next step. */
  function StarChoice(st: StarState, roll: StarRoll): (r: (Pos, Option<(Pos, char)>))
    requires FreeCells(st.board) != []
    ensures InGrid(st.board.size, r.0) && r.0 !in st.board.num
  {
    var avail := FreeCells(st.board);
    var fallback := avail[roll.pick % |avail|];
    if st.mirror.Some? && roll.followMirror then
      var m := MirrorPosition(st.mirror.value.0, st.mirror.value.1, st.board.size);
      (if m in avail then m else fallback, None)
    else if roll.attract then
      var near := Filter(AdjacentPositions(st.last, st.board.size), p => p in avail);
      if near != [] then
        var p := near[roll.pick % |near|];
        (p, Some((p, Compass[roll.dir % 4])))
      else (fallback, st.mirror)
    else (fallback, st.mirror)
  }

  /** The loop of `generate_stars_pattern`. */
  function StarsSteps(st: StarState, target: int, rolls: seq<StarRoll>): (r: Board)
    requires Numbered(st.board) && |st.board.order| >= 1
    requires InsideAfterFirst(st.board.size, st.board.order)
    ensures Numbered(r) && r.size == st.board.size && st.board.order <= r.order
    ensures InsideAfterFirst(r.size, r.order)
    ensures |r.order| <= |st.board.order| || |r.order| <= target
    ensures |st.board.order| <= 144 ==> |r.order| <= 144
    decreases |rolls|
  {
    var b := st.board;
    if |b.order| < target && |b.order| < 144 && rolls != [] && FreeCells(b) != [] then
      var (p, m) := StarChoice(st, rolls[0]);
      NumberedAdd(b, p);
      var b' := AddBlock(b, p, |b.order| + 1);
      InsideAppend(b.size, b.order, p);
      var r := StarsSteps(StarState(b', p, m), target, rolls[1..]);
      assert b.order <= b'.order <= r.order;
      r
    else b
  }

  /** `generate_stars_pattern`: block 1 in the centre, then blocks on free
      cells anywhere on the grid (no adjacency rule), numbered in order. */
  function StarsPattern(n: nat, target: int, rolls: seq<StarRoll>): (r: Board)
    requires n >= 1
    ensures 1 <= |r.order| <= 144 && (|r.order| == 1 || |r.order| <= target)
    ensures Numbered(r) && r.size == n && r.order[0] == (n / 2, n / 2)
    ensures forall i :: 0 <= i < |r.order| ==> InGrid(n, r.order[i])
  {
    var c := (n / 2, n / 2);
    var r := StarsSteps(StarState(Seeded(n), c, None), target, rolls);
    InsideAll(n, c, r.order);
    r
  }

  /** An order that starts at an in-grid cell and stays inside after it lies
      wholly in the grid. */
  lemma InsideAll(n: int, c: Pos, order: seq<Pos>)
    requires InsideAfterFirst(n, order) && [c] <= order && InGrid(n, c)
    ensures order[0] == c && forall i :: 0 <= i < |order| ==> InGrid(n, order[i])
  {
  }

  /** Block numbers in dictionary order. */
  function NumbersOf(b: Board): (vs: seq<int>)
    requires Wf(b)
    ensures |vs| == |b.order| && forall i :: 0 <= i < |b.order| ==> vs[i] == b.num[b.order[i]]
  {
    seq(|b.order|, i requires 0 <= i < |b.order| => b.num[b.order[i]])
  }

  /** `max(xs, default=d)` */
  function MaxOr(xs: seq<int>, d: int): (m: int)
    ensures xs == [] ==> m == d
    ensures xs != [] ==> m in xs && forall i :: 0 <= i < |xs| ==> xs[i] <= m
  {
    if |xs| == 0 then d
    else if |xs| == 1 then xs[0]
    else
      var m := MaxOr(xs[1..], d);
      assert forall i :: 1 <= i < |xs| ==> xs[i] == xs[1..][i - 1];
      if xs[0] >= m then xs[0] else m
  }

  /** The two reflections of the board: `LeftRight` maps column c to
      n - 1 - c (`mirror_grid_horizontally`), `TopBottom` maps row r to
      n - 1 - r (`mirror_grid_vertically`). */
  datatype Axis = LeftRight | TopBottom

  function Reflect(ax: Axis, n: int, p: Pos): Pos {
    match ax
    case LeftRight => (p.0, n - 1 - p.1)
    case TopBottom => (n - 1 - p.0, p.1)
  }

  /** Reflecting twice gives the cell back. */
  lemma ReflectInvolution(ax: Axis, n: int, p: Pos)
    ensures Reflect(ax, n, Reflect(ax, n, p)) == p
  {
  }

  /** `p` is the mirror image of one of the first `i` blocks. */
  ghost predicate ImageOfFirst(b: Board, ax: Axis, i: int, p: Pos)
    requires i <= |b.order|
  {
    exists j :: 0 <= j < i && p == Reflect(ax, b.size, b.order[j])
  }

  /** The mirror images of the first `i` blocks that are not already blocks,
      in dictionary order. */
  function MirrorNew(b: Board, ax: Axis, i: nat): (ps: seq<Pos>)
    requires i <= |b.order|
    ensures forall k :: 0 <= k < |ps| ==> ps[k] !in b.num
  {
    if i == 0 then []
    else
      var m := Reflect(ax, b.size, b.order[i - 1]);
      MirrorNew(b, ax, i - 1) + (if m !in b.num then [m] else [])
  }

  /** Every collected cell is free and the image of one of the first `i`
      blocks. */
  lemma {:induction false} MirrorNewImages(b: Board, ax: Axis, i: nat, p: Pos)
    requires i <= |b.order| && p in MirrorNew(b, ax, i)
    ensures p !in b.num && ImageOfFirst(b, ax, i, p)
  {
    var prev := MirrorNew(b, ax, i - 1);
    var m := Reflect(ax, b.size, b.order[i - 1]);
    assert MirrorNew(b, ax, i) == prev + (if m !in b.num then [m] else []);
    if p in prev {
      MirrorNewImages(b, ax, i - 1, p);
      var j :| 0 <= j < i - 1 && p == Reflect(ax, b.size, b.order[j]);
      assert 0 <= j < i && p == Reflect(ax, b.size, b.order[j]);
    } else {
      assert p == m;
      assert 0 <= i - 1 < i && p == Reflect(ax, b.size, b.order[i - 1]);
    }
  }

  /** Every missing mirror image of the first `i` blocks is collected. */
  lemma {:induction false} MirrorNewComplete(b: Board, ax: Axis, i: nat, j: nat)
    requires j < i <= |b.order| && Reflect(ax, b.size, b.order[j]) !in b.num
    ensures Reflect(ax, b.size, b.order[j]) in MirrorNew(b, ax, i)
  {
    var x := Reflect(ax, b.size, b.order[j]);
    var prev := MirrorNew(b, ax, i - 1);
    var m := Reflect(ax, b.size, b.order[i - 1]);
    var ext := if m !in b.num then [m] else [];
    assert MirrorNew(b, ax, i) == prev + ext;
    if j < i - 1 {
      MirrorNewComplete(b, ax, i - 1, j);
      InConcat(prev, ext, x);
    } else {
      assert ext == [x];
      InConcat(prev, ext, x);
    }
  }

  lemma InConcat<T>(a: seq<T>, b: seq<T>, x: T)
    requires x in a || x in b
    ensures x in a + b
  {
  }

  lemma {:induction false} MirrorNewDistinct(b: Board, ax: Axis, i: nat)
    requires Wf(b) && i <= |b.order|
    ensures forall x, y :: 0 <= x < y < |MirrorNew(b, ax, i)| ==> MirrorNew(b, ax, i)[x] != MirrorNew(b, ax, i)[y]
  {
    if i > 0 {
      MirrorNewDistinct(b, ax, i - 1);
      var prev := MirrorNew(b, ax, i - 1);
      var m := Reflect(ax, b.size, b.order[i - 1]);
      forall x | 0 <= x < |prev|
        ensures prev[x] != m
      {
        MirrorNewImages(b, ax, i - 1, prev[x]);
        var j :| 0 <= j < i - 1 && prev[x] == Reflect(ax, b.size, b.order[j]);
        ReflectInvolution(ax, b.size, b.order[j]);
        ReflectInvolution(ax, b.size, b.order[i - 1]);
        assert b.order[j] != b.order[i - 1];
      }
    }
  }

  /** Cells that are fresh and pairwise distinct. */
  ghost predicate FreshDistinct(b: Board, ps: seq<Pos>) {
    (forall k :: 0 <= k < |ps| ==> ps[k] !in b.num)
    && (forall x, y :: 0 <= x < y < |ps| ==> ps[x] != ps[y])
  }

  lemma AddNumberedTail(b: Board, ps: seq<Pos>, next: int)
    requires |ps| > 0 && FreshDistinct(b, ps)
    ensures FreshDistinct(AddBlock(b, ps[0], next), ps[1..])
  {
    var b' := AddBlock(b, ps[0], next);
    forall k | 0 <= k < |ps| - 1 ensures ps[1..][k] !in b'.num {
      assert ps[1..][k] == ps[k + 1] != ps[0];
    }
  }

  /** Adds `ps[k]` with number `next + k`, in order. */
  function AddNumbered(b: Board, ps: seq<Pos>, next: int): (r: Board)
    ensures Wf(b) ==> Wf(r)
    ensures r.size == b.size
    decreases |ps|
  {
    if |ps| == 0 then b else AddNumbered(AddBlock(b, ps[0], next), ps[1..], next + 1)
  }

  lemma AppendFirst<T>(a: seq<T>, s: seq<T>)
    requires |s| > 0
    ensures (a + [s[0]]) + s[1..] == a + s
  {
    assert s == [s[0]] + s[1..];
  }

  /** Adding fresh cells appends them to the dictionary order. */
  lemma {:induction false} AddNumberedOrder(b: Board, ps: seq<Pos>, next: int)
    requires FreshDistinct(b, ps)
    ensures AddNumbered(b, ps, next).order == b.order + ps
    decreases |ps|
  {
    if |ps| > 0 {
      var b' := AddBlock(b, ps[0], next);
      assert b'.order == b.order + [ps[0]] by {
        assert ps[0] !in b.num;
      }
      AddNumberedTail(b, ps, next);
      AddNumberedOrder(b', ps[1..], next + 1);
      AppendFirst(b.order, ps);
    }
  }

  /** Adding fresh cells leaves the existing blocks and their numbers alone. */
  lemma {:induction false} AddNumberedKeeps(b: Board, ps: seq<Pos>, next: int, p: Pos)
    requires FreshDistinct(b, ps) && p in b.num
    ensures p in AddNumbered(b, ps, next).num
    ensures AddNumbered(b, ps, next).num[p] == b.num[p]
    decreases |ps|
  {
    if |ps| > 0 {
      var b' := AddBlock(b, ps[0], next);
      assert p != ps[0];
      AddNumberedTail(b, ps, next);
      AddNumberedKeeps(b', ps[1..], next + 1, p);
    }
  }

  /** Adding fresh cells numbers `ps[k]` with `next + k`. */
  lemma {:induction false} AddNumberedNumbers(b: Board, ps: seq<Pos>, next: int, k: nat)
    requires FreshDistinct(b, ps) && k < |ps|
    ensures ps[k] in AddNumbered(b, ps, next).num
    ensures AddNumbered(b, ps, next).num[ps[k]] == next + k
    decreases |ps|
  {
    var b' := AddBlock(b, ps[0], next);
    AddNumberedTail(b, ps, next);
    if k == 0 {
      AddNumberedKeeps(b', ps[1..], next + 1, ps[0]);
    } else {
      AddNumberedNumbers(b', ps[1..], next + 1, k - 1);
      assert ps[1..][k - 1] == ps[k];
    }
  }

  /** The shared body of `mirror_grid_horizontally` and
      `mirror_grid_vertically`: mirror images missing from the board are
      added in dictionary order, numbered from max + 1 on. */
  function MirrorGrid(b: Board, ax: Axis): (r: Board)
    requires Wf(b)
    ensures Wf(r) && r.size == b.size
    ensures r.order == b.order + MirrorNew(b, ax, |b.order|)
  {
    var ps := MirrorNew(b, ax, |b.order|);
    MirrorNewDistinct(b, ax, |b.order|);
    AddNumberedOrder(b, ps, MaxOr(NumbersOf(b), 0) + 1);
    AddNumbered(b, ps, MaxOr(NumbersOf(b), 0) + 1)
  }

  /** The editor after a mirror: the board is mirrored and `block_count`
      becomes `next_num`, the number after the last image added. That is one
      more than the largest number on the mirrored board, or 1 when the
      board is empty. */
  function MirrorEditor(e: Editor, ax: Axis): (r: Editor)
    requires Wf(e.board)
    ensures r.board == MirrorGrid(e.board, ax)
    ensures forall p :: p in r.board.num ==> r.board.num[p] < r.blockCount
    ensures r.board.order != [] ==> exists p :: p in r.board.num && r.board.num[p] == r.blockCount - 1
    ensures r.board.order == [] ==> r.blockCount == 1
  {
    var b := e.board;
    var ps := MirrorNew(b, ax, |b.order|);
    var next := MaxOr(NumbersOf(b), 0) + 1;
    var r := Editor(MirrorGrid(b, ax), next + |ps|);
    MirrorCount(b, ax);
    r
  }

  /** The count after a mirror bounds the mirrored board's numbers and is
      attained by one of them, less one. */
  lemma MirrorCount(b: Board, ax: Axis)
    requires Wf(b)
    ensures var g := MirrorGrid(b, ax);
            var c := MaxOr(NumbersOf(b), 0) + 1 + |MirrorNew(b, ax, |b.order|)|;
            (forall p :: p in g.num ==> g.num[p] < c) &&
            (g.order != [] ==> exists p :: p in g.num && g.num[p] == c - 1) &&
            (g.order == [] ==> c == 1)
  {
    forall p | p in MirrorGrid(b, ax).num
      ensures MirrorGrid(b, ax).num[p] < MaxOr(NumbersOf(b), 0) + 1 + |MirrorNew(b, ax, |b.order|)|
    {
      MirrorCountBound(b, ax, p);
    }
    MirrorCountAttained(b, ax);
  }

  lemma MirrorCountBound(b: Board, ax: Axis, p: Pos)
    requires Wf(b) && p in MirrorGrid(b, ax).num
    ensures MirrorGrid(b, ax).num[p] < MaxOr(NumbersOf(b), 0) + 1 + |MirrorNew(b, ax, |b.order|)|
  {
    var ps := MirrorNew(b, ax, |b.order|);
    assert p in b.order + ps;
    if p in b.order {
      var i :| 0 <= i < |b.order| && b.order[i] == p;
      MirrorGridKeeps(b, ax, p);
      assert NumbersOf(b)[i] == b.num[p];
    } else {
      var k :| 0 <= k < |ps| && ps[k] == p;
      MirrorGridNumbers(b, ax, k);
    }
  }

  lemma MirrorCountAttained(b: Board, ax: Axis)
    requires Wf(b)
    ensures var g := MirrorGrid(b, ax);
            var c := MaxOr(NumbersOf(b), 0) + 1 + |MirrorNew(b, ax, |b.order|)|;
            (g.order != [] ==> exists p :: p in g.num && g.num[p] == c - 1) &&
            (g.order == [] ==> c == 1)
  {
    var ps := MirrorNew(b, ax, |b.order|);
    var m := MaxOr(NumbersOf(b), 0);
    if |ps| > 0 {
      MirrorGridNumbers(b, ax, |ps| - 1);
      assert ps[|ps| - 1] in MirrorGrid(b, ax).order;
    } else if b.order != [] {
      var i :| 0 <= i < |NumbersOf(b)| && NumbersOf(b)[i] == m;
      MirrorGridKeeps(b, ax, b.order[i]);
    }
  }

  /** `mirror_grid_horizontally`: reflection across the vertical axis. */
  function MirrorHorizontally(e: Editor): (r: Editor)
    requires Wf(e.board)
    ensures Wf(r.board) && r.board.size == e.board.size
    ensures r.board.order == e.board.order + MirrorNew(e.board, LeftRight, |e.board.order|)
    ensures forall p :: p in r.board.num ==> r.board.num[p] < r.blockCount
  {
    MirrorEditor(e, LeftRight)
  }

  /** `mirror_grid_vertically`: reflection across the horizontal axis. */
  function MirrorVertically(e: Editor): (r: Editor)
    requires Wf(e.board)
    ensures Wf(r.board) && r.board.size == e.board.size
    ensures r.board.order == e.board.order + MirrorNew(e.board, TopBottom, |e.board.order|)
    ensures forall p :: p in r.board.num ==> r.board.num[p] < r.blockCount
  {
    MirrorEditor(e, TopBottom)
  }

  /** After a mirror, the next hand-placed block is numbered above every
      block already on the board, and none of them is renumbered. */
  lemma MirrorThenPlace(e: Editor, ax: Axis, p: Pos)
    requires Wf(e.board)
    requires |MirrorEditor(e, ax).board.order| < 144 && p !in MirrorEditor(e, ax).board.num
    ensures var m := MirrorEditor(e, ax);
            var r := PlaceBlock(m, p);
            p in r.board.num &&
            forall q :: q in m.board.num ==> q in r.board.num && r.board.num[q] == m.board.num[q] < r.board.num[p]
  {
    var m := MirrorEditor(e, ax);
    PlaceBlockKeeps(m, p);
  }

  /** Mirroring never renumbers an existing block. */
  lemma MirrorGridKeeps(b: Board, ax: Axis, p: Pos)
    requires Wf(b) && p in b.num
    ensures p in MirrorGrid(b, ax).num && MirrorGrid(b, ax).num[p] == b.num[p]
  {
    MirrorNewDistinct(b, ax, |b.order|);
    AddNumberedKeeps(b, MirrorNew(b, ax, |b.order|), MaxOr(NumbersOf(b), 0) + 1, p);
  }

  /** The added mirror images get the numbers after the largest existing one,
      in order. */
  lemma {:induction false} MirrorGridNumbers(b: Board, ax: Axis, k: nat)
    requires Wf(b) && k < |MirrorNew(b, ax, |b.order|)|
    ensures MirrorGrid(b, ax).num[MirrorNew(b, ax, |b.order|)[k]] == MaxOr(NumbersOf(b), 0) + 1 + k
  {
    var ps := MirrorNew(b, ax, |b.order|);
    var next := MaxOr(NumbersOf(b), 0) + 1;
    MirrorNewDistinct(b, ax, |b.order|);
    AddNumberedNumbers(b, ps, next, k);
    assert MirrorGrid(b, ax) == AddNumbered(b, ps, next);
  }

  /** After mirroring, the mirror image of every occupied cell is occupied:
      the board is symmetric about the axis. */
  lemma MirrorGridClosed(b: Board, ax: Axis, p: Pos)
    requires Wf(b) && p in MirrorGrid(b, ax).num
    ensures Reflect(ax, b.size, p) in MirrorGrid(b, ax).num
  {
    var r := MirrorGrid(b, ax);
    var ps := MirrorNew(b, ax, |b.order|);
    var q := Reflect(ax, b.size, p);
    assert p in r.order;
    if p in b.num {
      var j :| 0 <= j < |b.order| && b.order[j] == p;
      if q !in b.num {
        MirrorNewComplete(b, ax, |b.order|, j);
        assert q in r.order;
      } else {
        var i :| 0 <= i < |b.order| && b.order[i] == q;
        assert q in r.order;
      }
    } else {
      assert p in ps;
      MirrorNewImages(b, ax, |b.order|, p);
      var j :| 0 <= j < |b.order| && p == Reflect(ax, b.size, b.order[j]);
      ReflectInvolution(ax, b.size, b.order[j]);
      assert q in r.order;
    }
  }
}

=== FILE: combat.dfy ===
/** Turn-based combat between launched mechas and void enemies
    (dream_mecha/core/systems/combat_system.py).  The float parts are
    parameters: the damage formula `_calculate_damage` (`Strike`), the
    damage a mecha's defence lets through (`Absorb`) and the three scaled
    enemy stats.  Mecha objects are identified by their player id. */
module Combat {
  import opened Wrappers
  import opened PyText
  import opened Dicts
  import opened StableSort
  import opened Mecha

  datatype Phase = Preparing | Launching | Fighting | Resolved {
    function Name(): string {
      match this
      case Preparing => "preparing"
      case Launching => "launching"
      case Fighting => "combat"
      case Resolved => "resolved"
    }
  }

  datatype Enemy = Enemy(name: string, hp: int, maxHp: int, attack: int, defense: int, speed: int, voidstateLevel: int)

  datatype System = System(state: Phase, launched: seq<Mecha>, enemies: seq<Enemy>, log: seq<string>, voidstate: int)

  /** `_calculate_damage(attack, defense, attacker_speed, defender_speed)` */
  type Strike = (int, int, int, int) -> int
  /** The damage `MechaStats.take_damage` lets through its defence. */
  type Absorb = (Stats, int) -> int

  function New(): (c: System)
    ensures c.state == Preparing && c.launched == [] && c.enemies == [] && c.log == [] && c.voidstate == 0
  {
    System(Preparing, [], [], [], 0)
  }

  predicate Queued(c: System, playerId: string) {
    exists i :: 0 <= i < |c.launched| && c.launched[i].playerId == playerId
  }

  /** No player has two mechas in the queue. */
  predicate DistinctIds(ms: seq<Mecha>) {
    forall i, j :: 0 <= i < j < |ms| ==> ms[i].playerId != ms[j].playerId
  }

  /** `add_mecha` as the source has it: it asks the mecha `can_launch()`, a
      method `Mecha` does not define, so every call raises AttributeError. */
  function AddMechaAsWritten(c: System, m: Mecha): (r: Result<(System, bool)>)
    ensures r.Err?
  {
    Err("'Mecha' object has no attribute 'can_launch'")
  }

  /** `add_mecha` with the launch check it evidently means
      (`stats.is_launchable()`): a launchable mecha not yet queued is
      launched and queued; otherwise nothing changes. */
  function AddMecha(c: System, m: Mecha): (r: (System, bool))
    ensures r.1 <==> IsLaunchable(m.stats) && !Queued(c, m.playerId)
    ensures r.1 ==> r.0 == c.(launched := c.launched + [m.(state := Launched)])
    ensures !r.1 ==> r.0 == c
  {
    if !IsLaunchable(m.stats) then (c, false)
    else if Queued(c, m.playerId) then (c, false)
    else
      var (launched, ok) := Launch(m);
      if ok then (c.(launched := c.launched + [launched]), true) else (c, false)
  }

  /** A mecha is queued at most once. */
  lemma AddMechaDistinct(c: System, m: Mecha)
    requires DistinctIds(c.launched)
    ensures DistinctIds(AddMecha(c, m).0.launched)
    ensures AddMecha(c, m).1 ==> Queued(AddMecha(c, m).0, m.playerId)
  {
    var (d, ok) := AddMecha(c, m);
    if ok {
      assert d.launched[|c.launched|].playerId == m.playerId;
    }
  }

  /** A fresh mecha is refused with an error by the source's `add_mecha`
      but queued by the intended one. */
  lemma AddMechaFreshMecha()
    ensures AddMechaAsWritten(New(), NewMecha("pilot", "Mecha-pilot")).Err?
    ensures AddMecha(New(), NewMecha("pilot", "Mecha-pilot")).1
  {
  }

  // ---------------------------------------------------------------------
  // Enemies
  // ---------------------------------------------------------------------

  /** One enemy plus one per fifteen voidstate points, at most five
      (`range` of a negative count is empty). */
  function EnemyCount(voidstate: int): (n: nat)
    ensures n <= 5
    ensures voidstate >= 0 ==> 1 <= n && (n == 5 || 15 * (n - 1) <= voidstate < 15 * n)
    ensures voidstate >= 60 <==> n == 5
  {
    var base := 1 + voidstate / 15;
    if base > 5 then 5 else if base < 0 then 0 else base
  }

  /** The speed `_create_enemy` gives: 10 + 2v, with a quarter more per ten
      points from voidstate 40 on (products of a quarter are exact in
      floating point, and the positive product truncates like `/`). */
  function EnemySpeed(voidstate: int): (s: int)
    ensures voidstate < 40 ==> s == 10 + 2 * voidstate
    ensures voidstate >= 40 ==> s >= 10 + 2 * voidstate
  {
    if voidstate >= 40 then
      var base := 10 + 2 * voidstate;
      var quarters := 4 + (voidstate - 30) / 10;
      assert base * quarters >= base * 4 by {
        assert quarters >= 4;
      }
      base * quarters / 4
    else 10 + 2 * voidstate
  }

  /** The three float-scaled stats, the same for every enemy of a round. */
  datatype Scaled = Scaled(hp: int, attack: int, defense: int)

  function Spawn(i: nat, voidstate: int, scaled: Scaled): Enemy {
    Enemy("Void Drone " + ShowInt(i + 1), scaled.hp, scaled.hp, scaled.attack, scaled.defense,
      EnemySpeed(voidstate), voidstate)
  }

  /** `generate_enemies`: replaces the enemies and sets the voidstate. */
  function GenerateEnemies(c: System, voidstate: int, scaled: Scaled): (r: System)
    ensures r == c.(enemies := r.enemies, voidstate := voidstate)
    ensures |r.enemies| == EnemyCount(voidstate)
    ensures forall i :: 0 <= i < |r.enemies| ==>
      r.enemies[i].voidstateLevel == voidstate && r.enemies[i].hp == r.enemies[i].maxHp == scaled.hp
  {
    c.(enemies := seq(EnemyCount(voidstate), i requires 0 <= i => Spawn(i, voidstate, scaled)), voidstate := voidstate)
  }

  // ---------------------------------------------------------------------
  // Resolution
  // ---------------------------------------------------------------------

  /** `max(s, key=...)`: the first element with the largest key. */
  function FirstMax<T>(s: seq<T>, key: T -> int): (i: nat)
    requires |s| > 0
    ensures i < |s|
    ensures forall j :: 0 <= j < |s| ==> key(s[j]) <= key(s[i])
    ensures forall j :: 0 <= j < i ==> key(s[j]) < key(s[i])
  {
    if |s| == 1 then 0
    else
      var k := FirstMax(s[1..], key) + 1;
      assert forall j :: 1 <= j < |s| ==> s[j] == s[1..][j - 1];
      if key(s[0]) >= key(s[k]) then 0 else k
  }

  predicate Alive(es: seq<Enemy>) {
    forall i :: 0 <= i < |es| ==> es[i].hp > 0
  }

  function Indices(n: nat): (r: seq<int>)
    ensures |r| == n && forall i :: 0 <= i < n ==> r[i] == i
  {
    seq(n, i requires 0 <= i < n => i)
  }

  /** `sorted(launched, key=speed, reverse=True)` as positions into the
      queue: fastest first, ties in queue order. */
  function SpeedOrder(ms: seq<Mecha>): (order: seq<int>)
    ensures |order| == |ms| && multiset(order) == multiset(Indices(|ms|))
    ensures InRange(order, ms)
    ensures forall p, q :: 0 <= p < q < |order| ==> ms[order[p]].stats.speed >= ms[order[q]].stats.speed
  {
    var key := (i: int) => if 0 <= i < |ms| then -ms[i].stats.speed else 0;
    var order := SortBy(Indices(|ms|), key);
    SortBySorted(Indices(|ms|), key);
    assert InRange(order, ms) by {
      forall p | 0 <= p < |order| ensures 0 <= order[p] < |ms| {
        assert order[p] in multiset(Indices(|ms|));
        var i :| 0 <= i < |ms| && Indices(|ms|)[i] == order[p];
      }
    }
    assert |order| == |multiset(order)| == |Indices(|ms|)|;
    order
  }

  /** Every position points into the queue. */
  predicate InRange(order: seq<int>, ms: seq<Mecha>) {
    forall p :: 0 <= p < |order| ==> 0 <= order[p] < |ms|
  }

  function Attacks(attacker: string, target: string, damage: int): string {
    attacker + " attacks " + target + " for " + ShowInt(damage) + " damage"
  }

  /** The mecha attack phase: each living mecha, fastest first, strikes the
      enemy with the most hit points; an enemy brought to 0 is removed. */
  function AttackPhase(ms: seq<Mecha>, order: seq<int>, enemies: seq<Enemy>, log: seq<string>, strike: Strike): (r: (seq<Enemy>, seq<string>))
    requires InRange(order, ms)
    ensures |r.0| <= |enemies|
    ensures Alive(enemies) ==> Alive(r.0)
    decreases |order|
  {
    if |order| == 0 then (enemies, log)
    else
      var m := ms[order[0]];
      if m.stats.hp <= 0 then AttackPhase(ms, order[1..], enemies, log, strike)
      else if |enemies| == 0 then (enemies, log)
      else
        var t := FirstMax(enemies, (e: Enemy) => e.hp);
        var target := enemies[t];
        var damage := strike(m.stats.attack, target.defense, m.stats.speed, target.speed);
        var hp := if target.hp - damage < 0 then 0 else target.hp - damage;
        var logged := log + [Attacks(m.name, target.name, damage)];
        if hp <= 0 then
          var rest := enemies[..t] + enemies[t + 1..];
          assert Alive(enemies) ==> Alive(rest) by {
            forall i | 0 <= i < |rest| ensures rest[i] in enemies {
              if i < t { assert rest[i] == enemies[i]; } else { assert rest[i] == enemies[i + 1]; }
            }
          }
          AttackPhase(ms, order[1..], rest, logged + [target.name + " destroyed!"], strike)
        else
          AttackPhase(ms, order[1..], enemies[t := target.(hp := hp)], logged, strike)
  }

  /** The retaliation phase: each enemy still standing hits the mecha with
      the most hit points, unless that mecha is down already. */
  function Retaliate(ms: seq<Mecha>, order: seq<int>, foes: seq<Enemy>, log: seq<string>, strike: Strike, absorb: Absorb): (r: (seq<Mecha>, seq<string>))
    requires InRange(order, ms)
    ensures |r.0| == |ms|
    ensures forall i :: 0 <= i < |ms| ==> r.0[i].playerId == ms[i].playerId
    ensures forall i :: 0 <= i < |ms| ==> r.0[i] == ms[i].(stats := r.0[i].stats, state := r.0[i].state)
    decreases |foes|
  {
    if |foes| == 0 then (ms, log)
    else
      var e := foes[0];
      if e.hp <= 0 || |order| == 0 then Retaliate(ms, order, foes[1..], log, strike, absorb)
      else
        var t := order[FirstMax(order, (i: int) => if 0 <= i < |ms| then ms[i].stats.hp else 0)];
        var target := ms[t];
        if target.stats.hp <= 0 then Retaliate(ms, order, foes[1..], log, strike, absorb)
        else
          var damage := strike(e.attack, target.stats.defense, e.speed, target.stats.speed);
          var actual := absorb(target.stats, damage);
          var hit := ApplyDamage(target, actual);
          var logged := log + [Attacks(e.name, target.name, actual)]
            + (if hit.stats.hp <= 0 then [target.name + " has been downed!"] else []);
          Retaliate(ms[t := hit], order, foes[1..], logged, strike, absorb)
  }

  /** A living mecha earns the whole reward, a downed one half of it but
      never less than 500. */
  function Reward(total: int, alive: bool): (r: int)
    ensures alive ==> r == total
    ensures !alive ==> r >= 500 && (r == 500 || total / 2 == r)
  {
    if alive then total else if 500 < total / 2 then total / 2 else 500
  }

  /** The reward pool: 500, plus 200 per defeated enemy, 150 per voidstate
      point and 1000 for a clean sweep. */
  function TotalReward(defeated: int, voidstate: int, victory: bool): (t: int)
    ensures defeated >= 0 && voidstate >= 0 ==> t >= 500
    ensures t == 500 + 200 * defeated + 150 * voidstate + (if victory then 1000 else 0)
  {
    500 + defeated * 200 + voidstate * 150 + (if victory then 1000 else 0)
  }

  /** `rewards[mecha.player_id] = ...` for each mecha in turn. */
  function RewardsFrom(acc: Dict<string, int>, ms: seq<Mecha>, total: int): (r: Dict<string, int>)
    requires Valid(acc)
    ensures Valid(r)
    decreases |ms|
  {
    if |ms| == 0 then acc
    else RewardsFrom(Put(acc, ms[0].playerId, Reward(total, ms[0].stats.hp > 0)), ms[1..], total)
  }

  /** A player with no mecha in the list keeps the entry it had. */
  lemma {:induction false} RewardsFromOthers(acc: Dict<string, int>, ms: seq<Mecha>, total: int, k: string)
    requires Valid(acc)
    requires forall i :: 0 <= i < |ms| ==> ms[i].playerId != k
    ensures Get(RewardsFrom(acc, ms, total), k) == Get(acc, k)
    decreases |ms|
  {
    if |ms| > 0 {
      var next := Put(acc, ms[0].playerId, Reward(total, ms[0].stats.hp > 0));
      assert forall i :: 0 <= i < |ms| - 1 ==> ms[1..][i] == ms[i + 1];
      RewardsFromOthers(next, ms[1..], total, k);
    }
  }

  /** The last mecha of a player decides that player's reward. */
  lemma {:induction false} RewardsFromLast(acc: Dict<string, int>, ms: seq<Mecha>, total: int, i: nat)
    requires Valid(acc) && i < |ms|
    requires forall j :: i < j < |ms| ==> ms[j].playerId != ms[i].playerId
    ensures Get(RewardsFrom(acc, ms, total), ms[i].playerId) == Some(Reward(total, ms[i].stats.hp > 0))
    decreases |ms|
  {
    var next := Put(acc, ms[0].playerId, Reward(total, ms[0].stats.hp > 0));
    assert forall j :: 0 <= j < |ms| - 1 ==> ms[1..][j] == ms[j + 1];
    if i == 0 {
      RewardsFromOthers(next, ms[1..], total, ms[0].playerId);
    } else {
      RewardsFromLast(next, ms[1..], total, i - 1);
    }
  }

  /** Every reward is at least 500 when the pool is. */
  lemma {:induction false} RewardsAtLeast(acc: Dict<string, int>, ms: seq<Mecha>, total: int, k: string)
    requires Valid(acc) && total >= 500
    requires forall k' :: Get(acc, k').Some? ==> Get(acc, k').value >= 500
    ensures Get(RewardsFrom(acc, ms, total), k).Some? ==> Get(RewardsFrom(acc, ms, total), k).value >= 500
    decreases |ms|
  {
    if |ms| > 0 {
      var next := Put(acc, ms[0].playerId, Reward(total, ms[0].stats.hp > 0));
      forall k' | Get(next, k').Some? ensures Get(next, k').value >= 500 {
        if k' != ms[0].playerId {
          assert Get(next, k') == Get(acc, k');
        }
      }
      RewardsAtLeast(next, ms[1..], total, k);
    }
  }

  function CountDead(es: seq<Enemy>): (n: nat)
    ensures n <= |es|
    ensures Alive(es) ==> n == 0
  {
    if |es| == 0 then 0
    else
      assert Alive(es) ==> Alive(es[1..]) by {
        assert forall i :: 1 <= i < |es| ==> es[i] == es[1..][i - 1];
      }
      (if es[0].hp <= 0 then 1 else 0) + CountDead(es[1..])
  }

  /** `_calculate_rewards` as the source has it: it counts defeated enemies
      among those still in the list, but the attack phase has removed every
      enemy it brought to 0 hit points. */
  function RewardsAsWritten(launched: seq<Mecha>, remaining: seq<Enemy>, voidstate: int): (r: Dict<string, int>)
    ensures Alive(remaining) ==>
      r == RewardsFrom([], launched, TotalReward(0, voidstate, remaining == []))
  {
    var defeated := CountDead(remaining);
    RewardsFrom([], launched, TotalReward(defeated, voidstate, defeated == |remaining|))
  }

  /** `_calculate_rewards` as intended: the defeated enemies are those the
      round removed, and a clean sweep is an empty list. */
  function CalculateRewards(launched: seq<Mecha>, initial: nat, remaining: seq<Enemy>, voidstate: int): (r: Dict<string, int>)
    requires |remaining| <= initial
    ensures Valid(r)
  {
    RewardsFrom([], launched, TotalReward(initial - |remaining|, voidstate, remaining == []))
  }

  /** Each player in the queue is paid the reward of its last queued mecha,
      and nobody else is paid. */
  lemma RewardsPerMecha(launched: seq<Mecha>, initial: nat, remaining: seq<Enemy>, voidstate: int)
    requires |remaining| <= initial
    ensures var r := CalculateRewards(launched, initial, remaining, voidstate);
      var total := TotalReward(initial - |remaining|, voidstate, remaining == []);
      && (forall i :: 0 <= i < |launched| && (forall j :: i < j < |launched| ==> launched[j].playerId != launched[i].playerId) ==>
            Get(r, launched[i].playerId) == Some(Reward(total, launched[i].stats.hp > 0)))
      && (forall k :: (forall i :: 0 <= i < |launched| ==> launched[i].playerId != k) ==> Get(r, k) == None)
  {
    var total := TotalReward(initial - |remaining|, voidstate, remaining == []);
    forall i | 0 <= i < |launched| && (forall j :: i < j < |launched| ==> launched[j].playerId != launched[i].playerId)
      ensures Get(RewardsFrom([], launched, total), launched[i].playerId) == Some(Reward(total, launched[i].stats.hp > 0))
    {
      RewardsFromLast([], launched, total, i);
    }
    forall k | forall i :: 0 <= i < |launched| ==> launched[i].playerId != k
      ensures Get(RewardsFrom([], launched, total), k) == None
    {
      RewardsFromOthers([], launched, total, k);
    }
  }

  /** At a non-negative voidstate every reward is at least 500. */
  lemma RewardsAtLeast500(launched: seq<Mecha>, initial: nat, remaining: seq<Enemy>, voidstate: int, k: string)
    requires |remaining| <= initial && voidstate >= 0
    ensures var r := CalculateRewards(launched, initial, remaining, voidstate);
      Get(r, k).Some? ==> Get(r, k).value >= 500
  {
    RewardsAtLeast([], launched, TotalReward(initial - |remaining|, voidstate, remaining == []), k);
  }

  /** With every enemy at positive hit points to begin with, the source's
      rewards never include the 200-per-enemy bonus: a round that destroys
      one of two enemies pays a living mecha 500 instead of 700. */
  lemma DefeatBonusLost(m: Mecha, survivor: Enemy)
    requires m.stats.hp > 0 && survivor.hp > 0
    ensures Get(RewardsAsWritten([m], [survivor], 0), m.playerId) == Some(500)
    ensures Get(CalculateRewards([m], 2, [survivor], 0), m.playerId) == Some(700)
  {
    assert Alive([survivor]);
    RewardsFromLast([], [m], TotalReward(0, 0, false), 0);
    RewardsFromLast([], [m], TotalReward(1, 0, false), 0);
  }

  datatype Outcome =
    | NoCombatants
    | Report(enemiesRemaining: nat, mechasDowned: nat, rewards: Dict<string, int>, voidstateChange: int,
             log: seq<string>, totalEnemies: nat, enemiesDefeated: nat)

  function CountDowned(ms: seq<Mecha>): (n: nat)
    ensures n <= |ms|
  {
    if |ms| == 0 then 0 else (if ms[0].stats.hp <= 0 then 1 else 0) + CountDowned(ms[1..])
  }

  /** The report counts of `resolve_combat` as the source has them: both
      look for enemies at 0 hit points in the list the round already
      cleared of them. */
  function ReportCountsAsWritten(remaining: seq<Enemy>): (r: (nat, nat))
    ensures Alive(remaining) ==> r == (|remaining|, 0)
  {
    (|remaining| + CountDead(remaining), CountDead(remaining))
  }

  /** A round that destroys one of two enemies reports one enemy in total
      and none defeated. */
  lemma ReportCountsLost(survivor: Enemy)
    requires survivor.hp > 0
    ensures ReportCountsAsWritten([survivor]) == (1, 0)
  {
    assert Alive([survivor]);
  }

  /** After the round the voidstate rises by one if any enemy survived and
      otherwise falls by one, not below 0. */
  function Drift(voidstate: int, survivors: nat): (v: int)
    ensures survivors > 0 ==> v == voidstate + 1
    ensures survivors == 0 ==> v >= 0 && (v == 0 || v == voidstate - 1)
  {
    if survivors > 0 then voidstate + 1 else if 0 > voidstate - 1 then 0 else voidstate - 1
  }

  /** `resolve_combat`: nothing happens without mechas or enemies;
      otherwise the attack and retaliation phases run, rewards are computed
      from the voidstate before it drifts, and the round is resolved. */
  function ResolveCombat(c: System, strike: Strike, absorb: Absorb): (r: (System, Outcome))
    ensures r.1.NoCombatants? <==> c.launched == [] || c.enemies == []
    ensures r.1.NoCombatants? ==> r.0 == c
    ensures r.1.Report? ==>
      && r.0.state == Resolved
      && |r.0.launched| == |c.launched|
      && (forall i :: 0 <= i < |c.launched| ==> r.0.launched[i].playerId == c.launched[i].playerId)
      && |r.0.enemies| <= |c.enemies|
      && r.0.voidstate == r.1.voidstateChange == Drift(c.voidstate, |r.0.enemies|)
      && r.1.enemiesRemaining == |r.0.enemies|
      && r.1.totalEnemies == |c.enemies|
      && r.1.enemiesDefeated == |c.enemies| - |r.0.enemies|
      && r.1.rewards == CalculateRewards(r.0.launched, |c.enemies|, r.0.enemies, c.voidstate)
      && r.1.log == r.0.log
    ensures r.1.Report? && Alive(c.enemies) ==> Alive(r.0.enemies)
  {
    if |c.launched| == 0 || |c.enemies| == 0 then (c, NoCombatants)
    else
      var order := SpeedOrder(c.launched);
      var (enemies, attackLog) := AttackPhase(c.launched, order, c.enemies, [], strike);
      var (ms, log) := Retaliate(c.launched, order, enemies, attackLog, strike, absorb);
      var rewards := CalculateRewards(ms, |c.enemies|, enemies, c.voidstate);
      var v := Drift(c.voidstate, |enemies|);
      (System(Resolved, ms, enemies, log, v),
       Report(|enemies|, CountDowned(ms), rewards, v, log, |c.enemies|, |c.enemies| - |enemies|))
  }

  /** `reset_combat`: back to preparing with empty lists; the voidstate
      stays. */
  function ResetCombat(c: System): (r: System)
    ensures r.state == Preparing && r.launched == [] && r.enemies == [] && r.log == []
    ensures r.voidstate == c.voidstate
  {
    System(Preparing, [], [], [], c.voidstate)
  }
}

=== FILE: combat_history.dfy ===
/** Battle records and the statistics kept over them
    (dream_mecha/core/managers/combat_history_manager.py).  The record file
    is a sequence of records in saving order; clock readings are strings
    passed in. */
module CombatHistory {
  import opened Wrappers
  import opened Dicts
  import C = Combat

  datatype CombatRecord = CombatRecord(
    playerId: string, username: string, battleId: string, timestamp: string,
    enemiesDefeated: int, totalEnemies: int, damageDealt: int, damageTaken: int,
    zoltanEarned: int, voidstateLevel: int,
    flawlessVictory: bool, mechaSurvived: bool,
    mechaStats: Dict<string, int>, boardSize: int, piecesEquipped: int)

  /** The running sums `_calculate_stats_from_records` makes over a list of
      records; `highestVoidstate` is None for no records. */
  datatype Tally = Tally(battles: nat, enemiesDefeated: int, damageDealt: int, damageTaken: int,
                         zoltanEarned: int, flawless: nat, survived: nat, voidstateSum: int,
                         highestVoidstate: Option<int>)

  const Zero := Tally(0, 0, 0, 0, 0, 0, 0, 0, None)

  function MaxOf(a: Option<int>, b: Option<int>): Option<int> {
    if a.None? then b
    else if b.None? then a
    else if a.value < b.value then b else a
  }

  /** Two tallies of consecutive stretches of history added together. */
  function Combine(a: Tally, b: Tally): Tally {
    Tally(a.battles + b.battles, a.enemiesDefeated + b.enemiesDefeated, a.damageDealt + b.damageDealt,
          a.damageTaken + b.damageTaken, a.zoltanEarned + b.zoltanEarned, a.flawless + b.flawless,
          a.survived + b.survived, a.voidstateSum + b.voidstateSum,
          MaxOf(a.highestVoidstate, b.highestVoidstate))
  }

  /** The tally of a single record. */
  function One(r: CombatRecord): Tally {
    Tally(1, r.enemiesDefeated, r.damageDealt, r.damageTaken, r.zoltanEarned,
          if r.flawlessVictory then 1 else 0, if r.mechaSurvived then 1 else 0,
          r.voidstateLevel, Some(r.voidstateLevel))
  }

  /** The tally of a list of records: one battle per record, with the
      counted victories and survivals among them. */
  function TallyOf(rs: seq<CombatRecord>): (t: Tally)
    ensures t.battles == |rs|
    ensures t.flawless <= t.battles && t.survived <= t.battles
    ensures t.highestVoidstate.None? <==> rs == []
    decreases |rs|
  {
    if rs == [] then Zero else Combine(TallyOf(rs[..|rs| - 1]), One(rs[|rs| - 1]))
  }

  /** The highest voidstate of a tally is one of the records' levels and at
      least all of them. */
  lemma {:induction false} HighestIsMax(rs: seq<CombatRecord>)
    requires rs != []
    ensures (exists i :: 0 <= i < |rs| && rs[i].voidstateLevel == TallyOf(rs).highestVoidstate.value)
    ensures forall i :: 0 <= i < |rs| ==> rs[i].voidstateLevel <= TallyOf(rs).highestVoidstate.value
    decreases |rs|
  {
    var init := rs[..|rs| - 1];
    var last := rs[|rs| - 1];
    assert TallyOf(rs) == Combine(TallyOf(init), One(last));
    if init == [] {
      assert TallyOf(init) == Zero;
      assert rs[0] == last;
    } else {
      HighestIsMax(init);
      var t := TallyOf(init);
      var ht := t.highestVoidstate.value;
      var h := if ht < last.voidstateLevel then last.voidstateLevel else ht;
      assert TallyOf(rs).highestVoidstate == Some(h);
      assert TallyOf(rs).voidstateSum == t.voidstateSum + last.voidstateLevel;
      var i :| 0 <= i < |init| && init[i].voidstateLevel == ht;
      assert rs[i] == init[i];
      forall j | 0 <= j < |rs| ensures rs[j].voidstateLevel <= h {
        if j < |init| {
          assert rs[j] == init[j];
        }
      }
    }
  }

  /** The voidstate levels sum to at most the number of battles times the
      highest level. */
  lemma {:induction false} SumBelowHighest(rs: seq<CombatRecord>)
    requires rs != []
    ensures TallyOf(rs).voidstateSum <= |rs| * TallyOf(rs).highestVoidstate.value
    decreases |rs|
  {
    var init := rs[..|rs| - 1];
    var last := rs[|rs| - 1];
    assert TallyOf(rs) == Combine(TallyOf(init), One(last));
    if init != [] {
      SumBelowHighest(init);
      var t := TallyOf(init);
      StepBound(t.voidstateSum, last.voidstateLevel, |init|, t.highestVoidstate.value, TallyOf(rs).highestVoidstate.value);
    }
  }

  /** Adding one more value of at most `h'` to `b` values of at most
      `h <= h'` stays within `b + 1` times `h'`. */
  lemma StepBound(sum: int, v: int, b: nat, h: int, h': int)
    requires sum <= b * h && h <= h' && v <= h'
    ensures sum + v <= (b + 1) * h'
  {
    assert b * h <= b * h' by {
      assert b * h' - b * h == b * (h' - h);
    }
    assert (b + 1) * h' == b * h' + h';
  }

  /** A tally may be taken in stretches: the tally of a concatenation is the
      combination of the tallies. */
  lemma {:induction false} TallyConcat(a: seq<CombatRecord>, b: seq<CombatRecord>)
    ensures TallyOf(a + b) == Combine(TallyOf(a), TallyOf(b))
    decreases |b|
  {
    if b == [] {
      assert a + b == a;
      CombineZero(TallyOf(a));
    } else {
      var init := b[..|b| - 1];
      var last := b[|b| - 1];
      assert (a + b)[..|a + b| - 1] == a + init;
      assert (a + b)[|a + b| - 1] == last;
      TallyConcat(a, init);
      CombineAssoc(TallyOf(a), TallyOf(init), One(last));
    }
  }

  lemma CombineZero(t: Tally)
    ensures Combine(t, Zero) == t
  {
  }

  lemma CombineAssoc(x: Tally, y: Tally, z: Tally)
    ensures Combine(Combine(x, y), z) == Combine(x, Combine(y, z))
  {
  }

  /** The fields of `_calculate_stats_from_records` that exist only when
      there is at least one record. */
  datatype Rates = Rates(averageEnemiesPerBattle: real, damageEfficiency: real, flawlessRate: real)

  datatype CombatStats = CombatStats(
    totalBattles: nat, totalEnemiesDefeated: int, totalDamageDealt: int, totalDamageTaken: int,
    totalZoltanEarned: int, flawlessVictories: nat, survivalCount: nat,
    highestVoidstate: int, averageVoidstate: real, rates: Option<Rates>)

  /** `_calculate_stats_from_records`: for no records every figure is 0 and
      the rates are absent; otherwise the sums, counts and averages of the
      records, with damage efficiency taken against at least one point of
      damage taken. */
  function StatsFromRecords(rs: seq<CombatRecord>): (s: CombatStats)
    ensures s.totalBattles == |rs|
    ensures s.rates.None? <==> rs == []
    ensures rs == [] ==> s == CombatStats(0, 0, 0, 0, 0, 0, 0, 0, 0.0, None)
    ensures rs != [] ==>
      && (exists i :: 0 <= i < |rs| && rs[i].voidstateLevel == s.highestVoidstate)
      && (forall i :: 0 <= i < |rs| ==> rs[i].voidstateLevel <= s.highestVoidstate)
      && s.averageVoidstate <= s.highestVoidstate as real
      && 0.0 <= s.rates.value.flawlessRate <= 1.0
      && s.rates.value.flawlessRate == s.flawlessVictories as real / |rs| as real
      && s.rates.value.averageEnemiesPerBattle == s.totalEnemiesDefeated as real / |rs| as real
    ensures s.flawlessVictories <= s.totalBattles && s.survivalCount <= s.totalBattles
  {
    var t := TallyOf(rs);
    if t.battles == 0 then CombatStats(0, 0, 0, 0, 0, 0, 0, 0, 0.0, None)
    else
      var n := t.battles as real;
      var h := t.highestVoidstate.value;
      HighestIsMax(rs);
      SumBelowHighest(rs);
      AverageAtMost(t.voidstateSum, t.battles, h);
      Ratio(t.flawless, t.battles);
      CombatStats(t.battles, t.enemiesDefeated, t.damageDealt, t.damageTaken, t.zoltanEarned,
                  t.flawless, t.survived, h, t.voidstateSum as real / n,
                  Some(Rates(t.enemiesDefeated as real / n,
                             t.damageDealt as real / (if t.damageTaken < 1 then 1 else t.damageTaken) as real,
                             t.flawless as real / n)))
  }

  /** Averaging values whose sum is at most `b * h` gives at most `h`. */
  lemma AverageAtMost(sum: int, b: nat, h: int)
    requires b > 0 && sum <= b * h
    ensures sum as real / b as real <= h as real
  {
    assert (b * h) as real == b as real * h as real;
  }

  /** A count out of at least as many is between 0 and 1. */
  lemma Ratio(x: int, b: nat)
    requires b > 0 && 0 <= x <= b
    ensures 0.0 <= x as real / b as real <= 1.0
  {
  }

  /** The records of one player, in saving order. */
  function PlayerRecords(rs: seq<CombatRecord>, playerId: string): (ps: seq<CombatRecord>)
    ensures |ps| <= |rs|
    ensures forall i :: 0 <= i < |ps| ==> ps[i].playerId == playerId && ps[i] in rs
    ensures ps == [] <==> forall i :: 0 <= i < |rs| ==> rs[i].playerId != playerId
    decreases |rs|
  {
    if rs == [] then []
    else
      var ps := PlayerRecords(rs[..|rs| - 1], playerId);
      if rs[|rs| - 1].playerId == playerId then ps + [rs[|rs| - 1]] else ps
  }

  /** Filtering by player distributes over concatenation. */
  lemma {:induction false} PlayerRecordsConcat(a: seq<CombatRecord>, b: seq<CombatRecord>, playerId: string)
    ensures PlayerRecords(a + b, playerId) == PlayerRecords(a, playerId) + PlayerRecords(b, playerId)
    decreases |b|
  {
    if b == [] {
      assert a + b == a;
    } else {
      var init := b[..|b| - 1];
      assert (a + b)[..|a + b| - 1] == a + init;
      assert (a + b)[|a + b| - 1] == b[|b| - 1];
      PlayerRecordsConcat(a, init, playerId);
    }
  }

  /** `get_player_combat_stats`: the statistics of one player's records. */
  function PlayerCombatStats(rs: seq<CombatRecord>, playerId: string): (s: CombatStats)
    ensures s.totalBattles <= |rs|
    ensures s.rates.None? <==> forall i :: 0 <= i < |rs| ==> rs[i].playerId != playerId
  {
    StatsFromRecords(PlayerRecords(rs, playerId))
  }

  /** Saving another player's battle leaves a player's statistics as they
      were; saving their own adds exactly that battle to their tally. */
  lemma SavingUpdatesOnlyOwner(rs: seq<CombatRecord>, r: CombatRecord, playerId: string)
    ensures r.playerId != playerId ==> PlayerCombatStats(rs + [r], playerId) == PlayerCombatStats(rs, playerId)
    ensures r.playerId == playerId ==>
      TallyOf(PlayerRecords(rs + [r], playerId)) == Combine(TallyOf(PlayerRecords(rs, playerId)), One(r))
  {
    PlayerRecordsConcat(rs, [r], playerId);
    assert PlayerRecords([r], playerId) == PlayerRecords([], playerId) + (if r.playerId == playerId then [r] else []);
    TallyConcat(PlayerRecords(rs, playerId), PlayerRecords([r], playerId));
    if r.playerId == playerId {
      assert [r][..0] == [];
      assert TallyOf([r]) == Combine(Zero, One(r));
    } else {
      assert PlayerRecords(rs, playerId) + [] == PlayerRecords(rs, playerId);
    }
  }

  /** The players with records, in order of their first record. */
  function PlayerIds(rs: seq<CombatRecord>): (ids: seq<string>)
    ensures forall i, j :: 0 <= i < j < |ids| ==> ids[i] != ids[j]
    ensures forall p :: p in ids <==> exists i :: 0 <= i < |rs| && rs[i].playerId == p
    decreases |rs|
  {
    if rs == [] then []
    else
      var init := rs[..|rs| - 1];
      var ids := PlayerIds(init);
      assert forall i :: 0 <= i < |init| ==> rs[i] == init[i];
      if rs[|rs| - 1].playerId in ids then ids else ids + [rs[|rs| - 1].playerId]
  }

  /** `get_all_combat_stats`: one entry per player with records, holding
      that player's statistics. */
  function AllCombatStats(rs: seq<CombatRecord>): (d: Dict<string, CombatStats>)
    ensures Valid(d)
    ensures forall p :: HasKey(d, p) <==> exists i :: 0 <= i < |rs| && rs[i].playerId == p
    ensures forall p :: HasKey(d, p) ==> Get(d, p) == Some(PlayerCombatStats(rs, p))
  {
    var ids := PlayerIds(rs);
    StatsKeys(rs, ids);
    StatsGets(rs, ids);
    StatsEntries(rs, ids)
  }

  /** One entry per listed player, holding that player's statistics. */
  function StatsEntries(rs: seq<CombatRecord>, ids: seq<string>): (d: Dict<string, CombatStats>)
    ensures |d| == |ids| && forall i :: 0 <= i < |ids| ==> d[i] == (ids[i], PlayerCombatStats(rs, ids[i]))
  {
    seq(|ids|, i requires 0 <= i < |ids| => (ids[i], PlayerCombatStats(rs, ids[i])))
  }

  lemma StatsKeys(rs: seq<CombatRecord>, ids: seq<string>)
    requires forall i, j :: 0 <= i < j < |ids| ==> ids[i] != ids[j]
    ensures Valid(StatsEntries(rs, ids))
    ensures forall p :: HasKey(StatsEntries(rs, ids), p) <==> p in ids
  {
    var d := StatsEntries(rs, ids);
    forall p ensures HasKey(d, p) <==> p in ids {
      if p in ids {
        var i :| 0 <= i < |ids| && ids[i] == p;
        assert d[i].0 == p;
      }
    }
  }

  lemma StatsGets(rs: seq<CombatRecord>, ids: seq<string>)
    requires forall i, j :: 0 <= i < j < |ids| ==> ids[i] != ids[j]
    ensures forall p :: p in ids ==> Get(StatsEntries(rs, ids), p) == Some(PlayerCombatStats(rs, p))
  {
    var d := StatsEntries(rs, ids);
    forall p | p in ids ensures Get(d, p) == Some(PlayerCombatStats(rs, p)) {
      var i :| 0 <= i < |ids| && ids[i] == p;
      GetFirst(d, i);
    }
  }

  /** The parts of a combat result a record is made from; each may be
      missing from the result. */
  datatype CombatResult = CombatResult(enemiesDefeated: Option<int>, totalEnemies: Option<int>,
                                       zoltanRewards: Option<Dict<string, int>>, mechaHpEnd: Option<int>,
                                       damageDealt: Option<int>, voidstateChange: Option<int>)

  /** The result `resolve_combat` hands over: it reports no end hit points
      and no damage dealt. */
  function ResultOfReport(o: C.Outcome): (r: CombatResult)
    requires o.Report?
    ensures r.mechaHpEnd == None && r.damageDealt == None
    ensures r.enemiesDefeated == Some(o.enemiesDefeated) && r.voidstateChange == Some(o.voidstateChange)
  {
    CombatResult(Some(o.enemiesDefeated), Some(o.totalEnemies), Some(o.rewards), None, None, Some(o.voidstateChange))
  }

  function Hp(mechaStats: Dict<string, int>): int {
    Get(mechaStats, "hp").GetOr(0)
  }

  function BattleId(stamp: string, playerId: string): string {
    "battle_" + stamp + "_" + playerId
  }

  /** The record fields common to the as-written and corrected builders. */
  function RecordWith(playerId: string, username: string, result: CombatResult, mechaStats: Dict<string, int>,
                      boardSize: int, piecesEquipped: int, stamp: string, isoTime: string, survived: bool): CombatRecord
  {
    var defeated := result.enemiesDefeated.GetOr(0);
    var rewards := result.zoltanRewards.GetOr([]);
    var damageTaken := Hp(mechaStats) - result.mechaHpEnd.GetOr(Hp(mechaStats));
    CombatRecord(playerId, username, BattleId(stamp, playerId), isoTime,
                 defeated, result.totalEnemies.GetOr(0), result.damageDealt.GetOr(0), damageTaken,
                 Get(rewards, playerId).GetOr(0), result.voidstateChange.GetOr(0),
                 damageTaken == 0 && defeated > 0, survived,
                 mechaStats, boardSize, piecesEquipped)
  }

  /** `create_combat_record_from_result` as written: survival reads the end
      hit points with a default of 0, while damage taken reads them with a
      default of the current hit points. */
  function CreateCombatRecordAsWritten(playerId: string, username: string, result: CombatResult,
                                       mechaStats: Dict<string, int>, boardSize: int, piecesEquipped: int,
                                       stamp: string, isoTime: string): (r: CombatRecord)
    ensures r.mechaSurvived <==> result.mechaHpEnd.Some? && result.mechaHpEnd.value > 0
    ensures r.damageTaken == Hp(mechaStats) - result.mechaHpEnd.GetOr(Hp(mechaStats))
  {
    RecordWith(playerId, username, result, mechaStats, boardSize, piecesEquipped, stamp, isoTime,
               result.mechaHpEnd.GetOr(0) > 0)
  }

  /** Every record made from a combat report says the mecha did not
      survive, even one that ends the battle at full health. */
  lemma ReportRecordsNeverSurvive(o: C.Outcome, playerId: string, username: string,
                                  mechaStats: Dict<string, int>, stamp: string, isoTime: string)
    requires o.Report?
    ensures !CreateCombatRecordAsWritten(playerId, username, ResultOfReport(o), mechaStats, 18, 0, stamp, isoTime).mechaSurvived
    ensures CreateCombatRecordAsWritten(playerId, username, ResultOfReport(o), mechaStats, 18, 0, stamp, isoTime).damageTaken == 0
  {
  }

  /** `create_combat_record_from_result` with both readings of the end hit
      points defaulting to the current hit points. */
  function CreateCombatRecord(playerId: string, username: string, result: CombatResult,
                              mechaStats: Dict<string, int>, boardSize: int, piecesEquipped: int,
                              stamp: string, isoTime: string): (r: CombatRecord)
    ensures r.playerId == playerId && r.username == username && r.timestamp == isoTime
    ensures r.battleId == "battle_" + stamp + "_" + playerId
    ensures r.enemiesDefeated == result.enemiesDefeated.GetOr(0) && r.totalEnemies == result.totalEnemies.GetOr(0)
    ensures r.damageDealt == result.damageDealt.GetOr(0) && r.voidstateLevel == result.voidstateChange.GetOr(0)
    ensures r.zoltanEarned == if result.zoltanRewards.Some? then Get(result.zoltanRewards.value, playerId).GetOr(0) else 0
    ensures r.flawlessVictory <==> r.damageTaken == 0 && r.enemiesDefeated > 0
    ensures r.mechaSurvived <==> Hp(mechaStats) - r.damageTaken > 0
    ensures result.mechaHpEnd.None? ==> r.damageTaken == 0
    ensures r.mechaStats == mechaStats && r.boardSize == boardSize && r.piecesEquipped == piecesEquipped
  {
    RecordWith(playerId, username, result, mechaStats, boardSize, piecesEquipped, stamp, isoTime,
               result.mechaHpEnd.GetOr(Hp(mechaStats)) > 0)
  }

  /** For a mecha with hit points left after a reported battle the
      corrected record says it survived; the as-written one says it did not. */
  lemma SurvivalCorrected(o: C.Outcome, playerId: string, username: string, stamp: string, isoTime: string)
    requires o.Report?
    ensures CreateCombatRecord(playerId, username, ResultOfReport(o), [("hp", 100)], 18, 0, stamp, isoTime).mechaSurvived
    ensures !CreateCombatRecordAsWritten(playerId, username, ResultOfReport(o), [("hp", 100)], 18, 0, stamp, isoTime).mechaSurvived
  {
    var stats := [("hp", 100)];
    assert Get(stats, "hp") == Some(100) by {
      GetFirst(stats, 0);
    }
  }
}

=== FILE: debugger.dfy ===
/** The content validators of the game's debugger
    (dream_mecha/core/utils/debugger.py): shop pieces, enemies, the daily
    content file and the stat overflow check.  Each validator collects its
    error messages in the order the checks run and is valid exactly when
    none was collected.  Logging, file output, timestamps and the counters
    are not modelled. */
module Debugger {
  import opened Wrappers
  import opened PyText
  import opened Dicts
  import opened Json

  datatype Validation = Validation(valid: bool, errors: seq<string>)

  /** The flag is cleared exactly when a message is recorded. */
  predicate Consistent(v: Validation) {
    v.valid <==> v.errors == []
  }

  function Check(ok: bool, error: string): (v: Validation)
    ensures Consistent(v) && v.valid == ok
  {
    if ok then Validation(true, []) else Validation(false, [error])
  }

  /** Running one group of checks after another. */
  function Then(a: Validation, b: Validation): (v: Validation)
    requires Consistent(a) && Consistent(b)
    ensures Consistent(v) && v.valid == (a.valid && b.valid)
  {
    Validation(a.valid && b.valid, a.errors + b.errors)
  }

  /** One "Missing required field" message per absent field, in order. */
  function Missing(obj: Dict<string, Value>, fields: seq<string>): (v: Validation)
    ensures Consistent(v)
    ensures v.valid <==> forall f :: f in fields ==> HasKey(obj, f)
    ensures forall f :: f in fields && !HasKey(obj, f) ==> "Missing required field: " + f in v.errors
  {
    if |fields| == 0 then Validation(true, [])
    else
      var rest := Missing(obj, fields[1..]);
      assert forall f :: f in fields ==> f == fields[0] || f in fields[1..];
      Then(Check(HasKey(obj, fields[0]), "Missing required field: " + fields[0]), rest)
  }

  // ---------------------------------------------------------------------
  // Pieces
  // ---------------------------------------------------------------------

  const PieceFields: seq<string> := ["id", "pattern", "blocks", "stats", "stat_type", "price"]
  const StatKeys: seq<string> := ["hp", "att", "def", "spd"]

  /** "Missing stat" or "Invalid ... value" for each stat key in turn. */
  function StatErrors(stats: Dict<string, Value>, keys: seq<string>): (v: Validation)
    ensures Consistent(v)
    ensures v.valid <==> forall k :: k in keys ==> NonNegInt(Get(stats, k))
  {
    if |keys| == 0 then Validation(true, [])
    else
      var k := keys[0];
      var here :=
        if !HasKey(stats, k) then Check(false, "Missing stat: " + k)
        else Check(NonNegInt(Get(stats, k)), "Invalid " + k + " value");
      var rest := StatErrors(stats, keys[1..]);
      assert here.valid == NonNegInt(Get(stats, k));
      assert forall f :: f in keys ==> f == k || f in keys[1..];
      assert forall f :: f in keys[1..] ==> f in keys;
      Then(here, rest)
  }

  function BlocksCheck(piece: Dict<string, Value>): (v: Validation)
    ensures Consistent(v)
  {
    match Get(piece, "blocks")
    case None => Validation(true, [])
    case Some(b) => Check(IntOf(b).Some? && 1 <= IntOf(b).value <= 144, "Invalid block count (must be 1-144)")
  }

  function StatsCheck(piece: Dict<string, Value>): (v: Validation)
    ensures Consistent(v)
  {
    match Get(piece, "stats")
    case None => Validation(true, [])
    case Some(x) => if x.Object? then StatErrors(x.fields, StatKeys) else Check(false, "Stats must be a dictionary")
  }

  function PriceCheck(piece: Dict<string, Value>): (v: Validation)
    ensures Consistent(v)
  {
    if HasKey(piece, "price") then Check(NonNegInt(Get(piece, "price")), "Invalid price value")
    else Validation(true, [])
  }

  /** What a well-formed shop piece is: every field present, an integer
      block count from 1 to 144, a stats dictionary with four non-negative
      integer stats, and a non-negative integer price. */
  predicate GoodPiece(piece: Dict<string, Value>) {
    && (forall f :: f in PieceFields ==> HasKey(piece, f))
    && (match Get(piece, "blocks")
        case Some(b) => IntOf(b).Some? && 1 <= IntOf(b).value <= 144
        case None => false)
    && (match Get(piece, "stats")
        case Some(x) => x.Object? && forall k :: k in StatKeys ==> NonNegInt(Get(x.fields, k))
        case None => false)
    && NonNegInt(Get(piece, "price"))
  }

  /** `validate_piece` */
  function ValidatePiece(piece: Dict<string, Value>): (v: Validation)
    ensures Consistent(v)
    ensures v.valid <==> GoodPiece(piece)
  {
    Then(Then(Then(Missing(piece, PieceFields), BlocksCheck(piece)), StatsCheck(piece)), PriceCheck(piece))
  }

  // ---------------------------------------------------------------------
  // Enemies
  // ---------------------------------------------------------------------

  const EnemyFields: seq<string> := ["id", "hp", "att", "def", "spd", "description"]

  /** "Invalid ... value" for each present stat that is not a non-negative
      integer. */
  function EnemyStats(enemy: Dict<string, Value>, keys: seq<string>): (v: Validation)
    ensures Consistent(v)
    ensures v.valid <==> forall k :: k in keys && HasKey(enemy, k) ==> NonNegInt(Get(enemy, k))
  {
    if |keys| == 0 then Validation(true, [])
    else
      var k := keys[0];
      var here := if HasKey(enemy, k) then Check(NonNegInt(Get(enemy, k)), "Invalid " + k + " value")
        else Validation(true, []);
      var rest := EnemyStats(enemy, keys[1..]);
      assert forall f :: f in keys ==> f == k || f in keys[1..];
      Then(here, rest)
  }

  /** A description is a string that is not all whitespace. */
  predicate GoodDescription(d: Value) {
    d.Str? && |Strip(d.s)| > 0
  }

  function DescriptionCheck(enemy: Dict<string, Value>): (v: Validation)
    ensures Consistent(v)
  {
    match Get(enemy, "description")
    case None => Validation(true, [])
    case Some(d) => Check(GoodDescription(d), "Invalid description")
  }

  /** What a well-formed enemy is: every field present, four non-negative
      integer stats and a description with some non-blank text. */
  predicate GoodEnemy(enemy: Dict<string, Value>) {
    && (forall f :: f in EnemyFields ==> HasKey(enemy, f))
    && (forall k :: k in StatKeys ==> NonNegInt(Get(enemy, k)))
    && GoodDescription(Get(enemy, "description").value)
  }

  /** `validate_enemy` */
  function ValidateEnemy(enemy: Dict<string, Value>): (v: Validation)
    ensures Consistent(v)
    ensures v.valid <==> GoodEnemy(enemy)
  {
    Then(Then(Missing(enemy, EnemyFields), EnemyStats(enemy, StatKeys)), DescriptionCheck(enemy))
  }

  // ---------------------------------------------------------------------
  // Daily content
  // ---------------------------------------------------------------------

  datatype Kind = PieceKind | EnemyKind {
    function Label(): string {
      match this
      case PieceKind => "Piece "
      case EnemyKind => "Enemy "
    }
  }

  function ValidateItem(kind: Kind, item: Dict<string, Value>): (v: Validation)
    ensures Consistent(v)
    ensures v.valid <==> (if kind.PieceKind? then GoodPiece(item) else GoodEnemy(item))
  {
    if kind.PieceKind? then ValidatePiece(item) else ValidateEnemy(item)
  }

  /** An item's errors, each prefixed with its label and index. */
  function Prefixed(kind: Kind, i: nat, errors: seq<string>): (r: seq<string>)
    ensures |r| == |errors|
    ensures forall j :: 0 <= j < |errors| ==> r[j] == kind.Label() + ShowInt(i) + ": " + errors[j]
  {
    seq(|errors|, j requires 0 <= j < |errors| => kind.Label() + ShowInt(i) + ": " + errors[j])
  }

  /** A list item that passes the validator for its kind. */
  predicate GoodItem(kind: Kind, item: Value) {
    item.Object? && (if kind.PieceKind? then GoodPiece(item.fields) else GoodEnemy(item.fields))
  }

  function Fields(kind: Kind): seq<string> {
    if kind.PieceKind? then PieceFields else EnemyFields
  }

  /** The fields a validator reads with `item[field]` once `field in item`
      holds: the block count, stats and price of a piece, and the four stats
      and the description of an enemy. */
  function Indexed(kind: Kind): (r: seq<string>)
    ensures |r| > 0 && r[0] in Fields(kind)
  {
    if kind.PieceKind? then ["blocks", "stats", "price"] else StatKeys + ["description"]
  }

  /** `field in item` on a list item that is not a dictionary: a substring
      test on a string and a membership test on a list.  Numbers, booleans
      and null do not support `in`. */
  predicate Contains(item: Value, field: string) {
    match item
    case Str(s) => Occurs(field, s)
    case List(xs) => Str(field) in xs
    case _ => false
  }

  /** A list item the validator gets through without raising: a dictionary,
      or a string or list that contains none of the fields it would index. */
  predicate Checkable(kind: Kind, item: Value) {
    item.Object? || ((item.Str? || item.List?) && forall f :: f in Indexed(kind) ==> !Contains(item, f))
  }

  /** The missing-field checks on a string or list item. */
  function LooseMissing(item: Value, fields: seq<string>): (v: Validation)
    ensures Consistent(v)
    ensures v.valid <==> forall f :: f in fields ==> Contains(item, f)
    ensures forall f :: f in fields && !Contains(item, f) ==> "Missing required field: " + f in v.errors
  {
    if |fields| == 0 then Validation(true, [])
    else
      var rest := LooseMissing(item, fields[1..]);
      assert forall f :: f in fields ==> f == fields[0] || f in fields[1..];
      Then(Check(Contains(item, fields[0]), "Missing required field: " + fields[0]), rest)
  }

  /** `validate_piece` or `validate_enemy` on any list item.  A dictionary
      is validated field by field.  A string or a list only gets through the
      missing-field loop, which reports every field it does not contain, and
      raises TypeError once it contains a field that is then indexed; any
      other value raises TypeError at the first `in`. */
  function ValidateValue(kind: Kind, item: Value): (r: Result<Validation>)
    ensures r.Ok? <==> Checkable(kind, item)
    ensures r.Ok? ==> Consistent(r.value) && (r.value.valid <==> GoodItem(kind, item))
    ensures r.Ok? && item.Object? ==> r.value == ValidateItem(kind, item.fields)
    ensures r.Ok? && !item.Object? ==> forall f :: f in Fields(kind) && !Contains(item, f) ==>
      "Missing required field: " + f in r.value.errors
  {
    if item.Object? then Ok(ValidateItem(kind, item.fields))
    else if !Checkable(kind, item) then Err("TypeError")
    else
      assert !Contains(item, Indexed(kind)[0]);
      Ok(LooseMissing(item, Fields(kind)))
  }

  /** The items from index `i` on; the first item the validator cannot get
      through makes the whole check raise TypeError. */
  function ValidateItems(kind: Kind, items: seq<Value>, i: nat): (r: Result<Validation>)
    requires i <= |items|
    ensures r.Ok? <==> forall j :: i <= j < |items| ==> Checkable(kind, items[j])
    ensures r.Ok? ==> Consistent(r.value)
    ensures r.Ok? ==> (r.value.valid <==> forall j :: i <= j < |items| ==> GoodItem(kind, items[j]))
    ensures r.Ok? ==> forall j, e ::
      (i <= j < |items| && ValidateValue(kind, items[j]).Ok? && e in ValidateValue(kind, items[j]).value.errors)
      ==> kind.Label() + ShowInt(j) + ": " + e in r.value.errors
    decreases |items| - i
  {
    if i == |items| then Ok(Validation(true, []))
    else
      var here :- ValidateValue(kind, items[i]);
      var rest :- ValidateItems(kind, items, i + 1);
      Ok(Validation(here.valid && rest.valid, Prefixed(kind, i, here.errors) + rest.errors))
  }

  const DailyFields: seq<string> := ["date", "voidstate", "shop_pieces", "enemies"]

  predicate GoodDate(d: Value, isoDate: string -> bool) {
    d.Str? && isoDate(d.s)
  }

  predicate GoodVoidstate(x: Value) {
    IntOf(x).Some? && IntOf(x).value >= 1
  }

  predicate GoodItems(kind: Kind, x: Value) {
    x.List? && forall j :: 0 <= j < |x.items| ==> GoodItem(kind, x.items[j])
  }

  function DateCheck(data: Dict<string, Value>, isoDate: string -> bool): (r: Result<Validation>)
    ensures r.Err? <==> HasKey(data, "date") && !Get(data, "date").value.Str?
    ensures r.Ok? ==> Consistent(r.value)
    ensures r.Ok? ==> (r.value.valid <==> (HasKey(data, "date") ==> GoodDate(Get(data, "date").value, isoDate)))
  {
    match Get(data, "date")
    case None => Ok(Validation(true, []))
    case Some(x) => if x.Str? then Ok(Check(isoDate(x.s), "Invalid date format")) else Err("TypeError")
  }

  function VoidstateCheck(data: Dict<string, Value>): (v: Validation)
    ensures Consistent(v)
    ensures v.valid <==> (HasKey(data, "voidstate") ==> GoodVoidstate(Get(data, "voidstate").value))
  {
    match Get(data, "voidstate")
    case None => Validation(true, [])
    case Some(x) => Check(GoodVoidstate(x), "Invalid voidstate value")
  }

  /** A list holding an item the validator cannot get through. */
  predicate Raises(kind: Kind, x: Value) {
    x.List? && exists j :: 0 <= j < |x.items| && !Checkable(kind, x.items[j])
  }

  function ListCheck(data: Dict<string, Value>, key: string, kind: Kind, notList: string): (r: Result<Validation>)
    ensures r.Err? <==> HasKey(data, key) && Raises(kind, Get(data, key).value)
    ensures r.Ok? ==> Consistent(r.value)
    ensures r.Ok? ==> (r.value.valid <==> (HasKey(data, key) ==> GoodItems(kind, Get(data, key).value)))
  {
    match Get(data, key)
    case None => Ok(Validation(true, []))
    case Some(x) => if x.List? then ValidateItems(kind, x.items, 0) else Ok(Check(false, notList))
  }

  /** What well-formed daily content is: every field present, an ISO date
      string, an integer voidstate of at least 1, and lists of well-formed
      pieces and enemies. */
  predicate GoodDaily(data: Dict<string, Value>, isoDate: string -> bool) {
    && HasKey(data, "date") && HasKey(data, "voidstate")
    && HasKey(data, "shop_pieces") && HasKey(data, "enemies")
    && GoodDate(Get(data, "date").value, isoDate)
    && GoodVoidstate(Get(data, "voidstate").value)
    && GoodItems(PieceKind, Get(data, "shop_pieces").value)
    && GoodItems(EnemyKind, Get(data, "enemies").value)
  }

  /** `validate_daily_content`: missing fields, then the date, voidstate,
      shop pieces and enemies.  Date parsing is the `isoDate` parameter; a
      date that is not a string, or a list item that is not an object, is a
      type error. */
  function ValidateDailyContent(data: Dict<string, Value>, isoDate: string -> bool): (r: Result<Validation>)
    ensures r.Err? <==>
      || (HasKey(data, "date") && !Get(data, "date").value.Str?)
      || (HasKey(data, "shop_pieces") && Raises(PieceKind, Get(data, "shop_pieces").value))
      || (HasKey(data, "enemies") && Raises(EnemyKind, Get(data, "enemies").value))
    ensures r.Ok? ==> Consistent(r.value)
    ensures r.Ok? ==> (r.value.valid <==> GoodDaily(data, isoDate))
  {
    var date :- DateCheck(data, isoDate);
    var pieces :- ListCheck(data, "shop_pieces", PieceKind, "Shop pieces must be a list");
    var enemies :- ListCheck(data, "enemies", EnemyKind, "Enemies must be a list");
    var missing := Missing(data, DailyFields);
    assert DailyFields[0] == "date" && DailyFields[1] == "voidstate";
    assert DailyFields[2] == "shop_pieces" && DailyFields[3] == "enemies";
    Ok(Then(Then(Then(Then(missing, date), VoidstateCheck(data)), pieces), enemies))
  }

  // ---------------------------------------------------------------------
  // Stat limits
  // ---------------------------------------------------------------------

  const MaxStatValue := 100_000_000_000

  /** `validate_stat_calculation`: false exactly when some stat exceeds one
      hundred billion.  Otherwise the scaling estimate `block_count ** 2.5`
      is computed; it only warns, but for a negative block count the power
      is complex and `int()` of it raises TypeError. */
  function ValidateStatCalculation(blockCount: int, stats: Dict<string, int>): (r: Result<bool>)
    ensures r.Err? <==> blockCount < 0 && forall i :: 0 <= i < |stats| ==> stats[i].1 <= MaxStatValue
    ensures r.Ok? ==> (r.value <==> forall i :: 0 <= i < |stats| ==> stats[i].1 <= MaxStatValue)
  {
    if !WithinLimit(stats) then Ok(false)
    else if blockCount < 0 then Err("TypeError")
    else Ok(true)
  }

  /** The overflow loop: no stat exceeds one hundred billion. */
  function WithinLimit(stats: Dict<string, int>): (ok: bool)
    ensures ok <==> forall i :: 0 <= i < |stats| ==> stats[i].1 <= MaxStatValue
  {
    if |stats| == 0 then true
    else if stats[0].1 > MaxStatValue then false
    else
      assert forall i :: 1 <= i < |stats| ==> stats[i] == stats[1..][i - 1];
      WithinLimit(stats[1..])
  }

  /** An empty list as a shop piece is reported as missing every field. */
  lemma EmptyListPiece()
    ensures ValidateValue(PieceKind, List([])).Ok?
    ensures !ValidateValue(PieceKind, List([])).value.valid
  {
    assert forall f :: f in Indexed(PieceKind) ==> !Contains(List([]), f);
  }

  /** A string enemy without the letters of the indexed fields is reported
      invalid, not raised on. */
  lemma PlainStringEnemy()
    ensures ValidateValue(EnemyKind, Str("xyz")).Ok?
    ensures !ValidateValue(EnemyKind, Str("xyz")).value.valid
  {
    forall f | f in Indexed(EnemyKind) ensures !Contains(Str("xyz"), f) {
      NotOccurs(f, "xyz");
    }
  }

  /** A string holding the name of an indexed field raises. */
  lemma IndexedStringRaises()
    ensures ValidateValue(PieceKind, Str("price")).Err?
  {
    PriceIndexed();
  }

  /** "price" is a field a piece indexes, and it occurs in itself. */
  lemma PriceIndexed()
    ensures !Checkable(PieceKind, Str("price"))
  {
    var f := "price";
    assert f in Indexed(PieceKind);
    OccursSelf(f);
  }

  /** A list holding the name of an indexed field raises, and so does a
      number. */
  lemma RaisingItems()
    ensures ValidateValue(EnemyKind, List([Str("hp")])).Err?
    ensures ValidateValue(PieceKind, Int(7)).Err?
  {
    assert Contains(List([Str("hp")]), Indexed(EnemyKind)[0]);
  }
}

=== FILE: dicts.dfy ===
/** Python dictionaries as association lists in insertion order: assigning to
    an existing key keeps its position, a new key goes to the end, and `del`
    removes the entry. */
module Dicts {
  import opened Wrappers

  type Dict<K, V> = seq<(K, V)>

  /** No key occurs twice. */
  predicate Valid<K(==), V>(d: Dict<K, V>) {
    forall i, j :: 0 <= i < j < |d| ==> d[i].0 != d[j].0
  }

  predicate HasKey<K(==), V>(d: Dict<K, V>, k: K) {
    exists i :: 0 <= i < |d| && d[i].0 == k
  }

  /** `list(d.keys())` */
  function Keys<K, V>(d: Dict<K, V>): (ks: seq<K>)
    ensures |ks| == |d| && forall i :: 0 <= i < |d| ==> ks[i] == d[i].0
  {
    if |d| == 0 then [] else [d[0].0] + Keys(d[1..])
  }

  /** `list(d.values())` */
  function Values<K, V>(d: Dict<K, V>): (vs: seq<V>)
    ensures |vs| == |d| && forall i :: 0 <= i < |d| ==> vs[i] == d[i].1
  {
    if |d| == 0 then [] else [d[0].1] + Values(d[1..])
  }

  /** `d.get(k)`: the value of the first entry with key `k`. */
  function Get<K(==), V>(d: Dict<K, V>, k: K): (r: Option<V>)
    ensures r.None? <==> !HasKey(d, k)
    ensures r.Some? ==> exists i :: 0 <= i < |d| && d[i] == (k, r.value)
  {
    if |d| == 0 then None
    else if d[0].0 == k then Some(d[0].1)
    else
      assert forall i :: 1 <= i < |d| ==> d[i] == d[1..][i - 1];
      Get(d[1..], k)
  }

  /** `d[k] = v` */
  function Put<K(==, !new), V>(d: Dict<K, V>, k: K, v: V): (r: Dict<K, V>)
    requires Valid(d)
    ensures Valid(r)
    ensures Get(r, k) == Some(v)
    ensures forall k' :: k' != k ==> Get(r, k') == Get(d, k')
    ensures |r| == if HasKey(d, k) then |d| else |d| + 1
  {
    if |d| == 0 then [(k, v)]
    else
      TailValid(d);
      TailHasKey(d, k);
      if d[0].0 == k then
        ConsDict((k, v), d[1..]);
        [(k, v)] + d[1..]
      else
        var rest := Put(d[1..], k, v);
        assert Get(rest, d[0].0) == Get(d[1..], d[0].0) == None;
        ConsDict(d[0], rest);
        [d[0]] + rest
  }

  /** `del d[k]` when `k` is present; otherwise the dictionary is unchanged. */
  function Remove<K(==, !new), V>(d: Dict<K, V>, k: K): (r: Dict<K, V>)
    requires Valid(d)
    ensures Valid(r)
    ensures Get(r, k) == None
    ensures forall k' :: k' != k ==> Get(r, k') == Get(d, k')
    ensures |r| == if HasKey(d, k) then |d| - 1 else |d|
  {
    if |d| == 0 then []
    else
      TailValid(d);
      TailHasKey(d, k);
      if d[0].0 == k then d[1..]
      else
        var rest := Remove(d[1..], k);
        assert Get(rest, d[0].0) == Get(d[1..], d[0].0) == None;
        ConsDict(d[0], rest);
        [d[0]] + rest
  }

  /** A key is in a dictionary when it is the head's or in the tail. */
  lemma TailHasKey<K, V>(d: Dict<K, V>, k: K)
    requires |d| > 0
    ensures HasKey(d, k) <==> d[0].0 == k || HasKey(d[1..], k)
  {
    if HasKey(d, k) && d[0].0 != k {
      var i :| 0 <= i < |d| && d[i].0 == k;
      assert d[1..][i - 1] == d[i];
    }
    if HasKey(d[1..], k) {
      var i :| 0 <= i < |d| - 1 && d[1..][i].0 == k;
      assert d[i + 1] == d[1..][i];
    }
  }

  /** An entry put before a dictionary that lacks its key. */
  lemma ConsDict<K, V>(e: (K, V), d: Dict<K, V>)
    requires Valid(d) && !HasKey(d, e.0)
    ensures Valid([e] + d)
    ensures Get([e] + d, e.0) == Some(e.1)
    ensures forall k :: k != e.0 ==> Get([e] + d, k) == Get(d, k)
  {
    var r := [e] + d;
    assert r[1..] == d;
    forall i, j | 0 <= i < j < |r| ensures r[i].0 != r[j].0 {
      assert r[j] == d[j - 1];
      if i > 0 {
        assert r[i] == d[i - 1];
      }
    }
  }

  /** The tail of a dictionary is a dictionary without the head's key. */
  lemma TailValid<K, V>(d: Dict<K, V>)
    requires Valid(d) && |d| > 0
    ensures Valid(d[1..]) && !HasKey(d[1..], d[0].0)
  {
    var rest := d[1..];
    forall i, j | 0 <= i < j < |rest| ensures rest[i].0 != rest[j].0 {
      assert rest[i] == d[i + 1] && rest[j] == d[j + 1];
    }
    forall i | 0 <= i < |rest| ensures rest[i].0 != d[0].0 {
      assert rest[i] == d[i + 1];
    }
  }

  /** `d.get(k)` finds the first entry with that key. */
  lemma {:induction false} GetFirst<K, V>(d: Dict<K, V>, i: nat)
    requires i < |d| && forall j :: 0 <= j < i ==> d[j].0 != d[i].0
    ensures Get(d, d[i].0) == Some(d[i].1)
  {
    if i > 0 {
      assert d[1..][i - 1] == d[i];
      GetFirst(d[1..], i - 1);
    }
  }

  /** Every entry of a dictionary is what `get` finds for its key. */
  lemma EntriesFound<K, V>(d: Dict<K, V>)
    requires Valid(d)
    ensures forall i :: 0 <= i < |d| ==> Get(d, d[i].0) == Some(d[i].1)
  {
    forall i | 0 <= i < |d| ensures Get(d, d[i].0) == Some(d[i].1) {
      GetFirst(d, i);
    }
  }

  /** Rewriting every value of a dictionary in place rewrites what `get`
      finds the same way. */
  lemma {:induction false} GetMapped<K, V, W>(d: Dict<K, V>, e: Dict<K, W>, f: (K, V) -> W, k: K)
    requires |e| == |d| && forall i :: 0 <= i < |d| ==> e[i] == (d[i].0, f(d[i].0, d[i].1))
    ensures Get(e, k) == if Get(d, k).Some? then Some(f(k, Get(d, k).value)) else None
  {
    if |d| > 0 && d[0].0 != k {
      assert forall i :: 0 <= i < |d| - 1 ==> d[1..][i] == d[i + 1] && e[1..][i] == e[i + 1];
      GetMapped(d[1..], e[1..], f, k);
    }
  }
}

=== FILE: energy.dfy ===
/** The energy status dictionary the reasoning engine reads
    (core/managers/solar_core_manager.py `get_energy_status`, as read in
    core/reasoning/analyzer.py and core/reasoning/observer.py).  Every
    field the readers look up with a default is optional here. */
module Energy {
  import opened Wrappers
  import opened Dicts

  type Position = (real, real, real)

  datatype NodeInfo = NodeInfo(consumptionRate: Option<real>, isActive: Option<bool>,
                               density: Option<real>, range: Option<real>, position: Option<Position>)

  /** A missing `nodes` entry reads as the empty dictionary, so it is one. */
  datatype Status = Status(currentConsumption: Option<real>, nodes: Dict<string, NodeInfo>)

  /** `energy_status.get('current_consumption', 0)` */
  function Consumption(s: Status): real {
    s.currentConsumption.GetOr(0.0)
  }

  /** `node.get('is_active', False)` */
  predicate IsActive(n: NodeInfo) {
    n.isActive.GetOr(false)
  }

  /** The number of active nodes. */
  function ActiveCount(nodes: Dict<string, NodeInfo>): (n: nat)
    ensures n <= |nodes|
    ensures n == 0 <==> forall i :: 0 <= i < |nodes| ==> !IsActive(nodes[i].1)
  {
    if |nodes| == 0 then 0
    else
      assert forall i :: 1 <= i < |nodes| ==> nodes[i] == nodes[1..][i - 1];
      (if IsActive(nodes[0].1) then 1 else 0) + ActiveCount(nodes[1..])
  }

  /** `density * range` with the defaults 1.0 and 10.0. */
  function BoostPotential(n: NodeInfo): real {
    n.density.GetOr(1.0) * n.range.GetOr(10.0)
  }
}

=== FILE: fortress.dfy ===
/** The fortress, humanity's shared hit-point pool
    (dream_mecha/core/managers/fortress_manager.py).  The calendar date of
    an attack is a parameter; percentages (floats), messages and the file
    store are not modelled. */
module Fortress {
  import opened Wrappers
  import opened Dicts
  import opened Json

  const FullHp := 100_000_000_000

  datatype Fortress = Fortress(maxHp: int, currentHp: int, lastAttackDate: Option<string>,
                               totalDamageTaken: int, daysUnderAttack: int)

  /** A new fortress: at full hit points, never attacked. */
  function New(): (f: Fortress)
    ensures f.currentHp == f.maxHp == FullHp
    ensures f.totalDamageTaken == 0 && f.daysUnderAttack == 0 && f.lastAttackDate == None
  {
    Fortress(FullHp, FullHp, None, 0, 0)
  }

  /** Hit points within [0, max]. */
  predicate Healthy(f: Fortress) {
    0 <= f.currentHp <= f.maxHp
  }

  datatype DamageReport = Fallen | Damaged(damageDealt: int, currentHp: int, maxHp: int, fortressFallen: bool)

  /** `take_damage` on day `today`: a fallen fortress is left alone;
      otherwise it loses at most its remaining hit points, the loss is added
      to the running total, and a new attack date counts one more day under
      attack. */
  function TakeDamage(f: Fortress, damage: int, today: string): (r: (Fortress, DamageReport))
    ensures f.currentHp <= 0 ==> r.0 == f && r.1 == Fallen
    ensures f.currentHp > 0 && damage >= 0 ==>
      var actual := if damage < f.currentHp then damage else f.currentHp;
      && r.1 == Damaged(actual, r.0.currentHp, f.maxHp, r.0.currentHp <= 0)
      && 0 <= r.0.currentHp == f.currentHp - actual
      && r.0.totalDamageTaken == f.totalDamageTaken + actual
      && r.0.maxHp == f.maxHp
    ensures f.currentHp > 0 ==>
      r.0.daysUnderAttack == f.daysUnderAttack + (if f.lastAttackDate == Some(today) then 0 else 1)
      && r.0.lastAttackDate == Some(today)
  {
    if f.currentHp <= 0 then (f, Fallen)
    else
      var actual := if damage < f.currentHp then damage else f.currentHp;
      var hit := f.(currentHp := f.currentHp - actual, totalDamageTaken := f.totalDamageTaken + actual);
      var g := if f.lastAttackDate != Some(today)
        then hit.(daysUnderAttack := hit.daysUnderAttack + 1, lastAttackDate := Some(today))
        else hit;
      (g, Damaged(actual, g.currentHp, g.maxHp, g.currentHp <= 0))
  }

  /** `repair`: nothing at full health, otherwise up to the missing hit
      points; returns what was restored. */
  function Repair(f: Fortress, amount: int): (r: (Fortress, int))
    ensures f.currentHp >= f.maxHp ==> r == (f, 0)
    ensures f.currentHp < f.maxHp && amount >= 0 ==>
      r.1 == (if amount < f.maxHp - f.currentHp then amount else f.maxHp - f.currentHp)
      && f.currentHp <= r.0.currentHp <= f.maxHp
    ensures r.0.currentHp == f.currentHp + r.1
    ensures r.0 == f.(currentHp := r.0.currentHp)
  {
    if f.currentHp >= f.maxHp then (f, 0)
    else
      var actual := if amount < f.maxHp - f.currentHp then amount else f.maxHp - f.currentHp;
      (f.(currentHp := f.currentHp + actual), actual)
  }

  /** Damage and repair of non-negative amounts keep the hit points within
      [0, max]. */
  lemma HealthyKept(f: Fortress, damage: int, amount: int, today: string)
    requires Healthy(f) && damage >= 0 && amount >= 0
    ensures Healthy(TakeDamage(f, damage, today).0)
    ensures Healthy(Repair(f, amount).0)
  {
  }

  /** Repairing what a survivable hit took away restores the hit points. */
  lemma DamageThenRepair(f: Fortress, damage: int, today: string)
    requires Healthy(f) && 0 <= damage < f.currentHp
    ensures var hit := TakeDamage(f, damage, today).0;
      Repair(hit, damage).0.currentHp == f.currentHp && Repair(hit, damage).1 == damage
  {
  }

  datatype Attack = Repelled | Attacked(enemyPower: int, fortressDamage: int, report: DamageReport)

  /** `fortress_under_attack`: with mechs defending nothing happens; without
      them the enemies hit the fortress for a thousand times their power. */
  function FortressUnderAttack(f: Fortress, enemyPower: int, noMechsLaunched: bool, today: string): (r: (Fortress, Attack))
    ensures !noMechsLaunched ==> r == (f, Repelled)
    ensures noMechsLaunched ==>
      r.1.Attacked? && r.1.fortressDamage == enemyPower * 1000
      && (r.0, r.1.report) == TakeDamage(f, enemyPower * 1000, today)
  {
    if !noMechsLaunched then (f, Repelled)
    else
      var (g, report) := TakeDamage(f, enemyPower * 1000, today);
      (g, Attacked(enemyPower, enemyPower * 1000, report))
  }

  /** `check_fortress_condition`: the fortress is attacked when nobody
      launched or every launched mecha went down. */
  function CheckFortressCondition(playersLaunched: int, allMechsDefeated: bool): (attacked: bool)
    ensures !attacked ==> playersLaunched != 0 && !allMechsDefeated
    ensures playersLaunched == 0 ==> attacked
  {
    playersLaunched == 0 || allMechsDefeated
  }

  // ---------------------------------------------------------------------
  // Saving and loading
  // ---------------------------------------------------------------------

  function DateValue(d: Option<string>): Value {
    match d
    case Some(s) => Str(s)
    case None => Other
  }

  /** `to_dict` */
  function ToDict(f: Fortress): (d: Dict<string, Value>)
  {
    [("current_hp", Int(f.currentHp)), ("max_hp", Int(f.maxHp)), ("total_damage_taken", Int(f.totalDamageTaken)),
     ("days_under_attack", Int(f.daysUnderAttack)), ("last_attack_date", DateValue(f.lastAttackDate))]
  }

  /** A stored integer, or the default when the key is absent. */
  function IntField(d: Dict<string, Value>, k: string, default: int): (r: Option<int>)
    ensures !HasKey(d, k) ==> r == Some(default)
    ensures HasKey(d, k) ==> (r.Some? <==> Get(d, k).value.Int?)
  {
    match Get(d, k)
    case None => Some(default)
    case Some(v) => if v.Int? then Some(v.i) else None
  }

  /** The stored date: absent or null is None. */
  function DateField(d: Dict<string, Value>): (r: Option<Option<string>>)
    ensures !HasKey(d, "last_attack_date") ==> r == Some(None)
  {
    match Get(d, "last_attack_date")
    case None => Some(None)
    case Some(v) => if v.Str? then Some(Some(v.s)) else if v.Other? then Some(None) else None
  }

  /** `from_dict`: each field from the dictionary or its default; the model
      accepts only integers (and a string or null date). */
  function FromDict(d: Dict<string, Value>): (r: Option<Fortress>)
    ensures d == [] ==> r == Some(New())
  {
    var hp :- IntField(d, "current_hp", FullHp);
    var max :- IntField(d, "max_hp", FullHp);
    var total :- IntField(d, "total_damage_taken", 0);
    var days :- IntField(d, "days_under_attack", 0);
    var date :- DateField(d);
    Some(Fortress(max, hp, date, total, days))
  }

  lemma ToDictGets(f: Fortress)
    ensures var d := ToDict(f);
      && Get(d, "current_hp") == Some(Int(f.currentHp))
      && Get(d, "max_hp") == Some(Int(f.maxHp))
      && Get(d, "total_damage_taken") == Some(Int(f.totalDamageTaken))
      && Get(d, "days_under_attack") == Some(Int(f.daysUnderAttack))
      && Get(d, "last_attack_date") == Some(DateValue(f.lastAttackDate))
  {
    var d := ToDict(f);
    assert |d[0].0| == 10 && |d[1].0| == 6 && |d[2].0| == 18 && |d[3].0| == 17 && |d[4].0| == 16;
    assert Valid(d);
    EntriesFound(d);
    assert Get(d, d[0].0) == Some(d[0].1) && Get(d, d[1].0) == Some(d[1].1);
    assert Get(d, d[2].0) == Some(d[2].1) && Get(d, d[3].0) == Some(d[3].1);
    assert Get(d, d[4].0) == Some(d[4].1);
  }

  /** Loading what was saved gives the same fortress back. */
  lemma FromToDict(f: Fortress)
    ensures FromDict(ToDict(f)) == Some(f)
  {
    var d := ToDict(f);
    ToDictGets(f);
    FromFields(d, f);
  }

  lemma FromFields(d: Dict<string, Value>, f: Fortress)
    requires Get(d, "current_hp") == Some(Int(f.currentHp))
    requires Get(d, "max_hp") == Some(Int(f.maxHp))
    requires Get(d, "total_damage_taken") == Some(Int(f.totalDamageTaken))
    requires Get(d, "days_under_attack") == Some(Int(f.daysUnderAttack))
    requires Get(d, "last_attack_date") == Some(DateValue(f.lastAttackDate))
    ensures FromDict(d) == Some(f)
  {
  }
}

=== FILE: game.dfy ===
/** The game manager, which runs the daily cycle over the mecha registry,
    the combat round and the shop (dream_mecha/core/managers/game_manager.py).
    In the source the combat queue holds the registry's own mecha objects;
    here it holds copies, and `Synced` states that the copies agree with the
    registry in everything combat reads or changes.  The float enemy
    scaling, the damage formulas and piece generation are parameters. */
module Game {
  import opened Wrappers
  import opened Dicts
  import M = Mecha
  import C = Combat
  import S = Shop

  datatype Manager = Manager(registry: M.Registry, combat: C.System, shop: S.System, voidstate: int,
                             dailyCycle: int, gameState: C.Phase)

  /** The enemy stats `_generate_enemy` derives (with floats) from the
      voidstate and the players' total power. */
  type Scale = (int, int) -> C.Scaled

  /** A new game: cycle 1, voidstate 0, preparing, nobody registered. */
  function New(): (g: Manager)
    ensures g.registry == [] && g.combat.launched == [] && g.shop.dailyInventory == []
    ensures g.voidstate == 0 && g.dailyCycle == 1 && g.gameState == C.Preparing
    ensures Synced(g)
  {
    Manager([], C.New(), S.New(), 0, 1, C.Preparing)
  }

  /** Every queued mecha is the registered mecha of its player, as far as
      stats and state go, and no player is queued twice. */
  ghost predicate Synced(g: Manager) {
    && Valid(g.registry) && Keyed(g.registry)
    && C.DistinctIds(g.combat.launched)
    && forall i :: 0 <= i < |g.combat.launched| ==> Agrees(g.registry, g.combat.launched[i])
  }

  /** Each registered mecha belongs to the player it is registered under. */
  ghost predicate Keyed(reg: M.Registry) {
    forall k :: Get(reg, k).Some? ==> Get(reg, k).value.playerId == k
  }

  /** The registry holds the player of `m` with the stats and state of `m`. */
  predicate Agrees(reg: M.Registry, m: M.Mecha) {
    var found := Get(reg, m.playerId);
    found.Some? && found.value.stats == m.stats && found.value.state == m.state
  }

  // ---------------------------------------------------------------------
  // The daily cycle
  // ---------------------------------------------------------------------

  datatype CycleInfo = CycleInfo(cycle: int, voidstate: int, shopPieces: int)

  /** `start_daily_cycle`: back to preparing, launched mechas ready again,
      the combat queue emptied, a fresh shop of 6 to 8 pieces with the
      purchase counters cleared, and the next cycle number. */
  function StartDailyCycle(g: Manager, totalRoll: nat, smallRoll: nat, mediumRoll: nat, generate: S.Generator): (r: (Manager, CycleInfo))
    requires Valid(g.registry)
    ensures var h := r.0;
      && h.gameState == C.Preparing && h.dailyCycle == g.dailyCycle + 1 && h.voidstate == g.voidstate
      && h.combat.launched == [] && h.combat.enemies == []
      && M.LaunchedMechas(h.registry) == []
      && Keys(h.registry) == Keys(g.registry)
      && h.shop.dailyPurchases == [] && 6 <= |h.shop.dailyInventory| <= 8
      && (Keyed(g.registry) ==> Synced(h))
    ensures r.1 == CycleInfo(g.dailyCycle + 1, g.voidstate, |r.0.shop.dailyInventory|)
  {
    var registry := M.ResetDailyState(g.registry);
    M.ResetClearsLaunched(g.registry);
    ResetRegistry(g.registry);
    var shop := S.GenerateDailyShop(g.shop, totalRoll, smallRoll, mediumRoll, generate);
    var h := Manager(registry, C.ResetCombat(g.combat), shop, g.voidstate, g.dailyCycle + 1, C.Preparing);
    (h, CycleInfo(h.dailyCycle, h.voidstate, |shop.dailyInventory|))
  }

  /** Resetting the daily state keeps the registry's keys and who is
      registered under each. */
  lemma ResetRegistry(reg: M.Registry)
    requires Valid(reg)
    ensures var r := M.ResetDailyState(reg);
      Valid(r) && Keys(r) == Keys(reg) && (Keyed(reg) ==> Keyed(r))
  {
    var r := M.ResetDailyState(reg);
    assert Keys(r) == Keys(reg);
    if Keyed(reg) {
      forall k | Get(r, k).Some? ensures Get(r, k).value.playerId == k {
        ResetGet(reg, k);
      }
    }
  }

  lemma ResetGet(reg: M.Registry, k: string)
    ensures Get(M.ResetDailyState(reg), k) == if Get(reg, k).Some? then Some(M.ResetState(Get(reg, k).value)) else None
  {
    GetMapped(reg, M.ResetDailyState(reg), (_, m) => M.ResetState(m), k);
  }

  /** `launch_mecha`: a registered player's mecha joins the round when the
      game is preparing, the mecha is launchable and not yet queued; the
      registered mecha is then launched too. */
  function LaunchMecha(g: Manager, playerId: string): (r: (Manager, bool))
    requires Valid(g.registry)
    ensures r.1 <==>
      && HasKey(g.registry, playerId) && g.gameState == C.Preparing
      && M.IsLaunchable(Get(g.registry, playerId).value.stats)
      && !C.Queued(g.combat, Get(g.registry, playerId).value.playerId)
    ensures !r.1 ==> r.0 == g
    ensures r.1 ==>
      var m := Get(g.registry, playerId).value.(state := M.Launched);
      && r.0.combat.launched == g.combat.launched + [m]
      && r.0.registry == Put(g.registry, playerId, m)
      && r.0 == g.(registry := r.0.registry, combat := r.0.combat)
  {
    match Get(g.registry, playerId)
    case None => (g, false)
    case Some(m) =>
      if g.gameState != C.Preparing then (g, false)
      else
        var (combat, ok) := C.AddMecha(g.combat, m);
        if ok then (g.(registry := Put(g.registry, playerId, m.(state := M.Launched)), combat := combat), true)
        else (g, false)
  }

  /** `launch_mecha` as the source has it: it ends in `add_mecha`, which
      always raises, so no mecha is ever launched. */
  function LaunchMechaAsWritten(g: Manager, playerId: string): (r: Result<bool>)
    ensures r.Err? <==> HasKey(g.registry, playerId) && g.gameState == C.Preparing
    ensures r.Ok? ==> !r.value
  {
    match Get(g.registry, playerId)
    case None => Ok(false)
    case Some(m) =>
      if g.gameState != C.Preparing then Ok(false)
      else
        match C.AddMechaAsWritten(g.combat, m)
        case Err(e) => Err(e)
        case Ok((_, added)) => Ok(added)
  }

  /** Launching keeps the queue in step with the registry. */
  lemma LaunchKeepsSynced(g: Manager, playerId: string)
    requires Synced(g)
    ensures Synced(LaunchMecha(g, playerId).0)
  {
    var (h, ok) := LaunchMecha(g, playerId);
    if ok {
      var m := Get(g.registry, playerId).value.(state := M.Launched);
      assert m.playerId == playerId;
      PutKeyed(g.registry, playerId, m);
      QueueAgrees(g.registry, g.combat.launched, m);
    }
  }

  /** Registering a player's own mecha under their id keeps the registry keyed. */
  lemma PutKeyed(reg: M.Registry, k: string, m: M.Mecha)
    requires Valid(reg) && Keyed(reg) && m.playerId == k
    ensures Keyed(Put(reg, k, m))
  {
    forall k' | Get(Put(reg, k, m), k').Some? ensures Get(Put(reg, k, m), k').value.playerId == k' {
      if k' != k {
        assert Get(Put(reg, k, m), k') == Get(reg, k');
      }
    }
  }

  /** Queuing a mecha of a player not yet queued, and registering it, keeps
      the queue distinct and in agreement with the registry. */
  lemma QueueAgrees(reg: M.Registry, ms: seq<M.Mecha>, m: M.Mecha)
    requires Valid(reg) && C.DistinctIds(ms) && forall i :: 0 <= i < |ms| ==> Agrees(reg, ms[i])
    requires forall i :: 0 <= i < |ms| ==> ms[i].playerId != m.playerId
    ensures var r := Put(reg, m.playerId, m);
      C.DistinctIds(ms + [m]) && forall i :: 0 <= i < |ms + [m]| ==> Agrees(r, (ms + [m])[i])
  {
    var r := Put(reg, m.playerId, m);
    var ms' := ms + [m];
    forall i | 0 <= i < |ms'| ensures Agrees(r, ms'[i]) {
      if i < |ms| {
        assert ms'[i] == ms[i];
        assert Get(r, ms[i].playerId) == Get(reg, ms[i].playerId);
      }
    }
  }

  // ---------------------------------------------------------------------
  // Combat
  // ---------------------------------------------------------------------

  /** The sum of hit points, attack, defence and speed over all mechas. */
  function TotalPower(reg: M.Registry): int {
    if |reg| == 0 then 0
    else
      var s := reg[0].1.stats;
      s.hp + s.attack + s.defense + s.speed + TotalPower(reg[1..])
  }

  /** The first mecha of the round belonging to the player, or |ms|. */
  function FindPlayer(ms: seq<M.Mecha>, playerId: string): (j: nat)
    ensures j <= |ms|
    ensures j < |ms| ==> ms[j].playerId == playerId
    ensures forall i :: 0 <= i < j ==> ms[i].playerId != playerId
  {
    if |ms| == 0 then 0
    else if ms[0].playerId == playerId then 0
    else 1 + FindPlayer(ms[1..], playerId)
  }

  /** A registered mecha after the round: the stats and state of the
      player's mecha in the round, if it fought. */
  function Refresh(playerId: string, m: M.Mecha, ms: seq<M.Mecha>): M.Mecha {
    var j := FindPlayer(ms, playerId);
    if j < |ms| then m.(stats := ms[j].stats, state := ms[j].state) else m
  }

  /** Writes every mecha of the round back to the registry. */
  function WriteBackAll(reg: M.Registry, ms: seq<M.Mecha>): (r: M.Registry)
    ensures |r| == |reg| && forall i :: 0 <= i < |reg| ==> r[i] == (reg[i].0, Refresh(reg[i].0, reg[i].1, ms))
  {
    seq(|reg|, i requires 0 <= i < |reg| => (reg[i].0, Refresh(reg[i].0, reg[i].1, ms)))
  }

  /** After the write-back every registered player who fought has the
      stats and state the round left, players who did not fight are as
      they were, and nothing but stats and state changes. */
  lemma WriteBackAgrees(reg: M.Registry, ms: seq<M.Mecha>)
    requires Valid(reg)
    ensures Valid(WriteBackAll(reg, ms)) && Keys(WriteBackAll(reg, ms)) == Keys(reg)
    ensures forall k :: HasKey(reg, k) <==> HasKey(WriteBackAll(reg, ms), k)
    ensures forall k :: (forall i :: 0 <= i < |ms| ==> ms[i].playerId != k) ==> Get(WriteBackAll(reg, ms), k) == Get(reg, k)
    ensures forall k :: HasKey(reg, k) ==>
      var after := Get(WriteBackAll(reg, ms), k).value;
      after == Get(reg, k).value.(stats := after.stats, state := after.state)
    ensures C.DistinctIds(ms) ==>
      forall i :: 0 <= i < |ms| && HasKey(reg, ms[i].playerId) ==> Agrees(WriteBackAll(reg, ms), ms[i])
  {
    var r := WriteBackAll(reg, ms);
    assert Keys(r) == Keys(reg);
    forall k ensures Get(r, k) == if Get(reg, k).Some? then Some(Refresh(k, Get(reg, k).value, ms)) else None {
      WriteBackGet(reg, ms, k);
    }
    if C.DistinctIds(ms) {
      forall i | 0 <= i < |ms| && HasKey(reg, ms[i].playerId) ensures Agrees(r, ms[i]) {
        WriteBackFought(reg, ms, i);
      }
    }
  }

  lemma WriteBackGet(reg: M.Registry, ms: seq<M.Mecha>, k: string)
    ensures Get(WriteBackAll(reg, ms), k) == if Get(reg, k).Some? then Some(Refresh(k, Get(reg, k).value, ms)) else None
  {
    GetMapped(reg, WriteBackAll(reg, ms), (k: string, m: M.Mecha) => Refresh(k, m, ms), k);
  }

  /** A registered player who fought once has the stats and state of their
      mecha in the round. */
  lemma WriteBackFought(reg: M.Registry, ms: seq<M.Mecha>, i: int)
    requires C.DistinctIds(ms) && 0 <= i < |ms| && HasKey(reg, ms[i].playerId)
    ensures Agrees(WriteBackAll(reg, ms), ms[i])
  {
    WriteBackGet(reg, ms, ms[i].playerId);
    assert FindPlayer(ms, ms[i].playerId) == i;
  }

  /** Credits `amount` zoltans to a registered player. */
  function Credit(reg: M.Registry, playerId: string, amount: int): (r: M.Registry)
    requires Valid(reg)
    ensures Valid(r)
    ensures forall k :: k != playerId ==> Get(r, k) == Get(reg, k)
    ensures HasKey(reg, playerId) ==>
      Get(r, playerId) == Some(Get(reg, playerId).value.(zoltans := Get(reg, playerId).value.zoltans + amount))
    ensures !HasKey(reg, playerId) ==> r == reg
  {
    match Get(reg, playerId)
    case None => reg
    case Some(m) => Put(reg, playerId, m.(zoltans := m.zoltans + amount))
  }

  /** `_distribute_rewards`: each registered player's zoltans grow by that
      player's reward; rewards of unknown players are dropped and nothing
      else changes. */
  function DistributeRewards(reg: M.Registry, rewards: Dict<string, int>): (r: M.Registry)
    requires Valid(reg) && Valid(rewards)
    ensures Valid(r)
    ensures forall k :: HasKey(r, k) <==> HasKey(reg, k)
    ensures forall k :: HasKey(reg, k) ==>
      Get(r, k).value == Get(reg, k).value.(zoltans := Get(reg, k).value.zoltans + Get(rewards, k).GetOr(0))
    decreases |rewards|
  {
    if |rewards| == 0 then reg
    else
      TailValid(rewards);
      var (p, amount) := rewards[0];
      var first := Credit(reg, p, amount);
      var r := DistributeRewards(first, rewards[1..]);
      assert forall k :: HasKey(first, k) <==> HasKey(reg, k) by {
        forall k ensures HasKey(first, k) <==> HasKey(reg, k) {
          if k != p {
            assert Get(first, k) == Get(reg, k);
          }
        }
      }
      r
  }

  /** `resolve_combat`: refused unless preparing.  Otherwise enemies are
      generated for the current voidstate and the players' total power, the
      round is fought, the voidstate follows the round's report (it stays
      when nobody fought), the round's mechas are written back, rewards are
      paid, and the game is resolved. */
  function ResolveCombat(g: Manager, scale: Scale, strike: C.Strike, absorb: C.Absorb): (r: (Manager, Option<C.Outcome>))
    requires Valid(g.registry)
    ensures r.1.None? <==> g.gameState != C.Preparing
    ensures r.1.None? ==> r.0 == g
    ensures r.1.Some? ==>
      var fought := C.ResolveCombat(C.GenerateEnemies(g.combat, g.voidstate, scale(g.voidstate, TotalPower(g.registry))), strike, absorb);
      && r.1.value == fought.1
      && r.0.combat == fought.0
      && r.0.gameState == C.Resolved
      && r.0.voidstate == (if fought.1.Report? then fought.1.voidstateChange else g.voidstate)
      && r.0.dailyCycle == g.dailyCycle && r.0.shop == g.shop
      && Valid(r.0.registry) && (forall k :: HasKey(r.0.registry, k) <==> HasKey(g.registry, k))
  {
    if g.gameState != C.Preparing then (g, None)
    else
      var armed := C.GenerateEnemies(g.combat, g.voidstate, scale(g.voidstate, TotalPower(g.registry)));
      var (combat, outcome) := C.ResolveCombat(armed, strike, absorb);
      WriteBackAgrees(g.registry, combat.launched);
      var registry := if outcome.NoCombatants? then g.registry
        else DistributeRewards(WriteBackAll(g.registry, combat.launched), outcome.rewards);
      var voidstate := if outcome.Report? then outcome.voidstateChange else g.voidstate;
      (Manager(registry, combat, g.shop, voidstate, g.dailyCycle, C.Resolved), Some(outcome))
  }

  /** Combat keeps the queue in step with the registry. */
  lemma ResolveKeepsSynced(g: Manager, scale: Scale, strike: C.Strike, absorb: C.Absorb)
    requires Synced(g)
    ensures Synced(ResolveCombat(g, scale, strike, absorb).0)
  {
    var h := ResolveCombat(g, scale, strike, absorb).0;
    if g.gameState == C.Preparing {
      var armed := C.GenerateEnemies(g.combat, g.voidstate, scale(g.voidstate, TotalPower(g.registry)));
      var (combat, outcome) := C.ResolveCombat(armed, strike, absorb);
      if outcome.Report? {
        var ms := combat.launched;
        assert forall i :: 0 <= i < |ms| ==> ms[i].playerId == g.combat.launched[i].playerId;
        assert C.DistinctIds(ms);
        forall i | 0 <= i < |ms| ensures HasKey(g.registry, ms[i].playerId) {
          assert Agrees(g.registry, g.combat.launched[i]);
        }
        PaidSynced(g.registry, ms, outcome.rewards);
      }
    }
  }

  /** Writing the round back and paying the rewards leaves a keyed registry
      that agrees with every mecha of the round. */
  lemma PaidSynced(reg: M.Registry, ms: seq<M.Mecha>, rewards: Dict<string, int>)
    requires Valid(reg) && Keyed(reg) && Valid(rewards) && C.DistinctIds(ms)
    requires forall i :: 0 <= i < |ms| ==> HasKey(reg, ms[i].playerId)
    ensures var h := DistributeRewards(WriteBackAll(reg, ms), rewards);
      Valid(h) && Keyed(h) && forall i :: 0 <= i < |ms| ==> Agrees(h, ms[i])
  {
    var written := WriteBackAll(reg, ms);
    WriteBackAgrees(reg, ms);
    var h := DistributeRewards(written, rewards);
    forall k | Get(h, k).Some? ensures Get(h, k).value.playerId == k {
      assert HasKey(written, k);
    }
    forall i | 0 <= i < |ms| ensures Agrees(h, ms[i]) {
      assert Agrees(written, ms[i]);
    }
  }

  /** One round a day: once resolved, nobody launches and combat is refused
      until the next cycle starts. */
  lemma OneRoundPerCycle(g: Manager, scale: Scale, strike: C.Strike, absorb: C.Absorb, playerId: string,
                         scale2: Scale, strike2: C.Strike, absorb2: C.Absorb)
    requires Valid(g.registry) && g.gameState == C.Preparing
    ensures var h := ResolveCombat(g, scale, strike, absorb).0;
      && !LaunchMecha(h, playerId).1
      && ResolveCombat(h, scale2, strike2, absorb2).1 == None
  {
  }
}

=== FILE: gate_creator.dfy ===
/** The glyph-keyed GATE system (blockmaker/gate_creator.py): a glyph drawing
    is parsed into its blocks and their 4-adjacency map, the blocks become
    the ordered transformations of a glyph key, and a lock keeps the drawing
    with a hash of it.  SHA-256 is the parameter `digest`; key derivation
    and AES-GCM are foreign, and only the byte framing of their output is
    modelled. */
module GateCreator {
  import opened Wrappers
  import opened PyText
  import StableSort
  import opened Blocklock

  type Pos = (int, int)

  // ---------------------------------------------------------------------
  // Parsing (_parse_glyph_structure)
  // ---------------------------------------------------------------------

  /** `b` is the block the token at its position denotes: '+' counts as
      block 1, a digit token as its number. */
  predicate BlockCell(toks: seq<seq<string>>, b: Block) {
    0 <= b.0 < |toks| && 0 <= b.1 < |toks[b.0]|
    && ((toks[b.0][b.1] == "+" && b.2 == 1) || DigitCell(toks, b))
  }

  /** Reading order: earlier row, or the same row and an earlier column. */
  predicate Before(a: Block, b: Block) {
    a.0 < b.0 || (a.0 == b.0 && a.1 < b.1)
  }

  predicate InReadingOrder(bs: seq<Block>) {
    forall i, j :: 0 <= i < j < |bs| ==> Before(bs[i], bs[j])
  }

  /** The blocks of row `row` from column `col` on, left to right. */
  function RowBlocks(toks: seq<seq<string>>, row: nat, col: nat): (r: seq<Block>)
    requires row < |toks| && col <= |toks[row]|
    ensures forall b :: b in r <==> b.0 == row && col <= b.1 && BlockCell(toks, b)
    ensures InReadingOrder(r)
    decreases |toks[row]| - col
  {
    if col == |toks[row]| then []
    else
      var t := toks[row][col];
      var rest := RowBlocks(toks, row, col + 1);
      if t == "+" then [(row as int, col as int, 1)] + rest
      else if IsDigits(t) then [(row as int, col as int, DigitsValue(t) as int)] + rest
      else rest
  }

  /** The blocks of the rows from `row` on, in reading order. */
  function GlyphBlocks(toks: seq<seq<string>>, row: nat): (r: seq<Block>)
    requires row <= |toks|
    ensures forall b :: b in r <==> row <= b.0 && BlockCell(toks, b)
    ensures InReadingOrder(r)
    decreases |toks| - row
  {
    if row == |toks| then []
    else
      var here := RowBlocks(toks, row, 0);
      var rest := GlyphBlocks(toks, row + 1);
      assert forall i :: 0 <= i < |here| ==> here[i] in here;
      assert forall j :: 0 <= j < |rest| ==> rest[j] in rest;
      here + rest
  }

  /** The running maximum of the parse loop, starting from `acc`. */
  function RunningMax(bs: seq<Block>, acc: int): (r: int)
    ensures r >= acc && forall b :: b in bs ==> b.2 <= r
    ensures r == acc || exists b :: b in bs && b.2 == r
  {
    if |bs| == 0 then acc
    else
      assert forall b :: b in bs[1..] ==> b in bs;
      RunningMax(bs[1..], if acc >= bs[0].2 then acc else bs[0].2)
  }

  /** Starting from 0 over non-negative numbers, the running maximum is the
      largest block number, or 0 without blocks. */
  lemma RunningMaxIsMax(bs: seq<Block>)
    requires Counted(bs)
    ensures RunningMax(bs, 0) == MaxNumber(bs)
  {
    var r := RunningMax(bs, 0);
    if |bs| > 0 {
      var m := MaxNumber(bs);
      var b :| b in bs && b.2 == m;
      assert r >= m;
      if r != 0 {
        var c :| c in bs && c.2 == r;
      }
    }
  }

  datatype GlyphData = GlyphData(
    gridSize: nat, blockCount: nat, blocks: seq<Block>, anchor: Option<Pos>,
    maxNumber: int, adjacency: map<Pos, seq<Pos>>)

  // ---------------------------------------------------------------------
  // Adjacency (_build_adjacency_map)
  // ---------------------------------------------------------------------

  /** `q` is one of the four neighbours of `p`. */
  predicate Adjacent(p: Pos, q: Pos) {
    (q.0 == p.0 && (q.1 == p.1 - 1 || q.1 == p.1 + 1))
    || (q.1 == p.1 && (q.0 == p.0 - 1 || q.0 == p.0 + 1))
  }

  /** `any(b[0] == r and b[1] == c for b in blocks)` */
  predicate Occupied(bs: seq<Block>, p: Pos) {
    exists b :: b in bs && b.0 == p.0 && b.1 == p.1
  }

  function Positions(bs: seq<Block>): (r: set<Pos>)
    ensures forall p :: p in r <==> Occupied(bs, p)
  {
    set b | b in bs :: (b.0, b.1)
  }

  /** The occupied neighbours of `p`, probed up, down, left, right. */
  function Neighbours(bs: seq<Block>, p: Pos): (r: seq<Pos>)
    ensures |r| <= 4
    ensures forall q :: q in r <==> Adjacent(p, q) && Occupied(bs, q)
    ensures forall i, j :: 0 <= i < j < |r| ==> r[i] != r[j]
  {
    var up, down, left, right := (p.0 - 1, p.1), (p.0 + 1, p.1), (p.0, p.1 - 1), (p.0, p.1 + 1);
    (if Occupied(bs, up) then [up] else [])
    + (if Occupied(bs, down) then [down] else [])
    + (if Occupied(bs, left) then [left] else [])
    + (if Occupied(bs, right) then [right] else [])
  }

  /** One entry per block position, listing exactly its neighbours that are
      also blocks. */
  function BuildAdjacency(bs: seq<Block>): (m: map<Pos, seq<Pos>>)
    ensures forall p :: p in m <==> Occupied(bs, p)
    ensures forall p, q :: p in m ==> (q in m[p] <==> Adjacent(p, q) && q in m)
    ensures forall p :: p in m ==> |m[p]| <= 4
    ensures forall p, q :: p in m && q in m ==> (q in m[p] <==> p in m[q])
  {
    var m := map p | p in Positions(bs) :: Neighbours(bs, p);
    AdjacencyLinks(bs, m);
    AdjacencySymmetric(m);
    m
  }

  lemma AdjacencyLinks(bs: seq<Block>, m: map<Pos, seq<Pos>>)
    requires m == map p | p in Positions(bs) :: Neighbours(bs, p)
    ensures forall p :: p in m <==> Occupied(bs, p)
    ensures forall p, q :: p in m ==> (q in m[p] <==> Adjacent(p, q) && q in m)
    ensures forall p :: p in m ==> |m[p]| <= 4
  {
  }

  /** Adjacency runs both ways, so the map is symmetric. */
  lemma AdjacencySymmetric(m: map<Pos, seq<Pos>>)
    requires forall p, q :: p in m ==> (q in m[p] <==> Adjacent(p, q) && q in m)
    ensures forall p, q :: p in m && q in m ==> (q in m[p] <==> p in m[q])
  {
  }

  /** `_parse_glyph_structure`: every '+' and every digit token is a block,
      in reading order; the anchor is the last '+'; the block count and the
      largest number follow the blocks. */
  function ParseGlyph(sigil: string): (s: GlyphData)
    ensures s.gridSize == |Lines(sigil)|
    ensures forall b :: b in s.blocks <==> BlockCell(Tokens(sigil), b)
    ensures InReadingOrder(s.blocks)
    ensures s.blockCount == |s.blocks| && s.maxNumber == MaxNumber(s.blocks)
    ensures s.anchor == LastPlusRows(Tokens(sigil), 0)
    ensures forall p :: p in s.adjacency <==> Occupied(s.blocks, p)
  {
    var toks := Tokens(sigil);
    var bs := GlyphBlocks(toks, 0);
    assert Counted(bs);
    RunningMaxIsMax(bs);
    GlyphData(|Lines(sigil)|, |bs|, bs, LastPlusRows(toks, 0), RunningMax(bs, 0), BuildAdjacency(bs))
  }

  // ---------------------------------------------------------------------
  // The glyph key (_create_glyph_key)
  // ---------------------------------------------------------------------

  /** A block's step of the key; its float weights are not modelled. */
  datatype Transformation = Transformation(blockNum: int, position: Pos, adjacentBlocks: seq<Pos>)

  datatype GlyphKey = GlyphKey(
    spatialStructure: GlyphData, transformations: seq<Transformation>, encryptionSteps: nat,
    blockPositions: seq<Block>, adjacencyMatrix: map<Pos, seq<Pos>>)

  function BlockOf(t: Transformation): Block {
    (t.position.0, t.position.1, t.blockNum)
  }

  /** The blocks the transformations stand for, in order. */
  function StepBlocks(ts: seq<Transformation>): (r: seq<Block>)
    ensures |r| == |ts|
  {
    seq(|ts|, i requires 0 <= i < |ts| => BlockOf(ts[i]))
  }

  /** `adjacency_map.get((row, col), [])` */
  function AdjacentOf(m: map<Pos, seq<Pos>>, p: Pos): seq<Pos> {
    if p in m then m[p] else []
  }

  /** One transformation per block, in ascending block number, each carrying
      the block's adjacency list; there are as many steps as blocks.  Each
      block's entropy contribution divides its number by the largest one
      (gate_creator.py:352), so blocks whose numbers are all 0 raise
      ZeroDivisionError. */
  function CreateGlyphKey(s: GlyphData): (r: Result<GlyphKey>)
    requires s.blockCount == |s.blocks|
    ensures r.Err? <==> |s.blocks| > 0 && s.maxNumber == 0
    ensures r.Ok? ==> var k := r.value;
      && |k.transformations| == s.blockCount == k.encryptionSteps
      && (forall i, j :: 0 <= i < j < |k.transformations| ==>
            k.transformations[i].blockNum <= k.transformations[j].blockNum)
      && multiset(StepBlocks(k.transformations)) == multiset(s.blocks)
      && (forall i :: 0 <= i < |k.transformations| ==>
            k.transformations[i].adjacentBlocks == AdjacentOf(s.adjacency, k.transformations[i].position))
  {
    if |s.blocks| > 0 && s.maxNumber == 0 then Err("ZeroDivisionError")
    else Ok(KeyOf(s))
  }

  /** The transformations of a key whose entropy weights are defined. */
  function KeyOf(s: GlyphData): (k: GlyphKey)
    requires s.blockCount == |s.blocks|
    ensures |k.transformations| == s.blockCount == k.encryptionSteps
    ensures forall i, j :: 0 <= i < j < |k.transformations| ==>
      k.transformations[i].blockNum <= k.transformations[j].blockNum
    ensures multiset(StepBlocks(k.transformations)) == multiset(s.blocks)
    ensures forall i :: 0 <= i < |k.transformations| ==>
      k.transformations[i].adjacentBlocks == AdjacentOf(s.adjacency, k.transformations[i].position)
  {
    var sorted := SortedBlocks(s.blocks);
    StableSort.SortBySorted(s.blocks, Number);
    var ts := seq(|sorted|, i requires 0 <= i < |sorted| =>
      Transformation(sorted[i].2, (sorted[i].0, sorted[i].1), AdjacentOf(s.adjacency, (sorted[i].0, sorted[i].1))));
    assert forall i :: 0 <= i < |ts| ==> ts[i].blockNum == Number(sorted[i]);
    assert StepBlocks(ts) == sorted;
    GlyphKey(s, ts, s.blockCount, s.blocks, s.adjacency)
  }

  // ---------------------------------------------------------------------
  // Complexity (_assess_quantum_resistance)
  // ---------------------------------------------------------------------

  /** `b ** e` on naturals; `0 ** 0` is 1 as in Python. */
  function Pow(b: nat, e: nat): nat {
    if e == 0 then 1 else b * Pow(b, e - 1)
  }

  datatype Level = Low | Medium | High {
    function Name(): string {
      match this
      case Low => "LOW"
      case Medium => "MEDIUM"
      case High => "HIGH"
    }
    function Rank(): nat {
      match this
      case Low => 0
      case Medium => 1
      case High => 2
    }
  }

  datatype Assessment = Assessment(spatialCombinations: nat, complexityLevel: Level)

  const E15: nat := 1_000_000_000_000_000
  const E30: nat := E15 * E15

  function AssessComplexity(blockCount: nat): (r: Assessment)
    ensures r.spatialCombinations == Pow(blockCount, blockCount)
    ensures r.complexityLevel == High <==> r.spatialCombinations > E30
    ensures r.complexityLevel == Low <==> r.spatialCombinations <= E15
  {
    var c := Pow(blockCount, blockCount);
    Assessment(c, if c > E30 then High else if c > E15 then Medium else Low)
  }

  lemma MulMono(a: nat, b: nat, c: nat)
    requires a <= b
    ensures a * c <= b * c
  {
  }

  lemma {:induction false} PowBaseMono(a: nat, b: nat, e: nat)
    requires a <= b
    ensures Pow(a, e) <= Pow(b, e)
  {
    if e > 0 {
      var x, y := Pow(a, e - 1), Pow(b, e - 1);
      PowBaseMono(a, b, e - 1);
      MulMono(a, b, x);
      MulMono(x, y, b);
      assert Pow(a, e) == a * x && Pow(b, e) == y * b;
    }
  }

  lemma {:induction false} PowExpMono(b: nat, e: nat, f: nat)
    requires 1 <= b && e <= f
    ensures Pow(b, e) <= Pow(b, f)
    decreases f
  {
    if e < f {
      PowExpMono(b, e, f - 1);
      MulMono(1, b, Pow(b, f - 1));
    }
  }

  /** `n ** n` grows with `n`. */
  lemma PowSelfMono(n: nat, m: nat)
    requires n <= m
    ensures Pow(n, n) <= Pow(m, m)
  {
    if n == 0 {
      if m > 0 {
        PowExpMono(m, 0, m);
      }
    } else {
      PowBaseMono(n, m, n);
      PowExpMono(m, n, m);
    }
  }

  /** More blocks never lower the complexity level. */
  lemma LevelMonotone(n: nat, m: nat)
    requires n <= m
    ensures AssessComplexity(n).complexityLevel.Rank() <= AssessComplexity(m).complexityLevel.Rank()
  {
    PowSelfMono(n, m);
  }

  /** The powers at the level boundaries, 13^13, 14^14, 22^22 and 23^23. */
  lemma PowLandmarks()
    ensures Pow(13, 13) == 302_875_106_592_253 <= E15
    ensures Pow(14, 14) == 11_112_006_825_558_016 > E15
    ensures Pow(22, 22) == 341_427_877_364_219_557_396_646_723_584 <= E30
    ensures Pow(23, 23) == 20_880_467_999_847_912_034_355_032_910_567 > E30
  {
    assert Pow(13, 4) == 28_561;
    assert Pow(13, 8) == 815_730_721;
    assert Pow(13, 12) == 23_298_085_122_481;
    assert Pow(14, 4) == 38_416;
    assert Pow(14, 8) == 1_475_789_056;
    assert Pow(14, 12) == 56_693_912_375_296;
    assert Pow(22, 4) == 234_256;
    assert Pow(22, 8) == 54_875_873_536;
    assert Pow(22, 12) == 12_855_002_631_049_216;
    assert Pow(22, 16) == 3_011_361_496_339_065_143_296;
    assert Pow(22, 20) == 705_429_498_686_404_044_207_947_776;
    assert Pow(23, 4) == 279_841;
    assert Pow(23, 8) == 78_310_985_281;
    assert Pow(23, 12) == 21_914_624_432_020_321;
    assert Pow(23, 16) == 6_132_610_415_680_998_648_961;
    assert Pow(23, 20) == 1_716_155_831_334_586_342_923_895_201;
  }

  /** The levels by block count: LOW up to 13 blocks, MEDIUM from 14 to 22,
      HIGH from 23. */
  lemma LevelThresholds(n: nat)
    ensures AssessComplexity(n).complexityLevel == (if n <= 13 then Low else if n <= 22 then Medium else High)
  {
    PowLandmarks();
    if n <= 13 {
      PowSelfMono(n, 13);
    } else if n <= 22 {
      PowSelfMono(14, n);
      PowSelfMono(n, 22);
    } else {
      PowSelfMono(23, n);
    }
  }

  // ---------------------------------------------------------------------
  // The lock and its verification
  // ---------------------------------------------------------------------

  datatype GateLock = GateLock(
    visualPattern: string, verificationHash: string,
    blockCount: nat, gridSize: nat, maxNumber: int, anchorPosition: Option<Pos>)

  /** `_create_gate_lock`; the float complexity metrics are not modelled,
      but computing them divides by the squared grid size and by the block
      count (gate_creator.py:359-364), so an empty grid or a drawing without
      blocks raises ZeroDivisionError. */
  function CreateGateLock(s: GlyphData, pattern: string, digest: string -> string): (r: Result<GateLock>)
    ensures r.Err? <==> s.gridSize == 0 || s.blockCount == 0
    ensures r.Ok? ==> var l := r.value;
      && l.visualPattern == pattern
      && (var d := digest(pattern);
          |l.verificationHash| == (if |d| < 32 then |d| else 32) && l.verificationHash == d[..|l.verificationHash|])
      && l.blockCount == s.blockCount && l.gridSize == s.gridSize && l.anchorPosition == s.anchor
  {
    if s.gridSize == 0 || s.blockCount == 0 then Err("ZeroDivisionError")
    else Ok(GateLock(pattern, SliceTo(digest(pattern), 32), s.blockCount, s.gridSize, s.maxNumber, s.anchor))
  }

  datatype GateSystem = GateSystem(
    glyphKey: GlyphKey, gateLock: GateLock, blockCount: nat, gridSize: nat, complexity: Assessment)

  /** No block of the drawing carries a number other than 0: it has no '+'
      and every digit token reads as 0. */
  ghost predicate AllZero(sigil: string) {
    forall b :: BlockCell(Tokens(sigil), b) ==> b.2 == 0
  }

  /** `create_gate_from_glyph`; the password only feeds key derivation, which
      is not modelled.  The glyph key is made first and the lock second, and
      either raises ZeroDivisionError exactly when no block has a number
      above 0. */
  function CreateGateFromGlyph(pattern: string, digest: string -> string): (r: Result<GateSystem>)
    ensures r.Err? <==> AllZero(pattern)
    ensures r.Ok? ==> var g := r.value;
      && g.gateLock.visualPattern == pattern
      && g.blockCount == |g.glyphKey.transformations| == g.glyphKey.encryptionSteps > 0
      && g.gridSize == |Lines(pattern)|
      && g.complexity == AssessComplexity(g.blockCount)
      && VerifyGate(g.gateLock, pattern, digest).valid && VerifyGate(g.gateLock, pattern, digest).glyphMatch
  {
    var s := ParseGlyph(pattern);
    ParsedZero(pattern);
    var key :- CreateGlyphKey(s);
    var lock :- CreateGateLock(s, pattern, digest);
    Ok(GateSystem(key, lock, s.blockCount, s.gridSize, AssessComplexity(s.blockCount)))
  }

  /** A parsed drawing has at least one line, and its largest block number is
      0 exactly when every block is numbered 0. */
  lemma ParsedZero(sigil: string)
    ensures ParseGlyph(sigil).gridSize >= 1
    ensures ParseGlyph(sigil).maxNumber == 0 <==> AllZero(sigil)
  {
    var s := ParseGlyph(sigil);
    assert Counted(s.blocks);
    if s.maxNumber == 0 {
      forall b | BlockCell(Tokens(sigil), b) ensures b.2 == 0 {
        assert b in s.blocks;
      }
    }
    if AllZero(sigil) && |s.blocks| > 0 {
      var b :| b in s.blocks && b.2 == s.maxNumber;
    }
  }

  datatype GateCheck = GateCheck(valid: bool, testHash: string, storedHash: string, glyphMatch: bool)

  /** `verify_gate`: validity compares hashes, the glyph match compares the
      drawings themselves. */
  function VerifyGate(lock: GateLock, testGlyph: string, digest: string -> string): (r: GateCheck)
    ensures r.glyphMatch <==> testGlyph == lock.visualPattern
    ensures r.valid <==> r.testHash == lock.verificationHash
    ensures r.storedHash == lock.verificationHash
  {
    var h := SliceTo(digest(testGlyph), 32);
    GateCheck(h == lock.verificationHash, h, lock.verificationHash, testGlyph == lock.visualPattern)
  }

  // ---------------------------------------------------------------------
  // Ciphertext framing (lock_data / unlock_data)
  // ---------------------------------------------------------------------

  /** `iv + tag + ciphertext` */
  function Frame<T>(iv: seq<T>, tag: seq<T>, ciphertext: seq<T>): (r: seq<T>)
    ensures |r| == |iv| + |tag| + |ciphertext|
  {
    iv + tag + ciphertext
  }

  /** `data[:12], data[12:28], data[28:]` with Python's slice clamping. */
  function Unframe<T>(data: seq<T>): (r: (seq<T>, seq<T>, seq<T>))
    ensures |data| >= 28 ==> |r.0| == 12 && |r.1| == 16
    ensures |data| < 28 ==> r.2 == []
  {
    var a, b := SliceBound(12, |data|), SliceBound(28, |data|);
    (data[..a], data[a..b], data[b..])
  }

  /** Slicing the frame of a 12-byte IV and a 16-byte tag recovers the IV,
      the tag and the ciphertext. */
  lemma UnframeFrame<T>(iv: seq<T>, tag: seq<T>, ciphertext: seq<T>)
    requires |iv| == 12 && |tag| == 16
    ensures Unframe(Frame(iv, tag, ciphertext)) == (iv, tag, ciphertext)
  {
    var d := Frame(iv, tag, ciphertext);
    assert d[..12] == iv && d[12..28] == tag && d[28..] == ciphertext;
  }

  /** The three slices always put the data back together. */
  lemma FrameUnframe<T>(data: seq<T>)
    ensures Frame(Unframe(data).0, Unframe(data).1, Unframe(data).2) == data
  {
    var a, b := SliceBound(12, |data|), SliceBound(28, |data|);
    assert data[..a] + data[a..b] + data[b..] == data;
  }
}

=== FILE: gate_portal.dfy ===
/** GATE portal codes (blockmaker/gate_portal.py): a glyph's lock string
    (the blocklock encoding) is hashed together with an integration type into
    a code "GATE-1.0-<type>-<32 hex>", and a verification hash ties the code
    to the portal's metadata.  The SHA-256 hex digest is the parameter
    `digest`; the clock reading is the parameter `now`. */
module GatePortal {
  import opened Wrappers
  import opened PyText
  import opened Blocklock

  const GatePrefix := "GATE"
  const PortalVersion := "1.0"
  const CodeLength := 64

  /** `INTEGRATION_TYPES`, in the order the source lists them. */
  const IntegrationTypes: seq<(string, string)> := [
    ("api", "API Authentication"),
    ("db", "Database Access"),
    ("auth", "Authentication System"),
    ("crypto", "Cryptographic Key"),
    ("session", "Session Token"),
    ("admin", "Administrative Access"),
    ("backup", "Backup Recovery"),
    ("emergency", "Emergency Override")
  ]

  /** `INTEGRATION_TYPES.get(t)` */
  function IntegrationName(t: string): (r: Option<string>)
    ensures r.Some? <==> exists k :: 0 <= k < |IntegrationTypes| && IntegrationTypes[k].0 == t
    ensures r.Some? ==> exists k :: 0 <= k < |IntegrationTypes| && IntegrationTypes[k] == (t, r.value)
  {
    NameFrom(t, 0)
  }

  function NameFrom(t: string, k: nat): (r: Option<string>)
    requires k <= |IntegrationTypes|
    ensures r.Some? <==> exists j :: k <= j < |IntegrationTypes| && IntegrationTypes[j].0 == t
    ensures r.Some? ==> exists j :: k <= j < |IntegrationTypes| && IntegrationTypes[j] == (t, r.value)
    decreases |IntegrationTypes| - k
  {
    if k == |IntegrationTypes| then None
    else if IntegrationTypes[k].0 == t then Some(IntegrationTypes[k].1)
    else NameFrom(t, k + 1)
  }

  predicate KnownType(t: string) {
    IntegrationName(t).Some?
  }

  /** No integration type contains the code separator '-'. */
  lemma TypesUndashed(t: string)
    requires KnownType(t)
    ensures '-' !in t
  {
    var k :| 0 <= k < |IntegrationTypes| && IntegrationTypes[k].0 == t;
  }

  // ---------------------------------------------------------------------
  // Generation
  // ---------------------------------------------------------------------

  /** `_generate_portal_code` */
  function PortalCode(gatePattern: string, integrationType: string, digest: string -> string): (r: string)
    ensures var h := SliceTo(digest(gatePattern + ":" + integrationType), 32);
      r == Join([GatePrefix, PortalVersion, integrationType, h], "-")
  {
    var h := SliceTo(digest(gatePattern + ":" + integrationType), 32);
    JoinCons(integrationType, [h], "-");
    JoinCons(PortalVersion, [integrationType, h], "-");
    JoinCons(GatePrefix, [PortalVersion, integrationType, h], "-");
    GatePrefix + "-" + PortalVersion + "-" + integrationType + "-" + h
  }

  datatype Complexity = Complexity(
    totalBlocks: nat, gridSize: nat, maxNumber: int, anchorPos: Option<(int, int)>, entropyEstimate: nat)

  datatype PortalInfo = PortalInfo(version: string, codeLength: nat, integrationType: string)

  /** The caller's extra metadata, carried through unread. */
  type Custom = seq<(string, string)>

  datatype Metadata = Metadata(
    integrationName: string, symbolUsed: string, sigilComplexity: Complexity,
    portalInfo: PortalInfo, customMetadata: Custom)

  /** `_create_portal_metadata`: the block count includes the anchor, and the
      entropy estimate is 8 per block plus 2 per character of the drawing. */
  function PortalMetadata(sigil: string, symbol: string, integrationType: string, custom: Option<Custom>, g: Glyph): (r: Metadata)
    requires KnownType(integrationType)
    ensures Some(r.integrationName) == IntegrationName(integrationType) && r.symbolUsed == symbol
    ensures r.sigilComplexity.totalBlocks == |g.blocks| + 1
    ensures r.sigilComplexity.entropyEstimate == 8 * r.sigilComplexity.totalBlocks + 2 * |sigil|
    ensures r.customMetadata == if custom.Some? then custom.value else []
  {
    var total := |g.blocks| + 1;
    Metadata(
      IntegrationName(integrationType).value, symbol,
      Complexity(total, g.gridSize, g.maxNumber, g.anchor, total * 8 + |sigil| * 2),
      PortalInfo(PortalVersion, CodeLength, integrationType),
      if custom.Some? then custom.value else [])
  }

  /** `_generate_verification_hash`: the first 16 characters of the digest of
      code, integration name and symbol joined by ':'. */
  function VerificationHash(portalCode: string, integrationName: string, symbolUsed: string, digest: string -> string): (r: string)
    ensures var d := digest(portalCode + ":" + integrationName + ":" + symbolUsed);
      |r| == (if |d| < 16 then |d| else 16) && r == d[..|r|]
  {
    SliceTo(digest(portalCode + ":" + integrationName + ":" + symbolUsed), 16)
  }

  datatype Portal = Portal(
    portalCode: string, gatePattern: string, integrationType: string, metadata: Metadata,
    verificationHash: string, generatedAt: string, version: string)

  function UnknownType(t: string): string {
    "Integration type '" + t + "' not supported"
  }

  /** `generate_gate_portal` */
  function GenerateGatePortal(sigil: string, symbol: string, integrationType: string,
                              custom: Option<Custom>, digest: string -> string, now: string): (r: Result<Portal>)
    ensures symbol !in Symbols ==> r == Err(UnknownSymbol(symbol))
    ensures symbol in Symbols && !KnownType(integrationType) ==> r == Err(UnknownType(integrationType))
    ensures r.Ok? <==> symbol in Symbols && KnownType(integrationType) && ParseGlyphStructure(sigil).anchor.Some?
    ensures r.Ok? ==> var g := ParseGlyphStructure(sigil);
      Some(r.value.gatePattern) == CreateSpatialGatePattern(g, symbol)
      && r.value.portalCode == PortalCode(r.value.gatePattern, integrationType, digest)
      && r.value.metadata == PortalMetadata(sigil, symbol, integrationType, custom, g)
      && r.value.verificationHash == VerificationHash(r.value.portalCode, r.value.metadata.integrationName, symbol, digest)
      && r.value.integrationType == integrationType && r.value.version == PortalVersion
  {
    if symbol !in Symbols then Err(UnknownSymbol(symbol))
    else if !KnownType(integrationType) then Err(UnknownType(integrationType))
    else
      var g := ParseGlyphStructure(sigil);
      match CreateSpatialGatePattern(g, symbol)
      case None => Err(NoAnchor)
      case Some(pattern) =>
        var code := PortalCode(pattern, integrationType, digest);
        var meta := PortalMetadata(sigil, symbol, integrationType, custom, g);
        var vhash := VerificationHash(code, meta.integrationName, meta.symbolUsed, digest);
        Ok(Portal(code, pattern, integrationType, meta, vhash, now, PortalVersion))
  }

  /** The code of a known type splits on '-' into exactly four fields when
      the digest holds no '-' (a hex digest holds none). */
  lemma CodeSplits(gatePattern: string, t: string, digest: string -> string)
    requires KnownType(t) && '-' !in digest(gatePattern + ":" + t)
    ensures var h := SliceTo(digest(gatePattern + ":" + t), 32);
      SplitOn(PortalCode(gatePattern, t, digest), '-') == [GatePrefix, PortalVersion, t, h]
  {
    var d := digest(gatePattern + ":" + t);
    var h := SliceTo(d, 32);
    var parts := [GatePrefix, PortalVersion, t, h];
    TypesUndashed(t);
    assert forall c :: c in h ==> c in d;
    assert forall i :: 0 <= i < |parts| ==> '-' !in parts[i];
    SplitOnJoin(parts, '-');
  }

  // ---------------------------------------------------------------------
  // Verification
  // ---------------------------------------------------------------------

  /** The metadata as `verify_gate_portal` reads it: each key may be missing. */
  datatype Lookup = Lookup(
    integrationName: Option<string>, symbolUsed: Option<string>,
    gridSize: Option<int>, anchorPos: Option<Option<seq<int>>>)

  /** The generated metadata seen through its keys. */
  function AsLookup(m: Metadata): (r: Lookup)
    ensures r.integrationName == Some(m.integrationName) && r.symbolUsed == Some(m.symbolUsed)
  {
    var a := m.sigilComplexity.anchorPos;
    Lookup(Some(m.integrationName), Some(m.symbolUsed), Some(m.sigilComplexity.gridSize as int),
      Some(if a.Some? then Some([a.value.0, a.value.1]) else None))
  }

  // -- the simplified redraw ---------------------------------------------

  /** One step of the demonstration fill: `i` goes to (i // n, i % n) when
      that cell still holds '.'. */
  function FillStep(c: Canvas, n: nat, i: nat): (r: Canvas)
    requires Square(c, n) && i < n * n
    ensures Square(r, n)
  {
    var row, col := i / n, i % n;
    RowInside(n, i);
    if c[row][col] == "." then Put(c, n, row, col, ShowInt(i)).value else c
  }

  /** The steps for i, i + 1, ..., stop - 1. */
  function FillNumbers(c: Canvas, n: nat, i: nat, stop: nat): (r: Canvas)
    requires Square(c, n) && stop <= n * n && i <= stop
    ensures Square(r, n)
    decreases stop - i
  {
    if i == stop then c else FillNumbers(FillStep(c, n, i), n, i + 1, stop)
  }

  lemma MulMono(n: nat, x: int, y: int)
    requires x <= y
    ensures n * x <= n * y
  {
    assert n * y - n * x == n * (y - x);
  }

  /** Position `k` of an n-by-n grid in reading order is (k // n, k % n). */
  lemma ReadingOrder(n: nat, k: nat, a: nat, b: nat)
    requires b < n
    ensures (k / n == a && k % n == b) <==> k == a * n + b
  {
    var q, r := k / n, k % n;
    assert k == n * q + r;
    if k == a * n + b {
      if q > a {
        MulMono(n, a + 1, q);
      } else if q < a {
        MulMono(n, q + 1, a);
      }
    }
  }

  /** Positions before n * n lie inside the grid. */
  lemma RowInside(n: nat, i: nat)
    requires i < n * n
    ensures i / n < n && i % n < n
  {
    var q := i / n;
    assert i == n * q + i % n;
    if q >= n {
      MulMono(n, n, q);
    }
  }

  /** A step writes only the cell at reading-order position `i`. */
  lemma StepCell(c: Canvas, n: nat, i: nat, a: nat, b: nat)
    requires Square(c, n) && i < n * n && a < n && b < n
    ensures FillStep(c, n, i)[a][b] == if i / n == a && i % n == b && c[a][b] == "." then ShowInt(i) else c[a][b]
  {
    RowInside(n, i);
    if c[i / n][i % n] == "." {
      PutCell(c, n, i / n, i % n, ShowInt(i), a, b);
    }
  }

  /** After the fill, a cell holds its reading-order number when that number
      was visited and the cell held '.', and is otherwise unchanged. */
  lemma {:induction false} FillCell(c: Canvas, n: nat, i: nat, stop: nat, a: nat, b: nat)
    requires Square(c, n) && stop <= n * n && i <= stop && a < n && b < n
    ensures var k := a * n + b;
      FillNumbers(c, n, i, stop)[a][b] == if i <= k < stop && c[a][b] == "." then ShowInt(k) else c[a][b]
    decreases stop - i
  {
    if i < stop {
      StepCell(c, n, i, a, b);
      ReadingOrder(n, i, a, b);
      FillCell(FillStep(c, n, i), n, i + 1, stop, a, b);
    }
  }

  /** `_create_simplified_glyph`: raises when the anchor does not unpack to
      two numbers or lies outside the grid. */
  function SimplifiedGrid(symbol: string, gridSize: int, anchor: Option<seq<int>>): (r: Result<Canvas>)
    ensures r.Ok? <==> (anchor.Some? && |anchor.value| == 2 && gridSize > 0
      && PyIndex(anchor.value[0], gridSize).Some? && PyIndex(anchor.value[1], gridSize).Some?)
    ensures r.Ok? ==> Square(r.value, gridSize)
  {
    var n: nat := if gridSize > 0 then gridSize else 0;
    match anchor
    case None => Err(NoAnchor)
    case Some(a) =>
      if |a| != 2 then Err(UnpackError(2, |a|))
      else
        var c :- Put(Blank(n), n, a[0], a[1], symbol);
        Ok(FillNumbers(c, n, 1, FillStop(n)))
  }

  /** `min(10, grid_size * grid_size)`, the end of the numbering. */
  function FillStop(n: nat): (stop: nat)
    ensures stop <= n * n && stop <= 10 && (n > 0 ==> stop >= 1)
  {
    if n * n < 10 then n * n else 10
  }

  /** A simplified drawing is the numbering laid over the blank grid with
      the symbol at the anchor. */
  lemma SimplifiedIsFill(symbol: string, gridSize: int, anchor: seq<int>)
    requires SimplifiedGrid(symbol, gridSize, Some(anchor)).Ok?
    ensures gridSize > 0 && |anchor| == 2
    ensures Put(Blank(gridSize), gridSize, anchor[0], anchor[1], symbol).Ok?
    ensures SimplifiedGrid(symbol, gridSize, Some(anchor)).value
      == FillNumbers(Put(Blank(gridSize), gridSize, anchor[0], anchor[1], symbol).value, gridSize, 1, FillStop(gridSize))
  {
  }

  /** The simplified drawing: the symbol at the anchor, and the numbers 1 to
      min(10, n * n) - 1 in reading order wherever the cell is still '.'. */
  lemma SimplifiedCell(symbol: string, gridSize: int, anchor: seq<int>, a: nat, b: nat)
    requires SimplifiedGrid(symbol, gridSize, Some(anchor)).Ok?
    requires a < gridSize && b < gridSize
    ensures |anchor| == 2 && PyIndex(anchor[0], gridSize).Some? && PyIndex(anchor[1], gridSize).Some?
    ensures var base := if a == PyIndex(anchor[0], gridSize).value && b == PyIndex(anchor[1], gridSize).value
        then symbol else ".";
      var stop := if gridSize * gridSize < 10 then gridSize * gridSize else 10;
      SimplifiedGrid(symbol, gridSize, Some(anchor)).value[a][b]
        == if 1 <= a * gridSize + b < stop && base == "." then ShowInt(a * gridSize + b) else base
  {
    SimplifiedIsFill(symbol, gridSize, anchor);
    var n: nat := gridSize;
    var c := Put(Blank(n), n, anchor[0], anchor[1], symbol).value;
    PutCell(Blank(n), n, anchor[0], anchor[1], symbol, a, b);
    FillCell(c, n, 1, FillStop(n), a, b);
  }

  /** `_reconstruct_exact_glyph_from_metadata`: missing keys take the
      defaults '>', 12 and (0, 0); a failure becomes an error text. */
  function ReconstructFromMetadata(m: Lookup): (r: string)
    ensures var s := SimplifiedGrid(m.symbolUsed.GetOr(">"), m.gridSize.GetOr(12), m.anchorPos.GetOr(Some([0, 0])));
      r == if s.Ok? then Render(s.value) else "Reconstruction error: " + s.error
  {
    var symbol := m.symbolUsed.GetOr(">");
    var size := m.gridSize.GetOr(12);
    var anchor := m.anchorPos.GetOr(Some([0, 0]));
    match SimplifiedGrid(symbol, size, anchor)
    case Ok(c) => Render(c)
    case Err(e) => "Reconstruction error: " + e
  }

  // -- the checks ----------------------------------------------------------

  datatype PortalCheck =
    | Verified(portalCode: string, integrationName: string, version: string, symbol: string, reconstructedGlyph: string)
    | Rejected(error: string)

  const BadFormat := "Invalid portal code format"
  const BadType := "Invalid integration type"
  const BadHashLength := "Invalid hash length"
  const HashMismatch := "Verification hash mismatch"

  function UnsupportedVersion(v: string): string {
    "Unsupported version: " + v
  }

  /** `str(KeyError(k))` */
  function MissingKey(k: string): string {
    "'" + k + "'"
  }

  /** `verify_gate_portal`: the checks run in a fixed order and the first
      failure is reported; a missing metadata key becomes a rejection. */
  function VerifyGatePortal(portalCode: string, verificationHash: string, m: Lookup, digest: string -> string): (r: PortalCheck)
    ensures var parts := SplitOn(portalCode, '-');
      (|parts| != 4 || parts[0] != GatePrefix) ==> r == Rejected(BadFormat)
    ensures var parts := SplitOn(portalCode, '-');
      (|parts| == 4 && parts[0] == GatePrefix && !KnownType(parts[2])) ==> r == Rejected(BadType)
    ensures var parts := SplitOn(portalCode, '-');
      (|parts| == 4 && parts[0] == GatePrefix && KnownType(parts[2]) && parts[1] != PortalVersion)
      ==> r == Rejected(UnsupportedVersion(parts[1]))
    ensures var parts := SplitOn(portalCode, '-');
      (|parts| == 4 && parts[0] == GatePrefix && KnownType(parts[2]) && parts[1] == PortalVersion && |parts[3]| != 32)
      ==> r == Rejected(BadHashLength)
    ensures r.Verified? <==> var parts := SplitOn(portalCode, '-');
      |parts| == 4 && parts[0] == GatePrefix && KnownType(parts[2]) && parts[1] == PortalVersion && |parts[3]| == 32
      && m.integrationName.Some? && m.symbolUsed.Some?
      && verificationHash == VerificationHash(portalCode, m.integrationName.value, m.symbolUsed.value, digest)
    ensures r.Verified? ==> (r.portalCode == portalCode && r.symbol == m.symbolUsed.value
      && r.reconstructedGlyph == ReconstructFromMetadata(m)
      && Some(r.integrationName) == IntegrationName(SplitOn(portalCode, '-')[2]))
  {
    var parts := SplitOn(portalCode, '-');
    if |parts| != 4 || parts[0] != GatePrefix then Rejected(BadFormat)
    else
      var version, integrationType, hashPart := parts[1], parts[2], parts[3];
      if !KnownType(integrationType) then Rejected(BadType)
      else if version != PortalVersion then Rejected(UnsupportedVersion(version))
      else if |hashPart| != 32 then Rejected(BadHashLength)
      else if m.integrationName.None? then Rejected("Verification failed: " + MissingKey("integration_name"))
      else if m.symbolUsed.None? then Rejected("Verification failed: " + MissingKey("symbol_used"))
      else if verificationHash != VerificationHash(portalCode, m.integrationName.value, m.symbolUsed.value, digest) then
        Rejected(HashMismatch)
      else
        Verified(portalCode, IntegrationName(integrationType).value, version, m.symbolUsed.value, ReconstructFromMetadata(m))
  }

  /** A code built by `PortalCode` passes every check of `verify_gate_portal`
      against the hash of its own metadata. */
  lemma CodeVerifies(gatePattern: string, t: string, m: Lookup, digest: string -> string)
    requires KnownType(t) && m.integrationName.Some? && m.symbolUsed.Some?
    requires '-' !in digest(gatePattern + ":" + t) && |digest(gatePattern + ":" + t)| >= 32
    ensures var code := PortalCode(gatePattern, t, digest);
      VerifyGatePortal(code, VerificationHash(code, m.integrationName.value, m.symbolUsed.value, digest), m, digest).Verified?
  {
    CodeSplits(gatePattern, t, digest);
  }

  /** A freshly generated portal verifies against its own verification hash
      and metadata, provided the digest is 32 or more characters free of
      '-' (a SHA-256 hex digest has 64). */
  lemma GeneratedVerifies(sigil: string, symbol: string, t: string, custom: Option<Custom>,
                          digest: string -> string, now: string, p: Portal)
    requires GenerateGatePortal(sigil, symbol, t, custom, digest, now) == Ok(p)
    requires '-' !in digest(p.gatePattern + ":" + t) && |digest(p.gatePattern + ":" + t)| >= 32
    ensures VerifyGatePortal(p.portalCode, p.verificationHash, AsLookup(p.metadata), digest).Verified?
  {
    var m := AsLookup(p.metadata);
    assert p.metadata.symbolUsed == symbol && KnownType(t);
    CodeVerifies(p.gatePattern, t, m, digest);
  }

  /** `get_integration_types` */
  function GetIntegrationTypes(): (r: seq<(string, string)>)
    ensures forall k :: 0 <= k < |r| ==> IntegrationName(r[k].0) == Some(r[k].1)
  {
    assert forall k :: 0 <= k < |IntegrationTypes| ==> IntegrationName(IntegrationTypes[k].0) == Some(IntegrationTypes[k].1) by {
      assert forall k, j :: 0 <= k < j < |IntegrationTypes| ==> IntegrationTypes[k].0 != IntegrationTypes[j].0;
    }
    IntegrationTypes
  }
}

=== FILE: headless.dfy ===
/** Headless piece generation (dream_mecha/core/utils/headless_blockmaker.py):
    the shape builders, the one-cell grow and trim steps, the single-stat
    selection and the size plan of the daily pieces.  Every random draw is
    an explicit roll; the float power, variance and price formulas are not
    modelled, so the drawn stat value is a parameter. */
module Headless {
  import opened Wrappers
  import opened PyText
  import opened PyRandom
  import opened StatTotals
  import opened Shapes

  // ---------------------------------------------------------------------
  // Shapes
  // ---------------------------------------------------------------------

  /** A filled `rows` by `cols` rectangle. */
  function Full(rows: nat, cols: nat): (s: Shape)
    ensures |s| == rows && forall r :: 0 <= r < rows ==> |s[r]| == cols
    ensures forall r, c :: InShape(s, r, c) ==> s[r][c]
  {
    seq(rows, _ => seq(cols, _ => true))
  }

  lemma {:induction false} FullCount(rows: nat, cols: nat)
    ensures CountBlocks(Full(rows, cols)) == rows * cols
  {
    if rows > 0 {
      Shapes.RowFull(Full(rows, cols)[0]);
      assert Full(rows, cols)[1..] == Full(rows - 1, cols);
      FullCount(rows - 1, cols);
    }
  }

  const Ell: Shape := [[true, true], [true, false]]

  /** `generate_simple_shape`: one of the listed shapes of `blocks` cells;
      any count other than 1, 2 or 3 takes the four-cell branch. */
  function SimpleShape(blocks: int, roll: nat): (s: Shape)
    ensures blocks == 1 ==> s == Full(1, 1)
    ensures blocks == 2 ==> s in [Full(1, 2), Full(2, 1)]
    ensures blocks == 3 ==> s in [Full(1, 3), Full(3, 1), Ell]
    ensures blocks !in {1, 2, 3} ==> s in [Full(1, 4), Full(4, 1), Full(2, 2)]
  {
    if blocks == 1 then Full(1, 1)
    else if blocks == 2 then Choice([Full(1, 2), Full(2, 1)], roll).value
    else if blocks == 3 then Choice([Full(1, 3), Full(3, 1), Ell], roll).value
    else Choice([Full(1, 4), Full(4, 1), Full(2, 2)], roll).value
  }

  /** For 1 to 4 blocks the simple shape has exactly that many cells, and
      for any other count four. */
  lemma SimpleShapeCount(blocks: int, roll: nat)
    ensures CountBlocks(SimpleShape(blocks, roll)) == if 1 <= blocks <= 3 then blocks else 4
  {
    var s := SimpleShape(blocks, roll);
    FullCount(1, 1);
    FullCount(1, 2);
    FullCount(2, 1);
    FullCount(1, 3);
    FullCount(3, 1);
    FullCount(1, 4);
    FullCount(4, 1);
    FullCount(2, 2);
    assert CountBlocks(Ell) == 3;
  }

  const Side: nat := 6

  /** The fill loop of `generate_complex_shape` for more than six blocks,
      with its early breaks, yields the row-major prefix. */
  method FillRowMajor(blocks: int) returns (shape: Shape)
    requires blocks > 6
    ensures shape == RowMajorPrefix(Side, blocks)
  {
    var size := if 6 < blocks then 6 else blocks;
    shape := seq(size, _ => seq(size, _ => false));
    var placed := 0;
    var row := 0;
    while row < size
      invariant size == Side && 0 <= row <= Side && Square(shape, Side)
      invariant placed == row * Side <= blocks
      invariant forall r, c :: 0 <= r < Side && 0 <= c < Side ==> shape[r][c] == (r * Side + c < placed)
    {
      var col := 0;
      while col < size
        invariant 0 <= col <= Side && Square(shape, Side)
        invariant placed == row * Side + col <= blocks
        invariant forall r, c :: 0 <= r < Side && 0 <= c < Side ==> shape[r][c] == (r * Side + c < placed)
      {
        if placed < blocks {
          shape := shape[row := shape[row][col := true]];
          placed := placed + 1;
        } else {
          break;
        }
        col := col + 1;
      }
      if placed >= blocks {
        break;
      }
      row := row + 1;
    }
    assert placed == blocks || placed == Side * Side <= blocks;
    assert forall r :: 0 <= r < Side ==> shape[r] == RowMajorPrefix(Side, blocks)[r];
    assert forall r, c :: 0 <= r < Side && 0 <= c < Side ==> shape[r][c] == RowMajorPrefix(Side, blocks)[r][c];
  }

  /** `generate_complex_shape`: a full 2x3, 2x4 or 3x3 rectangle for up to
      six blocks, otherwise the row-major prefix of a 6x6 grid. */
  function ComplexShape(blocks: int, roll: nat): (s: Shape)
    ensures blocks <= 6 ==> s in [Full(2, 3), Full(2, 4), Full(3, 3)]
    ensures blocks > 6 ==> s == RowMajorPrefix(Side, blocks)
  {
    if blocks <= 6 then Choice([Full(2, 3), Full(2, 4), Full(3, 3)], roll).value
    else RowMajorPrefix(Side, blocks)
  }

  /** `generate_shape` */
  function GenerateShape(blockCount: int, roll: nat): (s: Shape)
    ensures blockCount <= 4 ==> s == SimpleShape(blockCount, roll)
    ensures blockCount > 4 ==> s == ComplexShape(blockCount, roll)
  {
    if blockCount <= 4 then SimpleShape(blockCount, roll) else ComplexShape(blockCount, roll)
  }

  /** The shape keeps the block count for 1 to 4 and 7 to 36 blocks; for 5
      or 6 it has 6, 8 or 9 cells. */
  lemma GenerateShapeCount(blockCount: int, roll: nat)
    ensures var n := CountBlocks(GenerateShape(blockCount, roll));
      (1 <= blockCount <= 4 || 7 <= blockCount <= 36 ==> n == blockCount)
      && (5 <= blockCount <= 6 ==> n in {6, 8, 9})
  {
    if blockCount <= 4 {
      SimpleShapeCount(blockCount, roll);
    } else if blockCount <= 6 {
      FullCount(2, 3);
      FullCount(2, 4);
      FullCount(3, 3);
    } else {
      PrefixCount(Side, blockCount);
    }
  }

  // ---------------------------------------------------------------------
  // Growing and trimming
  // ---------------------------------------------------------------------

  /** `expand_shape`: fills one empty cell next to a filled one, picked by
      the roll, or leaves the shape alone when there is none. */
  function ExpandShape(s: Shape, roll: nat): (t: Shape)
    ensures CellsOf(s, Frontier) == [] ==> t == s
    ensures CellsOf(s, Frontier) != [] ==>
      CountBlocks(t) == CountBlocks(s) + 1
      && exists p :: Wants(s, Frontier, p) && t == SetCell(s, p.0, p.1, true)
  {
    var valid := CellsOf(s, Frontier);
    if |valid| == 0 then s
    else
      var p := Choice(valid, roll).value;
      CountSet(s, p.0, p.1, true);
      SetCell(s, p.0, p.1, true)
  }

  /** `trim_shape`: clears one filled cell, picked by the roll, when there is
      one. */
  function TrimShape(s: Shape, roll: nat): (t: Shape)
    ensures CountBlocks(s) == 0 ==> t == s
    ensures CountBlocks(s) > 0 ==>
      CountBlocks(t) == CountBlocks(s) - 1
      && exists p :: Wants(s, Filled, p) && t == SetCell(s, p.0, p.1, false)
  {
    var cells := CellsOf(s, Filled);
    FilledCount(s);
    if |cells| == 0 then s
    else
      var p := Choice(cells, roll).value;
      CountSet(s, p.0, p.1, false);
      SetCell(s, p.0, p.1, false)
  }

  // ---------------------------------------------------------------------
  // Stats
  // ---------------------------------------------------------------------

  const StatTypes: seq<string> := ["hp", "attack", "defense", "speed"]

  /** The stat a piece pours its power into: drawn for "random", otherwise
      the named stat, with an unknown name meaning "hp". */
  function ChosenStat(statType: string, roll: nat): (k: string)
    ensures KnownStat(k)
    ensures statType != "random" ==> k == if KnownStat(statType) then statType else "hp"
  {
    if statType == "random" then Choice(StatTypes, roll).value
    else if KnownStat(statType) then statType
    else "hp"
  }

  /** `calculate_proper_piece_stats` after the draw: the whole value sits in
      the chosen stat and the other three are 0. */
  function ProperPieceStats(statType: string, roll: nat, value: int): (t: Totals)
    ensures var k := ChosenStat(statType, roll);
      Stat(t, k) == value && forall k' :: KnownStat(k') && k' != k ==> Stat(t, k') == 0
  {
    Single(ChosenStat(statType, roll), value)
  }

  // ---------------------------------------------------------------------
  // Daily pieces
  // ---------------------------------------------------------------------

  datatype Piece = Piece(name: string, shape: Shape, stats: Totals, blockCount: int, voidstateLevel: int)

  /** `generate_piece` for a drawn block count, shape roll and stat draw. */
  function GeneratePiece(blockCount: int, shapeRoll: nat, statRoll: nat, value: int, voidstate: int): (p: Piece)
    ensures p.name == "Void Fragment " + ShowInt(blockCount)
    ensures p.shape == GenerateShape(blockCount, shapeRoll) && p.blockCount == blockCount
    ensures p.stats == ProperPieceStats("random", statRoll, value)
  {
    Piece("Void Fragment " + ShowInt(blockCount), GenerateShape(blockCount, shapeRoll),
      ProperPieceStats("random", statRoll, value), blockCount, voidstate)
  }

  /** The size range of the `i`-th daily piece. */
  function Band(i: nat, small: nat, medium: nat): (int, int) {
    if i < small then (1, 2) else if i < small + medium then (3, 5) else (6, 12)
  }

  /** The group sizes drawn by `generate_daily_pieces`. */
  datatype Plan = Plan(total: nat, small: nat, medium: nat)

  /** 6 to 8 pieces, 2 or 3 of them small and 2 or 3 medium; the large
      group takes what is left, which is never negative. */
  function DailyPlan(totalRoll: nat, smallRoll: nat, mediumRoll: nat): (p: Plan)
    ensures 6 <= p.total <= 8 && 2 <= p.small <= 3 && 2 <= p.medium <= 3
    ensures p.small + p.medium <= p.total
  {
    Plan(RandInt(6, 8, totalRoll).value, RandInt(2, 3, smallRoll).value, RandInt(2, 3, mediumRoll).value)
  }

  /** The block counts of the daily pieces: the small ones of 1-2 blocks,
      then the medium ones of 3-5, then the large ones of 6-12. */
  function DailyBlockCounts(p: Plan, sizeRolls: seq<nat>): (r: seq<int>)
    ensures |r| == p.total
    ensures forall i :: 0 <= i < |r| ==> Band(i, p.small, p.medium).0 <= r[i] <= Band(i, p.small, p.medium).1
  {
    seq(p.total, i requires 0 <= i < p.total =>
      RandInt(Band(i, p.small, p.medium).0, Band(i, p.small, p.medium).1, if i < |sizeRolls| then sizeRolls[i] else 0).value)
  }
}

=== FILE: json.dfy ===
/** Decoded JSON values as the game's validators see them.  Python counts
    booleans as integers (`isinstance(True, int)` holds), so `IntOf` does
    too. */
module Json {
  import opened Wrappers
  import opened Dicts

  datatype Value =
    | Int(i: int)
    | Bool(b: bool)
    | Str(s: string)
    | List(items: seq<Value>)
    | Object(fields: Dict<string, Value>)
    | Other   // floats and null

  /** The integer an `isinstance(v, int)` value stands for. */
  function IntOf(v: Value): (r: Option<int>)
    ensures r.Some? <==> v.Int? || v.Bool?
    ensures v.Int? ==> r == Some(v.i)
    ensures v.Bool? ==> r == Some(if v.b then 1 else 0)
  {
    match v
    case Int(i) => Some(i)
    case Bool(b) => Some(if b then 1 else 0)
    case _ => None
  }

  /** A present value that is a non-negative integer. */
  predicate NonNegInt(o: Option<Value>) {
    o.Some? && IntOf(o.value).Some? && IntOf(o.value).value >= 0
  }
}

=== FILE: leaderboard.dfy ===
/** Pilot scores and the leaderboard built from them
    (dream_mecha/core/managers/leaderboard_manager.py).  The leaderboard
    file is a dictionary from player id to entry; clock readings are
    strings passed in. */
module Leaderboard {
  import opened Wrappers
  import opened PyText
  import opened Dicts
  import opened StableSort
  import H = CombatHistory

  datatype PilotScore = PilotScore(playerId: string, username: string, totalPoints: int,
                                   combatPoints: int, progressionPoints: int, mechaPoints: int)

  /** Python's `int()` of a number: truncation toward zero. */
  function Trunc(x: real): (r: int)
    ensures 0.0 <= x ==> 0 <= r && r as real <= x < r as real + 1.0
    ensures x < 0.0 ==> r <= 0 && r as real - 1.0 < x <= r as real
  {
    if x >= 0.0 then x.Floor else -((-x).Floor)
  }

  /** A truncated number is at most any integer at or above the number. */
  lemma TruncAtMost(x: real, h: int)
    requires x <= h as real
    ensures Trunc(x) <= h
  {
  }

  function SumValues(d: Dict<string, int>): int {
    if |d| == 0 then 0 else d[0].1 + SumValues(d[1..])
  }

  /** `int(pieces / max(board_size, 1) * 1000)`: at most 1000 points for a
      board no fuller than its size. */
  function BoardEfficiencyPoints(piecesEquipped: int, boardSize: int): (r: int)
    ensures 0 <= piecesEquipped <= boardSize ==> 0 <= r <= 1000
    ensures piecesEquipped >= 0 ==> r >= 0
  {
    var b := if boardSize < 1 then 1 else boardSize;
    var x := piecesEquipped as real / b as real * 1000.0;
    if 0 <= piecesEquipped <= boardSize then
      FractionAtMostOne(piecesEquipped, b);
      Trunc(x)
    else Trunc(x)
  }

  lemma FractionAtMostOne(p: int, b: int)
    requires 0 <= p <= b && 1 <= b
    ensures 0.0 <= p as real / b as real * 1000.0 <= 1000.0
  {
    assert p as real / b as real <= 1.0;
  }

  /** `calculate_pilot_score`: 100 points per enemy defeated and 500 per
      flawless victory; 300 per level of the highest voidstate fought plus
      one per 100 zoltans earned; 10 per mecha stat point plus up to 1000
      for board use.  The total is the sum of the three. */
  function CalculatePilotScore(playerId: string, stats: H.CombatStats, username: Option<string>,
                               mechaStats: Dict<string, int>, boardSize: int, piecesEquipped: int): (s: PilotScore)
    ensures s.playerId == playerId && s.username == username.GetOr("Unknown")
    ensures s.totalPoints == s.combatPoints + s.progressionPoints + s.mechaPoints
    ensures s.combatPoints == 100 * stats.totalEnemiesDefeated + 500 * stats.flawlessVictories
    ensures var zoltanPoints := s.progressionPoints - 300 * stats.highestVoidstate;
      100 * zoltanPoints <= stats.totalZoltanEarned < 100 * zoltanPoints + 100
    ensures s.mechaPoints == 10 * SumValues(mechaStats) + BoardEfficiencyPoints(piecesEquipped, boardSize)
  {
    var combat := stats.totalEnemiesDefeated * 100 + stats.flawlessVictories * 500;
    var progression := stats.highestVoidstate * 300 + stats.totalZoltanEarned / 100;
    var mecha := SumValues(mechaStats) * 10 + BoardEfficiencyPoints(piecesEquipped, boardSize);
    PilotScore(playerId, username.GetOr("Unknown"), combat + progression + mecha, combat, progression, mecha)
  }

  /** The combat figures a score rewards. */
  predicate NoWorseRecord(a: H.CombatStats, b: H.CombatStats) {
    && a.totalEnemiesDefeated <= b.totalEnemiesDefeated
    && a.flawlessVictories <= b.flawlessVictories
    && a.highestVoidstate <= b.highestVoidstate
    && a.totalZoltanEarned <= b.totalZoltanEarned
  }

  /** A better combat record never scores lower, all else equal. */
  lemma ScoreMonotone(playerId: string, a: H.CombatStats, b: H.CombatStats, username: Option<string>,
                      mechaStats: Dict<string, int>, boardSize: int, piecesEquipped: int)
    requires NoWorseRecord(a, b)
    ensures CalculatePilotScore(playerId, a, username, mechaStats, boardSize, piecesEquipped).totalPoints
         <= CalculatePilotScore(playerId, b, username, mechaStats, boardSize, piecesEquipped).totalPoints
  {
    assert a.totalZoltanEarned / 100 <= b.totalZoltanEarned / 100;
  }

  /** Saving a battle with nothing negative in it never worsens the
      player's combat record. */
  lemma {:induction false} NewBattleNoWorse(rs: seq<H.CombatRecord>, r: H.CombatRecord, playerId: string)
    requires r.playerId == playerId
    requires r.enemiesDefeated >= 0 && r.zoltanEarned >= 0 && r.voidstateLevel >= 0
    ensures NoWorseRecord(H.PlayerCombatStats(rs, playerId), H.PlayerCombatStats(rs + [r], playerId))
  {
    H.SavingUpdatesOnlyOwner(rs, r, playerId);
    var ps := H.PlayerRecords(rs, playerId);
    var ps' := H.PlayerRecords(rs + [r], playerId);
    if ps != [] {
      H.HighestIsMax(ps);
    }
    H.HighestIsMax(ps');
  }

  datatype Breakdown = Breakdown(combatPoints: int, progressionPoints: int, mechaPoints: int)

  datatype Entry = Entry(username: string, totalPoints: int, lastUpdated: string, breakdown: Breakdown)

  type Board = Dict<string, Entry>

  function EntryOf(s: PilotScore, now: string): Entry {
    Entry(s.username, s.totalPoints, now, Breakdown(s.combatPoints, s.progressionPoints, s.mechaPoints))
  }

  /** `save_pilot_score`: the player's entry is replaced; no other entry
      changes. */
  function SavePilotScore(board: Board, s: PilotScore, now: string): (r: Board)
    requires Valid(board)
    ensures Valid(r)
    ensures Get(r, s.playerId) == Some(EntryOf(s, now))
    ensures forall p :: p != s.playerId ==> Get(r, p) == Get(board, p)
  {
    Put(board, s.playerId, EntryOf(s, now))
  }

  /** `update_player_score`: the score is worked out from the player's
      saved battles under the given username, and saved. */
  function UpdatePlayerScore(board: Board, records: seq<H.CombatRecord>, playerId: string, username: string,
                             mechaStats: Dict<string, int>, boardSize: int, piecesEquipped: int, now: string): (r: (Board, PilotScore))
    requires Valid(board)
    ensures r.1 == CalculatePilotScore(playerId, H.PlayerCombatStats(records, playerId), Some(username),
                                       mechaStats, boardSize, piecesEquipped)
    ensures r.1.username == username
    ensures Valid(r.0) && Get(r.0, playerId) == Some(EntryOf(r.1, now))
    ensures forall p :: p != playerId ==> Get(r.0, p) == Get(board, p)
  {
    var s := CalculatePilotScore(playerId, H.PlayerCombatStats(records, playerId), Some(username),
                                 mechaStats, boardSize, piecesEquipped);
    (SavePilotScore(board, s, now), s)
  }

  datatype Ranking = Ranking(playerId: string, username: string, totalPoints: int, lastUpdated: string,
                             breakdown: Breakdown, rank: int)

  function Points(e: (string, Entry)): int {
    -e.1.totalPoints
  }

  /** An entry of a board with distinct keys is what the board holds for
      its key. */
  lemma EntryIsGot(board: Board, j: int)
    requires Valid(board) && 0 <= j < |board|
    ensures Get(board, board[j].0) == Some(board[j].1)
  {
    GetFirst(board, j);
  }

  /** Sorted entries numbered from 1. */
  function Rows(sorted: seq<(string, Entry)>): (rows: seq<Ranking>)
    ensures |rows| == |sorted|
    ensures forall i :: 0 <= i < |rows| ==> rows[i] == RowOf(sorted[i], i + 1)
  {
    seq(|sorted|, i requires 0 <= i < |sorted| => RowOf(sorted[i], i + 1))
  }

  function RowOf(e: (string, Entry), rank: int): Ranking {
    Ranking(e.0, e.1.username, e.1.totalPoints, e.1.lastUpdated, e.1.breakdown, rank)
  }

  /** The row shows its player's entry as the board holds it. */
  predicate Shows(board: Board, row: Ranking) {
    Get(board, row.playerId) == Some(Entry(row.username, row.totalPoints, row.lastUpdated, row.breakdown))
  }

  function Sorted(board: Board): (sorted: seq<(string, Entry)>)
    ensures |sorted| == |board| && multiset(sorted) == multiset(board)
    ensures forall i, j :: 0 <= i < j < |sorted| ==> sorted[i].1.totalPoints >= sorted[j].1.totalPoints
  {
    var sorted := SortBy(board, Points);
    SortBySorted(board, Points);
    assert |sorted| == |board| by {
      assert |multiset(sorted)| == |multiset(board)|;
    }
    assert forall i, j :: 0 <= i < j < |sorted| ==> Points(sorted[i]) <= Points(sorted[j]);
    sorted
  }

  /** Every row of the whole ranking shows its player's entry. */
  lemma RowsShowBoard(board: Board)
    requires Valid(board)
    ensures forall i :: 0 <= i < |board| ==> Shows(board, Rows(Sorted(board))[i])
  {
    var sorted := Sorted(board);
    forall i | 0 <= i < |board| ensures Shows(board, Rows(sorted)[i]) {
      assert sorted[i] in multiset(board);
      var j :| 0 <= j < |board| && board[j] == sorted[i];
      EntryIsGot(board, j);
    }
  }

  /** Every player has a row in the whole ranking. */
  lemma RowsCoverBoard(board: Board, p: string)
    requires HasKey(board, p)
    ensures exists i :: 0 <= i < |board| && Rows(Sorted(board))[i].playerId == p
  {
    var sorted := Sorted(board);
    var j :| 0 <= j < |board| && board[j].0 == p;
    assert board[j] in multiset(sorted);
    var i :| 0 <= i < |sorted| && sorted[i] == board[j];
    assert Rows(sorted)[i].playerId == p;
  }

  /** `get_leaderboard_rankings`: the entries by falling total, ties in
      board order, numbered from 1, cut at `limit` as `[:limit]` cuts.  Each
      row is its player's entry, and a limit covering the board ranks every
      player. */
  function Rankings(board: Board, limit: int): (r: seq<Ranking>)
    requires Valid(board)
    ensures |r| == SliceBound(limit, |board|)
    ensures forall i :: 0 <= i < |r| ==> r[i].rank == i + 1
    ensures forall i, j :: 0 <= i < j < |r| ==> r[i].totalPoints >= r[j].totalPoints
    ensures forall i :: 0 <= i < |r| ==> Shows(board, r[i])
    ensures limit >= |board| ==> forall p :: HasKey(board, p) ==> exists i :: 0 <= i < |r| && r[i].playerId == p
    ensures r == SliceTo(Rows(Sorted(board)), limit)
  {
    SlicedRows(board, limit);
    SliceTo(Rows(Sorted(board)), limit)
  }

  /** What the cut ranking keeps of the whole one. */
  lemma SlicedRows(board: Board, limit: int)
    requires Valid(board)
    ensures var r := SliceTo(Rows(Sorted(board)), limit);
      && |r| == SliceBound(limit, |board|)
      && (forall i :: 0 <= i < |r| ==> r[i].rank == i + 1)
      && (forall i, j :: 0 <= i < j < |r| ==> r[i].totalPoints >= r[j].totalPoints)
      && (forall i :: 0 <= i < |r| ==> Shows(board, r[i]))
      && (limit >= |board| ==> forall p :: HasKey(board, p) ==> exists i :: 0 <= i < |r| && r[i].playerId == p)
  {
    var rows := Rows(Sorted(board));
    var r := SliceTo(rows, limit);
    assert forall i :: 0 <= i < |r| ==> r[i] == rows[i];
    RowsShowBoard(board);
    RowsOrdered(board);
    if limit >= |board| {
      assert r == rows;
      RowsCoverAll(board);
    }
  }

  /** The whole ranking falls in total. */
  lemma RowsOrdered(board: Board)
    ensures var rows := Rows(Sorted(board));
      forall i, j :: 0 <= i < j < |rows| ==> rows[i].totalPoints >= rows[j].totalPoints
  {
  }

  /** Every player has a row in the whole ranking. */
  lemma RowsCoverAll(board: Board)
    ensures var rows := Rows(Sorted(board));
      forall p :: HasKey(board, p) ==> exists i :: 0 <= i < |rows| && rows[i].playerId == p
  {
    var rows := Rows(Sorted(board));
    forall p | HasKey(board, p) ensures exists i :: 0 <= i < |rows| && rows[i].playerId == p {
      RowsCoverBoard(board, p);
    }
  }

  /** The first row carrying `playerId`, if any. */
  function FindRanking(rows: seq<Ranking>, playerId: string): (r: Option<Ranking>)
    ensures r.Some? ==> r.value in rows && r.value.playerId == playerId
    ensures r.None? <==> forall i :: 0 <= i < |rows| ==> rows[i].playerId != playerId
  {
    if |rows| == 0 then None
    else if rows[0].playerId == playerId then Some(rows[0])
    else FindRanking(rows[1..], playerId)
  }

  /** How many rows `get_player_ranking` and the summary consider. */
  const RankingLimit := 1000

  /** `get_player_ranking`: the player's row among the first 1000, carrying
      their saved entry, or None. */
  function GetPlayerRanking(board: Board, playerId: string): (r: Option<Ranking>)
    requires Valid(board)
    ensures r.Some? ==> r.value.playerId == playerId && 1 <= r.value.rank <= RankingLimit
    ensures r.Some? ==> Get(board, playerId) == Some(Entry(r.value.username, r.value.totalPoints, r.value.lastUpdated, r.value.breakdown))
    ensures !HasKey(board, playerId) ==> r.None?
    ensures |board| <= RankingLimit && HasKey(board, playerId) ==> r.Some?
  {
    FindRanking(Rankings(board, RankingLimit), playerId)
  }

  datatype Distribution = Distribution(elite: nat, veteran: nat, experienced: nat, novice: nat)

  datatype Summary = Summary(totalPilots: nat, averageScore: int, highestScore: int,
                             topPilot: Option<Ranking>, distribution: Option<Distribution>)

  /** The four bands of the score distribution. */
  datatype Tier = Elite | Veteran | Experienced | Novice

  function TierOf(points: int): (t: Tier)
    ensures t == Elite <==> points >= 10000
    ensures t == Veteran <==> 5000 <= points < 10000
    ensures t == Experienced <==> 2000 <= points < 5000
    ensures t == Novice <==> points < 2000
  {
    if points >= 10000 then Elite else if points >= 5000 then Veteran else if points >= 2000 then Experienced else Novice
  }

  function CountTier(rows: seq<Ranking>, t: Tier): (n: nat)
    ensures n <= |rows|
  {
    if |rows| == 0 then 0 else (if TierOf(rows[0].totalPoints) == t then 1 else 0) + CountTier(rows[1..], t)
  }

  /** Every pilot falls in exactly one band. */
  lemma {:induction false} TiersPartition(rows: seq<Ranking>)
    ensures CountTier(rows, Elite) + CountTier(rows, Veteran) + CountTier(rows, Experienced) + CountTier(rows, Novice) == |rows|
  {
    if |rows| > 0 {
      TiersPartition(rows[1..]);
    }
  }

  function SumPoints(rows: seq<Ranking>): int {
    if |rows| == 0 then 0 else rows[0].totalPoints + SumPoints(rows[1..])
  }

  /** Scores in falling order sum to at most their number times the first. */
  lemma {:induction false} SumAtMostFirst(rows: seq<Ranking>)
    requires |rows| > 0
    requires forall i, j :: 0 <= i < j < |rows| ==> rows[i].totalPoints >= rows[j].totalPoints
    ensures SumPoints(rows) <= |rows| * rows[0].totalPoints
  {
    if |rows| > 1 {
      SumAtMostFirst(rows[1..]);
      var h := rows[0].totalPoints;
      var n := |rows| - 1;
      assert n * rows[1].totalPoints <= n * h by {
        assert n * h - n * rows[1].totalPoints == n * (h - rows[1].totalPoints);
      }
      assert |rows| * h == n * h + h;
    }
  }

  /** The truncated mean of scores in falling order is at most the first. */
  lemma AverageAtMostFirst(rows: seq<Ranking>)
    requires |rows| > 0
    requires forall i, j :: 0 <= i < j < |rows| ==> rows[i].totalPoints >= rows[j].totalPoints
    ensures Trunc(SumPoints(rows) as real / |rows| as real) <= rows[0].totalPoints
  {
    var n := |rows|;
    var h := rows[0].totalPoints;
    SumAtMostFirst(rows);
    H.AverageAtMost(SumPoints(rows), n, h);
    TruncAtMost(SumPoints(rows) as real / n as real, h);
  }

  /** No player on the board scores above the top row. */
  lemma TopIsHighest(board: Board)
    requires Valid(board) && |board| > 0
    ensures forall p :: HasKey(board, p) ==> Get(board, p).value.totalPoints <= Rankings(board, RankingLimit)[0].totalPoints
  {
    var rows := Rows(Sorted(board));
    RowsShowBoard(board);
    forall p | HasKey(board, p) ensures Get(board, p).value.totalPoints <= rows[0].totalPoints {
      RowsCoverBoard(board, p);
      var i :| 0 <= i < |board| && rows[i].playerId == p;
      assert Shows(board, rows[i]);
    }
  }

  /** `get_leaderboard_summary` over the first 1000 rows: all zero for an
      empty board; otherwise the count, the truncated mean, the top row and
      its score, which no pilot exceeds, and the band counts, which add up
      to the count. */
  function GetLeaderboardSummary(board: Board): (s: Summary)
    requires Valid(board)
    ensures |board| == 0 <==> s.topPilot.None?
    ensures |board| == 0 ==> s == Summary(0, 0, 0, None, None)
    ensures |board| > 0 ==>
      && s.totalPilots == SliceBound(RankingLimit, |board|)
      && s.topPilot.value.rank == 1
      && s.highestScore == s.topPilot.value.totalPoints
      && (forall p :: HasKey(board, p) ==> Get(board, p).value.totalPoints <= s.highestScore)
      && s.averageScore <= s.highestScore
      && s.distribution.Some?
      && s.distribution.value.elite + s.distribution.value.veteran + s.distribution.value.experienced
         + s.distribution.value.novice == s.totalPilots
  {
    var rows := Rankings(board, RankingLimit);
    if |rows| == 0 then Summary(0, 0, 0, None, None)
    else
      var n := |rows|;
      var h := rows[0].totalPoints;
      var total := SumPoints(rows);
      AverageAtMostFirst(rows);
      TiersPartition(rows);
      TopIsHighest(board);
      Summary(n, Trunc(total as real / n as real), h, Some(rows[0]),
              Some(Distribution(CountTier(rows, Elite), CountTier(rows, Veteran),
                                CountTier(rows, Experienced), CountTier(rows, Novice))))
  }
}

=== FILE: mecha.dfy ===
/** Mechas and their registry (dream_mecha/core/systems/mecha_system.py):
    the launch rule, healing, damage bookkeeping, repair, the capped grid
    growth request, the daily reset and the dictionary form used for
    saving.  The float damage formula of `MechaStats.take_damage` is not
    modelled: the damage actually dealt is a parameter. */
module Mecha {
  import opened Wrappers
  import opened PyText
  import opened Dicts
  import opened Json

  datatype State = Ready | Launched | Downed | Repairing {
    /** The enum's string value. */
    function Name(): string {
      match this
      case Ready => "ready"
      case Launched => "launched"
      case Downed => "downed"
      case Repairing => "repairing"
    }
  }

  /** `MechaState(value)`: the state with that string value, if any. */
  function StateNamed(s: string): (r: Option<State>)
    ensures r.Some? ==> r.value.Name() == s
    ensures r.None? <==> s !in ["ready", "launched", "downed", "repairing"]
  {
    if s == "ready" then Some(Ready)
    else if s == "launched" then Some(Launched)
    else if s == "downed" then Some(Downed)
    else if s == "repairing" then Some(Repairing)
    else None
  }

  /** Every state's value names it. */
  lemma StateNameRoundTrip(st: State)
    ensures StateNamed(st.Name()) == Some(st)
  {
  }

  datatype Stats = Stats(hp: int, maxHp: int, attack: int, defense: int, speed: int)

  const DefaultStats := Stats(100, 100, 10, 5, 10)

  /** `is_launchable`: alive and at least at half health (hp >= max_hp * 0.5,
      exact over the integers). */
  predicate IsLaunchable(s: Stats) {
    2 * s.hp >= s.maxHp && s.hp > 0
  }

  /** `heal`: up to the maximum; returns the change in hit points. */
  function Heal(s: Stats, amount: int): (r: (Stats, int))
    ensures r.0 == s.(hp := r.0.hp)
    ensures r.1 == r.0.hp - s.hp
    ensures s.hp <= s.maxHp && amount >= 0 ==>
      r.0.hp <= s.maxHp && 0 <= r.1 <= amount && (r.1 == amount || r.0.hp == s.maxHp)
  {
    var hp := if s.maxHp < s.hp + amount then s.maxHp else s.hp + amount;
    (s.(hp := hp), hp - s.hp)
  }

  datatype Mecha = Mecha(playerId: string, name: string, stats: Stats, state: State, gridSize: int,
                         grid: seq<seq<Option<string>>>, pieceLibrary: seq<Value>, zoltans: int)

  const BaseGridSize := 8
  const MaxGridSize := 18
  const StartingZoltans := 5000

  /** A fresh mecha: default stats, ready, an empty 8x8 grid and 5000
      zoltans. */
  function NewMecha(playerId: string, name: string): (m: Mecha)
    ensures m.stats == DefaultStats && m.state == Ready && m.zoltans == StartingZoltans
    ensures m.gridSize == BaseGridSize && |m.grid| == BaseGridSize
    ensures forall r :: 0 <= r < BaseGridSize ==> m.grid[r] == seq(BaseGridSize, _ => None)
    ensures IsLaunchable(m.stats)
  {
    Mecha(playerId, name, DefaultStats, Ready, BaseGridSize,
      seq(BaseGridSize, _ => seq(BaseGridSize, _ => None)), [], StartingZoltans)
  }

  /** `launch`: only a launchable mecha launches; otherwise nothing changes. */
  function Launch(m: Mecha): (r: (Mecha, bool))
    ensures r.1 <==> IsLaunchable(m.stats)
    ensures r.0 == if r.1 then m.(state := Launched) else m
  {
    if !IsLaunchable(m.stats) then (m, false) else (m.(state := Launched), true)
  }

  /** `take_damage` with the damage the stats formula dealt: hit points do
      not go below 0, and a mecha at 0 is downed. */
  function ApplyDamage(m: Mecha, actual: int): (r: Mecha)
    ensures r.stats == m.stats.(hp := r.stats.hp) && r.stats.hp >= 0
    ensures r.stats.hp == 0 || r.stats.hp == m.stats.hp - actual
    ensures r.stats.hp >= m.stats.hp - actual
    ensures r.state == if r.stats.hp == 0 then Downed else m.state
    ensures r == m.(stats := r.stats, state := r.state)
  {
    var hp := if m.stats.hp - actual < 0 then 0 else m.stats.hp - actual;
    var hit := m.(stats := m.stats.(hp := hp));
    if hp <= 0 then hit.(state := Downed) else hit
  }

  /** `repair`: a downed mecha that can pay is restored to full health and
      ready; otherwise nothing changes. */
  function Repair(m: Mecha, cost: int): (r: (Mecha, bool))
    ensures r.1 <==> m.state == Downed && m.zoltans >= cost
    ensures !r.1 ==> r.0 == m
    ensures r.1 ==> r.0 == m.(zoltans := m.zoltans - cost, stats := m.stats.(hp := m.stats.maxHp), state := Ready)
  {
    if m.state != Downed then (m, false)
    else if m.zoltans < cost then (m, false)
    else (m.(zoltans := m.zoltans - cost, stats := m.stats.(hp := m.stats.maxHp), state := Ready), true)
  }

  /** A repaired mecha can launch again when its maximum is positive. */
  lemma RepairedLaunchable(m: Mecha, cost: int)
    requires m.state == Downed && m.zoltans >= cost && m.stats.maxHp > 0
    ensures Launch(Repair(m, cost).0).1
  {
  }

  /** `expand_grid`: only a request; refused at 18 or more, and the size is
      never changed. */
  function ExpandGrid(m: Mecha): (ok: bool)
    ensures ok <==> m.gridSize < MaxGridSize
  {
    !(m.gridSize >= MaxGridSize)
  }

  // ---------------------------------------------------------------------
  // The registry
  // ---------------------------------------------------------------------

  type Registry = Dict<string, Mecha>

  /** `create_mecha`: one mecha per player; an empty or missing name becomes
      "Mecha-" and the first eight characters of the player id. */
  function CreateMecha(reg: Registry, playerId: string, name: Option<string>): (r: Result<(Registry, Mecha)>)
    requires Valid(reg)
    ensures r.Err? <==> HasKey(reg, playerId)
    ensures r.Ok? ==> Valid(r.value.0) && Get(r.value.0, playerId) == Some(r.value.1)
    ensures r.Ok? ==> forall p :: p != playerId ==> Get(r.value.0, p) == Get(reg, p)
    ensures r.Ok? ==> r.value.1 == NewMecha(playerId, r.value.1.name)
    ensures r.Ok? ==> r.value.1.name == if name.Some? && name.value != "" then name.value else "Mecha-" + SliceTo(playerId, 8)
  {
    if HasKey(reg, playerId) then Err("Player " + playerId + " already has a mecha")
    else
      var mechaName := if name.Some? && name.value != "" then name.value else "Mecha-" + SliceTo(playerId, 8);
      var m := NewMecha(playerId, mechaName);
      Ok((Put(reg, playerId, m), m))
  }

  /** Launched mechas go back to ready. */
  function ResetState(m: Mecha): Mecha {
    if m.state == Launched then m.(state := Ready) else m
  }

  /** `reset_daily_state`: every launched mecha is ready again; others keep
      their state, and the registry keeps its keys and order. */
  function ResetDailyState(reg: Registry): (r: Registry)
    ensures |r| == |reg|
    ensures forall i :: 0 <= i < |reg| ==> r[i].0 == reg[i].0
    ensures forall i :: 0 <= i < |reg| ==>
      r[i].1 == (if reg[i].1.state == Launched then reg[i].1.(state := Ready) else reg[i].1)
    ensures forall i :: 0 <= i < |r| ==> r[i].1.state != Launched
  {
    seq(|reg|, i requires 0 <= i < |reg| => (reg[i].0, ResetState(reg[i].1)))
  }

  /** `get_launched_mechas`, in registry order. */
  function LaunchedMechas(reg: Registry): (r: seq<Mecha>)
    ensures forall m :: m in r <==> m in Values(reg) && m.state == Launched
  {
    if |reg| == 0 then []
    else
      var rest := LaunchedMechas(reg[1..]);
      assert Values(reg) == [reg[0].1] + Values(reg[1..]);
      if reg[0].1.state == Launched then [reg[0].1] + rest else rest
  }

  /** After the daily reset nobody is launched. */
  lemma ResetClearsLaunched(reg: Registry)
    ensures LaunchedMechas(ResetDailyState(reg)) == []
  {
    var r := ResetDailyState(reg);
    forall m | m in Values(r) ensures m.state != Launched {
      var i :| 0 <= i < |r| && Values(r)[i] == m;
    }
    if LaunchedMechas(r) != [] {
      assert LaunchedMechas(r)[0] in LaunchedMechas(r);
    }
  }

  // ---------------------------------------------------------------------
  // Saving and loading
  // ---------------------------------------------------------------------

  function CellValue(c: Option<string>): Value {
    match c
    case Some(id) => Str(id)
    case None => Other
  }

  function CellOf(v: Value): Option<Option<string>> {
    if v.Str? then Some(Some(v.s)) else if v.Other? then Some(None) else None
  }

  function RowValue(row: seq<Option<string>>): (v: Value)
    ensures v.List? && |v.items| == |row|
  {
    List(seq(|row|, j requires 0 <= j < |row| => CellValue(row[j])))
  }

  function GridValue(grid: seq<seq<Option<string>>>): (v: Value)
    ensures v.List? && |v.items| == |grid|
  {
    List(seq(|grid|, i requires 0 <= i < |grid| => RowValue(grid[i])))
  }

  /** Reads a row of cells back; None when some item is not a cell. */
  function RowOf(items: seq<Value>): (r: Option<seq<Option<string>>>)
    ensures r.Some? ==> |r.value| == |items|
  {
    if |items| == 0 then Some([])
    else
      var c :- CellOf(items[0]);
      var rest :- RowOf(items[1..]);
      Some([c] + rest)
  }

  function GridOf(rows: seq<Value>): (r: Option<seq<seq<Option<string>>>>)
    ensures r.Some? ==> |r.value| == |rows|
  {
    if |rows| == 0 then Some([])
    else
      var row :- if rows[0].List? then RowOf(rows[0].items) else None;
      var rest :- GridOf(rows[1..]);
      Some([row] + rest)
  }

  lemma {:induction false} RowRoundTrip(row: seq<Option<string>>)
    ensures RowOf(RowValue(row).items) == Some(row)
  {
    if |row| > 0 {
      var items := RowValue(row).items;
      assert items[1..] == RowValue(row[1..]).items;
      RowRoundTrip(row[1..]);
      assert row == [row[0]] + row[1..];
    }
  }

  /** The saved grid reads back as the same grid. */
  lemma {:induction false} GridRoundTrip(grid: seq<seq<Option<string>>>)
    ensures GridOf(GridValue(grid).items) == Some(grid)
  {
    if |grid| > 0 {
      var rows := GridValue(grid).items;
      assert rows[1..] == GridValue(grid[1..]).items;
      RowRoundTrip(grid[0]);
      GridRoundTrip(grid[1..]);
      assert grid == [grid[0]] + grid[1..];
    }
  }

  function StatsFields(s: Stats): Dict<string, Value> {
    [("hp", Int(s.hp)), ("max_hp", Int(s.maxHp)), ("attack", Int(s.attack)),
     ("defense", Int(s.defense)), ("speed", Int(s.speed))]
  }

  function StatsValue(s: Stats): Value {
    Object(StatsFields(s))
  }

  /** `to_dict` */
  function ToDict(m: Mecha): Dict<string, Value> {
    [("player_id", Str(m.playerId)), ("name", Str(m.name)), ("stats", StatsValue(m.stats)),
     ("state", Str(m.state.Name())), ("grid_size", Int(m.gridSize)), ("grid", GridValue(m.grid)),
     ("piece_library", List(m.pieceLibrary)), ("zoltans", Int(m.zoltans))]
  }

  /** `data[k]`: None when the key is missing (a KeyError). */
  function Field(d: Dict<string, Value>, k: string): Option<Value> {
    Get(d, k)
  }

  function IntAt(d: Dict<string, Value>, k: string): Option<int> {
    var v :- Get(d, k);
    if v.Int? then Some(v.i) else None
  }

  function StrAt(d: Dict<string, Value>, k: string): Option<string> {
    var v :- Get(d, k);
    if v.Str? then Some(v.s) else None
  }

  function StatsOf(v: Value): Option<Stats> {
    if !v.Object? then None
    else
      var hp :- IntAt(v.fields, "hp");
      var maxHp :- IntAt(v.fields, "max_hp");
      var attack :- IntAt(v.fields, "attack");
      var defense :- IntAt(v.fields, "defense");
      var speed :- IntAt(v.fields, "speed");
      Some(Stats(hp, maxHp, attack, defense, speed))
  }

  /** `from_dict`: a missing key, an unknown state name or a value of the
      wrong shape gives None. */
  function FromDict(d: Dict<string, Value>): Option<Mecha> {
    var playerId :- StrAt(d, "player_id");
    var name :- StrAt(d, "name");
    var statsValue :- Get(d, "stats");
    var stats :- StatsOf(statsValue);
    var stateName :- StrAt(d, "state");
    var state :- StateNamed(stateName);
    var gridSize :- IntAt(d, "grid_size");
    var gridValue :- Get(d, "grid");
    var grid :- if gridValue.List? then GridOf(gridValue.items) else None;
    var library :- Get(d, "piece_library");
    var lib :- if library.List? then Some(library.items) else None;
    var zoltans :- IntAt(d, "zoltans");
    Some(Mecha(playerId, name, stats, state, gridSize, grid, lib, zoltans))
  }

  lemma StatsGets(s: Stats)
    ensures var d := StatsFields(s);
      && Get(d, "hp") == Some(Int(s.hp))
      && Get(d, "max_hp") == Some(Int(s.maxHp))
      && Get(d, "attack") == Some(Int(s.attack))
      && Get(d, "defense") == Some(Int(s.defense))
      && Get(d, "speed") == Some(Int(s.speed))
  {
    var d := StatsFields(s);
    StatsKeysDistinct();
    assert forall i :: 0 <= i < |d| ==> d[i].0 == StatsKeys[i];
    EntriesFound(d);
    assert Get(d, d[0].0) == Some(d[0].1) && Get(d, d[1].0) == Some(d[1].1);
    assert Get(d, d[2].0) == Some(d[2].1) && Get(d, d[3].0) == Some(d[3].1);
    assert Get(d, d[4].0) == Some(d[4].1);
  }

  const StatsKeys: seq<string> := ["hp", "max_hp", "attack", "defense", "speed"]

  lemma StatsKeysDistinct()
    ensures forall i, j :: 0 <= i < j < |StatsKeys| ==> StatsKeys[i] != StatsKeys[j]
  {
    var ks := StatsKeys;
    assert ks[1][0] != ks[2][0];
  }

  /** The stats object read back gives the same stats. */
  lemma StatsRoundTrip(s: Stats)
    ensures StatsOf(StatsValue(s)) == Some(s)
  {
    StatsGets(s);
  }

  /** The keys `to_dict` writes, in order. */
  const ToDictKeys: seq<string> :=
    ["player_id", "name", "stats", "state", "grid_size", "grid", "piece_library", "zoltans"]

  lemma ToDictKeysDistinct()
    ensures forall i, j :: 0 <= i < j < |ToDictKeys| ==> ToDictKeys[i] != ToDictKeys[j]
  {
    var ks := ToDictKeys;
    assert ks[0][0] != ks[4][0] && ks[1][0] != ks[5][0] && ks[2][4] != ks[3][4];
  }

  lemma ToDictGets(m: Mecha)
    ensures var d := ToDict(m);
      && Get(d, "player_id") == Some(Str(m.playerId))
      && Get(d, "name") == Some(Str(m.name))
      && Get(d, "stats") == Some(StatsValue(m.stats))
      && Get(d, "state") == Some(Str(m.state.Name()))
      && Get(d, "grid_size") == Some(Int(m.gridSize))
      && Get(d, "grid") == Some(GridValue(m.grid))
      && Get(d, "piece_library") == Some(List(m.pieceLibrary))
      && Get(d, "zoltans") == Some(Int(m.zoltans))
  {
    var d := ToDict(m);
    ToDictKeysDistinct();
    assert forall i :: 0 <= i < |d| ==> d[i].0 == ToDictKeys[i];
    EntriesFound(d);
    assert Get(d, d[0].0) == Some(d[0].1) && Get(d, d[1].0) == Some(d[1].1);
    assert Get(d, d[2].0) == Some(d[2].1) && Get(d, d[3].0) == Some(d[3].1);
    assert Get(d, d[4].0) == Some(d[4].1) && Get(d, d[5].0) == Some(d[5].1);
    assert Get(d, d[6].0) == Some(d[6].1) && Get(d, d[7].0) == Some(d[7].1);
  }

  /** Loading what was saved gives the same mecha back. */
  lemma FromToDict(m: Mecha)
    ensures FromDict(ToDict(m)) == Some(m)
  {
    ToDictGets(m);
    StatsRoundTrip(m.stats);
    GridRoundTrip(m.grid);
    FromFields(ToDict(m), m);
  }

  lemma FromFields(d: Dict<string, Value>, m: Mecha)
    requires Get(d, "player_id") == Some(Str(m.playerId))
    requires Get(d, "name") == Some(Str(m.name))
    requires Get(d, "stats") == Some(StatsValue(m.stats)) && StatsOf(StatsValue(m.stats)) == Some(m.stats)
    requires Get(d, "state") == Some(Str(m.state.Name()))
    requires Get(d, "grid_size") == Some(Int(m.gridSize))
    requires Get(d, "grid") == Some(GridValue(m.grid)) && GridOf(GridValue(m.grid).items) == Some(m.grid)
    requires Get(d, "piece_library") == Some(List(m.pieceLibrary))
    requires Get(d, "zoltans") == Some(Int(m.zoltans))
    ensures FromDict(d) == Some(m)
  {
    StateNameRoundTrip(m.state);
  }
}

=== FILE: memory_logger.dfy ===
/** The memory logger (core/managers/memory_logger.py): a bounded list of
    timestamped messages that keeps only the most recent thousand.  The
    clock is a parameter and the console echo is left out. */
module MemoryLogger {
  import opened PyText

  datatype Entry = Entry(timestamp: real, message: string)

  const MaxEntries: nat := 1000

  function Min(a: nat, b: nat): nat {
    if a < b then a else b
  }

  /** `log`: the entry is appended, and once the list is over the cap only
      its last `MaxEntries` entries are kept. */
  function Log(entries: seq<Entry>, message: string, timestamp: real): (r: seq<Entry>)
    ensures |r| == Min(|entries| + 1, MaxEntries)
    ensures r == (entries + [Entry(timestamp, message)])[|entries| + 1 - |r|..]
    ensures r[|r| - 1] == Entry(timestamp, message)
  {
    var all := entries + [Entry(timestamp, message)];
    if |all| > MaxEntries then LastK(all, MaxEntries) else all
  }

  /** Logging a batch of entries one after the other. */
  function LogAll(entries: seq<Entry>, batch: seq<Entry>): seq<Entry>
    decreases |batch|
  {
    if |batch| == 0 then entries
    else LogAll(Log(entries, batch[0].message, batch[0].timestamp), batch[1..])
  }

  /** However many messages are logged, the logger holds exactly the most
      recent `MaxEntries` of everything logged (all of it while there are
      fewer), in the order they came. */
  lemma {:induction false} LogAllKeepsLatest(entries: seq<Entry>, batch: seq<Entry>)
    requires |entries| <= MaxEntries
    ensures var all := entries + batch;
      LogAll(entries, batch) == all[|all| - Min(|all|, MaxEntries)..]
    decreases |batch|
  {
    if |batch| > 0 {
      var all := entries + batch;
      var once := Log(entries, batch[0].message, batch[0].timestamp);
      var m := |entries| + 1 - |once|;
      LogOnce(entries, batch, once);
      LogAllKeepsLatest(once, batch[1..]);
      SuffixOfSuffix(all, m, Min(|all|, MaxEntries));
    }
  }

  /** One step of a batch: the log becomes a suffix of everything logged. */
  lemma LogOnce(entries: seq<Entry>, batch: seq<Entry>, once: seq<Entry>)
    requires |batch| > 0 && once == Log(entries, batch[0].message, batch[0].timestamp)
    ensures |entries| + 1 - |once| >= 0
    ensures once + batch[1..] == (entries + batch)[|entries| + 1 - |once|..]
  {
    assert Entry(batch[0].timestamp, batch[0].message) == batch[0];
    assert entries + batch == entries + [batch[0]] + batch[1..];
  }

  lemma SuffixOfSuffix<T>(all: seq<T>, m: nat, k: nat)
    requires m <= |all| && k <= |all| - m
    ensures all[m..][|all| - m - k..] == all[|all| - k..]
  {
  }

  /** Starting from a log within the cap, logging never exceeds it. */
  lemma LogWithinCap(entries: seq<Entry>, batch: seq<Entry>)
    requires |entries| <= MaxEntries
    ensures |LogAll(entries, batch)| <= MaxEntries
    ensures |batch| > 0 ==> var r := LogAll(entries, batch); |r| > 0 && r[|r| - 1] == batch[|batch| - 1]
  {
    LogAllKeepsLatest(entries, batch);
  }

  /** `get_recent_logs(count)`, that is `log_entries[-count:]`: the last
      `count` entries for a positive count, every entry for 0, and all but
      the first `-count` for a negative one. */
  function RecentLogs(entries: seq<Entry>, count: int): (r: seq<Entry>)
    ensures count > 0 ==> r == entries[|entries| - Min(count, |entries|)..]
    ensures count == 0 ==> r == entries
    ensures count < 0 ==> r == entries[Min(-count, |entries|)..]
  {
    SliceFrom(entries, -count)
  }

  /** The most recent log entry is the message just logged, and the ten
      most recent end with it. */
  lemma RecentAfterLog(entries: seq<Entry>, message: string, timestamp: real)
    ensures RecentLogs(Log(entries, message, timestamp), 1) == [Entry(timestamp, message)]
    ensures var recent := RecentLogs(Log(entries, message, timestamp), 10);
      |recent| == Min(|entries| + 1, 10) && recent[|recent| - 1] == Entry(timestamp, message)
  {
  }

  /** `clear_logs`: nothing is left to recall. */
  function Clear(entries: seq<Entry>): (r: seq<Entry>)
    ensures forall count :: RecentLogs(r, count) == []
  {
    []
  }
}

=== FILE: object_manager.dfy ===
/** The BlockVision object registry (blockvision/core/managers/object_manager.py):
    objects created from the built-in mesh templates under generated ids,
    lookup by type, the status report and clearing.  File import is not
    modelled; the creation time is a parameter. */
module ObjectManager {
  import opened Wrappers
  import opened PyText
  import opened Dicts

  datatype ObjectType = Model | Image | Flat

  /** `ObjectType.value` */
  function TypeValue(t: ObjectType): string {
    match t
    case Model => "model"
    case Image => "image"
    case Flat => "flat"
  }

  type Vertex = (int, int, int)

  /** The mesh data a template produces. */
  datatype Mesh =
    | CubeMesh(vertices: seq<Vertex>, faces: seq<seq<int>>)
    | SphereMesh(radius: real, segments: nat, rings: nat)
    | PlaneMesh(width: real, height: real, segmentsX: nat, segmentsY: nat)

  datatype ObjectData = ObjectData(id: string, name: string, kind: ObjectType, filePath: Option<string>,
                                   meshData: Option<Mesh>, createdAt: real)

  datatype Manager = Manager(objects: Dict<string, ObjectData>, counter: nat)

  const IdPrefix := "obj_"
  const SupportedModels := [".obj", ".fbx", ".gltf", ".glb"]
  const SupportedImages := [".jpg", ".jpeg", ".png", ".bmp", ".tga"]

  /** `_create_cube_template`: front face then back face, and the six
      quadrilateral faces over them. */
  const Cube := CubeMesh(
    [(-1, -1, 1), (1, -1, 1), (1, 1, 1), (-1, 1, 1),
     (-1, -1, -1), (1, -1, -1), (1, 1, -1), (-1, 1, -1)],
    [[0, 1, 2, 3], [5, 4, 7, 6], [4, 0, 3, 7], [1, 5, 6, 2], [3, 2, 6, 7], [4, 5, 1, 0]])

  /** `_create_sphere_template` */
  const Sphere := SphereMesh(1.0, 16, 8)

  /** `_create_plane_template` */
  const Plane := PlaneMesh(2.0, 2.0, 1, 1)

  /** `self.templates[template_name]()`, or None for an unknown template. */
  function Template(templateName: string): (r: Option<Mesh>)
    ensures r.Some? <==> templateName in {"cube", "sphere", "plane"}
  {
    if templateName == "cube" then Some(Cube)
    else if templateName == "sphere" then Some(Sphere)
    else if templateName == "plane" then Some(Plane)
    else None
  }

  /** A face: four distinct corners, each an index into the vertex list. */
  predicate QuadOver(face: seq<int>, n: nat) {
    |face| == 4 && (forall i :: 0 <= i < 4 ==> 0 <= face[i] < n)
    && forall i, j :: 0 <= i < j < 4 ==> face[i] != face[j]
  }

  /** A corner of the cube centred at the origin with side 2. */
  predicate Corner(v: Vertex) {
    (v.0 == 1 || v.0 == -1) && (v.1 == 1 || v.1 == -1) && (v.2 == 1 || v.2 == -1)
  }

  /** The cube template is a well-formed mesh: eight distinct corners of
      the cube, and six quadrilateral faces whose corners are vertex
      indices in range. */
  lemma CubeWellFormed()
    ensures |Cube.vertices| == 8 && |Cube.faces| == 6
    ensures forall i :: 0 <= i < 8 ==> Corner(Cube.vertices[i])
    ensures forall i, j :: 0 <= i < j < 8 ==> Cube.vertices[i] != Cube.vertices[j]
    ensures forall f :: 0 <= f < 6 ==> QuadOver(Cube.faces[f], 8)
  {
  }

  /** Every face of the cube template is flat: its corners share one
      coordinate. */
  lemma CubeFacesPlanar()
    ensures forall f :: 0 <= f < 6 ==> exists axis :: 0 <= axis < 3 && OnPlane(Cube.vertices, Cube.faces[f], axis)
  {
    var vs := Cube.vertices;
    assert OnPlane(vs, Cube.faces[0], 2);
    assert OnPlane(vs, Cube.faces[1], 2);
    assert OnPlane(vs, Cube.faces[2], 0);
    assert OnPlane(vs, Cube.faces[3], 0);
    assert OnPlane(vs, Cube.faces[4], 1);
    assert OnPlane(vs, Cube.faces[5], 1);
  }

  function Coord(v: Vertex, axis: nat): int
    requires axis < 3
  {
    if axis == 0 then v.0 else if axis == 1 then v.1 else v.2
  }

  /** All corners of the face share their `axis` coordinate. */
  predicate OnPlane(vs: seq<Vertex>, face: seq<int>, axis: nat)
    requires axis < 3
  {
    forall i :: 0 <= i < |face| ==>
      (0 <= face[i] < |vs| && 0 <= face[0] < |vs| && Coord(vs[face[i]], axis) == Coord(vs[face[0]], axis))
  }

  /** Every reachable registry: keys are unique and every object is stored
      under its own id, one the counter has already handed out. */
  ghost predicate Inv(m: Manager) {
    && Valid(m.objects)
    && forall k :: Get(m.objects, k).Some? ==> Get(m.objects, k).value.id == k && Numbered(k, m.counter)
  }

  predicate Numbered(id: string, counter: nat) {
    match NumberAfter(IdPrefix, id)
    case Some(n) => 1 <= n <= counter
    case None => false
  }

  function New(): (m: Manager)
    ensures Inv(m) && m.objects == [] && m.counter == 0
  {
    Manager([], 0)
  }

  /** `create_template_object`: an unknown template gives None and leaves
      the registry as it was; otherwise the counter goes up, and a model
      object carrying the template's mesh is stored under `obj_<counter>`,
      named `<template>_<counter>` unless a name is given. */
  function CreateTemplateObject(m: Manager, templateName: string, name: Option<string>, now: real)
    : (r: (Manager, Option<string>))
    requires Valid(m.objects)
    ensures r.1.None? <==> Template(templateName).None?
    ensures r.1.None? ==> r.0 == m
    ensures r.1.Some? ==>
      var id := IdPrefix + ShowInt(m.counter + 1);
      && r.1.value == id && r.0.counter == m.counter + 1 && Valid(r.0.objects)
      && Get(r.0.objects, id) == Some(ObjectData(id, name.GetOr(templateName + "_" + ShowInt(m.counter + 1)),
                                                 Model, None, Template(templateName), now))
      && (forall k :: k != id ==> Get(r.0.objects, k) == Get(m.objects, k))
  {
    match Template(templateName)
    case None => (m, None)
    case Some(mesh) =>
      var id := IdPrefix + ShowInt(m.counter + 1);
      var obj := ObjectData(id, name.GetOr(templateName + "_" + ShowInt(m.counter + 1)), Model, None, Some(mesh), now);
      (Manager(Put(m.objects, id, obj), m.counter + 1), Some(id))
  }

  /** A template object's id was free, so the registry grows by one and
      stays well formed. */
  lemma CreateIsFresh(m: Manager, templateName: string, name: Option<string>, now: real)
    requires Inv(m)
    ensures var r := CreateTemplateObject(m, templateName, name, now);
      r.1.Some? ==> !HasKey(m.objects, r.1.value) && |r.0.objects| == |m.objects| + 1
    ensures Inv(CreateTemplateObject(m, templateName, name, now).0)
  {
    var r := CreateTemplateObject(m, templateName, name, now);
    if r.1.Some? {
      NextIdFree(m);
      StoredUnderNextId(m, r.0, r.1.value);
    }
  }

  /** Storing an object under the next id, with nothing else changed,
      keeps every stored object under its own, already handed-out id. */
  lemma StoredUnderNextId(m: Manager, t: Manager, id: string)
    requires Inv(m) && id == IdPrefix + ShowInt(m.counter + 1) && t.counter == m.counter + 1
    requires Get(t.objects, id).Some? && Get(t.objects, id).value.id == id
    requires forall k :: k != id ==> Get(t.objects, k) == Get(m.objects, k)
    ensures forall k :: Get(t.objects, k).Some? ==> Get(t.objects, k).value.id == k && Numbered(k, t.counter)
  {
    forall k | Get(t.objects, k).Some?
      ensures Get(t.objects, k).value.id == k && Numbered(k, t.counter)
    {
      if k != id {
        assert Get(t.objects, k) == Get(m.objects, k);
      } else {
        NumberAfterShow(IdPrefix, m.counter + 1);
      }
    }
  }

  /** The next id the counter hands out is not yet taken. */
  lemma NextIdFree(m: Manager)
    requires Inv(m)
    ensures !HasKey(m.objects, IdPrefix + ShowInt(m.counter + 1))
  {
    var id := IdPrefix + ShowInt(m.counter + 1);
    NumberAfterShow(IdPrefix, m.counter + 1);
    assert !Numbered(id, m.counter);
  }

  /** The id and the default name of a template object carry the same
      number. */
  lemma DefaultNameMatchesId(m: Manager, templateName: string, now: real)
    requires Valid(m.objects) && Template(templateName).Some?
    ensures var r := CreateTemplateObject(m, templateName, None, now);
      && NumberAfter(IdPrefix, r.1.value) == Some(m.counter + 1)
      && NumberAfter(templateName + "_", Get(r.0.objects, r.1.value).value.name) == Some(m.counter + 1)
  {
    NumberAfterShow(IdPrefix, m.counter + 1);
    NumberAfterShow(templateName + "_", m.counter + 1);
  }

  /** `remove_object`: an unknown id changes nothing; otherwise only that
      object goes. */
  function RemoveObject(m: Manager, id: string): (r: (Manager, bool))
    requires Valid(m.objects)
    ensures r.1 <==> HasKey(m.objects, id)
    ensures !r.1 ==> r.0 == m
    ensures r.1 ==>
      && Valid(r.0.objects) && r.0.counter == m.counter && |r.0.objects| == |m.objects| - 1
      && Get(r.0.objects, id) == None
      && (forall k :: k != id ==> Get(r.0.objects, k) == Get(m.objects, k))
  {
    if HasKey(m.objects, id) then (Manager(Remove(m.objects, id), m.counter), true) else (m, false)
  }

  lemma RemoveKeepsInv(m: Manager, id: string)
    requires Inv(m)
    ensures Inv(RemoveObject(m, id).0)
  {
    var r := RemoveObject(m, id).0;
    forall k | Get(r.objects, k).Some? ensures Get(r.objects, k).value.id == k && Numbered(k, r.counter) {
      assert Get(m.objects, k).Some?;
    }
  }

  /** `[obj for obj in self.objects.values() if obj.type == obj_type]` */
  function OfType(objects: Dict<string, ObjectData>, t: ObjectType): (r: seq<ObjectData>)
    ensures |r| <= |objects|
    ensures forall o :: o in r <==> o.kind == t && exists i :: 0 <= i < |objects| && objects[i].1 == o
  {
    if |objects| == 0 then []
    else
      assert forall i :: 1 <= i < |objects| ==> objects[i] == objects[1..][i - 1];
      (if objects[0].1.kind == t then [objects[0].1] else []) + OfType(objects[1..], t)
  }

  /** `get_objects_by_type`: exactly the registered objects of that type. */
  function GetObjectsByType(m: Manager, t: ObjectType): (r: seq<ObjectData>)
    requires Valid(m.objects)
    ensures forall o :: o in r <==> o.kind == t && o in Values(m.objects)
    ensures forall k :: Get(m.objects, k).Some? && Get(m.objects, k).value.kind == t ==> Get(m.objects, k).value in r
  {
    var r := OfType(m.objects, t);
    var vs := Values(m.objects);
    forall o ensures o in r <==> o.kind == t && o in vs {
      if o in vs {
        var i :| 0 <= i < |vs| && vs[i] == o;
        assert m.objects[i].1 == o;
      }
    }
    forall k | Get(m.objects, k).Some? && Get(m.objects, k).value.kind == t ensures Get(m.objects, k).value in r {
    }
    r
  }

  /** Every object has exactly one of the three types. */
  lemma {:induction false} TypesPartition(objects: Dict<string, ObjectData>)
    ensures |OfType(objects, Model)| + |OfType(objects, Image)| + |OfType(objects, Flat)| == |objects|
  {
    if |objects| > 0 {
      TypesPartition(objects[1..]);
    }
  }

  datatype Status = Status(totalObjects: nat, models: nat, images: nat,
                           supportedModels: seq<string>, supportedImages: seq<string>)

  /** `get_object_status`: the total, the model and image counts, which
      together never exceed the total (the rest are flat objects), and the
      supported formats. */
  function GetObjectStatus(m: Manager): (s: Status)
    requires Valid(m.objects)
    ensures s.totalObjects == |m.objects|
    ensures s.models == |GetObjectsByType(m, Model)| && s.images == |GetObjectsByType(m, Image)|
    ensures s.models + s.images + |GetObjectsByType(m, Flat)| == s.totalObjects
    ensures s.supportedModels == SupportedModels && s.supportedImages == SupportedImages
  {
    TypesPartition(m.objects);
    Status(|m.objects|, |GetObjectsByType(m, Model)|, |GetObjectsByType(m, Image)|, SupportedModels, SupportedImages)
  }

  /** `clear_all_objects`: no objects and the counter back at zero. */
  function ClearAllObjects(m: Manager): (r: Manager)
    ensures Inv(r) && r.objects == [] && r.counter == 0
    ensures GetObjectStatus(r).totalObjects == 0
  {
    Manager([], 0)
  }
}

=== FILE: observer.dfy ===
/** The environmental observer of the reasoning engine
    (core/reasoning/observer.py): one trace per observation, the boost
    zones and reasoning notes it records, and the summary of the trace
    log.  The trace file, the clock and the heart's state are outside the
    model: the timestamp and the state come in as parameters. */
module Observer {
  import opened Wrappers
  import opened PyText
  import opened Dicts
  import opened StableSort
  import opened Energy

  datatype Zone = Zone(nodeName: string, position: Position, boostPotential: real, density: real, range: real)

  /** An active node whose density times range exceeds 10. */
  predicate Boosting(n: NodeInfo) {
    IsActive(n) && BoostPotential(n) > 10.0
  }

  function ZoneOf(name: string, n: NodeInfo): Zone {
    Zone(name, n.position.GetOr((0.0, 0.0, 0.0)), BoostPotential(n), n.density.GetOr(1.0), n.range.GetOr(10.0))
  }

  /** `_identify_boost_zones`: a zone for exactly the boosting nodes. */
  function BoostZones(nodes: Dict<string, NodeInfo>): (zs: seq<Zone>)
    ensures |zs| <= |nodes|
    ensures forall z :: z in zs ==> z.boostPotential > 10.0
    ensures forall z :: z in zs ==> exists i :: 0 <= i < |nodes| && Boosting(nodes[i].1) && z == ZoneOf(nodes[i].0, nodes[i].1)
    ensures forall i :: 0 <= i < |nodes| && Boosting(nodes[i].1) ==> ZoneOf(nodes[i].0, nodes[i].1) in zs
  {
    if |nodes| == 0 then []
    else
      assert forall i :: 1 <= i < |nodes| ==> nodes[i] == nodes[1..][i - 1];
      (if Boosting(nodes[0].1) then [ZoneOf(nodes[0].0, nodes[0].1)] else []) + BoostZones(nodes[1..])
  }

  /** What `_get_system_state` reports. */
  datatype SystemSnapshot = SystemSnapshot(learningRate: real, currentState: string, confidence: real)

  const DefaultSnapshot := SystemSnapshot(0.5, "normal", 0.5)

  const HighNote := "High energy consumption detected"
  // The longer notes are written in two pieces, each short enough to be
  // checked for ';' on its own.
  const LowNote := "Low energy consumption - " + "potential optimization opportunity"
  const ManyNote := "Many active nodes - " + "monitoring for efficiency"
  const FewNote := "Few active nodes - " + "system may be underutilized"
  const NormalNote := "Normal energy state - " + "no immediate action required"
  const Separator := "; "

  /** The notes of `_generate_reasoning_notes` before they are joined: at
      most one about the consumption, at most one about the active nodes,
      and the normal-state note exactly when neither applies. */
  function ReasoningNotes(s: Status): (notes: seq<string>)
    ensures 1 <= |notes| <= 2
    ensures HighNote in notes <==> Consumption(s) > 100.0
    ensures LowNote in notes <==> Consumption(s) < 10.0
    ensures ManyNote in notes <==> ActiveCount(s.nodes) > 10
    ensures FewNote in notes <==> ActiveCount(s.nodes) < 3
    ensures NormalNote in notes <==> 10.0 <= Consumption(s) <= 100.0 && 3 <= ActiveCount(s.nodes) <= 10
    ensures NormalNote in notes <==> notes == [NormalNote]
  {
    var c := Consumption(s);
    var n := ActiveCount(s.nodes);
    var notes := (if c > 100.0 then [HighNote] else if c < 10.0 then [LowNote] else [])
      + (if n > 10 then [ManyNote] else if n < 3 then [FewNote] else []);
    if notes == [] then [NormalNote] else notes
  }

  /** `_generate_reasoning_notes`: the notes joined by "; ".  No note
      contains ';', so splitting the text on the separator gives the notes
      back. */
  function NotesText(s: Status): (t: string)
    ensures SplitOnStr(t, Separator) == ReasoningNotes(s)
    ensures ReasoningNotes(s)[0] <= t
    ensures |ReasoningNotes(s)| == 1 ==> t == ReasoningNotes(s)[0]
  {
    var notes := ReasoningNotes(s);
    NotesAvoidSeparator(s);
    SplitOnStrJoin(notes, Separator);
    JoinStartsWith(notes, Separator);
    Join(notes, Separator)
  }

  const AllNoteKinds: seq<string> := [HighNote, LowNote, ManyNote, FewNote, NormalNote]

  /** None of the five notes contains the separator's ';'. */
  lemma NotesAvoidSeparator(s: Status)
    ensures forall i :: 0 <= i < |ReasoningNotes(s)| ==> Separator[0] !in ReasoningNotes(s)[i]
  {
    var notes := ReasoningNotes(s);
    assert Separator[0] == ';';
    forall i | 0 <= i < |notes| ensures ';' !in notes[i] {
      NoteKinds(s, i);
      KindsAvoid(notes[i]);
    }
  }

  lemma NoteKinds(s: Status, i: nat)
    requires i < |ReasoningNotes(s)|
    ensures ReasoningNotes(s)[i] in AllNoteKinds
  {
  }

  lemma KindsAvoid(note: string)
    requires note in AllNoteKinds
    ensures ';' !in note
  {
    if note == HighNote {
      HighAvoids();
    } else if note == LowNote {
      LowAvoids();
    } else if note == ManyNote {
      ManyAvoids();
    } else if note == FewNote {
      FewAvoids();
    } else {
      NormalAvoids();
    }
  }

  lemma HighAvoids() ensures ';' !in HighNote {}

  lemma LowAvoids() ensures ';' !in LowNote {
    Avoids(LowNote, "Low energy consumption - ", "potential optimization opportunity");
  }

  lemma ManyAvoids() ensures ';' !in ManyNote {
    Avoids(ManyNote, "Many active nodes - ", "monitoring for efficiency");
  }

  lemma FewAvoids() ensures ';' !in FewNote {
    Avoids(FewNote, "Few active nodes - ", "system may be underutilized");
  }

  lemma NormalAvoids() ensures ';' !in NormalNote {
    Avoids(NormalNote, "Normal energy state - ", "no immediate action required");
  }

  /** A note made of two pieces without ';' has none. */
  lemma Avoids(note: string, a: string, b: string)
    requires note == a + b && ';' !in a && ';' !in b
    ensures ';' !in note
  {
    assert forall c :: c in note ==> c in a || c in b;
  }

  datatype Trace = Trace(stage: string, timestamp: int, consumption: real, nodesActive: nat,
                         totalNodes: nat, boostAreas: seq<Zone>, systemState: SystemSnapshot, notes: string)

  /** `observe_energy_analysis`: exactly one trace is appended, recording
      the status it was given; the earlier traces stay as they were. */
  function Observe(log: seq<Trace>, s: Status, timestamp: int, heart: Option<SystemSnapshot>): (r: seq<Trace>)
    ensures |r| == |log| + 1 && r[..|log|] == log
    ensures var t := r[|log|];
      && t.stage == "energy_analysis" && t.timestamp == timestamp
      && t.consumption == Consumption(s) && t.nodesActive == ActiveCount(s.nodes) && t.totalNodes == |s.nodes|
      && t.boostAreas == BoostZones(s.nodes) && t.systemState == heart.GetOr(DefaultSnapshot)
      && t.notes == NotesText(s)
  {
    log + [Trace("energy_analysis", timestamp, Consumption(s), ActiveCount(s.nodes), |s.nodes|,
                 BoostZones(s.nodes), heart.GetOr(DefaultSnapshot), NotesText(s))]
  }

  /** `get_recent_traces(count)`: nothing from an empty log; otherwise the
      last `count` traces for a positive count, the whole log for 0, and
      the log less its first `-count` traces for a negative one. */
  function RecentTraces(log: seq<Trace>, count: int): (r: seq<Trace>)
    ensures log == [] ==> r == []
    ensures count > 0 ==> r == log[|log| - (if count < |log| then count else |log|)..]
    ensures count == 0 ==> r == log
    ensures count < 0 ==> r == log[(if -count < |log| then -count else |log|)..]
  {
    if log == [] then [] else SliceFrom(log, -count)
  }

  /** Every note of every trace, in log order. */
  function AllNotes(log: seq<Trace>): seq<string> {
    if |log| == 0 then [] else SplitOnStr(log[0].notes, Separator) + AllNotes(log[1..])
  }

  lemma {:induction false} AllNotesAppend(log: seq<Trace>, t: Trace)
    ensures AllNotes(log + [t]) == AllNotes(log) + SplitOnStr(t.notes, Separator)
  {
    if |log| > 0 {
      assert (log + [t])[1..] == log[1..] + [t];
      AllNotesAppend(log[1..], t);
    }
  }

  /** An observation adds its reasoning notes, and nothing else, to the
      notes the summary counts. */
  lemma ObserveAddsNotes(log: seq<Trace>, s: Status, timestamp: int, heart: Option<SystemSnapshot>)
    ensures AllNotes(Observe(log, s, timestamp, heart)) == AllNotes(log) + ReasoningNotes(s)
  {
    var r := Observe(log, s, timestamp, heart);
    assert r == log + [r[|log|]];
    AllNotesAppend(log, r[|log|]);
  }

  /** How often `k` occurs in `notes`. */
  function Occurrences(notes: seq<string>, k: string): (n: nat)
    ensures n > 0 <==> k in notes
  {
    if |notes| == 0 then 0
    else
      var prefix := notes[..|notes| - 1];
      assert notes == prefix + [notes[|notes| - 1]];
      Occurrences(prefix, k) + (if notes[|notes| - 1] == k then 1 else 0)
  }

  /** `d` maps every note to its number of occurrences, and nothing else. */
  ghost predicate CountsOf(d: Dict<string, nat>, notes: seq<string>) {
    forall x :: Get(d, x) == if x in notes then Some(Occurrences(notes, x)) else None
  }

  /** `note_counts[note] = note_counts.get(note, 0) + 1` over all notes:
      every note maps to its number of occurrences, and nothing else is a
      key. */
  function NoteCounts(notes: seq<string>): (d: Dict<string, nat>)
    ensures Valid(d) && CountsOf(d, notes)
  {
    if |notes| == 0 then []
    else
      var d := NoteCounts(notes[..|notes| - 1]);
      var k := notes[|notes| - 1];
      var r := Put(d, k, Get(d, k).GetOr(0) + 1);
      CountStep(notes[..|notes| - 1], k, d, r);
      assert notes == notes[..|notes| - 1] + [k];
      r
  }

  /** Counting one more note: its count goes up by one, others stay. */
  lemma CountStep(prefix: seq<string>, k: string, d: Dict<string, nat>, r: Dict<string, nat>)
    requires CountsOf(d, prefix)
    requires Get(r, k) == Some(Get(d, k).GetOr(0) + 1)
    requires forall x :: x != k ==> Get(r, x) == Get(d, x)
    ensures CountsOf(r, prefix + [k])
  {
    var notes := prefix + [k];
    assert notes[..|notes| - 1] == prefix;
    forall x ensures Get(r, x) == if x in notes then Some(Occurrences(notes, x)) else None {
      assert Occurrences(notes, x) == Occurrences(prefix, x) + (if x == k then 1 else 0);
    }
  }

  function NegCount(e: (string, nat)): int {
    -(e.1 as int)
  }

  /** `sorted(counts.items(), key=count, reverse=True)[:5]`: at most five
      entries of the dictionary in descending count, and any entry left
      out counts no more than the fifth. */
  function MostCommon(counts: Dict<string, nat>): (r: seq<(string, nat)>)
    ensures |r| == if |counts| < 5 then |counts| else 5
    ensures forall i, j :: 0 <= i < j < |r| ==> r[i].1 >= r[j].1
    ensures forall e :: e in r ==> e in counts
    ensures forall e :: e in counts && e !in r ==> |r| == 5 && e.1 <= r[4].1
  {
    var sorted := SortBy(counts, NegCount);
    SortKeeps(counts, NegCount);
    SortBySorted(counts, NegCount);
    var r := SliceTo(sorted, 5);
    assert r == sorted[..|r|];
    TopOfSorted(counts, sorted, |r|);
    r
  }

  /** A prefix of the entries sorted by descending count is itself in
      descending order, and every entry outside it counts no more than the
      prefix's last. */
  lemma TopOfSorted(counts: Dict<string, nat>, sorted: seq<(string, nat)>, n: nat)
    requires n <= |sorted| && (n < |sorted| ==> n == 5)
    requires forall x :: x in sorted <==> x in counts
    requires SortedBy(sorted, NegCount)
    ensures forall i, j :: 0 <= i < j < n ==> sorted[i].1 >= sorted[j].1
    ensures forall e :: e in counts && e !in sorted[..n] ==> n == 5 && e.1 <= sorted[4].1
  {
    forall e | e in counts && e !in sorted[..n] ensures n == 5 && e.1 <= sorted[4].1 {
      var k :| 0 <= k < |sorted| && sorted[k] == e;
      assert k >= n;
      assert NegCount(sorted[4]) <= NegCount(sorted[k]);
    }
    forall i, j | 0 <= i < j < n ensures sorted[i].1 >= sorted[j].1 {
      assert NegCount(sorted[i]) <= NegCount(sorted[j]);
    }
  }

  /** The most common notes carry their true counts, and a note left out
      is no more frequent than the fifth. */
  lemma TopCounts(notes: seq<string>, top: seq<(string, nat)>)
    requires top == MostCommon(NoteCounts(notes))
    ensures forall e :: e in top ==> e.0 in notes && e.1 == Occurrences(notes, e.0)
    ensures forall n :: n in notes && (forall e :: e in top ==> e.0 != n) ==>
      |top| == 5 && Occurrences(notes, n) <= top[4].1
  {
    var counts := NoteCounts(notes);
    forall e | e in top ensures e.0 in notes && e.1 == Occurrences(notes, e.0) {
      CountedEntry(counts, notes, e);
    }
    forall n | n in notes && (forall e :: e in top ==> e.0 != n)
      ensures |top| == 5 && Occurrences(notes, n) <= top[4].1
    {
      LeftOutNote(counts, notes, top, n);
    }
  }

  /** An entry of the counts carries a note that occurs, with its count. */
  lemma CountedEntry(counts: Dict<string, nat>, notes: seq<string>, e: (string, nat))
    requires Valid(counts) && CountsOf(counts, notes) && e in counts
    ensures e.0 in notes && e.1 == Occurrences(notes, e.0)
  {
    var i :| 0 <= i < |counts| && counts[i] == e;
    GetFirst(counts, i);
    assert Get(counts, e.0) == Some(e.1);
  }

  /** A note missing from the top entries counts no more than the fifth. */
  lemma LeftOutNote(counts: Dict<string, nat>, notes: seq<string>, top: seq<(string, nat)>, n: string)
    requires Valid(counts) && CountsOf(counts, notes) && top == MostCommon(counts)
    requires n in notes && forall e :: e in top ==> e.0 != n
    ensures |top| == 5 && Occurrences(notes, n) <= top[4].1
  {
    assert Get(counts, n).Some?;
    var i :| 0 <= i < |counts| && counts[i].0 == n;
    GetFirst(counts, i);
    assert counts[i] !in top;
  }

  datatype Summary = Summary(totalTraces: nat, averageConsumption: real,
                             mostCommonNotes: seq<(string, nat)>, boostZonesIdentified: nat)

  function ConsumptionSum(log: seq<Trace>): real {
    if |log| == 0 then 0.0 else log[0].consumption + ConsumptionSum(log[1..])
  }

  function ZoneTotal(log: seq<Trace>): nat {
    if |log| == 0 then 0 else |log[0].boostAreas| + ZoneTotal(log[1..])
  }

  /** `get_trace_summary`: zeros for an empty log; otherwise the trace
      count, the mean consumption, the at most five most frequent notes
      with their true counts in descending order (any note left out is no
      more frequent than the fifth), and the number of zones recorded. */
  function TraceSummary(log: seq<Trace>): (r: Summary)
    ensures log == [] ==> r == Summary(0, 0.0, [], 0)
    ensures r.totalTraces == |log|
    ensures log != [] ==> r.averageConsumption == ConsumptionSum(log) / (|log| as real)
    ensures r.boostZonesIdentified == if log == [] then 0 else ZoneTotal(log)
    ensures |r.mostCommonNotes| <= 5
    ensures forall i, j :: 0 <= i < j < |r.mostCommonNotes| ==> r.mostCommonNotes[i].1 >= r.mostCommonNotes[j].1
    ensures forall e :: e in r.mostCommonNotes ==> e.0 in AllNotes(log) && e.1 == Occurrences(AllNotes(log), e.0)
    ensures forall n :: n in AllNotes(log) && (forall e :: e in r.mostCommonNotes ==> e.0 != n) ==>
      |r.mostCommonNotes| == 5 && Occurrences(AllNotes(log), n) <= r.mostCommonNotes[4].1
  {
    if log == [] then Summary(0, 0.0, [], 0)
    else
      var notes := AllNotes(log);
      var counts := NoteCounts(notes);
      var top := MostCommon(counts);
      TopCounts(notes, top);
      Summary(|log|, ConsumptionSum(log) / (|log| as real), top, ZoneTotal(log))
  }
}

=== FILE: piece_generator.dfy ===
/** The piece generator (dream_mecha/core/utils/piece_generator.py): the
    grown square shapes, the adjacency probe, the perimeter, the fallback
    piece, the bounded generation log and the size plan of the daily shop.
    The simple shapes are the same as the headless ones.  Random draws are
    rolls; the float stat formulas are not modelled. */
module PieceGenerator {
  import opened Wrappers
  import opened PyText
  import opened PyRandom
  import opened StatTotals
  import opened Shapes
  import Headless

  // ---------------------------------------------------------------------
  // Shapes
  // ---------------------------------------------------------------------

  /** `_generate_simple_shape`: identical to the headless generator. */
  function SimpleShape(blocks: int, roll: nat): (s: Shape)
    ensures CountBlocks(s) == if 1 <= blocks <= 3 then blocks else 4
  {
    Headless.SimpleShapeCount(blocks, roll);
    Headless.SimpleShape(blocks, roll)
  }

  /** `int(math.ceil(math.sqrt(n)))` for n >= 1: the least k with k * k >= n. */
  function CeilSqrt(n: int): (k: nat)
    requires n >= 1
    ensures k >= 1 && k * k >= n
    ensures forall j :: 0 <= j < k ==> j * j < n
  {
    RootFrom(n, 0)
  }

  function RootFrom(n: int, j: nat): (k: nat)
    requires n >= 1 && forall i :: 0 <= i < j ==> i * i < n
    ensures j <= k && k * k >= n
    ensures forall i :: 0 <= i < k ==> i * i < n
    decreases n - j
  {
    if j * j >= n then j
    else
      assert j < n by {
        if j >= 1 {
          assert j <= j * j;
        }
      }
      RootFrom(n, j + 1)
  }

  lemma {:induction false} NoneCount(s: Shape)
    requires forall r, c :: InShape(s, r, c) ==> !s[r][c]
    ensures CountBlocks(s) == 0
  {
    if |s| > 0 {
      NoneRow(s[0]);
      assert forall r, c :: InShape(s[1..], r, c) ==> InShape(s, r + 1, c);
      NoneCount(s[1..]);
    }
  }

  lemma {:induction false} NoneRow(row: seq<bool>)
    requires forall j :: 0 <= j < |row| ==> !row[j]
    ensures RowCount(row) == 0
  {
    if |row| > 0 {
      NoneRow(row[1..]);
    }
  }

  /** The empty k by k grid with only its centre filled. */
  function Start(k: nat): (s: Shape)
    requires k >= 1
    ensures Square(s, k) && CountBlocks(s) == 1
    ensures forall r, c :: InShape(s, r, c) ==> (s[r][c] <==> r == k / 2 && c == k / 2)
  {
    var blank := seq(k, _ => seq(k, _ => false));
    NoneCount(blank);
    CountSet(blank, k / 2, k / 2, true);
    SetCell(blank, k / 2, k / 2, true)
  }

  /** One round of the placing loop: a cell next to a filled one when there
      is such an empty cell, otherwise any empty cell, otherwise nothing. */
  function GrowStep(s: Shape, roll: nat): (t: Shape)
    ensures CellsOf(s, Frontier) != [] ==>
      exists p :: Wants(s, Frontier, p) && t == SetCell(s, p.0, p.1, true)
    ensures CellsOf(s, Frontier) == [] && CellsOf(s, Empty) != [] ==>
      exists p :: Wants(s, Empty, p) && t == SetCell(s, p.0, p.1, true)
    ensures CellsOf(s, Empty) == [] ==> t == s
    ensures |t| == |s| && forall i :: 0 <= i < |s| ==> |t[i]| == |s[i]|
    ensures forall r, c :: FilledAt(s, r, c) ==> FilledAt(t, r, c)
    ensures CountBlocks(t) == CountBlocks(s) + if CellsOf(s, Empty) != [] then 1 else 0
  {
    var valid := CellsOf(s, Frontier);
    var empty := CellsOf(s, Empty);
    if |valid| > 0 then
      var p := Choice(valid, roll).value;
      assert p in empty;
      CountSet(s, p.0, p.1, true);
      SetCell(s, p.0, p.1, true)
    else if |empty| > 0 then
      var p := Choice(empty, roll).value;
      CountSet(s, p.0, p.1, true);
      SetCell(s, p.0, p.1, true)
    else s
  }

  function RollAt(rolls: seq<nat>, i: nat): nat {
    if i < |rolls| then rolls[i] else 0
  }

  /** The k by k grid after the centre and `m` rounds of the loop, round i
      using roll i.  While there is room every round fills one more cell,
      and the centre stays filled. */
  function Grown(k: nat, rolls: seq<nat>, m: nat): (g: Shape)
    requires k >= 1 && m + 1 <= k * k
    ensures Square(g, k) && CountBlocks(g) == m + 1 && g[k / 2][k / 2]
  {
    if m == 0 then Start(k)
    else
      var prev := Grown(k, rolls, m - 1);
      HasEmpty(prev, k);
      GrowStep(prev, RollAt(rolls, m - 1))
  }

  /** `_generate_complex_shape`: the loop that places the centre and then
      one cell per round until `blocks` cells are filled.  The square always
      has room, so the loop never stops early. */
  method GenerateComplexShape(blocks: int, rolls: seq<nat>) returns (grid: Shape)
    requires blocks >= 1
    ensures var k := CeilSqrt(blocks); Square(grid, k) && grid[k / 2][k / 2]
    ensures CountBlocks(grid) == blocks
    ensures grid == Grown(CeilSqrt(blocks), rolls, blocks - 1)
  {
    var k := CeilSqrt(blocks);
    grid := Start(k);
    var placed := 1;
    while placed < blocks
      invariant 1 <= placed <= blocks
      invariant grid == Grown(k, rolls, placed - 1)
    {
      var next := Grown(k, rolls, placed);
      grid := GrowStep(grid, RollAt(rolls, placed - 1));
      assert grid == next;
      placed := placed + 1;
    }
  }

  /** `_generate_shape` */
  method GenerateShape(blocks: int, roll: nat, rolls: seq<nat>) returns (s: Shape)
    ensures blocks <= 4 ==> s == SimpleShape(blocks, roll)
    ensures blocks > 4 ==> CountBlocks(s) == blocks && Square(s, CeilSqrt(blocks))
  {
    if blocks <= 4 {
      s := SimpleShape(blocks, roll);
    } else {
      s := GenerateComplexShape(blocks, rolls);
    }
  }

  // ---------------------------------------------------------------------
  // Adjacency
  // ---------------------------------------------------------------------

  /** Every row is at least as long as the grid is tall, so that the probe
      below never indexes past a row. */
  predicate Roomy(grid: Shape) {
    forall r :: 0 <= r < |grid| ==> |grid[r]| >= |grid|
  }

  /** A filled cell at column x, row y inside the len(grid) square. */
  predicate LitAt(grid: Shape, x: int, y: int)
    requires Roomy(grid)
  {
    0 <= x < |grid| && 0 <= y < |grid| && grid[y][x]
  }

  /** `_has_adjacent_block(grid, x, y)`: both coordinates bounded by the
      number of rows. */
  function HasAdjacent(grid: Shape, x: int, y: int): (b: bool)
    requires Roomy(grid)
    ensures b <==> LitAt(grid, x - 1, y) || LitAt(grid, x + 1, y) || LitAt(grid, x, y - 1) || LitAt(grid, x, y + 1)
  {
    if LitAt(grid, x - 1, y) then true
    else if LitAt(grid, x + 1, y) then true
    else if LitAt(grid, x, y - 1) then true
    else LitAt(grid, x, y + 1)
  }

  /** On a square grid the probe agrees with the per-row probe of the
      headless generator, with (x, y) as (column, row). */
  lemma SquareAdjacent(grid: Shape, k: nat, x: int, y: int)
    requires Square(grid, k)
    ensures HasAdjacent(grid, x, y) == HasAdjacentBlock(grid, y, x)
  {
  }

  // ---------------------------------------------------------------------
  // Perimeter
  // ---------------------------------------------------------------------

  /** The first row fixes the width and no row is shorter. */
  predicate Ruled(s: Shape) {
    |s| > 0 ==> forall r :: 0 <= r < |s| ==> |s[r]| >= |s[0]|
  }

  function Width(s: Shape): nat {
    if |s| == 0 then 0 else |s[0]|
  }

  /** The neighbour at column x, row y is outside the rows-by-width box or
      empty. */
  predicate Open(s: Shape, x: int, y: int)
    requires Ruled(s)
  {
    !(0 <= y < |s| && 0 <= x < Width(s) && s[y][x])
  }

  function Bit(b: bool): nat {
    if b then 1 else 0
  }

  /** The open sides of the cell at column x, row y. */
  function Exposed(s: Shape, x: int, y: int): (n: nat)
    requires Ruled(s)
    ensures n <= 4
  {
    Bit(Open(s, x - 1, y)) + Bit(Open(s, x + 1, y)) + Bit(Open(s, x, y - 1)) + Bit(Open(s, x, y + 1))
  }

  function RowPerimeter(s: Shape, y: nat, x: nat): nat
    requires Ruled(s) && y < |s| && x <= Width(s)
    decreases Width(s) - x
  {
    if x == Width(s) then 0
    else (if s[y][x] then Exposed(s, x, y) else 0) + RowPerimeter(s, y, x + 1)
  }

  function PerimeterFrom(s: Shape, y: nat): nat
    requires Ruled(s) && y <= |s|
    decreases |s| - y
  {
    if y == |s| then 0 else RowPerimeter(s, y, 0) + PerimeterFrom(s, y + 1)
  }

  /** `_calculate_perimeter`: the open sides of the filled cells of the
      rows-by-width box. */
  function CalculatePerimeter(s: Shape): (n: nat)
    requires Ruled(s)
    ensures n <= 4 * CountBlocks(s)
    ensures |s| == 0 ==> n == 0
  {
    PerimeterBound(s, 0);
    assert s[0..] == s;
    PerimeterFrom(s, 0)
  }

  lemma {:induction false} RowPerimeterBound(s: Shape, y: nat, x: nat)
    requires Ruled(s) && y < |s| && x <= Width(s)
    ensures RowPerimeter(s, y, x) <= 4 * RowCount(s[y][x..])
    decreases Width(s) - x
  {
    if x < Width(s) {
      RowPerimeterBound(s, y, x + 1);
      assert s[y][x..][1..] == s[y][x + 1..];
    }
  }

  lemma {:induction false} PerimeterBound(s: Shape, y: nat)
    requires Ruled(s) && y <= |s|
    ensures PerimeterFrom(s, y) <= 4 * CountBlocks(s[y..])
    decreases |s| - y
  {
    if y < |s| {
      RowPerimeterBound(s, y, 0);
      PerimeterBound(s, y + 1);
      assert s[y..][0] == s[y][0..] && s[y..][1..] == s[y + 1..];
    }
  }

  /** The number of the top and bottom rows that row y is (2 for a single
      row). */
  function Edges(rows: nat, y: nat): nat {
    Bit(y == 0) + Bit(y == rows - 1)
  }

  lemma {:induction false} FullRowPerimeter(rows: nat, cols: nat, y: nat, x: nat)
    requires 1 <= rows && 1 <= cols && y < rows && x <= cols
    ensures var s := Headless.Full(rows, cols);
      Ruled(s) && Width(s) == cols
      && RowPerimeter(s, y, x) == Edges(rows, y) * (cols - x) + Bit(x == 0) + Bit(x < cols)
    decreases cols - x
  {
    if x < cols {
      FullRowPerimeter(rows, cols, y, x + 1);
    }
  }

  lemma {:induction false} FullPerimeterFrom(rows: nat, cols: nat, y: nat)
    requires 1 <= rows && 1 <= cols && y <= rows
    ensures var s := Headless.Full(rows, cols);
      Ruled(s) && PerimeterFrom(s, y) == if y == rows then 0 else 2 * (rows - y) + cols * (1 + Bit(y == 0))
    decreases rows - y
  {
    if y < rows {
      FullRowPerimeter(rows, cols, y, 0);
      FullPerimeterFrom(rows, cols, y + 1);
      if y + 1 == rows {
        assert Edges(rows, y) == 1 + Bit(y == 0);
      } else {
        assert Edges(rows, y) == Bit(y == 0);
      }
    }
  }

  /** A full rectangle has the perimeter of its outline, 2 * (rows + cols);
      a single cell has 4. */
  lemma FullPerimeter(rows: nat, cols: nat)
    requires 1 <= rows && 1 <= cols
    ensures CalculatePerimeter(Headless.Full(rows, cols)) == 2 * rows + 2 * cols
  {
    FullPerimeterFrom(rows, cols, 0);
  }

  // ---------------------------------------------------------------------
  // Pieces, history and the daily shop
  // ---------------------------------------------------------------------

  datatype Piece = Piece(pieceId: string, name: string, shape: Shape, stats: Totals,
                         pieceType: string, blockCount: int, voidstateLevel: int)

  function TotalStats(t: Totals): int {
    t.hp + t.attack + t.defense + t.speed
  }

  /** `_generate_fallback_piece`: a single all-filled row of `blocks` cells
      (none for a negative count), 120 stat points per block in the ratio
      100 : 10 : 5 : 5, voidstate level 0. */
  function FallbackPiece(blocks: int, idRoll: nat): (p: Piece)
    ensures |p.shape| == 1 && CountBlocks(p.shape) == if blocks < 0 then 0 else blocks
    ensures p.stats.hp == 10 * p.stats.attack == 20 * p.stats.defense == 20 * p.stats.speed
    ensures TotalStats(p.stats) == 120 * blocks
    ensures p.name == "Basic Fragment " + ShowInt(blocks) && p.pieceType == "stat"
    ensures p.blockCount == blocks && p.voidstateLevel == 0
  {
    var n: nat := if blocks < 0 then 0 else blocks;
    RowFull(seq(n, _ => true));
    Piece("fallback_" + ShowInt(RandInt(1000, 9999, idRoll).value), "Basic Fragment " + ShowInt(blocks),
      [seq(n, _ => true)], Totals(blocks * 100, blocks * 10, blocks * 5, blocks * 5),
      "stat", blocks, 0)
  }

  datatype LogEntry = LogEntry(timestamp: string, pieceId: string, blockCount: int, voidstateLevel: int, totalStats: int)

  const HistoryLimit := 100

  /** `_log_generation`: appends the piece's entry and keeps the latest 100. */
  function LogGeneration(history: seq<LogEntry>, p: Piece, now: string): (h: seq<LogEntry>)
    ensures |h| == if |history| < HistoryLimit then |history| + 1 else HistoryLimit
    ensures h[|h| - 1] == LogEntry(now, p.pieceId, p.blockCount, p.voidstateLevel, TotalStats(p.stats))
    ensures h[..|h| - 1] == history[|history| + 1 - |h|..]
  {
    var entry := LogEntry(now, p.pieceId, p.blockCount, p.voidstateLevel, TotalStats(p.stats));
    var all := history + [entry];
    var h := if |all| > HistoryLimit then LastK(all, HistoryLimit) else all;
    assert h[..|h| - 1] == all[|all| - |h|..|all| - 1];
    h
  }

  /** The most blocks a large shop piece may have: grows by one per 5
      voidstate from 6 to 12. */
  function LargeCap(voidstate: int): int {
    if 12 < 6 + voidstate / 5 then 12 else 6 + voidstate / 5
  }

  /** The group sizes drawn by `generate_daily_shop_pieces`. */
  datatype ShopPlan = ShopPlan(small: nat, medium: nat, large: nat)

  function DailyShopPlan(smallRoll: nat, mediumRoll: nat, largeRoll: nat): (p: ShopPlan)
    ensures 2 <= p.small <= 3 && 2 <= p.medium <= 3 && 1 <= p.large <= 2
  {
    ShopPlan(RandInt(2, 3, smallRoll).value, RandInt(2, 3, mediumRoll).value, RandInt(1, 2, largeRoll).value)
  }

  function ShopBand(i: nat, p: ShopPlan, voidstate: int): (int, int) {
    if i < p.small then (1, 2) else if i < p.small + p.medium then (3, 5) else (6, LargeCap(voidstate))
  }

  /** The block counts of the daily shop pieces.  A negative voidstate makes
      the large range empty, so the draw fails. */
  function DailyShopBlocks(voidstate: int, p: ShopPlan, sizeRolls: seq<nat>): (r: Option<seq<int>>)
    ensures r.Some? <==> voidstate >= 0
    ensures r.Some? ==> |r.value| == p.small + p.medium + p.large
    ensures r.Some? ==> forall i :: 0 <= i < |r.value| ==> ShopBand(i, p, voidstate).0 <= r.value[i] <= ShopBand(i, p, voidstate).1
    ensures r.Some? ==> forall i :: p.small + p.medium <= i < |r.value| ==> 6 <= r.value[i] <= 12
  {
    if LargeCap(voidstate) < 6 then None
    else
      var total := p.small + p.medium + p.large;
      Some(seq(total, i requires 0 <= i < total =>
        RandInt(ShopBand(i, p, voidstate).0, ShopBand(i, p, voidstate).1, RollAt(sizeRolls, i)).value))
  }
}

=== FILE: player.dfy ===
/** Player accounts and their counters
    (dream_mecha/core/managers/player_manager.py).  Clock readings are
    integer seconds passed in; the account file is not modelled. */
module Player {
  import opened Wrappers
  import opened Dicts
  import opened Json
  import M = Mecha

  const SecondsPerDay := 24 * 60 * 60

  datatype Player = Player(playerId: string, username: string, joinDate: int, lastActive: int,
                           daysPlayed: int, totalZoltansEarned: int, combatParticipation: int,
                           mecha: Option<M.Mecha>, pieceLibrary: seq<Value>)

  type Players = Dict<string, Player>

  /** A new account at time `now`: every counter at 0, no mecha, no pieces. */
  function NewPlayer(playerId: string, username: string, now: int): (p: Player)
    ensures p.playerId == playerId && p.username == username
    ensures p.joinDate == p.lastActive == now
    ensures p.daysPlayed == 0 && p.totalZoltansEarned == 0 && p.combatParticipation == 0
    ensures p.mecha == None && p.pieceLibrary == []
  {
    Player(playerId, username, now, now, 0, 0, 0, None, [])
  }

  /** `create_player`: refused for a known id, which leaves the accounts as
      they are; otherwise a new account is registered under its id. */
  function CreatePlayer(players: Players, playerId: string, username: string, now: int): (r: Result<(Players, Player)>)
    requires Valid(players)
    ensures r.Err? <==> HasKey(players, playerId)
    ensures r.Ok? ==>
      && r.value.1 == NewPlayer(playerId, username, now)
      && Valid(r.value.0) && Get(r.value.0, playerId) == Some(r.value.1)
      && |r.value.0| == |players| + 1
      && forall q :: q != playerId ==> Get(r.value.0, q) == Get(players, q)
  {
    if HasKey(players, playerId) then Err("Player " + playerId + " already exists")
    else
      var p := NewPlayer(playerId, username, now);
      Ok((Put(players, playerId, p), p))
  }

  /** An id can be registered once: the second attempt fails. */
  lemma CreatePlayerOnce(players: Players, playerId: string, username: string, other: string, now: int, later: int)
    requires Valid(players) && !HasKey(players, playerId)
    ensures CreatePlayer(players, playerId, username, now).Ok?
    ensures CreatePlayer(CreatePlayer(players, playerId, username, now).value.0, playerId, other, later).Err?
  {
  }

  /** `update_player_activity`: a known player's last activity becomes
      `now`; unknown ids change nothing. */
  function UpdatePlayerActivity(players: Players, playerId: string, now: int): (r: Players)
    requires Valid(players)
    ensures Valid(r)
    ensures forall q :: q != playerId ==> Get(r, q) == Get(players, q)
    ensures Get(r, playerId) == if HasKey(players, playerId)
      then Some(Get(players, playerId).value.(lastActive := now)) else None
  {
    match Get(players, playerId)
    case None => players
    case Some(p) => Put(players, playerId, p.(lastActive := now))
  }

  /** `Player.create_mecha`: refused when the player has a mecha; the name
      defaults (for a missing or empty name) to "<username>'s Mecha". */
  function CreateMecha(p: Player, name: Option<string>): (r: Result<Player>)
    ensures r.Err? <==> p.mecha.Some?
    ensures r.Ok? ==>
      && r.value == p.(mecha := r.value.mecha)
      && r.value.mecha.Some?
      && r.value.mecha.value == M.NewMecha(p.playerId, r.value.mecha.value.name)
      && r.value.mecha.value.name == if name.Some? && name.value != "" then name.value else p.username + "'s Mecha"
  {
    if p.mecha.Some? then Err("Player already has a mecha")
    else
      var mechaName := if name.Some? && name.value != "" then name.value else p.username + "'s Mecha";
      Ok(p.(mecha := Some(M.NewMecha(p.playerId, mechaName))))
  }

  /** A player gets at most one mecha. */
  lemma OneMechaPerPlayer(p: Player, name: Option<string>, other: Option<string>)
    requires p.mecha.None?
    ensures CreateMecha(CreateMecha(p, name).value, other).Err?
  {
  }

  /** `add_piece_to_library` */
  function AddPieceToLibrary(p: Player, piece: Value): (r: Player)
    ensures r == p.(pieceLibrary := r.pieceLibrary)
    ensures |r.pieceLibrary| == |p.pieceLibrary| + 1 && r.pieceLibrary[..|p.pieceLibrary|] == p.pieceLibrary
    ensures r.pieceLibrary[|p.pieceLibrary|] == piece
  {
    p.(pieceLibrary := p.pieceLibrary + [piece])
  }

  /** `earn_zoltans`: the lifetime total grows by the amount, and so does
      the mecha's purse when there is a mecha. */
  function EarnZoltans(p: Player, amount: int): (r: Player)
    ensures r.totalZoltansEarned == p.totalZoltansEarned + amount
    ensures r.mecha.Some? <==> p.mecha.Some?
    ensures p.mecha.Some? ==> r.mecha.value == p.mecha.value.(zoltans := p.mecha.value.zoltans + amount)
    ensures r == p.(totalZoltansEarned := r.totalZoltansEarned, mecha := r.mecha)
  {
    var earned := p.(totalZoltansEarned := p.totalZoltansEarned + amount);
    match p.mecha
    case None => earned
    case Some(m) => earned.(mecha := Some(m.(zoltans := m.zoltans + amount)))
  }

  /** Earning twice is earning the sum once. */
  lemma EarnAdditive(p: Player, a: int, b: int)
    ensures EarnZoltans(EarnZoltans(p, a), b) == EarnZoltans(p, a + b)
  {
  }

  /** `increment_days_played` */
  function IncrementDaysPlayed(p: Player): (r: Player)
    ensures r.daysPlayed == p.daysPlayed + 1
    ensures r == p.(daysPlayed := r.daysPlayed)
  {
    p.(daysPlayed := p.daysPlayed + 1)
  }

  /** `increment_combat_participation` */
  function IncrementCombatParticipation(p: Player): (r: Player)
    ensures r.combatParticipation == p.combatParticipation + 1
    ensures r == p.(combatParticipation := r.combatParticipation)
  {
    p.(combatParticipation := p.combatParticipation + 1)
  }

  /** The two counters are independent: incrementing them in either order
      gives the same account. */
  lemma CountersCommute(p: Player)
    ensures IncrementDaysPlayed(IncrementCombatParticipation(p)) == IncrementCombatParticipation(IncrementDaysPlayed(p))
  {
  }

  /** Whole days since the last activity, as `timedelta.days` counts them
      (rounded down). */
  function DaysInactive(p: Player, now: int): (d: int)
    ensures d * SecondsPerDay <= now - p.lastActive < (d + 1) * SecondsPerDay
  {
    (now - p.lastActive) / SecondsPerDay
  }

  /** `get_repair_discount`: half price after a week away, a quarter off
      after three days, nothing otherwise. */
  function RepairDiscount(p: Player, now: int): (r: real)
    ensures r == 0.5 <==> DaysInactive(p, now) >= 7
    ensures r == 0.25 <==> 3 <= DaysInactive(p, now) < 7
    ensures r == 0.0 <==> DaysInactive(p, now) < 3
  {
    var days := DaysInactive(p, now);
    if days >= 7 then 0.5 else if days >= 3 then 0.25 else 0.0
  }

  /** Staying away longer never lowers the discount. */
  lemma DiscountGrows(p: Player, now: int, later: int)
    requires now <= later
    ensures RepairDiscount(p, now) <= RepairDiscount(p, later)
  {
  }
}

=== FILE: pyrandom.dfy ===
/** Python's `random` module with its randomness made explicit: every draw is
    a natural-number roll supplied by the caller, reduced into the range the
    library function would draw from.  The modelled code only relies on the
    range of each draw, never on its distribution. */
module PyRandom {
  import opened Wrappers

  /** `random.randint(a, b)`: an integer in [a, b]; raises when b < a. */
  function RandInt(a: int, b: int, roll: nat): (r: Option<int>)
    ensures r.Some? <==> a <= b
    ensures r.Some? ==> a <= r.value <= b
  {
    if a <= b then Some(a + roll % (b - a + 1)) else None
  }

  /** Every value of a non-empty range is drawn by some roll. */
  lemma RandIntReaches(a: int, b: int, v: int)
    requires a <= v <= b
    ensures RandInt(a, b, v - a) == Some(v)
  {
  }

  /** `random.choice(xs)`: raises on an empty list. */
  function Choice<T>(xs: seq<T>, roll: nat): (r: Option<T>)
    ensures r.Some? <==> |xs| > 0
    ensures r.Some? ==> r.value in xs
  {
    if |xs| > 0 then Some(xs[roll % |xs|]) else None
  }

  /** `list(range(a, b))` */
  function Range(a: int, b: int): (r: seq<int>)
    ensures |r| == if a < b then b - a else 0
    ensures forall i :: 0 <= i < |r| ==> r[i] == a + i
    decreases b - a
  {
    if a < b then [a] + Range(a + 1, b) else []
  }

  /** The swap `x[i], x[j] = x[j], x[i]`. */
  function Swap<T>(xs: seq<T>, i: nat, j: nat): (r: seq<T>)
    requires i < |xs| && j < |xs|
    ensures |r| == |xs| && multiset(r) == multiset(xs)
    ensures r[i] == xs[j] && r[j] == xs[i]
    ensures forall k :: 0 <= k < |xs| && k != i && k != j ==> r[k] == xs[k]
  {
    xs[i := xs[j]][j := xs[i]]
  }

  /** The loop of `random.shuffle` from index `i` down to 1: `j` is drawn
      from [0, i] with the next roll (0 once the rolls run out). */
  function ShuffleDown<T>(xs: seq<T>, i: nat, rolls: seq<nat>): (r: seq<T>)
    requires i < |xs|
    ensures |r| == |xs| && multiset(r) == multiset(xs)
    decreases i
  {
    if i == 0 then xs
    else
      var roll := if |rolls| > 0 then rolls[0] else 0;
      var j := roll % (i + 1);
      ShuffleDown(Swap(xs, i, j), i - 1, if |rolls| > 0 then rolls[1..] else [])
  }

  /** `random.shuffle(xs)`, a permutation of `xs`. */
  function Shuffle<T>(xs: seq<T>, rolls: seq<nat>): (r: seq<T>)
    ensures |r| == |xs| && multiset(r) == multiset(xs)
  {
    if |xs| == 0 then xs else ShuffleDown(xs, |xs| - 1, rolls)
  }
}

=== FILE: pytext.dfy ===
/** The pieces of Python's `str` and sequence behaviour that the modelled
    code relies on: `strip`, `split()`, `split(c)`, `join`, `isdigit`,
    `int(...)`, `str(n)`, negative indexing and slicing.  Whitespace is
    Python's; digits are the ASCII ones. */
module PyText {
  import opened Wrappers

  /** The characters Python's `str.isspace` accepts, which are the ones
      `strip()` and `split()` remove: the ASCII controls U+0009-U+000D and
      U+001C-U+001F, the space, U+0085, U+00A0, U+1680, U+2000-U+200A,
      U+2028, U+2029, U+202F, U+205F and U+3000. */
  predicate IsSpace(c: char) {
    var n := c as int;
    c == ' ' || 9 <= n <= 13 || 28 <= n <= 31
    || n == 0x85 || n == 0xA0 || n == 0x1680 || 0x2000 <= n <= 0x200A
    || n == 0x2028 || n == 0x2029 || n == 0x202F || n == 0x205F || n == 0x3000
  }

  predicate NoSpace(s: string) {
    forall i :: 0 <= i < |s| ==> !IsSpace(s[i])
  }

  /** A token of `split()`: non-empty and free of whitespace. */
  predicate IsWord(w: string) {
    w != [] && NoSpace(w)
  }

  /** The number of whitespace characters `s` starts with. */
  function LeadSpaces(s: string): (n: nat)
    ensures n <= |s|
  {
    if |s| > 0 && IsSpace(s[0]) then 1 + LeadSpaces(s[1..]) else 0
  }

  /** The number of whitespace characters `s` ends with. */
  function TrailSpaces(s: string): (n: nat)
    ensures n <= |s|
  {
    if |s| > 0 && IsSpace(s[|s| - 1]) then 1 + TrailSpaces(s[..|s| - 1]) else 0
  }

  /** The leading run is all whitespace and is maximal. */
  lemma {:induction false} LeadSpacesSpec(s: string)
    ensures forall i :: 0 <= i < LeadSpaces(s) ==> IsSpace(s[i])
    ensures LeadSpaces(s) == |s| || !IsSpace(s[LeadSpaces(s)])
  {
    if |s| > 0 && IsSpace(s[0]) {
      LeadSpacesSpec(s[1..]);
    }
  }

  /** The trailing run is all whitespace and is maximal. */
  lemma {:induction false} TrailSpacesSpec(s: string)
    ensures forall i :: |s| - TrailSpaces(s) <= i < |s| ==> IsSpace(s[i])
    ensures TrailSpaces(s) == |s| || !IsSpace(s[|s| - TrailSpaces(s) - 1])
  {
    if |s| > 0 && IsSpace(s[|s| - 1]) {
      TrailSpacesSpec(s[..|s| - 1]);
    }
  }

  /** `s.lstrip()`: `s` without its leading whitespace. */
  function LStrip(s: string): string {
    s[LeadSpaces(s)..]
  }

  /** `s.rstrip()`: `s` without its trailing whitespace. */
  function RStrip(s: string): string {
    s[..|s| - TrailSpaces(s)]
  }

  /** Right-stripping one appended space off a string that does not end
      in whitespace gives the string back. */
  lemma RStripSpace(s: string)
    requires s == [] || !IsSpace(s[|s| - 1])
    ensures RStrip(s + " ") == s
  {
    var t := s + " ";
    assert t[|t| - 1] == ' ' && t[..|t| - 1] == s;
    assert TrailSpaces(s) == 0;
    assert TrailSpaces(t) == 1;
  }

  /** `s.strip()` */
  function Strip(s: string): string {
    RStrip(LStrip(s))
  }

  /** What is left after `strip()` neither starts nor ends with whitespace. */
  lemma StripTrimmed(s: string)
    ensures Strip(s) == [] || (!IsSpace(Strip(s)[0]) && !IsSpace(Strip(s)[|Strip(s)| - 1]))
  {
    var t := LStrip(s);
    LeadSpacesSpec(s);
    TrailSpacesSpec(t);
    if Strip(s) != [] {
      assert Strip(s)[0] == t[0];
    }
  }

  /** A string without surrounding whitespace is its own strip. */
  lemma StripNoop(s: string)
    requires s == [] || (!IsSpace(s[0]) && !IsSpace(s[|s| - 1]))
    ensures Strip(s) == s
  {
  }

  /** The longest whitespace-free prefix of `s`. */
  function TakeWord(s: string): (w: string)
    ensures |w| <= |s| && w == s[..|w|] && NoSpace(w)
    ensures |w| == |s| || IsSpace(s[|w|])
    ensures w != [] <==> |s| > 0 && !IsSpace(s[0])
  {
    if |s| > 0 && !IsSpace(s[0]) then [s[0]] + TakeWord(s[1..]) else []
  }

  /** `s.split()`: the maximal runs of non-whitespace characters, in order. */
  function SplitWs(s: string): (r: seq<string>)
    ensures forall x :: x in r ==> IsWord(x)
    decreases |s|
  {
    var t := LStrip(s);
    if t == [] then []
    else
      LeadSpacesSpec(s);
      var w := TakeWord(t);
      assert IsWord(w);
      [w] + SplitWs(t[|w|..])
  }

  /** `sep.join(parts)` */
  function Join(parts: seq<string>, sep: string): string {
    if |parts| == 0 then []
    else if |parts| == 1 then parts[0]
    else parts[0] + sep + Join(parts[1..], sep)
  }

  /** A join starts with its first part. */
  lemma JoinStartsWith(parts: seq<string>, sep: string)
    requires |parts| > 0
    ensures parts[0] <= Join(parts, sep)
  {
  }

  /** Splitting a single-space join of non-empty, whitespace-free words gives
      the words back. */
  lemma {:induction false} SplitWsJoin(words: seq<string>)
    requires forall w :: w in words ==> IsWord(w)
    ensures SplitWs(Join(words, " ")) == words
  {
    if |words| == 1 {
      assert words[0] in words;
      SplitWsCons(words[0], []);
      assert words[0] + [] == words[0];
    } else if |words| > 1 {
      assert words[0] in words;
      var rest := Join(words[1..], " ");
      assert Join(words, " ") == words[0] + (" " + rest);
      SplitWsCons(words[0], " " + rest);
      SplitWsLeadingSpace(rest);
      assert forall x :: x in words[1..] ==> x in words;
      SplitWsJoin(words[1..]);
      assert words == [words[0]] + words[1..];
    }
  }

  lemma SplitWsCons(w: string, tail: string)
    requires IsWord(w)
    requires tail == [] || IsSpace(tail[0])
    ensures SplitWs(w + tail) == [w] + SplitWs(tail)
  {
    var s := w + tail;
    assert s[0] == w[0];
    assert LStrip(s) == s;
    TakeWordPrefix(w, tail);
    assert s[|w|..] == tail;
  }

  lemma {:induction false} TakeWordPrefix(w: string, rest: string)
    requires NoSpace(w)
    requires rest == [] || IsSpace(rest[0])
    ensures TakeWord(w + rest) == w
  {
    if w != [] {
      assert (w + rest)[1..] == w[1..] + rest;
      TakeWordPrefix(w[1..], rest);
    }
  }

  lemma SplitWsLeadingSpace(rest: string)
    ensures SplitWs(" " + rest) == SplitWs(rest)
  {
    assert LStrip(" " + rest) == LStrip((" " + rest)[1..]);
    assert (" " + rest)[1..] == rest;
  }

  /** Index of the first `c` in `s`, or `|s|` when there is none. */
  function Find(s: string, c: char): (i: nat)
    ensures i <= |s| && (i < |s| ==> s[i] == c)
    ensures forall j :: 0 <= j < i ==> s[j] != c
  {
    if |s| == 0 then 0 else if s[0] == c then 0 else 1 + Find(s[1..], c)
  }

  /** `sep` occurs in `s` at index `j`. */
  predicate IsAt(s: string, j: nat, sep: string) {
    j + |sep| <= |s| && s[j..j + |sep|] == sep
  }

  /** Index of the first occurrence of `sep` in `s`, or `|s|` when there is
      none. */
  function FindStr(s: string, sep: string): (i: nat)
    requires |sep| > 0
    ensures i <= |s| && (i < |s| ==> IsAt(s, i, sep))
    ensures forall j :: 0 <= j < i ==> !IsAt(s, j, sep)
    decreases |s|
  {
    if |s| < |sep| then |s|
    else if s[..|sep|] == sep then 0
    else
      assert forall j :: 1 <= j <= |s| ==> (IsAt(s, j, sep) <==> IsAt(s[1..], j - 1, sep)) by {
        forall j | 1 <= j <= |s| ensures IsAt(s, j, sep) <==> IsAt(s[1..], j - 1, sep) {
          if j + |sep| <= |s| {
            assert s[1..][j - 1..j - 1 + |sep|] == s[j..j + |sep|];
          }
        }
      }
      1 + FindStr(s[1..], sep)
  }

  /** `sub in s`: `sub` occurs somewhere in `s`; the empty string occurs
      everywhere. */
  predicate Occurs(sub: string, s: string) {
    |sub| == 0 || FindStr(s, sub) < |s|
  }

  /** `Occurs` is the substring relation. */
  lemma OccursAt(sub: string, s: string)
    ensures Occurs(sub, s) <==> exists j :: 0 <= j <= |s| && IsAt(s, j, sub)
  {
    if |sub| == 0 {
      assert IsAt(s, 0, sub);
    } else if FindStr(s, sub) == |s| {
      assert !IsAt(s, |s|, sub);
    }
  }

  /** A string occurs in itself. */
  lemma OccursSelf(s: string)
    ensures Occurs(s, s)
  {
    if |s| > 0 {
      assert s[..|s|] == s;
    }
  }

  /** A string whose first character is absent from `s` does not occur in it. */
  lemma NotOccurs(sub: string, s: string)
    requires |sub| > 0 && sub[0] !in s
    ensures !Occurs(sub, s)
  {
    OccursAt(sub, s);
    forall j | 0 <= j <= |s| ensures !IsAt(s, j, sub) {
      if j < |s| {
        assert s[j] in s;
      }
    }
  }

  /** `s.split(sep)` for a non-empty separator. */
  function SplitOnStr(s: string, sep: string): (r: seq<string>)
    requires |sep| > 0
    ensures |r| >= 1
    decreases |s|
  {
    var i := FindStr(s, sep);
    if i == |s| then [s] else [s[..i]] + SplitOnStr(s[i + |sep|..], sep)
  }

  /** Joining the pieces of a split with the separator restores the string. */
  lemma {:induction false} JoinSplitOnStr(s: string, sep: string)
    requires |sep| > 0
    ensures Join(SplitOnStr(s, sep), sep) == s
    decreases |s|
  {
    var i := FindStr(s, sep);
    if i < |s| {
      var pre, rest := s[..i], s[i + |sep|..];
      var parts := SplitOnStr(rest, sep);
      assert SplitOnStr(s, sep) == [pre] + parts;
      JoinSplitOnStr(rest, sep);
      JoinCons(pre, parts, sep);
      assert s[i..i + |sep|] == sep;
      assert s == pre + s[i..i + |sep|] + rest;
    }
  }

  /** A separator whose first character is not in `p` is first found right
      after `p`. */
  lemma {:induction false} FindStrAfterPrefix(p: string, sep: string, rest: string)
    requires |sep| > 0 && sep[0] !in p
    ensures FindStr(p + sep + rest, sep) == |p|
    decreases |p|
  {
    var s := p + sep + rest;
    assert s[|p|..|p| + |sep|] == sep;
    if p == [] {
      assert s[..|sep|] == sep;
    } else {
      assert s[..|sep|][0] == p[0];
      assert s[1..] == p[1..] + sep + rest;
      FindStrAfterPrefix(p[1..], sep, rest);
    }
  }

  /** Splitting a join of pieces that lack the separator's first character
      restores the pieces. */
  lemma {:induction false} SplitOnStrJoin(parts: seq<string>, sep: string)
    requires |parts| >= 1 && |sep| > 0
    requires forall i :: 0 <= i < |parts| ==> sep[0] !in parts[i]
    ensures SplitOnStr(Join(parts, sep), sep) == parts
  {
    var p := parts[0];
    var s := Join(parts, sep);
    if |parts| == 1 {
    } else {
      var rest := Join(parts[1..], sep);
      assert s == p + sep + rest;
      FindStrAfterPrefix(p, sep, rest);
      assert s[..|p|] == p;
      assert s[|p| + |sep|..] == rest;
      SplitOnStrJoin(parts[1..], sep);
    }
  }

  /** `s.split(c)` for a one-character separator. */
  function SplitOn(s: string, c: char): (r: seq<string>)
    ensures |r| >= 1
    ensures forall i :: 0 <= i < |r| ==> c !in r[i]
    decreases |s|
  {
    var i := Find(s, c);
    if i == |s| then [s] else [s[..i]] + SplitOn(s[i + 1..], c)
  }

  /** Joining the pieces of a split with the separator restores the string. */
  lemma {:induction false} JoinSplitOn(s: string, c: char)
    ensures Join(SplitOn(s, c), [c]) == s
    decreases |s|
  {
    var i := Find(s, c);
    if i < |s| {
      var pre, rest := s[..i], s[i + 1..];
      var parts := SplitOn(rest, c);
      assert SplitOn(s, c) == [pre] + parts;
      JoinSplitOn(rest, c);
      JoinCons(pre, parts, [c]);
      assert s == pre + [c] + rest by {
        assert s == s[..i] + [s[i]] + s[i + 1..];
      }
    } else {
      assert SplitOn(s, c) == [s];
    }
  }

  lemma JoinCons(p: string, parts: seq<string>, sep: string)
    requires |parts| >= 1
    ensures Join([p] + parts, sep) == p + sep + Join(parts, sep)
  {
    assert ([p] + parts)[0] == p && ([p] + parts)[1..] == parts;
  }

  /** Splitting a join of separator-free pieces restores the pieces. */
  lemma {:induction false} SplitOnJoin(parts: seq<string>, c: char)
    requires |parts| >= 1
    requires forall i :: 0 <= i < |parts| ==> c !in parts[i]
    ensures SplitOn(Join(parts, [c]), c) == parts
  {
    var p := parts[0];
    var s := Join(parts, [c]);
    if |parts| == 1 {
      assert Find(p, c) == |p|;
    } else {
      var rest := Join(parts[1..], [c]);
      assert s == p + [c] + rest;
      FindAfterPrefix(p, c, rest);
      assert s[..|p|] == p;
      assert s[|p| + 1..] == rest;
      SplitOnJoin(parts[1..], c);
    }
  }

  lemma {:induction false} FindAfterPrefix(p: string, c: char, rest: string)
    requires c !in p
    ensures Find(p + [c] + rest, c) == |p|
  {
    if p != [] {
      assert (p + [c] + rest)[1..] == p[1..] + [c] + rest;
      FindAfterPrefix(p[1..], c, rest);
    }
  }

  predicate IsDigit(c: char) {
    '0' <= c <= '9'
  }

  /** `s.isdigit()` restricted to ASCII digits. */
  predicate IsDigits(s: string) {
    |s| > 0 && forall i :: 0 <= i < |s| ==> IsDigit(s[i])
  }

  /** Decimal digits with no superfluous leading zero, the form `str(n)` prints. */
  predicate Canonical(s: string) {
    IsDigits(s) && (s[0] != '0' || |s| == 1)
  }

  function DigitValue(c: char): nat
    requires IsDigit(c)
  {
    c as int - '0' as int
  }

  function DigitChar(d: nat): (c: char)
    requires d < 10
    ensures IsDigit(c) && DigitValue(c) == d
  {
    ('0' as int + d) as char
  }

  /** The number a string of decimal digits denotes. */
  function DigitsValue(s: string): nat
    requires forall i :: 0 <= i < |s| ==> IsDigit(s[i])
  {
    if |s| == 0 then 0 else DigitsValue(s[..|s| - 1]) * 10 + DigitValue(s[|s| - 1])
  }

  /** `str(n)` for a natural number: canonical digits denoting `n`. */
  function ShowNat(n: nat): (r: string)
    ensures Canonical(r)
    ensures DigitsValue(r) == n
  {
    if n < 10 then [DigitChar(n)]
    else
      var p := ShowNat(n / 10);
      assert (p + [DigitChar(n % 10)])[..|p|] == p;
      p + [DigitChar(n % 10)]
  }

  lemma {:induction false} CanonicalPositive(s: string)
    requires IsDigits(s) && s[0] != '0'
    ensures DigitsValue(s) > 0
    decreases |s|
  {
    if |s| > 1 {
      CanonicalPositive(s[..|s| - 1]);
    }
  }

  /** Canonical digit strings are exactly the images of `ShowNat`. */
  lemma {:induction false} ShowDigitsValue(s: string)
    requires Canonical(s)
    ensures ShowNat(DigitsValue(s)) == s
    decreases |s|
  {
    if |s| > 1 {
      var p := s[..|s| - 1];
      var d := DigitValue(s[|s| - 1]);
      CanonicalPositive(p);
      ShowDigitsValue(p);
      var n := DigitsValue(s);
      assert n == DigitsValue(p) * 10 + d;
      DivModTen(DigitsValue(p), d);
      assert DigitChar(d) == s[|s| - 1];
      assert s == p + [s[|s| - 1]];
    }
  }

  lemma DivModTen(q: nat, d: nat)
    requires d < 10
    ensures (q * 10 + d) / 10 == q && (q * 10 + d) % 10 == d
  {
  }

  /** `str(i)` for any integer: a word of digits, after a '-' when negative. */
  function ShowInt(i: int): (r: string)
    ensures IsWord(r)
    ensures forall c :: c in r ==> c == '-' || IsDigit(c)
  {
    if i < 0 then "-" + ShowNat(-i) else ShowNat(i)
  }

  /** `int(s)` on a string: optional surrounding whitespace, an optional sign
      and at least one ASCII digit; anything else raises, modelled as None. */
  function PyInt(s: string): (r: Option<int>)
    ensures r.Some? ==> Strip(s) != []
  {
    var t := Strip(s);
    if |t| > 0 && (t[0] == '-' || t[0] == '+') then
      if IsDigits(t[1..]) then
        Some(if t[0] == '-' then 0 - DigitsValue(t[1..]) else DigitsValue(t[1..]))
      else None
    else if IsDigits(t) then Some(DigitsValue(t))
    else None
  }

  /** `int(str(i)) == i` */
  lemma PyIntShowInt(i: int)
    ensures PyInt(ShowInt(i)) == Some(i)
  {
    var s := ShowInt(i);
    StripNoop(s);
    if i < 0 {
      assert s[1..] == ShowNat(-i);
    }
  }

  /** The number a generated id such as `obj_12` carries after its prefix. */
  function NumberAfter(prefix: string, id: string): Option<int> {
    if |prefix| <= |id| && id[..|prefix|] == prefix then PyInt(id[|prefix|..]) else None
  }

  /** An id built as `f"{prefix}{n}"` carries `n`, so ids built from
      different numbers differ. */
  lemma NumberAfterShow(prefix: string, n: int)
    ensures NumberAfter(prefix, prefix + ShowInt(n)) == Some(n)
  {
    var id := prefix + ShowInt(n);
    assert id[..|prefix|] == prefix && id[|prefix|..] == ShowInt(n);
    PyIntShowInt(n);
  }

  /** Python's `xs[i]` index rule: `-n <= i < n`, negative counting from the end. */
  function PyIndex(i: int, n: nat): (r: Option<nat>)
    ensures r.Some? <==> -(n as int) <= i < n
    ensures r.Some? ==> r.value < n && (r.value == i || r.value == i + n)
  {
    if 0 <= i < n then Some(i) else if -(n as int) <= i < 0 then Some(i + n) else None
  }

  /** Python's clamping of a slice bound against a sequence of length `n`. */
  function SliceBound(i: int, n: nat): (r: nat)
    ensures r <= n
    ensures 0 <= i <= n ==> r == i
    ensures -(n as int) <= i < 0 ==> r == i + n
  {
    if i < 0 then (if i + n < 0 then 0 else i + n) else if i > n then n else i
  }

  /** `xs[start:]` */
  function SliceFrom<T>(xs: seq<T>, start: int): seq<T> {
    xs[SliceBound(start, |xs|)..]
  }

  /** `xs[:stop]` */
  function SliceTo<T>(xs: seq<T>, stop: int): seq<T> {
    xs[..SliceBound(stop, |xs|)]
  }

  /** `xs[-k:]`: for k >= 1 the last min(k, |xs|) elements; for k == 0 the whole
      list, since `-0` is `0`. */
  function LastK<T>(xs: seq<T>, k: int): (r: seq<T>)
    ensures k >= 0 ==> |r| == (if k == 0 || k >= |xs| then |xs| else k)
    ensures k >= 0 ==> r == xs[|xs| - |r|..]
  {
    SliceFrom(xs, -k)
  }

  /** `c * n` for a one-character string `c`. */
  function Repeat(c: char, n: nat): (r: string)
    ensures |r| == n && forall i :: 0 <= i < n ==> r[i] == c
  {
    if n == 0 then [] else [c] + Repeat(c, n - 1)
  }
}

=== FILE: scene.dfy ===
/** The BlockVision scene (blockvision/core/managers/scene_manager.py): the
    registry of scene objects keyed by generated ids, the scene state and
    the data handed to the renderer.  The render thread and its callbacks
    are not modelled; the creation time is a parameter. */
module Scene {
  import opened Wrappers
  import opened PyText
  import opened Dicts

  datatype SceneState = Empty | Loading | Ready | Rendering

  /** `SceneState.value` */
  function StateValue(st: SceneState): string {
    match st
    case Empty => "empty"
    case Loading => "loading"
    case Ready => "ready"
    case Rendering => "rendering"
  }

  type Vec3 = (real, real, real)

  datatype SceneObject = SceneObject(id: string, name: string, kind: string, position: Vec3, scale: Vec3,
                                     rotation: Vec3, visible: bool, objectManagerId: Option<string>,
                                     createdAt: real)

  datatype Scene = Scene(state: SceneState, objects: Dict<string, SceneObject>, counter: nat)

  const IdPrefix := "scene_obj_"
  const Origin: Vec3 := (0.0, 0.0, 0.0)
  const UnitScale: Vec3 := (1.0, 1.0, 1.0)
  const BackgroundColor: Vec3 := (0.2, 0.2, 0.2)

  /** An id the scene generated once its counter had reached `counter`. */
  predicate Numbered(id: string, counter: nat) {
    match NumberAfter(IdPrefix, id)
    case Some(n) => 1 <= n <= counter
    case None => false
  }

  /** What every reachable scene satisfies: keys are unique, every object
      is stored under its own id, which the counter has already handed
      out, and the scene is empty exactly when it holds no objects (only
      the empty and ready states ever occur). */
  ghost predicate Inv(s: Scene) {
    && Valid(s.objects)
    && (s.state == Empty || s.state == Ready)
    && (s.state == Empty <==> |s.objects| == 0)
    && forall k :: Get(s.objects, k).Some? ==> Get(s.objects, k).value.id == k && Numbered(k, s.counter)
  }

  /** `SceneManager()`: empty, with the counter at zero. */
  function New(): (s: Scene)
    ensures Inv(s) && s.objects == [] && s.counter == 0 && s.state == Empty
  {
    Scene(Empty, [], 0)
  }

  /** `create_object`: the counter goes up, the object is stored under
      `scene_obj_<counter>` with the given link and, where not given, the
      origin position, unit scale and zero rotation; the scene becomes
      ready and no other object changes. */
  function CreateObject(s: Scene, name: string, kind: string, objectManagerId: Option<string>,
                        position: Option<Vec3>, scale: Option<Vec3>, rotation: Option<Vec3>,
                        now: real): (r: (Scene, string))
    requires Valid(s.objects)
    ensures r.1 == IdPrefix + ShowInt(s.counter + 1)
    ensures r.0.counter == s.counter + 1 && r.0.state == Ready && Valid(r.0.objects)
    ensures Get(r.0.objects, r.1) == Some(SceneObject(r.1, name, kind, position.GetOr(Origin), scale.GetOr(UnitScale),
                                                      rotation.GetOr(Origin), true, objectManagerId, now))
    ensures forall k :: k != r.1 ==> Get(r.0.objects, k) == Get(s.objects, k)
  {
    var id := IdPrefix + ShowInt(s.counter + 1);
    var obj := SceneObject(id, name, kind, position.GetOr(Origin), scale.GetOr(UnitScale),
                           rotation.GetOr(Origin), true, objectManagerId, now);
    (Scene(Ready, Put(s.objects, id, obj), s.counter + 1), id)
  }

  /** A created object never replaces another: its id is new, so the scene
      grows by one, and the invariant holds afterwards. */
  lemma CreateIsFresh(s: Scene, name: string, kind: string, objectManagerId: Option<string>,
                      position: Option<Vec3>, scale: Option<Vec3>, rotation: Option<Vec3>, now: real)
    requires Inv(s)
    ensures var r := CreateObject(s, name, kind, objectManagerId, position, scale, rotation, now);
      !HasKey(s.objects, r.1) && |r.0.objects| == |s.objects| + 1 && Inv(r.0)
  {
    var r := CreateObject(s, name, kind, objectManagerId, position, scale, rotation, now);
    NextIdFree(s);
    StoredUnderNextId(s, r.0, r.1);
  }

  /** Storing an object under the next id, with nothing else changed,
      keeps every stored object under its own, already handed-out id. */
  lemma StoredUnderNextId(s: Scene, t: Scene, id: string)
    requires Inv(s) && id == IdPrefix + ShowInt(s.counter + 1) && t.counter == s.counter + 1
    requires Get(t.objects, id).Some? && Get(t.objects, id).value.id == id
    requires forall k :: k != id ==> Get(t.objects, k) == Get(s.objects, k)
    ensures forall k :: Get(t.objects, k).Some? ==> Get(t.objects, k).value.id == k && Numbered(k, t.counter)
  {
    forall k | Get(t.objects, k).Some?
      ensures Get(t.objects, k).value.id == k && Numbered(k, t.counter)
    {
      if k != id {
        assert Get(t.objects, k) == Get(s.objects, k);
      } else {
        NumberAfterShow(IdPrefix, s.counter + 1);
      }
    }
  }

  /** The next id the counter hands out is not yet taken. */
  lemma NextIdFree(s: Scene)
    requires Inv(s)
    ensures !HasKey(s.objects, IdPrefix + ShowInt(s.counter + 1))
  {
    NumberAfterShow(IdPrefix, s.counter + 1);
    assert !Numbered(IdPrefix + ShowInt(s.counter + 1), s.counter);
  }

  /** `remove_object`: an unknown id changes nothing; otherwise only that
      object goes, and the scene turns empty once nothing is left. */
  function RemoveObject(s: Scene, id: string): (r: (Scene, bool))
    requires Valid(s.objects)
    ensures r.1 <==> HasKey(s.objects, id)
    ensures !r.1 ==> r.0 == s
    ensures r.1 ==>
      && Valid(r.0.objects) && r.0.counter == s.counter && |r.0.objects| == |s.objects| - 1
      && Get(r.0.objects, id) == None
      && (forall k :: k != id ==> Get(r.0.objects, k) == Get(s.objects, k))
      && r.0.state == if |r.0.objects| == 0 then Empty else s.state
  {
    if HasKey(s.objects, id) then
      var objects := Remove(s.objects, id);
      (Scene(if |objects| == 0 then Empty else s.state, objects, s.counter), true)
    else (s, false)
  }

  lemma RemoveKeepsInv(s: Scene, id: string)
    requires Inv(s)
    ensures Inv(RemoveObject(s, id).0)
  {
    var r := RemoveObject(s, id).0;
    forall k | Get(r.objects, k).Some? ensures Get(r.objects, k).value.id == k && Numbered(k, r.counter) {
      assert Get(s.objects, k).Some?;
    }
  }

  /** The first object, in insertion order, linked to `objectManagerId`. */
  function FirstLinked(objects: Dict<string, SceneObject>, objectManagerId: string): (r: Option<SceneObject>)
    ensures r.None? <==> forall i :: 0 <= i < |objects| ==> objects[i].1.objectManagerId != Some(objectManagerId)
    ensures r.Some? ==> r.value.objectManagerId == Some(objectManagerId)
    ensures r.Some? ==> exists i :: (0 <= i < |objects| && objects[i].1 == r.value
      && forall j :: 0 <= j < i ==> objects[j].1.objectManagerId != Some(objectManagerId))
  {
    if |objects| == 0 then None
    else if objects[0].1.objectManagerId == Some(objectManagerId) then Some(objects[0].1)
    else
      assert forall i :: 1 <= i < |objects| ==> objects[i] == objects[1..][i - 1];
      FirstLinked(objects[1..], objectManagerId)
  }

  /** `get_object_by_manager_id`: an object whose link matches, the first
      such in insertion order, or None when no object carries the link. */
  function GetObjectByManagerId(s: Scene, objectManagerId: string): (r: Option<SceneObject>)
    requires Valid(s.objects)
    ensures r.None? <==> forall k :: Get(s.objects, k).Some? ==> Get(s.objects, k).value.objectManagerId != Some(objectManagerId)
    ensures r.Some? ==> r.value.objectManagerId == Some(objectManagerId) && exists i :: 0 <= i < |s.objects| && s.objects[i].1 == r.value
  {
    var r := FirstLinked(s.objects, objectManagerId);
    if r.Some? then
      var i :| 0 <= i < |s.objects| && s.objects[i].1 == r.value;
      EntriesFound(s.objects);
      assert Get(s.objects, s.objects[i].0) == Some(r.value);
      r
    else
      assert forall k :: Get(s.objects, k).Some? ==> Get(s.objects, k).value.objectManagerId != Some(objectManagerId);
      r
  }

  datatype Field = Position | Scale | Rotation

  function FieldOf(o: SceneObject, f: Field): Vec3 {
    match f
    case Position => o.position
    case Scale => o.scale
    case Rotation => o.rotation
  }

  /** Assigning one of the three transform fields: that field reads back
      the new value and everything else about the object is as before. */
  function SetField(o: SceneObject, f: Field, v: Vec3): (r: SceneObject)
    ensures FieldOf(r, f) == v
    ensures forall g :: g != f ==> FieldOf(r, g) == FieldOf(o, g)
    ensures r.(position := o.position, scale := o.scale, rotation := o.rotation) == o
  {
    match f
    case Position => o.(position := v)
    case Scale => o.(scale := v)
    case Rotation => o.(rotation := v)
  }

  /** `update_object_position`, `update_object_scale` and
      `update_object_rotation`: an unknown id changes nothing; otherwise
      only the named field of that object changes. */
  function UpdateObject(s: Scene, id: string, f: Field, v: Vec3): (r: (Scene, bool))
    requires Valid(s.objects)
    ensures r.1 <==> HasKey(s.objects, id)
    ensures !r.1 ==> r.0 == s
    ensures r.1 ==>
      && r.0 == s.(objects := r.0.objects) && Valid(r.0.objects) && |r.0.objects| == |s.objects|
      && Get(r.0.objects, id) == Some(SetField(Get(s.objects, id).value, f, v))
      && (forall k :: k != id ==> Get(r.0.objects, k) == Get(s.objects, k))
  {
    match Get(s.objects, id)
    case None => (s, false)
    case Some(o) => (s.(objects := Put(s.objects, id, SetField(o, f, v))), true)
  }

  lemma UpdateKeepsInv(s: Scene, id: string, f: Field, v: Vec3)
    requires Inv(s)
    ensures Inv(UpdateObject(s, id, f, v).0)
  {
    var r := UpdateObject(s, id, f, v).0;
    forall k | Get(r.objects, k).Some? ensures Get(r.objects, k).value.id == k && Numbered(k, r.counter) {
      assert Get(s.objects, k).Some?;
    }
  }

  /** `clear_scene`: no objects, the counter back at zero, the scene empty. */
  function ClearScene(s: Scene): (r: Scene)
    ensures Inv(r) && r.objects == [] && r.counter == 0 && r.state == Empty
  {
    Scene(Empty, [], 0)
  }

  datatype ObjectView = ObjectView(name: string, kind: string, position: Vec3, scale: Vec3, rotation: Vec3,
                                   visible: bool, objectManagerId: Option<string>)

  datatype SceneData = SceneData(state: string, objects: Dict<string, ObjectView>, backgroundColor: Vec3,
                                 lightingEnabled: bool, objectCount: nat)

  function ViewOf(o: SceneObject): ObjectView {
    ObjectView(o.name, o.kind, o.position, o.scale, o.rotation, o.visible, o.objectManagerId)
  }

  function Views(objects: Dict<string, SceneObject>): (r: Dict<string, ObjectView>)
    ensures |r| == |objects|
    ensures forall i :: 0 <= i < |objects| ==> r[i] == (objects[i].0, ViewOf(objects[i].1))
  {
    if |objects| == 0 then [] else [(objects[0].0, ViewOf(objects[0].1))] + Views(objects[1..])
  }

  /** `get_scene_data`: the state's name, a view of every object under its
      id, the fixed background and lighting, and the object count. */
  function GetSceneData(s: Scene): (d: SceneData)
    ensures d.state == StateValue(s.state) && d.objectCount == |s.objects| == |d.objects|
    ensures forall k :: Get(d.objects, k) == if HasKey(s.objects, k) then Some(ViewOf(Get(s.objects, k).value)) else None
    ensures d.backgroundColor == BackgroundColor && d.lightingEnabled
  {
    var views := Views(s.objects);
    forall k ensures Get(views, k) == if HasKey(s.objects, k) then Some(ViewOf(Get(s.objects, k).value)) else None {
      GetMapped(s.objects, views, (_, o) => ViewOf(o), k);
    }
    SceneData(StateValue(s.state), views, BackgroundColor, true, |s.objects|)
  }

  /** The reported count is zero exactly when the reported state is
      "empty". */
  lemma CountMatchesState(s: Scene)
    requires Inv(s)
    ensures GetSceneData(s).objectCount == 0 <==> GetSceneData(s).state == "empty"
  {
  }

  datatype Op =
    | Create(name: string, kind: string, objectManagerId: Option<string>, position: Option<Vec3>,
             scale: Option<Vec3>, rotation: Option<Vec3>, now: real)
    | Delete(id: string)
    | Update(id: string, field: Field, value: Vec3)
    | Clear

  function Apply(s: Scene, op: Op): (r: Scene)
    requires Inv(s)
    ensures Inv(r)
  {
    match op
    case Create(name, kind, link, position, scale, rotation, now) =>
      CreateIsFresh(s, name, kind, link, position, scale, rotation, now);
      CreateObject(s, name, kind, link, position, scale, rotation, now).0
    case Delete(id) =>
      RemoveKeepsInv(s, id);
      RemoveObject(s, id).0
    case Update(id, f, v) =>
      UpdateKeepsInv(s, id, f, v);
      UpdateObject(s, id, f, v).0
    case Clear => ClearScene(s)
  }

  function Run(s: Scene, ops: seq<Op>): (r: Scene)
    requires Inv(s)
    ensures Inv(r)
    decreases |ops|
  {
    if |ops| == 0 then s
    else
      var t := Apply(s, ops[0]);
      Run(t, ops[1..])
  }

  /** From a fresh scene, after any sequence of creations, removals,
      updates and clears, the scene is empty exactly when it has no
      objects, and the reported count agrees with the reported state. */
  lemma EmptyIffNoObjects(ops: seq<Op>)
    ensures var s := Run(New(), ops);
      (s.state == Empty <==> s.objects == []) && (s.state == Empty || s.state == Ready)
      && (GetSceneData(s).objectCount == 0 <==> GetSceneData(s).state == "empty")
  {
  }
}

=== FILE: shapes.dfy ===
/** Piece shapes as the game stores them: lists of rows of booleans, True
    for a filled cell.  Rows may differ in length; the generators build
    rectangles. */
module Shapes {

  type Shape = seq<seq<bool>>

  /** (row, column) */
  type Cell = (int, int)

  predicate InShape(s: Shape, r: int, c: int) {
    0 <= r < |s| && 0 <= c < |s[r]|
  }

  predicate FilledAt(s: Shape, r: int, c: int) {
    InShape(s, r, c) && s[r][c]
  }

  /** Every row has length `k` and there are `k` rows. */
  predicate Square(s: Shape, k: nat) {
    |s| == k && forall r :: 0 <= r < k ==> |s[r]| == k
  }

  function RowCount(row: seq<bool>): (n: nat)
    ensures n <= |row|
  {
    if |row| == 0 then 0 else (if row[0] then 1 else 0) + RowCount(row[1..])
  }

  /** `sum(sum(row) for row in shape)`: the number of filled cells. */
  function CountBlocks(s: Shape): nat {
    if |s| == 0 then 0 else RowCount(s[0]) + CountBlocks(s[1..])
  }

  /** The number of cells, filled or not. */
  function CellTotal(s: Shape): nat {
    if |s| == 0 then 0 else |s[0]| + CellTotal(s[1..])
  }

  // ---------------------------------------------------------------------
  // Writing one cell

  /** `shape[r][c] = v` */
  function SetCell(s: Shape, r: nat, c: nat, v: bool): (t: Shape)
    requires InShape(s, r, c)
    ensures |t| == |s| && forall i :: 0 <= i < |s| ==> |t[i]| == |s[i]|
    ensures forall i, j :: InShape(s, i, j) ==> t[i][j] == if i == r && j == c then v else s[i][j]
  {
    s[r := s[r][c := v]]
  }

  lemma {:induction false} RowCountSet(row: seq<bool>, c: nat, v: bool)
    requires c < |row|
    ensures RowCount(row[c := v]) + (if row[c] then 1 else 0) == RowCount(row) + (if v then 1 else 0)
  {
    if c > 0 {
      assert row[c := v][1..] == row[1..][c - 1 := v];
      RowCountSet(row[1..], c - 1, v);
    } else {
      assert row[c := v][1..] == row[1..];
    }
  }

  /** Writing a cell changes the count by what the cell gains or loses. */
  lemma {:induction false} CountSet(s: Shape, r: nat, c: nat, v: bool)
    requires InShape(s, r, c)
    ensures CountBlocks(SetCell(s, r, c, v)) + (if s[r][c] then 1 else 0) == CountBlocks(s) + (if v then 1 else 0)
  {
    var t := SetCell(s, r, c, v);
    if r == 0 {
      assert t[1..] == s[1..];
      RowCountSet(s[0], c, v);
    } else {
      assert t[1..] == SetCell(s[1..], r - 1, c, v);
      CountSet(s[1..], r - 1, c, v);
    }
  }

  // ---------------------------------------------------------------------
  // Neighbours

  /** `has_adjacent_block`: the four neighbours are probed up, down, left,
      right, each checked against the length of its own row. */
  function HasAdjacentBlock(s: Shape, r: int, c: int): (b: bool)
    ensures b <==> FilledAt(s, r - 1, c) || FilledAt(s, r + 1, c) || FilledAt(s, r, c - 1) || FilledAt(s, r, c + 1)
  {
    ProbeFrom(s, r, c, 0)
  }

  const Probes: seq<Cell> := [(-1, 0), (1, 0), (0, -1), (0, 1)]

  /** The probes from the `k`-th on, returning at the first filled one. */
  function ProbeFrom(s: Shape, r: int, c: int, k: nat): (b: bool)
    requires k <= 4
    ensures b <==> exists j :: k <= j < 4 && FilledAt(s, r + Probes[j].0, c + Probes[j].1)
    decreases 4 - k
  {
    if k == 4 then false
    else
      var nr, nc := r + Probes[k].0, c + Probes[k].1;
      if 0 <= nr < |s| && 0 <= nc < |s[nr]| && s[nr][nc] then true
      else ProbeFrom(s, r, c, k + 1)
  }

  // ---------------------------------------------------------------------
  // Row-major cell lists

  /** Which cells a scan collects. */
  datatype Want = Filled | Empty | Frontier

  /** Filled cells; empty cells; empty cells next to a filled one. */
  predicate Wanted(s: Shape, w: Want, r: int, c: int)
    requires InShape(s, r, c)
  {
    match w
    case Filled => s[r][c]
    case Empty => !s[r][c]
    case Frontier => !s[r][c] && HasAdjacentBlock(s, r, c)
  }

  predicate Wants(s: Shape, w: Want, p: Cell) {
    InShape(s, p.0, p.1) && Wanted(s, w, p.0, p.1)
  }

  /** Row-major order without repeats. */
  predicate RowMajor(cs: seq<Cell>) {
    forall i, j :: 0 <= i < j < |cs| ==> cs[i].0 < cs[j].0 || (cs[i].0 == cs[j].0 && cs[i].1 < cs[j].1)
  }

  /** The wanted cells of row `r` from column `c` on. */
  function RowCells(s: Shape, w: Want, r: nat, c: nat): (cs: seq<Cell>)
    requires r < |s| && c <= |s[r]|
    ensures forall p :: p in cs <==> p.0 == r && c <= p.1 && Wants(s, w, p)
    ensures RowMajor(cs)
    decreases |s[r]| - c
  {
    if c == |s[r]| then []
    else if Wanted(s, w, r, c) then [(r as int, c as int)] + RowCells(s, w, r, c + 1)
    else RowCells(s, w, r, c + 1)
  }

  /** The wanted cells of the rows from `r` on, in row-major order. */
  function CellsFrom(s: Shape, w: Want, r: nat): (cs: seq<Cell>)
    requires r <= |s|
    ensures forall p :: p in cs <==> r <= p.0 && Wants(s, w, p)
    ensures RowMajor(cs)
    decreases |s| - r
  {
    if r == |s| then []
    else
      var here, rest := RowCells(s, w, r, 0), CellsFrom(s, w, r + 1);
      assert forall i :: 0 <= i < |here| ==> here[i] in here;
      assert forall j :: 0 <= j < |rest| ==> rest[j] in rest;
      here + rest
  }

  /** The row-major scan `for row ...: for col ...: if wanted: append`. */
  function CellsOf(s: Shape, w: Want): (cs: seq<Cell>)
    ensures forall p :: p in cs <==> Wants(s, w, p)
    ensures RowMajor(cs)
  {
    CellsFrom(s, w, 0)
  }

  lemma {:induction false} RowFilledCount(s: Shape, r: nat, c: nat)
    requires r < |s| && c <= |s[r]|
    ensures |RowCells(s, Filled, r, c)| == RowCount(s[r][c..])
    decreases |s[r]| - c
  {
    if c < |s[r]| {
      RowFilledCount(s, r, c + 1);
      assert s[r][c..][1..] == s[r][c + 1..];
    }
  }

  lemma {:induction false} FilledCountFrom(s: Shape, r: nat)
    requires r <= |s|
    ensures |CellsFrom(s, Filled, r)| == CountBlocks(s[r..])
    decreases |s| - r
  {
    if r < |s| {
      RowFilledCount(s, r, 0);
      FilledCountFrom(s, r + 1);
      assert s[r..][0] == s[r][0..] && s[r..][1..] == s[r + 1..];
    }
  }

  /** The filled-cell scan lists exactly `CountBlocks` cells. */
  lemma FilledCount(s: Shape)
    ensures |CellsOf(s, Filled)| == CountBlocks(s)
  {
    FilledCountFrom(s, 0);
    assert s[0..] == s;
  }

  lemma {:induction false} RowFull(row: seq<bool>)
    requires forall j :: 0 <= j < |row| ==> row[j]
    ensures RowCount(row) == |row|
  {
    if |row| > 0 {
      RowFull(row[1..]);
    }
  }

  /** With no empty cell left, every cell is counted. */
  lemma {:induction false} NoEmptyFull(s: Shape)
    requires forall r, c :: InShape(s, r, c) ==> s[r][c]
    ensures CountBlocks(s) == CellTotal(s)
  {
    if |s| > 0 {
      RowFull(s[0]);
      assert forall r, c :: InShape(s[1..], r, c) ==> InShape(s, r + 1, c);
      NoEmptyFull(s[1..]);
    }
  }

  lemma {:induction false} SquareTotal(s: Shape, k: nat, n: nat)
    requires |s| == n && forall r :: 0 <= r < n ==> |s[r]| == k
    ensures CellTotal(s) == n * k
  {
    if n > 0 {
      SquareTotal(s[1..], k, n - 1);
    }
  }

  /** A square grid holding fewer than k * k blocks has an empty cell. */
  lemma HasEmpty(s: Shape, k: nat)
    requires Square(s, k) && CountBlocks(s) < k * k
    ensures CellsOf(s, Empty) != []
  {
    SquareTotal(s, k, k);
    if forall r, c :: InShape(s, r, c) ==> s[r][c] {
      NoEmptyFull(s);
      assert false;
    } else {
      var r, c :| InShape(s, r, c) && !s[r][c];
      assert Wants(s, Empty, (r, c));
    }
  }

  /** The first `n` cells of a k by k grid in row-major order. */
  function RowMajorPrefix(k: nat, n: int): (s: Shape)
    ensures Square(s, k)
    ensures forall r, c :: 0 <= r < k && 0 <= c < k ==> s[r][c] == (r * k + c < n)
  {
    seq(k, r => seq(k, c => r * k + c < n))
  }

  lemma {:induction false} RowPrefixCount(row: seq<bool>, m: int)
    requires forall c :: 0 <= c < |row| ==> row[c] == (c < m)
    ensures RowCount(row) == if m <= 0 then 0 else if m >= |row| then |row| else m
  {
    if |row| > 0 {
      RowPrefixCount(row[1..], m - 1);
    }
  }

  /** `m` limited to [0, cells]. */
  function Clamp(m: int, cells: nat): (r: nat)
    ensures r <= cells
  {
    if m <= 0 then 0 else if m >= cells then cells else m
  }

  lemma {:induction false} PrefixRowsCount(k: nat, n: int, i: nat)
    requires i <= k
    ensures CountBlocks(RowMajorPrefix(k, n)[i..]) == Clamp(n - i * k, (k - i) * k)
    decreases k - i
  {
    var s := RowMajorPrefix(k, n);
    if i < k {
      var m := n - i * k;
      var cells := (k - i) * k;
      RowPrefixCount(s[i], m);
      PrefixRowsCount(k, n, i + 1);
      assert n - (i + 1) * k == m - k;
      assert (k - (i + 1)) * k == cells - k;
      assert s[i..][0] == s[i] && s[i..][1..] == s[i + 1..];
      assert CountBlocks(s[i..]) == Clamp(m, k) + Clamp(m - k, cells - k);
    } else {
      assert (k - i) * k == 0;
    }
  }

  /** The row-major prefix holds min(n, k * k) cells (none for n <= 0). */
  lemma PrefixCount(k: nat, n: int)
    ensures CountBlocks(RowMajorPrefix(k, n)) == Clamp(n, k * k)
  {
    PrefixRowsCount(k, n, 0);
    assert RowMajorPrefix(k, n)[0..] == RowMajorPrefix(k, n);
  }
}

=== FILE: shop.dfy ===
/** The daily shop and the player market
    (dream_mecha/core/systems/shop_system.py): the size plan of the daily
    inventory, the one-purchase-a-day limit, trade listings, the fallback
    shapes, the pattern reader and the single-stat rule.  Piece generation
    itself is a parameter, and the float power and price formulas are not
    modelled. */
module Shop {
  import opened Wrappers
  import opened PyText
  import opened Dicts
  import opened StatTotals
  import opened Shapes
  import opened Headless

  datatype ShopPiece = ShopPiece(pieceId: string, name: string, shape: Shape, stats: Totals, price: int,
                                 pieceType: string, sellerId: Option<string>)

  datatype System = System(dailyInventory: seq<ShopPiece>, playerTrades: seq<ShopPiece>,
                           dailyPurchases: Dict<string, int>)

  function New(): (s: System)
    ensures s.dailyInventory == [] && s.playerTrades == [] && s.dailyPurchases == []
  {
    System([], [], [])
  }

  /** The purchase counters form a dictionary and never go negative. */
  predicate Counters(s: System) {
    Valid(s.dailyPurchases) && forall i :: 0 <= i < |s.dailyPurchases| ==> s.dailyPurchases[i].1 >= 0
  }

  // ---------------------------------------------------------------------
  // The daily inventory
  // ---------------------------------------------------------------------

  /** `_generate_piece(min_blocks, max_blocks, voidstate)` for the `i`-th
      piece of the day. */
  type Generator = (nat, int, int) -> ShopPiece

  /** `generate_daily_shop`: the purchase counters are cleared and the
      inventory is replaced by 6 to 8 pieces, first 2 or 3 small (1-2
      blocks), then 2 or 3 medium (3-5), then large ones (6-12). */
  function GenerateDailyShop(s: System, totalRoll: nat, smallRoll: nat, mediumRoll: nat, generate: Generator): (r: System)
    ensures r.dailyPurchases == [] && r.playerTrades == s.playerTrades
    ensures 6 <= |r.dailyInventory| <= 8
    ensures var p := DailyPlan(totalRoll, smallRoll, mediumRoll);
      |r.dailyInventory| == p.total
      && forall i :: 0 <= i < p.total ==>
           var band := Band(i, p.small, p.medium);
           r.dailyInventory[i] == generate(i, band.0, band.1)
  {
    var p := DailyPlan(totalRoll, smallRoll, mediumRoll);
    var inventory := seq(p.total, i requires 0 <= i =>
      var band := Band(i, p.small, p.medium);
      generate(i, band.0, band.1));
    System(inventory, s.playerTrades, [])
  }

  /** The counter of a player, 0 when absent. */
  function Purchases(s: System, playerId: string): int {
    Get(s.dailyPurchases, playerId).GetOr(0)
  }

  /** `can_purchase_today` */
  predicate CanPurchaseToday(s: System, playerId: string) {
    Purchases(s, playerId) < 1
  }

  /** The first position holding a piece with that id, or |pieces|. */
  function FindPiece(pieces: seq<ShopPiece>, pieceId: string): (i: nat)
    ensures i <= |pieces|
    ensures i < |pieces| ==> pieces[i].pieceId == pieceId
    ensures forall j :: 0 <= j < i ==> pieces[j].pieceId != pieceId
  {
    if |pieces| == 0 then 0
    else if pieces[0].pieceId == pieceId then 0
    else 1 + FindPiece(pieces[1..], pieceId)
  }

  /** Raising a player's counter by one keeps every counter non-negative. */
  lemma CountersKept(s: System, playerId: string)
    requires Counters(s) && Purchases(s, playerId) < 1
    ensures Counters(s.(dailyPurchases := Put(s.dailyPurchases, playerId, Purchases(s, playerId) + 1)))
  {
    var counters := Put(s.dailyPurchases, playerId, Purchases(s, playerId) + 1);
    forall j | 0 <= j < |counters| ensures counters[j].1 >= 0 {
      var k := counters[j].0;
      GetFirst(counters, j);
      if k != playerId {
        assert Get(s.dailyPurchases, k) == Some(counters[j].1);
      }
    }
  }

  /** `purchase_piece`: refused (nothing changes) once the player has
      bought today or when no piece has that id; otherwise the first such
      piece leaves the inventory and the player's counter goes up. */
  function PurchasePiece(s: System, playerId: string, pieceId: string): (r: (System, Option<ShopPiece>))
    requires Counters(s)
    ensures Counters(r.0)
    ensures r.1.Some? <==> CanPurchaseToday(s, playerId) && exists j :: 0 <= j < |s.dailyInventory| && s.dailyInventory[j].pieceId == pieceId
    ensures r.1.None? ==> r.0 == s
    ensures r.1.Some? ==>
      var i := FindPiece(s.dailyInventory, pieceId);
      && r.1.value == s.dailyInventory[i]
      && r.0.dailyInventory == s.dailyInventory[..i] + s.dailyInventory[i + 1..]
      && r.0.playerTrades == s.playerTrades
      && Purchases(r.0, playerId) == Purchases(s, playerId) + 1
      && forall q :: q != playerId ==> Purchases(r.0, q) == Purchases(s, q)
  {
    if Purchases(s, playerId) >= 1 then (s, None)
    else
      var i := FindPiece(s.dailyInventory, pieceId);
      if i == |s.dailyInventory| then (s, None)
      else (Bought(s, playerId, i), Some(s.dailyInventory[i]))
  }

  /** The shop once the piece at `i` is sold to the player. */
  function Bought(s: System, playerId: string, i: nat): (r: System)
    requires Counters(s) && Purchases(s, playerId) < 1 && i < |s.dailyInventory|
    ensures Counters(r)
    ensures r.dailyInventory == s.dailyInventory[..i] + s.dailyInventory[i + 1..]
    ensures r.playerTrades == s.playerTrades
    ensures Purchases(r, playerId) == Purchases(s, playerId) + 1
    ensures forall q :: q != playerId ==> Purchases(r, q) == Purchases(s, q)
  {
    var counters := Put(s.dailyPurchases, playerId, Purchases(s, playerId) + 1);
    CountersKept(s, playerId);
    s.(dailyInventory := s.dailyInventory[..i] + s.dailyInventory[i + 1..], dailyPurchases := counters)
  }

  /** One purchase a day: after a successful purchase the same player is
      refused until the counters are cleared, whatever the piece. */
  lemma OnePurchasePerDay(s: System, playerId: string, pieceId: string, other: string)
    requires Counters(s)
    requires PurchasePiece(s, playerId, pieceId).1.Some?
    ensures !CanPurchaseToday(PurchasePiece(s, playerId, pieceId).0, playerId)
    ensures PurchasePiece(PurchasePiece(s, playerId, pieceId).0, playerId, other).1 == None
  {
  }

  /** Clearing the counters lets every player buy again. */
  lemma ResetAllowsPurchase(s: System, totalRoll: nat, smallRoll: nat, mediumRoll: nat, generate: Generator, playerId: string)
    ensures CanPurchaseToday(GenerateDailyShop(s, totalRoll, smallRoll, mediumRoll, generate), playerId)
  {
  }

  // ---------------------------------------------------------------------
  // The player market
  // ---------------------------------------------------------------------

  /** `add_player_trade`: a copy of the piece at the asking price, marked
      with its seller, joins the end of the market. */
  function AddPlayerTrade(s: System, playerId: string, piece: ShopPiece, askingPrice: int): (r: (System, bool))
    ensures r.1
    ensures r.0 == s.(playerTrades := s.playerTrades + [piece.(price := askingPrice, sellerId := Some(playerId))])
  {
    (s.(playerTrades := s.playerTrades + [piece.(price := askingPrice, sellerId := Some(playerId))]), true)
  }

  /** The first listing with that id that the buyer is not selling, or
      |trades|. */
  function FindTrade(trades: seq<ShopPiece>, buyerId: string, pieceId: string): (i: nat)
    ensures i <= |trades|
    ensures i < |trades| ==> trades[i].pieceId == pieceId && trades[i].sellerId != Some(buyerId)
    ensures forall j :: 0 <= j < i ==> !(trades[j].pieceId == pieceId && trades[j].sellerId != Some(buyerId))
  {
    if |trades| == 0 then 0
    else if trades[0].pieceId == pieceId && trades[0].sellerId != Some(buyerId) then 0
    else 1 + FindTrade(trades[1..], buyerId, pieceId)
  }

  /** `purchase_trade`: the first listing with that id from another seller
      (or from the shop itself) is removed and returned. */
  function PurchaseTrade(s: System, buyerId: string, pieceId: string): (r: (System, Option<ShopPiece>))
    ensures r.1.Some? <==>
      (exists j :: 0 <= j < |s.playerTrades| && s.playerTrades[j].pieceId == pieceId && s.playerTrades[j].sellerId != Some(buyerId))
    ensures r.1.None? ==> r.0 == s
    ensures r.1.Some? ==>
      var i := FindTrade(s.playerTrades, buyerId, pieceId);
      && r.1.value == s.playerTrades[i]
      && r.1.value.sellerId != Some(buyerId)
      && r.0 == s.(playerTrades := s.playerTrades[..i] + s.playerTrades[i + 1..])
  {
    var i := FindTrade(s.playerTrades, buyerId, pieceId);
    if i == |s.playerTrades| then (s, None)
    else (s.(playerTrades := s.playerTrades[..i] + s.playerTrades[i + 1..]), Some(s.playerTrades[i]))
  }

  /** A listing put up by a player can be bought back by anyone but that
      player. */
  lemma OwnListingNotForSale(s: System, seller: string, piece: ShopPiece, price: int, buyer: string)
    requires forall j :: 0 <= j < |s.playerTrades| ==> s.playerTrades[j].pieceId != piece.pieceId
    ensures PurchaseTrade(AddPlayerTrade(s, seller, piece, price).0, seller, piece.pieceId).1 == None
    ensures buyer != seller ==>
      PurchaseTrade(AddPlayerTrade(s, seller, piece, price).0, buyer, piece.pieceId)
        == (s, Some(piece.(price := price, sellerId := Some(seller))))
  {
    var t := AddPlayerTrade(s, seller, piece, price).0;
    assert t.playerTrades[|s.playerTrades|].pieceId == piece.pieceId;
    if buyer != seller {
      var i := FindTrade(t.playerTrades, buyer, piece.pieceId);
      assert i == |s.playerTrades|;
      assert t.playerTrades[..i] + t.playerTrades[i + 1..] == s.playerTrades;
    }
  }

  // ---------------------------------------------------------------------
  // Shapes and stats
  // ---------------------------------------------------------------------

  /** `int(n ** 0.5)` for a natural number: the largest k with k * k <= n. */
  function FloorSqrt(n: nat): (k: nat)
    ensures k * k <= n < (k + 1) * (k + 1)
  {
    if n == 0 then 0
    else
      var k := FloorSqrt(n - 1);
      if (k + 1) * (k + 1) <= n then k + 1 else k
  }

  /** `_generate_fallback_shape`: a row of one to three cells, or the
      row-major prefix of a square one wider than the square root.  A
      negative count has a complex square root, which `int()` rejects. */
  function FallbackShape(blockCount: int): (r: Option<Shape>)
    ensures r.Some? <==> blockCount >= 0
    ensures 1 <= blockCount <= 3 ==>
      r.Some? && |r.value| == 1 && |r.value[0]| == blockCount && forall j :: 0 <= j < blockCount ==> r.value[0][j]
    ensures blockCount > 3 ==> r == Some(RowMajorPrefix(FloorSqrt(blockCount) + 1, blockCount))
  {
    if blockCount == 1 then Some([[true]])
    else if blockCount == 2 then Some([[true, true]])
    else if blockCount == 3 then Some([[true, true, true]])
    else if blockCount < 0 then None
    else Some(RowMajorPrefix(FloorSqrt(blockCount) + 1, blockCount))
  }

  /** The fallback shape holds exactly the requested number of blocks. */
  lemma FallbackShapeCount(blockCount: int)
    requires blockCount >= 0
    ensures CountBlocks(FallbackShape(blockCount).value) == blockCount
  {
    if 1 <= blockCount <= 3 {
      RowFull(FallbackShape(blockCount).value[0]);
    } else {
      var k := FloorSqrt(blockCount) + 1;
      PrefixCount(k, blockCount);
    }
  }

  /** The nested fill loop of `_generate_fallback_shape`, which marks cells
      in row-major order while fewer than `blocks` are placed. */
  method FillSquare(size: nat, blocks: int) returns (shape: Shape)
    ensures shape == RowMajorPrefix(size, blocks)
  {
    ghost var want := RowMajorPrefix(size, blocks);
    shape := seq(size, _ => seq(size, _ => false));
    var placed := 0;
    ghost var pos := 0;
    for y := 0 to size
      invariant Square(shape, size) && pos == y * size && placed == Clamp(blocks, pos)
      invariant forall r :: 0 <= r < y ==> shape[r] == want[r]
      invariant forall r, c :: y <= r < size && 0 <= c < size ==> !shape[r][c]
    {
      for x := 0 to size
        invariant Square(shape, size) && pos == y * size + x && placed == Clamp(blocks, pos)
        invariant forall r :: 0 <= r < y ==> shape[r] == want[r]
        invariant forall r, c :: y < r < size && 0 <= c < size ==> !shape[r][c]
        invariant forall c :: 0 <= c < x ==> shape[y][c] == want[y][c]
        invariant forall c :: x <= c < size ==> !shape[y][c]
      {
        assert want[y][x] == (pos < blocks);
        if placed < blocks {
          shape := shape[y := shape[y][x := true]];
          placed := placed + 1;
        }
        pos := pos + 1;
      }
      assert shape[y] == want[y];
      assert (y + 1) * size == y * size + size;
    }
  }

  /** A block glyph of the ASCII pattern. */
  predicate PatternChar(c: char) {
    c == '█' || c == '▓' || c == '░'
  }

  /** A solid glyph: filled in the grid. */
  predicate SolidChar(c: char) {
    c == '█' || c == '▓'
  }

  predicate PatternLine(line: string) {
    exists j :: 0 <= j < |line| && PatternChar(line[j])
  }

  function PatternLines(lines: seq<string>): (r: seq<string>)
    ensures forall l :: l in r <==> l in lines && PatternLine(l)
    ensures |r| <= |lines|
  {
    if |lines| == 0 then []
    else
      assert forall l :: l in lines <==> l == lines[0] || l in lines[1..];
      (if PatternLine(lines[0]) then [lines[0]] else []) + PatternLines(lines[1..])
  }

  function BoolRow(line: string): (row: seq<bool>)
    ensures |row| == |line| && forall j :: 0 <= j < |line| ==> row[j] == SolidChar(line[j])
  {
    seq(|line|, j requires 0 <= j < |line| => SolidChar(line[j]))
  }

  /** `_pattern_to_bool_grid`: one row per line holding a block glyph, with
      the solid glyphs filled; a pattern without block glyphs reads as a
      single filled cell. */
  function PatternToBoolGrid(pattern: string): (g: Shape)
    ensures var lines := PatternLines(SplitOn(Strip(pattern), '\n'));
      && (lines == [] ==> g == [[true]])
      && (lines != [] ==> |g| == |lines| && forall i :: 0 <= i < |lines| ==> g[i] == BoolRow(lines[i]))
    ensures |g| > 0
  {
    var lines := PatternLines(SplitOn(Strip(pattern), '\n'));
    if lines == [] then [[true]]
    else seq(|lines|, i requires 0 <= i < |lines| => BoolRow(lines[i]))
  }

  /** A filled cell of the grid is a solid glyph of a pattern line. */
  lemma FilledCellsAreSolid(pattern: string, i: nat, j: nat)
    requires var lines := PatternLines(SplitOn(Strip(pattern), '\n'));
      lines != [] && i < |lines| && j < |lines[i]|
    ensures var lines := PatternLines(SplitOn(Strip(pattern), '\n'));
      PatternToBoolGrid(pattern)[i][j] <==> SolidChar(lines[i][j])
  {
  }

  /** `_calculate_piece_stats`: all the power in one stat, drawn for
      "random", otherwise the named one (an unknown name means "hp"). */
  function CalculatePieceStats(statType: string, roll: nat, power: int): (t: Totals)
    ensures var k := ChosenStat(statType, roll);
      Stat(t, k) == power && forall k' :: KnownStat(k') && k' != k ==> Stat(t, k') == 0
    ensures statType != "random" && !KnownStat(statType) ==> t == Totals(power, 0, 0, 0)
  {
    ProperPieceStats(statType, roll, power)
  }
}

=== FILE: solar_core.dfy ===
/** The solar core: the energy-node registry and the shut-off mechanism
    (core/managers/solar_core_manager.py).  The monitoring thread, its
    callbacks and the generated-energy clock are not modelled; the
    consumption it keeps is computed on demand. */
module SolarCore {
  import opened Wrappers
  import opened Dicts
  import E = Energy

  datatype EnergyNode = EnergyNode(name: string, consumptionRate: real, isActive: bool,
                                   lastConsumption: real, totalConsumed: real, createdBy: string,
                                   position: E.Position, density: real, range: real)

  datatype Core = Core(isActive: bool, nodes: Dict<string, EnergyNode>, shutOffAccessible: bool,
                       radiantDamageThreshold: real)

  const RadiantDamageThreshold: real := 100000000000.0

  /** A fresh core: running, reachable, no nodes. */
  function New(): (c: Core)
    ensures c.isActive && c.shutOffAccessible && c.nodes == [] && Valid(c.nodes)
    ensures c.radiantDamageThreshold == RadiantDamageThreshold
  {
    Core(true, [], true, RadiantDamageThreshold)
  }

  /** What an active node draws; an inactive node draws nothing. */
  function Draw(n: EnergyNode): real {
    if n.isActive then n.consumptionRate else 0.0
  }

  /** The monitor's current consumption: the rates of the active nodes. */
  function CurrentConsumption(nodes: Dict<string, EnergyNode>): real {
    if |nodes| == 0 then 0.0 else Draw(nodes[0].1) + CurrentConsumption(nodes[1..])
  }

  /** Storing a node changes the consumption by the new draw less the old. */
  lemma {:induction false} ConsumptionPut(d: Dict<string, EnergyNode>, k: string, v: EnergyNode)
    requires Valid(d)
    ensures CurrentConsumption(Put(d, k, v)) ==
      CurrentConsumption(d) - (if HasKey(d, k) then Draw(Get(d, k).value) else 0.0) + Draw(v)
  {
    if |d| > 0 && d[0].0 != k {
      TailValid(d);
      ConsumptionPut(d[1..], k, v);
      assert HasKey(d, k) <==> HasKey(d[1..], k) by {
        if HasKey(d, k) {
          var i :| 0 <= i < |d| && d[i].0 == k;
          assert d[1..][i - 1] == d[i];
        }
      }
    }
  }

  /** Deleting a node takes its draw off the consumption. */
  lemma {:induction false} ConsumptionRemove(d: Dict<string, EnergyNode>, k: string)
    requires Valid(d)
    ensures CurrentConsumption(Remove(d, k)) ==
      CurrentConsumption(d) - (if HasKey(d, k) then Draw(Get(d, k).value) else 0.0)
  {
    if |d| > 0 && d[0].0 != k {
      TailValid(d);
      ConsumptionRemove(d[1..], k);
      assert HasKey(d, k) <==> HasKey(d[1..], k) by {
        if HasKey(d, k) {
          var i :| 0 <= i < |d| && d[i].0 == k;
          assert d[1..][i - 1] == d[i];
        }
      }
    }
  }

  /** `create_node`: refused for a taken name, leaving the core as it was;
      otherwise an active node is added and the consumption grows by its
      rate. */
  function CreateNode(c: Core, name: string, consumptionRate: real, createdBy: string,
                      position: E.Position, density: real, range: real): (r: (Core, bool))
    requires Valid(c.nodes)
    ensures r.1 <==> !HasKey(c.nodes, name)
    ensures !r.1 ==> r.0 == c
    ensures r.1 ==>
      && r.0 == c.(nodes := r.0.nodes) && Valid(r.0.nodes)
      && Get(r.0.nodes, name) == Some(EnergyNode(name, consumptionRate, true, 0.0, 0.0, createdBy, position, density, range))
      && (forall k :: k != name ==> Get(r.0.nodes, k) == Get(c.nodes, k))
      && CurrentConsumption(r.0.nodes) == CurrentConsumption(c.nodes) + consumptionRate
  {
    if HasKey(c.nodes, name) then (c, false)
    else
      var node := EnergyNode(name, consumptionRate, true, 0.0, 0.0, createdBy, position, density, range);
      ConsumptionPut(c.nodes, name, node);
      (c.(nodes := Put(c.nodes, name, node)), true)
  }

  /** `remove_node`: unknown names change nothing; otherwise the node goes
      and its draw leaves the consumption. */
  function RemoveNode(c: Core, name: string): (r: (Core, bool))
    requires Valid(c.nodes)
    ensures r.1 <==> HasKey(c.nodes, name)
    ensures !r.1 ==> r.0 == c
    ensures r.1 ==>
      && r.0 == c.(nodes := r.0.nodes) && Valid(r.0.nodes)
      && !HasKey(r.0.nodes, name)
      && (forall k :: k != name ==> Get(r.0.nodes, k) == Get(c.nodes, k))
      && CurrentConsumption(r.0.nodes) == CurrentConsumption(c.nodes) - Draw(Get(c.nodes, name).value)
  {
    if HasKey(c.nodes, name) then
      ConsumptionRemove(c.nodes, name);
      (c.(nodes := Remove(c.nodes, name)), true)
    else (c, false)
  }

  /** `set_node_active`: unknown names change nothing; otherwise only the
      node's flag changes, and the consumption with it. */
  function SetNodeActive(c: Core, name: string, active: bool): (r: (Core, bool))
    requires Valid(c.nodes)
    ensures r.1 <==> HasKey(c.nodes, name)
    ensures !r.1 ==> r.0 == c
    ensures r.1 ==>
      && r.0 == c.(nodes := r.0.nodes) && Valid(r.0.nodes)
      && Get(r.0.nodes, name) == Some(Get(c.nodes, name).value.(isActive := active))
      && (forall k :: k != name ==> Get(r.0.nodes, k) == Get(c.nodes, k))
      && CurrentConsumption(r.0.nodes) == CurrentConsumption(c.nodes) - Draw(Get(c.nodes, name).value)
         + (if active then Get(c.nodes, name).value.consumptionRate else 0.0)
  {
    match Get(c.nodes, name)
    case None => (c, false)
    case Some(n) =>
      ConsumptionPut(c.nodes, name, n.(isActive := active));
      (c.(nodes := Put(c.nodes, name, n.(isActive := active))), true)
  }

  /** Switching a node off and on again restores the consumption. */
  lemma ToggleRestoresConsumption(c: Core, name: string)
    requires Valid(c.nodes) && HasKey(c.nodes, name) && Get(c.nodes, name).value.isActive
    ensures CurrentConsumption(SetNodeActive(SetNodeActive(c, name, false).0, name, true).0.nodes)
         == CurrentConsumption(c.nodes)
  {
  }

  datatype ShutOff = ShutOff(success: bool, damageTaken: real, message: string)

  const NotAccessible := "Shut-off mechanism is not accessible"
  const ShutOffDone := "Solar core shut off successfully - but you took massive radiant damage!"
  const Scorched := "Too far from core to shut off - took significant radiant damage"
  const OutOfReach := "Too far from solar core to access shut-off mechanism"

  /** `attempt_shut_off` from `playerDistance` away: out of reach it fails
      harmlessly; within 1 it succeeds, switches the core off and deals the
      full radiant damage; within 5 it fails and deals half; further out it
      fails harmlessly. */
  function AttemptShutOff(c: Core, playerDistance: real): (r: (Core, ShutOff))
    ensures r.1.success <==> c.shutOffAccessible && playerDistance <= 1.0
    ensures r.1.success ==> r.0 == c.(isActive := false) && r.1.damageTaken == c.radiantDamageThreshold
    ensures !r.1.success ==> r.0 == c
    ensures !c.shutOffAccessible || playerDistance > 5.0 ==> r.1.damageTaken == 0.0
    ensures c.shutOffAccessible && 1.0 < playerDistance <= 5.0 ==> r.1.damageTaken == c.radiantDamageThreshold * 0.5
  {
    if !c.shutOffAccessible then
      (c, ShutOff(false, 0.0, NotAccessible))
    else if playerDistance <= 1.0 then
      (c.(isActive := false), ShutOff(true, c.radiantDamageThreshold, ShutOffDone))
    else if playerDistance <= 5.0 then
      (c, ShutOff(false, c.radiantDamageThreshold * 0.5, Scorched))
    else
      (c, ShutOff(false, 0.0, OutOfReach))
  }

  /** `restart_core`: succeeds exactly when the core is off, and the core
      is running afterwards either way. */
  function RestartCore(c: Core): (r: (Core, bool))
    ensures r.1 <==> !c.isActive
    ensures r.0.isActive && r.0 == c.(isActive := true)
  {
    if !c.isActive then (c.(isActive := true), true) else (c, false)
  }

  /** A successful shut-off followed by a restart brings the core back
      exactly as it was. */
  lemma ShutOffThenRestart(c: Core, playerDistance: real)
    requires c.isActive && c.shutOffAccessible && playerDistance <= 1.0
    ensures RestartCore(AttemptShutOff(c, playerDistance).0) == (c, true)
  {
  }

  function NodeInfoOf(n: EnergyNode): E.NodeInfo {
    E.NodeInfo(Some(n.consumptionRate), Some(n.isActive), Some(n.density), Some(n.range), Some(n.position))
  }

  /** The node part of `get_energy_status`: every node with all fields. */
  function StatusNodes(nodes: Dict<string, EnergyNode>): (r: Dict<string, E.NodeInfo>)
    ensures |r| == |nodes|
    ensures forall i :: 0 <= i < |nodes| ==> r[i] == (nodes[i].0, NodeInfoOf(nodes[i].1))
  {
    if |nodes| == 0 then [] else [(nodes[0].0, NodeInfoOf(nodes[0].1))] + StatusNodes(nodes[1..])
  }

  /** `get_energy_status`, with the consumption the monitor keeps. */
  function EnergyStatus(c: Core): (s: E.Status)
    ensures E.Consumption(s) == CurrentConsumption(c.nodes)
    ensures |s.nodes| == |c.nodes|
    ensures forall k :: Get(s.nodes, k) == if HasKey(c.nodes, k) then Some(NodeInfoOf(Get(c.nodes, k).value)) else None
  {
    var nodes := StatusNodes(c.nodes);
    forall k ensures Get(nodes, k) == if HasKey(c.nodes, k) then Some(NodeInfoOf(Get(c.nodes, k).value)) else None {
      GetMapped(c.nodes, nodes, (_, n) => NodeInfoOf(n), k);
    }
    E.Status(Some(CurrentConsumption(c.nodes)), nodes)
  }
}

=== FILE: stablesort.dfy ===
/** Python's `sorted(xs, key=...)`: a stable sort.  `sorted(..., reverse=True)`
    is also stable, so it is the same sort on the negated key. */
module StableSort {

  predicate SortedBy<T>(s: seq<T>, key: T -> int) {
    forall i, j :: 0 <= i < j < |s| ==> key(s[i]) <= key(s[j])
  }

  /** The elements of `s` whose key is `k`, in their order in `s`. */
  function WithKey<T>(s: seq<T>, key: T -> int, k: int): seq<T> {
    if |s| == 0 then []
    else (if key(s[0]) == k then [s[0]] else []) + WithKey(s[1..], key, k)
  }

  /** Places `x` after every leading element whose key does not exceed its own. */
  function Insert<T(==)>(x: T, s: seq<T>, key: T -> int): (r: seq<T>)
    ensures multiset(r) == multiset(s) + multiset{x}
  {
    if |s| == 0 then [x]
    else if key(s[0]) <= key(x) then
      assert s == [s[0]] + s[1..];
      [s[0]] + Insert(x, s[1..], key)
    else [x] + s
  }

  /** Insertion sort, inserting the elements of `s` from first to last. */
  function SortBy<T(==)>(s: seq<T>, key: T -> int): (r: seq<T>)
    ensures multiset(r) == multiset(s)
  {
    if |s| == 0 then []
    else
      assert s == s[..|s| - 1] + [s[|s| - 1]];
      Insert(s[|s| - 1], SortBy(s[..|s| - 1], key), key)
  }

  lemma {:induction false} InsertSorted<T>(x: T, s: seq<T>, key: T -> int)
    requires SortedBy(s, key)
    ensures SortedBy(Insert(x, s, key), key)
  {
    if |s| > 0 && key(s[0]) <= key(x) {
      InsertSorted(x, s[1..], key);
      var r := Insert(x, s[1..], key);
      forall y | y in r
        ensures key(s[0]) <= key(y)
      {
        assert y in multiset(r);
      }
    }
  }

  /** The result of `SortBy` is in ascending key order. */
  lemma {:induction false} SortBySorted<T>(s: seq<T>, key: T -> int)
    ensures SortedBy(SortBy(s, key), key)
  {
    if |s| > 0 {
      SortBySorted(s[..|s| - 1], key);
      InsertSorted(s[|s| - 1], SortBy(s[..|s| - 1], key), key);
    }
  }

  lemma {:induction false} WithKeyAppend<T>(a: seq<T>, b: seq<T>, key: T -> int, k: int)
    ensures WithKey(a + b, key, k) == WithKey(a, key, k) + WithKey(b, key, k)
  {
    if |a| > 0 {
      assert (a + b)[1..] == a[1..] + b;
      assert (a + b)[0] == a[0];
      WithKeyAppend(a[1..], b, key, k);
    } else {
      assert a + b == b;
    }
  }

  lemma {:induction false} WithKeyAbove<T>(s: seq<T>, key: T -> int, k: int)
    requires forall i :: 0 <= i < |s| ==> key(s[i]) > k
    ensures WithKey(s, key, k) == []
  {
    if |s| > 0 {
      WithKeyAbove(s[1..], key, k);
    }
  }

  lemma {:induction false} InsertWithKey<T>(x: T, s: seq<T>, key: T -> int, k: int)
    requires SortedBy(s, key)
    ensures WithKey(Insert(x, s, key), key, k)
         == WithKey(s, key, k) + (if key(x) == k then [x] else [])
  {
    if |s| == 0 {
      assert Insert(x, s, key) == [x];
      assert WithKey([x], key, k) == (if key(x) == k then [x] else []) + WithKey([x][1..], key, k);
    } else if key(s[0]) <= key(x) {
      assert SortedBy(s[1..], key);
      InsertWithKey(x, s[1..], key, k);
      ConsWithKey(s, Insert(x, s[1..], key), x, key, k);
    } else {
      InsertFrontWithKey(x, s, key, k);
    }
  }

  /** The step case of `InsertWithKey`: `s[0]` stays in front. */
  lemma ConsWithKey<T>(s: seq<T>, rest: seq<T>, x: T, key: T -> int, k: int)
    requires |s| > 0
    requires WithKey(rest, key, k) == WithKey(s[1..], key, k) + (if key(x) == k then [x] else [])
    ensures WithKey([s[0]] + rest, key, k) == WithKey(s, key, k) + (if key(x) == k then [x] else [])
  {
    var xs := if key(x) == k then [x] else [];
    var h := if key(s[0]) == k then [s[0]] else [];
    assert ([s[0]] + rest)[0] == s[0] && ([s[0]] + rest)[1..] == rest;
    assert WithKey([s[0]] + rest, key, k) == h + WithKey(rest, key, k);
    assert h + (WithKey(s[1..], key, k) + xs) == (h + WithKey(s[1..], key, k)) + xs;
  }

  /** When `x` goes in front of a sorted `s`, no element of `s` shares its key. */
  lemma InsertFrontWithKey<T>(x: T, s: seq<T>, key: T -> int, k: int)
    requires SortedBy(s, key) && |s| > 0 && key(x) < key(s[0])
    ensures WithKey(Insert(x, s, key), key, k)
         == WithKey(s, key, k) + (if key(x) == k then [x] else [])
  {
    var xs := if key(x) == k then [x] else [];
    assert Insert(x, s, key) == [x] + s;
    assert ([x] + s)[0] == x && ([x] + s)[1..] == s;
    assert WithKey([x] + s, key, k) == xs + WithKey(s, key, k);
    if key(x) == k {
      WithKeyAbove(s, key, k);
      assert xs + [] == [] + xs;
    } else {
      assert WithKey(s, key, k) + [] == WithKey(s, key, k);
    }
  }

  /** Sorting the last element in adds it after the sorted prefix's
      elements of the same key. */
  lemma SortByLastWithKey<T>(s: seq<T>, key: T -> int, k: int)
    requires |s| > 0
    ensures var x := s[|s| - 1];
      WithKey(SortBy(s, key), key, k)
        == WithKey(SortBy(s[..|s| - 1], key), key, k) + (if key(x) == k then [x] else [])
  {
    var p := s[..|s| - 1];
    SortBySorted(p, key);
    InsertWithKey(s[|s| - 1], SortBy(p, key), key, k);
  }

  /** The elements of a key in `s` are those of its prefix, then possibly
      its last element. */
  lemma LastWithKey<T>(s: seq<T>, key: T -> int, k: int)
    requires |s| > 0
    ensures var x := s[|s| - 1];
      WithKey(s, key, k) == WithKey(s[..|s| - 1], key, k) + (if key(x) == k then [x] else [])
  {
    var p := s[..|s| - 1];
    var x := s[|s| - 1];
    assert s == p + [x];
    WithKeyAppend(p, [x], key, k);
    assert WithKey([x], key, k) == (if key(x) == k then [x] else []) + WithKey([x][1..], key, k);
  }

  /** Stability: for every key, the elements carrying it keep their relative
      order. */
  lemma {:induction false} SortByStable<T>(s: seq<T>, key: T -> int, k: int)
    ensures WithKey(SortBy(s, key), key, k) == WithKey(s, key, k)
  {
    if |s| > 0 {
      SortByStable(s[..|s| - 1], key, k);
      SortByLastWithKey(s, key, k);
      LastWithKey(s, key, k);
    }
  }

  /** No element occurs twice. */
  predicate Distinct<T(==)>(s: seq<T>) {
    forall i, j :: 0 <= i < j < |s| ==> s[i] != s[j]
  }

  lemma CountOne<T>(s: seq<T>, x: T)
    requires Distinct(s)
    ensures multiset(s)[x] <= 1
  {
    if |s| > 0 {
      assert s == [s[0]] + s[1..];
      assert Distinct(s[1..]);
      CountOne(s[1..], x);
      assert s[0] !in s[1..];
    }
  }

  lemma CountTwo<T>(s: seq<T>, i: nat, j: nat)
    requires i < j < |s| && s[i] == s[j]
    ensures multiset(s)[s[i]] >= 2
  {
    assert s == s[..i] + [s[i]] + s[i + 1..j] + [s[j]] + s[j + 1..];
  }

  /** A rearrangement of a list without repeats has none either. */
  lemma PermDistinct<T>(a: seq<T>, b: seq<T>)
    requires multiset(a) == multiset(b) && Distinct(a)
    ensures Distinct(b)
  {
    forall i, j | 0 <= i < j < |b| ensures b[i] != b[j] {
      if b[i] == b[j] {
        CountTwo(b, i, j);
        CountOne(a, b[i]);
      }
    }
  }

  /** Sorting keeps the length and the members. */
  lemma SortKeeps<T>(s: seq<T>, key: T -> int)
    ensures |SortBy(s, key)| == |s|
    ensures forall x :: x in SortBy(s, key) <==> x in s
  {
    var sorted := SortBy(s, key);
    assert |multiset(sorted)| == |multiset(s)|;
    forall x ensures x in sorted <==> x in s {
      assert x in sorted <==> x in multiset(sorted);
      assert x in s <==> x in multiset(s);
    }
  }
}

=== FILE: stat_calculator.dfy ===
/** The protected stat calculator: totals of the stat pieces of a grid
    description, glyph multipliers, clamping into the allowed range, a safe
    fallback when the description cannot be summed, a bounded calculation
    history, and the per-piece validation and power used by the shop. */
module StatCalculator {
  import opened Wrappers
  import opened Dicts
  import opened PyText
  import opened StatTotals
  import opened Shapes

  const MaxTotalHp: int := 100_000_000_000
  const MaxPieceSize: int := 144
  const MaxStatValue: int := 100_000_000_000
  /** The history keeps this many most recent calculations. */
  const HistoryCap: nat := 100

  /** A value found in a stats dictionary: an integer, or something that
      cannot be added to one (a string, `None`, a list).  Python's booleans
      are integers: `True` and `False` are `IntVal(1)` and `IntVal(0)`, which
      every operation here treats exactly as the code treats them (they add
      as 1 and 0 and pass `isinstance(value, int)`).  Floats are not
      modelled. */
  datatype Val = IntVal(i: int) | OtherVal

  /** One entry of `grid_data['pieces']`; a missing `stats` is the empty
      dictionary and a missing `shape` the empty list. */
  datatype PieceData = PieceData(pieceType: string, stats: Dict<string, Val>, shape: seq<seq<bool>>)

  /** One entry of `grid_data['glyphs']`; a missing `glyph_type` is "enhance". */
  datatype GlyphData = GlyphData(pieceType: string, glyphType: string)

  datatype GridData = GridData(pieces: Dict<string, PieceData>, glyphs: Dict<string, GlyphData>)

  // ---------------------------------------------------------------------
  // Base stats

  /** The inner loop of `_calculate_base_stats`: known keys are added, other
      keys skipped; adding a non-integer raises (None). */
  function AddKnown(t: Totals, stats: Dict<string, Val>): Option<Totals>
    decreases |stats|
  {
    if |stats| == 0 then Some(t)
    else if !KnownStat(stats[0].0) then AddKnown(t, stats[1..])
    else match stats[0].1
      case OtherVal => None
      case IntVal(v) => AddKnown(Plus(t, Single(stats[0].0, v)), stats[1..])
  }

  /** The outer loop: only pieces whose type is "stat" contribute. */
  function AddStatPieces(t: Totals, ps: Dict<string, PieceData>): Option<Totals>
    decreases |ps|
  {
    if |ps| == 0 then Some(t)
    else if ps[0].1.pieceType != "stat" then AddStatPieces(t, ps[1..])
    else
      var t' :- AddKnown(t, ps[0].1.stats);
      AddStatPieces(t', ps[1..])
  }

  /** `_calculate_base_stats` */
  function BaseStats(grid: GridData): Option<Totals> {
    AddStatPieces(Zero, grid.pieces)
  }

  /** The integer under key `k`, 0 when the key is absent. */
  function ValueOf(stats: Dict<string, Val>, k: string): int {
    var v := Get(stats, k);
    if v.Some? && v.value.IntVal? then v.value.i else 0
  }

  function ValuesOf(stats: Dict<string, Val>): Totals {
    Totals(ValueOf(stats, "hp"), ValueOf(stats, "attack"), ValueOf(stats, "defense"), ValueOf(stats, "speed"))
  }

  /** Reference sum of the four stats over the pieces of type "stat". */
  function StatSum(ps: Dict<string, PieceData>): Totals {
    if |ps| == 0 then Zero
    else if ps[0].1.pieceType != "stat" then StatSum(ps[1..])
    else Plus(ValuesOf(ps[0].1.stats), StatSum(ps[1..]))
  }

  /** Every known key of the dictionary holds an integer. */
  predicate Summable(stats: Dict<string, Val>) {
    forall i :: 0 <= i < |stats| && KnownStat(stats[i].0) ==> stats[i].1.IntVal?
  }

  predicate AllSummable(ps: Dict<string, PieceData>) {
    forall i :: 0 <= i < |ps| && ps[i].1.pieceType == "stat" ==> Summable(ps[i].1.stats)
  }

  lemma SummableCons(stats: Dict<string, Val>)
    requires |stats| > 0
    ensures Summable(stats) <==>
              (KnownStat(stats[0].0) ==> stats[0].1.IntVal?) && Summable(stats[1..])
  {
    var rest := stats[1..];
    if (KnownStat(stats[0].0) ==> stats[0].1.IntVal?) && Summable(rest) {
      forall i | 0 <= i < |stats| && KnownStat(stats[i].0) ensures stats[i].1.IntVal? {
        if i > 0 { assert stats[i] == rest[i - 1]; }
      }
    }
    if Summable(stats) {
      forall i | 0 <= i < |rest| && KnownStat(rest[i].0) ensures rest[i].1.IntVal? {
        assert rest[i] == stats[i + 1];
      }
    }
  }

  lemma AllSummableCons(ps: Dict<string, PieceData>)
    requires |ps| > 0
    ensures AllSummable(ps) <==>
              (ps[0].1.pieceType == "stat" ==> Summable(ps[0].1.stats)) && AllSummable(ps[1..])
  {
    var rest := ps[1..];
    if (ps[0].1.pieceType == "stat" ==> Summable(ps[0].1.stats)) && AllSummable(rest) {
      forall i | 0 <= i < |ps| && ps[i].1.pieceType == "stat" ensures Summable(ps[i].1.stats) {
        if i > 0 { assert ps[i] == rest[i - 1]; }
      }
    }
    if AllSummable(ps) {
      forall i | 0 <= i < |rest| && rest[i].1.pieceType == "stat" ensures Summable(rest[i].1.stats) {
        assert rest[i] == ps[i + 1];
      }
    }
  }

  /** The head entry's share of `ValuesOf` and the tail's. */
  lemma ValuesOfCons(stats: Dict<string, Val>)
    requires Valid(stats) && |stats| > 0
    requires KnownStat(stats[0].0) ==> stats[0].1.IntVal?
    ensures ValuesOf(stats) ==
              if KnownStat(stats[0].0) then Plus(Single(stats[0].0, stats[0].1.i), ValuesOf(stats[1..]))
              else ValuesOf(stats[1..])
  {
    TailValid(stats);
    assert Get(stats[1..], stats[0].0) == None;
  }

  lemma {:induction false} AddKnownSums(t: Totals, stats: Dict<string, Val>)
    requires Valid(stats)
    ensures AddKnown(t, stats).Some? <==> Summable(stats)
    ensures AddKnown(t, stats).Some? ==> AddKnown(t, stats).value == Plus(t, ValuesOf(stats))
    decreases |stats|
  {
    if |stats| > 0 {
      TailValid(stats);
      SummableCons(stats);
      if !KnownStat(stats[0].0) {
        AddKnownSums(t, stats[1..]);
        ValuesOfCons(stats);
      } else if stats[0].1.IntVal? {
        var one := Single(stats[0].0, stats[0].1.i);
        AddKnownSums(Plus(t, one), stats[1..]);
        ValuesOfCons(stats);
        PlusAssoc(t, one, ValuesOf(stats[1..]));
      }
    }
  }

  /** `_calculate_base_stats` succeeds exactly when every known key of every
      "stat" piece holds an integer, and then each total is the sum of that
      stat over the "stat" pieces; other keys and other pieces are ignored. */
  lemma {:induction false} BaseStatsSums(t: Totals, ps: Dict<string, PieceData>)
    requires forall i :: 0 <= i < |ps| ==> Valid(ps[i].1.stats)
    ensures AddStatPieces(t, ps).Some? <==> AllSummable(ps)
    ensures AddStatPieces(t, ps).Some? ==> AddStatPieces(t, ps).value == Plus(t, StatSum(ps))
    decreases |ps|
  {
    if |ps| > 0 {
      var rest := ps[1..];
      assert forall i :: 0 <= i < |rest| ==> rest[i] == ps[i + 1];
      AllSummableCons(ps);
      if ps[0].1.pieceType != "stat" {
        BaseStatsSums(t, rest);
      } else {
        AddKnownSums(t, ps[0].1.stats);
        match AddKnown(t, ps[0].1.stats)
        case None =>
        case Some(t') =>
          BaseStatsSums(t', rest);
      }
    }
  }

  // ---------------------------------------------------------------------
  // Glyph effects

  /** The multipliers of one glyph, per stat. */
  datatype Scale = Scale(hp: real, attack: real, defense: real, speed: real)

  /** `_calculate_glyph_effect`: every multiplier is at least 1. */
  function GlyphEffect(glyphType: string): (m: Scale)
    ensures m.hp >= 1.0 && m.attack >= 1.0 && m.defense >= 1.0 && m.speed >= 1.0
    ensures glyphType != "enhance" && glyphType != "focus" && glyphType != "agility" ==>
              m == Scale(1.0, 1.0, 1.0, 1.0)
  {
    if glyphType == "enhance" then Scale(1.2, 1.2, 1.2, 1.2)
    else if glyphType == "focus" then Scale(1.5, 1.0, 1.0, 1.0)
    else if glyphType == "agility" then Scale(1.0, 1.0, 1.0, 1.5)
    else Scale(1.0, 1.0, 1.0, 1.0)
  }

  /** Python's `int(x)` on a real: truncation toward zero. */
  function Trunc(x: real): (r: int)
    ensures x >= 0.0 ==> r as real <= x < r as real + 1.0
    ensures x < 0.0 ==> r as real - 1.0 < x <= r as real
  {
    if x >= 0.0 then x.Floor else -((-x).Floor)
  }

  /** `int(v * m)` */
  function ScaleStat(v: int, m: real): (r: int)
    requires m >= 1.0
    ensures v >= 0 ==> r >= v
    ensures m == 1.0 ==> r == v
  {
    assert v >= 0 ==> v as real * m >= v as real by {
      if v >= 0 {
        assert v as real * (m - 1.0) >= 0.0;
      }
    }
    Trunc(v as real * m)
  }

  function ScaleBy(t: Totals, m: Scale): (r: Totals)
    requires m.hp >= 1.0 && m.attack >= 1.0 && m.defense >= 1.0 && m.speed >= 1.0
  {
    Totals(ScaleStat(t.hp, m.hp), ScaleStat(t.attack, m.attack),
           ScaleStat(t.defense, m.defense), ScaleStat(t.speed, m.speed))
  }

  /** No entry of the glyph dictionary has type "glyph". */
  predicate NoActiveGlyphs(glyphs: Dict<string, GlyphData>) {
    forall i :: 0 <= i < |glyphs| ==> glyphs[i].1.pieceType != "glyph"
  }

  predicate NonNegative(t: Totals) {
    t.hp >= 0 && t.attack >= 0 && t.defense >= 0 && t.speed >= 0
  }

  /** Stat-wise `a <= b`. */
  predicate AtMost(a: Totals, b: Totals) {
    a.hp <= b.hp && a.attack <= b.attack && a.defense <= b.defense && a.speed <= b.speed
  }

  /** `_apply_glyph_effects`: each entry of type "glyph" multiplies the totals
      by its multipliers, truncating each product.  Without such an entry the
      totals are unchanged; non-negative totals never decrease. */
  function ApplyGlyphEffects(base: Totals, glyphs: Dict<string, GlyphData>): (r: Totals)
    ensures NoActiveGlyphs(glyphs) ==> r == base
    ensures NonNegative(base) ==> NonNegative(r) && AtMost(base, r)
    decreases |glyphs|
  {
    if |glyphs| == 0 then base
    else
      var next := if glyphs[0].1.pieceType == "glyph" then ScaleBy(base, GlyphEffect(glyphs[0].1.glyphType)) else base;
      assert NoActiveGlyphs(glyphs) ==> NoActiveGlyphs(glyphs[1..]) by {
        if NoActiveGlyphs(glyphs) {
          forall i | 0 <= i < |glyphs| - 1 ensures glyphs[1..][i].1.pieceType != "glyph" {
            assert glyphs[1..][i] == glyphs[i + 1];
          }
        }
      }
      ApplyGlyphEffects(next, glyphs[1..])
  }

  // ---------------------------------------------------------------------
  // Final validation

  predicate InRange(v: int) {
    0 <= v <= MaxStatValue
  }

  predicate AllInRange(t: Totals) {
    InRange(t.hp) && InRange(t.attack) && InRange(t.defense) && InRange(t.speed)
  }

  /** `max(0, min(v, MAX_STAT_VALUE))` */
  function Clamp(v: int): (r: int)
    ensures InRange(r)
    ensures InRange(v) ==> r == v
    ensures v < 0 ==> r == 0
    ensures v > MaxStatValue ==> r == MaxStatValue
  {
    var capped := if v < MaxStatValue then v else MaxStatValue;
    if capped < 0 then 0 else capped
  }

  /** `_validate_final_stats`: every stat clamped into [0, 10^11], then hp
      capped at the total-hp limit. */
  function ValidateFinalStats(t: Totals): (r: Totals)
    ensures AllInRange(r)
    ensures InRange(t.hp) ==> r.hp == t.hp
    ensures InRange(t.attack) ==> r.attack == t.attack
    ensures InRange(t.defense) ==> r.defense == t.defense
    ensures InRange(t.speed) ==> r.speed == t.speed
    ensures t.hp < 0 ==> r.hp == 0
    ensures t.hp > MaxTotalHp ==> r.hp == MaxTotalHp
  {
    var v := Totals(Clamp(t.hp), Clamp(t.attack), Clamp(t.defense), Clamp(t.speed));
    if v.hp > MaxTotalHp then v.(hp := MaxTotalHp) else v
  }

  /** Clamping is idempotent: validated stats pass through unchanged. */
  lemma ValidateIdempotent(t: Totals)
    ensures ValidateFinalStats(ValidateFinalStats(t)) == ValidateFinalStats(t)
  {
  }

  /** `_get_safe_stats` */
  const SafeStats: Totals := Totals(100, 10, 5, 10)

  // ---------------------------------------------------------------------
  // History

  datatype LogEntry = LogEntry(timestamp: string, gridPieces: nat, gridGlyphs: nat,
                               base: Totals, enhanced: Totals, final: Totals)

  /** `_log_calculation`: append, then keep the last 100 entries. */
  function LogCalculation(h: seq<LogEntry>, e: LogEntry): (r: seq<LogEntry>)
    ensures |r| == if |h| + 1 > HistoryCap then HistoryCap else |h| + 1
    ensures r == (h + [e])[|h| + 1 - |r|..]
    ensures r[|r| - 1] == e
  {
    var all := h + [e];
    if |all| > HistoryCap then all[|all| - HistoryCap..] else all
  }

  /** `get_calculation_history(limit)`: the last `limit` entries; a limit of 0
      gives the whole history, since `h[-0:]` is `h[0:]`. */
  function GetCalculationHistory(h: seq<LogEntry>, limit: int): (r: seq<LogEntry>)
    ensures limit >= 0 ==> |r| <= |h| && r == h[|h| - |r|..]
    ensures 0 < limit <= |h| ==> |r| == limit
    ensures limit == 0 ==> r == h
  {
    LastK(h, limit)
  }

  /** `calculate_grid_stats` with the history it leaves behind: when the base
      stats cannot be summed the safe stats come back and nothing is logged;
      otherwise the clamped, glyph-enhanced totals are returned and logged. */
  function CalculateGridStats(h: seq<LogEntry>, grid: GridData, timestamp: string): (r: (Totals, seq<LogEntry>))
    ensures AllInRange(r.0)
    ensures BaseStats(grid).None? ==> r == (SafeStats, h)
    ensures BaseStats(grid).Some? && NoActiveGlyphs(grid.glyphs) ==>
              r.0 == ValidateFinalStats(BaseStats(grid).value)
    ensures BaseStats(grid).Some? ==>
              |r.1| == (if |h| + 1 > HistoryCap then HistoryCap else |h| + 1) &&
              r.1[|r.1| - 1].final == r.0
  {
    match BaseStats(grid)
    case None => (SafeStats, h)
    case Some(base) =>
      var enhanced := ApplyGlyphEffects(base, grid.glyphs);
      var final := ValidateFinalStats(enhanced);
      var e := LogEntry(timestamp, |grid.pieces|, |grid.glyphs|, base, enhanced, final);
      (final, LogCalculation(h, e))
  }

  // ---------------------------------------------------------------------
  // Per-piece checks

  /** An integer stat value within [0, MAX_STAT_VALUE]. */
  predicate GoodValue(v: Val) {
    v.IntVal? && InRange(v.i)
  }

  function AllGood(stats: Dict<string, Val>): (r: bool)
    ensures r <==> forall i :: 0 <= i < |stats| ==> GoodValue(stats[i].1)
  {
    if |stats| == 0 then true
    else if !GoodValue(stats[0].1) then false
    else
      assert forall i :: 1 <= i < |stats| ==> stats[i] == stats[1..][i - 1];
      AllGood(stats[1..])
  }

  /** `validate_piece_stats`: false when the piece has more than 144 filled
      cells or any stat value is not an integer in [0, 10^11]. */
  function ValidatePieceStats(p: PieceData): (r: bool)
    ensures r <==> CountBlocks(p.shape) <= MaxPieceSize &&
                   forall i :: 0 <= i < |p.stats| ==> GoodValue(p.stats[i].1)
  {
    if CountBlocks(p.shape) > MaxPieceSize then false else AllGood(p.stats)
  }

  /** `sum(stats.values())`, which raises on a non-integer. */
  function SumValues(stats: Dict<string, Val>): (r: Option<int>)
    ensures r.Some? <==> forall i :: 0 <= i < |stats| ==> stats[i].1.IntVal?
    ensures (forall i :: 0 <= i < |stats| ==> GoodValue(stats[i].1)) ==>
              0 <= r.value <= |stats| * MaxStatValue
  {
    if |stats| == 0 then Some(0)
    else
      assert forall i :: 1 <= i < |stats| ==> stats[i] == stats[1..][i - 1];
      match stats[0].1
      case OtherVal => None
      case IntVal(v) =>
        var rest :- SumValues(stats[1..]);
        Some(v + rest)
  }

  /** `calculate_piece_power`: the stat sum capped at four times the stat
      limit, and 0 when the values cannot be summed. */
  function CalculatePiecePower(p: PieceData): (r: int)
    ensures r <= 4 * MaxStatValue
    ensures SumValues(p.stats).None? ==> r == 0
    ensures SumValues(p.stats).Some? && SumValues(p.stats).value <= 4 * MaxStatValue ==>
              r == SumValues(p.stats).value
  {
    match SumValues(p.stats)
    case None => 0
    case Some(total) => if total < 4 * MaxStatValue then total else 4 * MaxStatValue
  }

  /** A piece that passes validation has power in [0, 4·10^11], and with at
      most four stats its power is exactly its stat sum. */
  lemma ValidatedPower(p: PieceData)
    requires ValidatePieceStats(p)
    ensures 0 <= CalculatePiecePower(p) <= 4 * MaxStatValue
    ensures |p.stats| <= 4 ==> CalculatePiecePower(p) == SumValues(p.stats).value
  {
    assert SumValues(p.stats).Some?;
    if |p.stats| <= 4 {
      assert |p.stats| * MaxStatValue <= 4 * MaxStatValue;
    }
  }
}

=== FILE: stat_totals.dfy ===
/** The four stats the game totals, as in the dictionary
    `{'hp': …, 'attack': …, 'defense': …, 'speed': …}`. */
module StatTotals {

  datatype Totals = Totals(hp: int, attack: int, defense: int, speed: int)

  const Zero: Totals := Totals(0, 0, 0, 0)

  /** One of the four keys of a totals dictionary. */
  predicate KnownStat(k: string) {
    k == "hp" || k == "attack" || k == "defense" || k == "speed"
  }

  /** `t[k]` */
  function Stat(t: Totals, k: string): int
    requires KnownStat(k)
  {
    if k == "hp" then t.hp
    else if k == "attack" then t.attack
    else if k == "defense" then t.defense
    else t.speed
  }

  /** Key-wise sum of two totals. */
  function Plus(a: Totals, b: Totals): (r: Totals)
    ensures forall k :: KnownStat(k) ==> Stat(r, k) == Stat(a, k) + Stat(b, k)
  {
    Totals(a.hp + b.hp, a.attack + b.attack, a.defense + b.defense, a.speed + b.speed)
  }

  /** Totals holding `v` under key `k` and 0 under the other three. */
  function Single(k: string, v: int): (r: Totals)
    requires KnownStat(k)
    ensures Stat(r, k) == v
    ensures forall k' :: KnownStat(k') && k' != k ==> Stat(r, k') == 0
  {
    if k == "hp" then Totals(v, 0, 0, 0)
    else if k == "attack" then Totals(0, v, 0, 0)
    else if k == "defense" then Totals(0, 0, v, 0)
    else Totals(0, 0, 0, v)
  }

  lemma PlusAssoc(a: Totals, b: Totals, c: Totals)
    ensures Plus(Plus(a, b), c) == Plus(a, Plus(b, c))
  {
  }
}

=== FILE: strategies.dfy ===
/** The energy-strategy selector of the reasoning engine
    (core/reasoning/strategies.py): five fixed strategies, each applicable
    when all of its named conditions hold in the analyzer's context; the
    applicable ones are sorted by priority and the first is chosen. */
module Strategies {
  import opened Wrappers
  import opened PyText
  import opened StableSort
  import A = Analyzer
  import E = Energy

  datatype Strategy = Strategy(id: string, name: string, description: string, priority: nat,
                               conditions: seq<string>, actions: seq<string>)

  const Conservation := Strategy("conservation", "Energy Conservation",
    "Reduce energy consumption, optimize existing nodes", 1,
    ["high_consumption", "inefficient_usage"],
    ["optimize_nodes", "reduce_consumption", "monitor_efficiency"])
  const Expansion := Strategy("expansion", "Strategic Expansion",
    "Create new energy nodes in strategic locations", 2,
    ["low_coverage", "stable_consumption", "available_resources"],
    ["create_nodes", "strategic_placement", "monitor_effectiveness"])
  const Redistribution := Strategy("redistribution", "Energy Redistribution",
    "Move energy from low-priority to high-priority areas", 3,
    ["node_clustering", "coverage_gaps", "efficiency_issues"],
    ["reposition_nodes", "balance_distribution", "optimize_flow"])
  const CrisisResponse := Strategy("crisis_response", "Crisis Response",
    "Emergency node creation and system shutdown", 0,
    ["crisis_detected", "high_risk", "system_instability"],
    ["emergency_nodes", "system_shutdown", "stabilize_environment"])
  const Maintenance := Strategy("maintenance", "System Maintenance",
    "Monitor and maintain current energy distribution", 4,
    ["stable_system", "normal_operation", "no_issues"],
    ["monitor_status", "routine_checks", "maintain_balance"])

  /** The strategy table in its dictionary order. */
  const All: seq<Strategy> := [Conservation, Expansion, Redistribution, CrisisResponse, Maintenance]

  /** The table's priorities are 1, 2, 3, 0, 4: pairwise different. */
  lemma PrioritiesDistinct()
    ensures forall i, j :: 0 <= i < j < |All| ==> All[i].priority != All[j].priority
  {
  }

  /** The table's ids are pairwise different. */
  lemma IdsDistinct()
    ensures forall i, j :: 0 <= i < j < |All| ==> All[i].id != All[j].id
  {
  }

  /** Every strategy of the table has at least one condition. */
  lemma HasConditions()
    ensures forall st :: st in All ==> |st.conditions| > 0
  {
  }

  /** `_check_condition`: the fourteen named conditions read off the
      context; any other name is false. */
  function CheckCondition(condition: string, ctx: A.Analysis): bool {
    match condition
    case "high_consumption" => ctx.isCrisis || ctx.stability.score < 0.7
    case "inefficient_usage" => ctx.isInefficient
    case "low_coverage" => ctx.distribution.distributionScore < 0.5 || ctx.distribution.gapCount > 5
    case "stable_consumption" => !ctx.isCrisis && ctx.stability.level == A.Stable
    case "available_resources" => !ctx.isCrisis
    case "node_clustering" => ctx.distribution.clustered
    case "coverage_gaps" => ctx.distribution.gapCount > 0
    case "efficiency_issues" => |ctx.flowIssues| > 0
    case "crisis_detected" => ctx.isCrisis || ctx.riskLevel == A.High
    case "high_risk" => ctx.riskLevel == A.High || ctx.riskLevel == A.Medium
    case "system_instability" => ctx.stability.level == A.Unstable
    case "stable_system" => ctx.stability.level == A.Stable
    case "normal_operation" => !ctx.isCrisis && ctx.riskLevel == A.Low
    case "no_issues" => |ctx.flowIssues| == 0 && !ctx.isInefficient
    case _ => false
  }

  /** A name no strategy lists is never met. */
  lemma UnknownConditionFails(condition: string, ctx: A.Analysis)
    requires forall st :: st in All ==> condition !in st.conditions
    ensures !CheckCondition(condition, ctx)
  {
  }

  /** `_is_strategy_applicable`: the conditions are checked in order and
      the first failing one makes the strategy inapplicable. */
  function IsApplicable(conditions: seq<string>, ctx: A.Analysis): (r: bool)
    ensures r <==> forall i :: 0 <= i < |conditions| ==> CheckCondition(conditions[i], ctx)
  {
    if |conditions| == 0 then true
    else if !CheckCondition(conditions[0], ctx) then false
    else
      assert forall i :: 1 <= i < |conditions| ==> conditions[i] == conditions[1..][i - 1];
      IsApplicable(conditions[1..], ctx)
  }

  predicate Applies(st: Strategy, ctx: A.Analysis) {
    IsApplicable(st.conditions, ctx)
  }

  /** Crisis response needs an unstable system and maintenance a stable
      one, so the two never apply together. */
  lemma CrisisExcludesMaintenance(ctx: A.Analysis)
    ensures !(Applies(CrisisResponse, ctx) && Applies(Maintenance, ctx))
  {
    if Applies(CrisisResponse, ctx) {
      assert CheckCondition(CrisisResponse.conditions[2], ctx);
    }
  }

  /** The applicable strategies, in table order. */
  function Filter(sts: seq<Strategy>, ctx: A.Analysis): (r: seq<Strategy>)
    ensures |r| <= |sts|
    ensures forall st :: st in r <==> st in sts && Applies(st, ctx)
    ensures Distinct(sts) ==> Distinct(r)
  {
    if |sts| == 0 then []
    else
      assert forall st :: st in sts <==> st == sts[0] || st in sts[1..];
      assert Distinct(sts) ==> sts[0] !in sts[1..] && Distinct(sts[1..]);
      (if Applies(sts[0], ctx) then [sts[0]] else []) + Filter(sts[1..], ctx)
  }

  /** How many of the conditions hold. */
  function MatchedCount(conditions: seq<string>, ctx: A.Analysis): (n: nat)
    ensures n <= |conditions|
    ensures n == |conditions| <==> IsApplicable(conditions, ctx)
    ensures n == 0 <==> forall i :: 0 <= i < |conditions| ==> !CheckCondition(conditions[i], ctx)
  {
    if |conditions| == 0 then 0
    else
      assert forall i :: 1 <= i < |conditions| ==> conditions[i] == conditions[1..][i - 1];
      (if CheckCondition(conditions[0], ctx) then 1 else 0) + MatchedCount(conditions[1..], ctx)
  }

  /** `min(1.0, max(0.0, x))` */
  function Clamp(x: real): (r: real)
    ensures 0.0 <= r <= 1.0
    ensures 0.0 <= x <= 1.0 ==> r == x
    ensures x > 1.0 ==> r == 1.0
    ensures x < 0.0 ==> r == 0.0
  {
    if x > 1.0 then 1.0 else if x < 0.0 then 0.0 else x
  }

  /** The learning rate with its default 0.5. */
  function LearningRate(sys: A.SystemState): real {
    sys.learningRate.GetOr(0.5)
  }

  /** The share of a strategy's conditions that hold; 0.5 for a strategy
      without conditions. */
  function BaseConfidence(st: Strategy, ctx: A.Analysis): (b: real)
    ensures 0.0 <= b <= 1.0
    ensures |st.conditions| > 0 && Applies(st, ctx) ==> b == 1.0
    ensures |st.conditions| > 0 && MatchedCount(st.conditions, ctx) == 0 ==> b == 0.0
    ensures |st.conditions| == 0 ==> b == 0.5
  {
    if |st.conditions| > 0 then
      var m := MatchedCount(st.conditions, ctx) as real;
      ShareBounds(m, |st.conditions| as real);
      m / (|st.conditions| as real)
    else 0.5
  }

  lemma ShareBounds(m: real, n: real)
    requires 0.0 <= m <= n && n > 0.0
    ensures 0.0 <= m / n <= 1.0
    ensures m == n ==> m / n == 1.0
    ensures m == 0.0 ==> m / n == 0.0
  {
    assert m / n * n == m;
  }

  /** `_calculate_confidence`: the base share scaled by the learning rate,
      then clamped.  A fully met strategy's share is 1 and a wholly unmet
      one's is 0. */
  function Confidence(st: Strategy, ctx: A.Analysis, sys: A.SystemState): (c: real)
    ensures 0.0 <= c <= 1.0
    ensures |st.conditions| > 0 && Applies(st, ctx) ==> c == Clamp(0.5 + LearningRate(sys) * 0.5)
    ensures |st.conditions| > 0 && MatchedCount(st.conditions, ctx) == 0 ==> c == 0.0
    ensures |st.conditions| == 0 ==> c == Clamp(0.5 * (0.5 + LearningRate(sys) * 0.5))
  {
    Clamp(BaseConfidence(st, ctx) * (0.5 + LearningRate(sys) * 0.5))
  }

  const CrisisNote := "Crisis detected - immediate response required"
  const HighRiskNote := "High risk level requires emergency measures"
  const InefficientNote := "Inefficient energy usage detected"
  const StabilityNote := "System stability below optimal levels"
  const DistributionNote := "Poor node distribution detected"
  const GapsNote := "Multiple coverage gaps identified"
  const ClusteredNote := "Nodes are clustered - redistribution needed"
  const FlowNote := "Energy flow issues detected"
  const MaintenanceNote := "System operating normally - maintenance mode"
  const AdvancedNote := "High learning rate enables advanced strategies"
  const ConservativeNote := "Low learning rate - using conservative approach"
  const SelectedNote := "Strategy selected based on current conditions"
  const DefaultNote := "No specific conditions detected, defaulting to maintenance mode"

  /** The reasons `_generate_reasoning` gives for a strategy, chosen by its
      name. */
  function StrategyNotes(st: Strategy, ctx: A.Analysis): (r: seq<string>)
    ensures |r| <= 2
    ensures st.name == "System Maintenance" ==> r == [MaintenanceNote]
    ensures st.name == "Crisis Response" ==>
      (CrisisNote in r <==> ctx.isCrisis) && (HighRiskNote in r <==> ctx.riskLevel == A.High)
  {
    if st.name == "Crisis Response" then
      (if ctx.isCrisis then [CrisisNote] else []) + (if ctx.riskLevel == A.High then [HighRiskNote] else [])
    else if st.name == "Energy Conservation" then
      (if ctx.isInefficient then [InefficientNote] else [])
      + (if ctx.stability.score < 0.7 then [StabilityNote] else [])
    else if st.name == "Strategic Expansion" then
      (if ctx.distribution.distributionScore < 0.5 then [DistributionNote] else [])
      + (if ctx.distribution.gapCount > 5 then [GapsNote] else [])
    else if st.name == "Energy Redistribution" then
      (if ctx.distribution.clustered then [ClusteredNote] else [])
      + (if |ctx.flowIssues| > 0 then [FlowNote] else [])
    else if st.name == "System Maintenance" then [MaintenanceNote]
    else []
  }

  function LearningNotes(sys: A.SystemState): seq<string> {
    if LearningRate(sys) > 0.7 then [AdvancedNote]
    else if LearningRate(sys) < 0.3 then [ConservativeNote]
    else []
  }

  /** `_generate_reasoning`: the strategy's notes and the learning-rate
      note joined by "; ", or the generic sentence when there are none. */
  function Reasoning(st: Strategy, ctx: A.Analysis, sys: A.SystemState): (r: string)
    ensures |r| > 0
    ensures var parts := StrategyNotes(st, ctx) + LearningNotes(sys);
      && (parts == [] ==> r == SelectedNote)
      && (parts != [] ==> parts[0] <= r)
  {
    var parts := StrategyNotes(st, ctx) + LearningNotes(sys);
    if parts == [] then SelectedNote
    else
      JoinStartsWith(parts, "; ");
      assert |parts[0]| > 0 by {
        assert parts[0] in StrategyNotes(st, ctx) || parts[0] in LearningNotes(sys);
      }
      Join(parts, "; ")
  }

  function Priority(st: Strategy): int {
    st.priority
  }

  /** A sorted list without repeats, drawn from a table whose priorities
      differ, is strictly ordered by priority. */
  lemma StrictlyRanked(sorted: seq<Strategy>, table: seq<Strategy>)
    requires SortedBy(sorted, Priority) && Distinct(sorted)
    requires forall st :: st in sorted ==> st in table
    requires forall i, j :: 0 <= i < j < |table| ==> table[i].priority != table[j].priority
    ensures forall i, j :: 0 <= i < j < |sorted| ==> sorted[i].priority < sorted[j].priority
  {
    forall i, j | 0 <= i < j < |sorted| ensures sorted[i].priority < sorted[j].priority {
      assert Priority(sorted[i]) <= Priority(sorted[j]);
      assert sorted[i] in table && sorted[j] in table;
      var a :| 0 <= a < |table| && table[a] == sorted[i];
      var b :| 0 <= b < |table| && table[b] == sorted[j];
    }
  }

  /** Sorting the applicable entries of a table whose priorities differ
      orders them strictly by priority. */
  lemma RankedFacts(table: seq<Strategy>, ctx: A.Analysis)
    requires forall i, j :: 0 <= i < j < |table| ==> table[i].priority != table[j].priority
    ensures var sorted := SortBy(Filter(table, ctx), Priority);
      && |sorted| == |Filter(table, ctx)|
      && (forall st :: st in sorted <==> st in table && Applies(st, ctx))
      && (forall i, j :: 0 <= i < j < |sorted| ==> sorted[i].priority < sorted[j].priority)
  {
    var app := Filter(table, ctx);
    var sorted := SortBy(app, Priority);
    assert Distinct(table);
    SortKeeps(app, Priority);
    SortBySorted(app, Priority);
    PermDistinct(app, sorted);
    StrictlyRanked(sorted, table);
  }

  /** The applicable strategies after the priority sort of
      `select_strategy`: exactly the applicable ones, in strictly
      increasing priority. */
  function Ranked(ctx: A.Analysis): (sorted: seq<Strategy>)
    ensures |sorted| == |Filter(All, ctx)|
    ensures forall st :: st in sorted <==> st in All && Applies(st, ctx)
    ensures forall i, j :: 0 <= i < j < |sorted| ==> sorted[i].priority < sorted[j].priority
  {
    PrioritiesDistinct();
    RankedFacts(All, ctx);
    SortBy(Filter(All, ctx), Priority)
  }

  function Ids(sts: seq<Strategy>): (r: seq<string>)
    ensures |r| == |sts| && forall i :: 0 <= i < |sts| ==> r[i] == sts[i].id
  {
    if |sts| == 0 then [] else [sts[0].id] + Ids(sts[1..])
  }

  /** The head of a strictly ranked list beats every other member. */
  lemma FirstIsBest(sorted: seq<Strategy>, table: seq<Strategy>, ctx: A.Analysis)
    requires |sorted| > 0
    requires forall st :: st in sorted <==> st in table && Applies(st, ctx)
    requires forall i, j :: 0 <= i < j < |sorted| ==> sorted[i].priority < sorted[j].priority
    ensures forall st :: st in table && Applies(st, ctx) && st != sorted[0] ==> sorted[0].priority < st.priority
  {
    forall st | st in table && Applies(st, ctx) && st != sorted[0] ensures sorted[0].priority < st.priority {
      var k :| 0 <= k < |sorted| && sorted[k] == st;
    }
  }

  /** The head's id is not among the ids of the members after it. */
  lemma FirstNotAlternative(sorted: seq<Strategy>, table: seq<Strategy>, k: nat)
    requires 1 <= k <= |sorted|
    requires forall st :: st in sorted ==> st in table
    requires forall i, j :: 0 <= i < j < |table| ==> table[i].id != table[j].id
    requires forall i, j :: 0 <= i < j < |sorted| ==> sorted[i].priority < sorted[j].priority
    ensures sorted[0].id !in Ids(sorted[1..k])
  {
    var alts := Ids(sorted[1..k]);
    forall i | 0 <= i < |alts| ensures alts[i] != sorted[0].id {
      assert alts[i] == sorted[i + 1].id;
      assert sorted[i + 1] in table && sorted[0] in table;
      var a :| 0 <= a < |table| && table[a] == sorted[0];
      var b :| 0 <= b < |table| && table[b] == sorted[i + 1];
    }
  }

  predicate NoneApplies(ctx: A.Analysis) {
    forall st :: st in All ==> !Applies(st, ctx)
  }

  /** `applicable_strategies[1:3]`: the ids ranked just after the head,
      never the head's own. */
  function Alternatives(ctx: A.Analysis): (alts: seq<string>)
    requires |Ranked(ctx)| > 0
    ensures |alts| == (if |Ranked(ctx)| >= 3 then 2 else |Ranked(ctx)| - 1)
    ensures alts == Ids(Ranked(ctx)[1..1 + |alts|])
    ensures Ranked(ctx)[0].id !in alts
  {
    var ranked := Ranked(ctx);
    var k := if |ranked| >= 3 then 3 else |ranked|;
    IdsDistinct();
    FirstNotAlternative(ranked, All, k);
    Ids(ranked[1..k])
  }

  datatype Selection = Selection(strategyId: string, strategy: Strategy, confidence: real,
                                 reasoning: string, alternatives: Option<seq<string>>)

  /** `select_strategy`.  With nothing applicable: maintenance at
      confidence 0.5 and no alternatives.  Otherwise the applicable
      strategy of smallest priority, at the confidence of a fully met
      strategy, with the next at most two applicable ids, in priority
      order, as alternatives. */
  function SelectStrategy(ctx: A.Analysis, sys: A.SystemState): (r: Selection)
    ensures NoneApplies(ctx) ==> r == Selection("maintenance", Maintenance, 0.5, DefaultNote, None)
    ensures !NoneApplies(ctx) ==>
      && r.strategy in All && Applies(r.strategy, ctx) && r.strategyId == r.strategy.id
      && (forall st :: st in All && Applies(st, ctx) && st != r.strategy ==> r.strategy.priority < st.priority)
      && r.confidence == Clamp(0.5 + LearningRate(sys) * 0.5)
      && r.reasoning == Reasoning(r.strategy, ctx, sys)
      && r.alternatives.Some?
      && |r.alternatives.value| == (if |Ranked(ctx)| >= 3 then 2 else |Ranked(ctx)| - 1)
      && r.alternatives.value == Ids(Ranked(ctx)[1..1 + |r.alternatives.value|])
      && r.strategyId !in r.alternatives.value
  {
    var ranked := Ranked(ctx);
    if |ranked| == 0 then
      assert NoneApplies(ctx) by {
        forall st | st in All ensures !Applies(st, ctx) {
          assert st !in ranked;
        }
      }
      Selection("maintenance", Maintenance, 0.5, DefaultNote, None)
    else
      var sel := ranked[0];
      assert sel in ranked;
      FirstIsBest(ranked, All, ctx);
      HasConditions();
      Selection(sel.id, sel, Confidence(sel, ctx, sys), Reasoning(sel, ctx, sys), Some(Alternatives(ctx)))
  }

  /** Crisis response, of priority 0, is chosen whenever it applies. */
  lemma CrisisWins(ctx: A.Analysis, sys: A.SystemState)
    requires Applies(CrisisResponse, ctx)
    ensures SelectStrategy(ctx, sys).strategyId == "crisis_response"
  {
    assert CrisisResponse in All;
  }

  /** Fed by the analyzer, a crisis in an unstable system always selects
      crisis response: the crisis makes the risk at least medium. */
  lemma CrisisSelected(s: E.Status, sys: A.SystemState, measured: A.Distribution)
    requires A.Analyze(s, sys, measured).Ok?
    requires A.DetectCrisis(s) && A.AssessStability(s).level == A.Unstable
    ensures SelectStrategy(A.Analyze(s, sys, measured).value, sys).strategyId == "crisis_response"
  {
    A.CrisisIsRisky(s, sys);
    CrisisContext(A.Analyze(s, sys, measured).value, sys);
  }

  /** A crisis with some risk in an unstable system selects crisis response. */
  lemma CrisisContext(ctx: A.Analysis, sys: A.SystemState)
    requires ctx.isCrisis && (ctx.riskLevel == A.High || ctx.riskLevel == A.Medium) && ctx.stability.level == A.Unstable
    ensures SelectStrategy(ctx, sys).strategyId == "crisis_response"
  {
    assert CheckCondition("crisis_detected", ctx);
    assert CheckCondition("high_risk", ctx);
    assert CheckCondition("system_instability", ctx);
    assert Applies(CrisisResponse, ctx);
    CrisisWins(ctx, sys);
  }

  datatype Effectiveness = Effectiveness(immediate: real, longTerm: real)

  /** `_estimate_effectiveness`: the table's estimates, and 0.5 / 0.5 for
      an unknown id. */
  function EstimateEffectiveness(id: string): (e: Effectiveness)
    ensures (forall st :: st in All ==> st.id != id) ==> e == Effectiveness(0.5, 0.5)
    ensures 0.0 < e.immediate < 1.0 && 0.0 < e.longTerm < 1.0
  {
    match id
    case "crisis_response" => Effectiveness(0.9, 0.7)
    case "conservation" => Effectiveness(0.6, 0.8)
    case "expansion" => Effectiveness(0.4, 0.9)
    case "redistribution" => Effectiveness(0.7, 0.8)
    case "maintenance" => Effectiveness(0.8, 0.9)
    case _ => Effectiveness(0.5, 0.5)
  }

  /** Crisis response is the one strategy rated better now than in the
      long run. */
  lemma OnlyCrisisFavoursNow()
    ensures forall i :: 0 <= i < |All| ==>
      (EstimateEffectiveness(All[i].id).immediate > EstimateEffectiveness(All[i].id).longTerm
       <==> All[i] == CrisisResponse)
  {
  }

  /** The table entry with the given id. */
  function Lookup(id: string): (r: Option<Strategy>)
    ensures r.None? <==> forall st :: st in All ==> st.id != id
    ensures r.Some? ==> r.value in All && r.value.id == id
  {
    LookupIn(All, id)
  }

  function LookupIn(table: seq<Strategy>, id: string): (r: Option<Strategy>)
    ensures r.None? <==> forall st :: st in table ==> st.id != id
    ensures r.Some? ==> r.value in table && r.value.id == id
  {
    if |table| == 0 then None
    else if table[0].id == id then Some(table[0])
    else
      assert forall st :: st in table <==> st == table[0] || st in table[1..];
      LookupIn(table[1..], id)
  }

  datatype Details = Details(id: string, name: string, description: string, priority: nat,
                             conditions: seq<string>, actions: seq<string>, estimatedEffectiveness: Effectiveness)

  function DetailsOf(st: Strategy): Details {
    Details(st.id, st.name, st.description, st.priority, st.conditions, st.actions, EstimateEffectiveness(st.id))
  }

  /** `get_strategy_details`: nothing (the empty dictionary) for an
      unknown id, otherwise the entry's fields and its estimate. */
  function GetStrategyDetails(id: string): (r: Option<Details>)
    ensures r.None? <==> forall st :: st in All ==> st.id != id
    ensures r.Some? ==> exists st :: st in All && st.id == id && r.value == DetailsOf(st)
  {
    match Lookup(id)
    case None => None
    case Some(st) => Some(DetailsOf(st))
  }

  /** Asking for a table entry's details by its own id gives that entry
      back. */
  lemma DetailsOfEntry(st: Strategy)
    requires st in All
    ensures GetStrategyDetails(st.id) == Some(DetailsOf(st))
  {
    IdsDistinct();
    var other :| other in All && other.id == st.id && GetStrategyDetails(st.id) == Some(DetailsOf(other));
    var a :| 0 <= a < |All| && All[a] == st;
    var b :| 0 <= b < |All| && All[b] == other;
  }
}

=== FILE: upgrade_grid.dfy ===
/** The mecha upgrade grid: a square board whose cells are empty or hold the
    id of the piece covering them, with stat pieces and glyphs kept in two
    insertion-ordered dictionaries keyed by piece id.  A cell is written
    `(x, y)`, column first, as the game code indexes `grid[y][x]`. */
module UpgradeGrid {
  import opened Wrappers
  import opened Dicts
  import opened StatTotals

  /** The grid never grows beyond 18 × 18. */
  const MaxSize: int := 18

  /** Rows of booleans; `s[dy][dx]` is true where the piece has a block. */
  type Shape = seq<seq<bool>>

  type Cell = (int, int)

  datatype Piece = Piece(id: string, kind: string, shape: Shape,
                         stats: Dict<string, int>, position: Cell, rotation: int)

  datatype Grid = Grid(size: int, occ: map<Cell, string>,
                       pieces: Dict<string, Piece>, glyphs: Dict<string, Piece>)

  /** Every occupied cell is on the board and the dictionaries have unique keys. */
  ghost predicate Wf(g: Grid) {
    Valid(g.pieces) && Valid(g.glyphs) &&
    forall c :: c in g.occ ==> 0 <= c.0 < g.size && 0 <= c.1 < g.size
  }

  /** A shape the placement check can measure: at least one row, and every row
      as wide as the first (the width is read from the first row). */
  predicate Rect(s: Shape) {
    |s| >= 1 && forall dy :: 0 <= dy < |s| ==> |s[dy]| == |s[0]|
  }

  /** Cell `c` is under a filled entry of `s` placed with its top-left corner at `at`. */
  predicate Covers(s: Shape, at: Cell, c: Cell) {
    0 <= c.1 - at.1 < |s| && 0 <= c.0 - at.0 < |s[c.1 - at.1]| && s[c.1 - at.1][c.0 - at.0]
  }

  /** The shape lies inside a board of side `size`. */
  predicate Fits(s: Shape, at: Cell, size: int)
    requires |s| >= 1
  {
    at.0 + |s[0]| <= size && at.1 + |s| <= size
  }

  /** `GridSystem(initial_size)`: an empty board of side min(initial_size, 18). */
  function New(initial: int): (g: Grid)
    ensures Wf(g)
    ensures g.size <= MaxSize && (initial <= MaxSize ==> g.size == initial)
    ensures forall c :: c !in g.occ
    ensures |g.pieces| == 0 && |g.glyphs| == 0
  {
    Grid(if initial < MaxSize then initial else MaxSize, map[], [], [])
  }

  // ---------------------------------------------------------------------
  // Footprints: the absolute cells the nested row/column loops visit.

  /** The filled cells of `row`, the row `y` of the board, from column offset `dx` on. */
  function RowFootprint(row: seq<bool>, x: int, y: int, dx: nat): (cs: seq<Cell>)
    ensures forall c :: c in cs <==> c.1 == y && dx <= c.0 - x < |row| && row[c.0 - x]
    decreases |row| - dx
  {
    if dx >= |row| then []
    else if row[dx] then [(x + dx, y)] + RowFootprint(row, x, y, dx + 1)
    else RowFootprint(row, x, y, dx + 1)
  }

  /** The filled cells of the rows `dy..` of `s` placed at `at`, row by row. */
  function Footprint(s: Shape, at: Cell, dy: nat): (cs: seq<Cell>)
    ensures forall c :: c in cs <==> dy <= c.1 - at.1 && Covers(s, at, c)
    decreases |s| - dy
  {
    if dy >= |s| then []
    else RowFootprint(s[dy], at.0, at.1 + dy, 0) + Footprint(s, at, dy + 1)
  }

  /** The loop of `can_place_piece` over the listed cells: none is occupied. */
  function AllFree(occ: map<Cell, string>, cs: seq<Cell>): (r: bool)
    ensures r <==> forall c :: c in cs ==> c !in occ
  {
    if |cs| == 0 then true
    else if cs[0] in occ then false
    else AllFree(occ, cs[1..])
  }

  /** Writes `id` into every listed cell. */
  function Write(occ: map<Cell, string>, cs: seq<Cell>, id: string): (r: map<Cell, string>)
    ensures forall c :: c in r <==> c in occ || c in cs
    ensures forall c :: c in r ==> r[c] == if c in cs then id else occ[c]
    decreases |cs|
  {
    if |cs| == 0 then occ else Write(occ[cs[0] := id], cs[1..], id)
  }

  /** Empties every listed cell that holds `id`; other cells are untouched. */
  function Clear(occ: map<Cell, string>, cs: seq<Cell>, id: string): (r: map<Cell, string>)
    ensures forall c :: c in r <==> c in occ && !(c in cs && occ[c] == id)
    ensures forall c :: c in r ==> r[c] == occ[c]
  {
    if |cs| == 0 then occ
    else if cs[0] in occ && occ[cs[0]] == id then Clear(occ - {cs[0]}, cs[1..], id)
    else Clear(occ, cs[1..], id)
  }

  /** Clearing what was just written onto free cells restores the occupancy. */
  lemma WriteThenClear(occ: map<Cell, string>, cs: seq<Cell>, id: string)
    requires forall c :: c in cs ==> c !in occ
    ensures Clear(Write(occ, cs, id), cs, id) == occ
  {
    var w := Write(occ, cs, id);
    var r := Clear(w, cs, id);
    assert forall c :: c in r <==> c in occ;
    assert forall c :: c in r ==> r[c] == occ[c];
  }

  /** Writing back cells that held `id` before they were cleared restores the occupancy. */
  lemma ClearThenWrite(occ: map<Cell, string>, cs: seq<Cell>, id: string)
    requires forall c :: c in cs ==> c in occ && occ[c] == id
    ensures Write(Clear(occ, cs, id), cs, id) == occ
  {
    var r := Write(Clear(occ, cs, id), cs, id);
    assert forall c :: c in r <==> c in occ;
    assert forall c :: c in r ==> r[c] == occ[c];
  }

  // ---------------------------------------------------------------------
  // Placement

  /** `can_place_piece`: the shape fits on the board and none of its filled
      cells is occupied. */
  function CanPlacePiece(g: Grid, s: Shape, at: Cell): (r: bool)
    requires Rect(s) && at.0 >= 0 && at.1 >= 0
    ensures r <==> Fits(s, at, g.size) && forall c :: Covers(s, at, c) ==> c !in g.occ
  {
    if at.0 + |s[0]| > g.size || at.1 + |s| > g.size then false
    else AllFree(g.occ, Footprint(s, at, 0))
  }

  /** `place_piece`: on success the piece's id is written under its filled
      cells, its position is recorded, and it is stored among the glyphs when
      its type is "glyph" and among the pieces otherwise. */
  function PlacePiece(g: Grid, p: Piece, at: Cell): (r: (Grid, bool))
    requires Valid(g.pieces) && Valid(g.glyphs)
    requires Rect(p.shape) && at.0 >= 0 && at.1 >= 0
    ensures r.1 <==> Fits(p.shape, at, g.size) && forall c :: Covers(p.shape, at, c) ==> c !in g.occ
    ensures !r.1 ==> r.0 == g
    ensures r.1 ==> r.0.size == g.size && r.0.occ == Write(g.occ, Footprint(p.shape, at, 0), p.id)
    ensures r.1 ==> forall c :: c in r.0.occ <==> c in g.occ || Covers(p.shape, at, c)
    ensures r.1 ==> forall c :: c in r.0.occ ==>
                      r.0.occ[c] == if Covers(p.shape, at, c) then p.id else g.occ[c]
    ensures r.1 && p.kind == "glyph" ==>
              Get(r.0.glyphs, p.id) == Some(p.(position := at)) && r.0.pieces == g.pieces &&
              forall k :: k != p.id ==> Get(r.0.glyphs, k) == Get(g.glyphs, k)
    ensures r.1 && p.kind != "glyph" ==>
              Get(r.0.pieces, p.id) == Some(p.(position := at)) && r.0.glyphs == g.glyphs &&
              forall k :: k != p.id ==> Get(r.0.pieces, k) == Get(g.pieces, k)
    ensures Wf(g) ==> Wf(r.0)
  {
    if !CanPlacePiece(g, p.shape, at) then (g, false)
    else
      var occ := Write(g.occ, Footprint(p.shape, at, 0), p.id);
      var q := p.(position := at);
      if p.kind == "glyph" then (g.(occ := occ, glyphs := Put(g.glyphs, p.id, q)), true)
      else (g.(occ := occ, pieces := Put(g.pieces, p.id, q)), true)
  }

  /** `self.pieces.get(id) or self.glyphs.get(id)`: the stat piece wins when
      the id is in both dictionaries. */
  function Lookup(g: Grid, id: string): (r: Option<Piece>)
    ensures r.Some? <==> HasKey(g.pieces, id) || HasKey(g.glyphs, id)
    ensures HasKey(g.pieces, id) ==> r == Get(g.pieces, id)
    ensures !HasKey(g.pieces, id) ==> r == Get(g.glyphs, id)
  {
    match Get(g.pieces, id)
    case Some(p) => Some(p)
    case None => Get(g.glyphs, id)
  }

  /** `remove_piece`: false for an unknown id; otherwise the cells under the
      stored piece that still hold its id are emptied and the id leaves both
      dictionaries. */
  function RemovePiece(g: Grid, id: string): (r: (Grid, bool))
    requires Valid(g.pieces) && Valid(g.glyphs)
    ensures r.1 <==> Lookup(g, id).Some?
    ensures !r.1 ==> r.0 == g
    ensures r.1 ==> r.0.size == g.size
    ensures r.1 ==> var p := Lookup(g, id).value; r.0.occ == Clear(g.occ, Footprint(p.shape, p.position, 0), id)
    ensures r.1 ==> var p := Lookup(g, id).value;
              forall c :: c in r.0.occ <==> c in g.occ && !(Covers(p.shape, p.position, c) && g.occ[c] == id)
    ensures r.1 ==> forall c :: c in r.0.occ ==> r.0.occ[c] == g.occ[c]
    ensures r.1 ==> Get(r.0.pieces, id) == None && Get(r.0.glyphs, id) == None
    ensures forall k :: k != id ==> Get(r.0.pieces, k) == Get(g.pieces, k) && Get(r.0.glyphs, k) == Get(g.glyphs, k)
    ensures Valid(r.0.pieces) && Valid(r.0.glyphs)
    ensures Wf(g) ==> Wf(r.0)
  {
    match Lookup(g, id)
    case None => (g, false)
    case Some(p) =>
      var occ := Clear(g.occ, Footprint(p.shape, p.position, 0), id);
      (Grid(g.size, occ, Remove(g.pieces, id), Remove(g.glyphs, id)), true)
  }

  /** A piece placed under a fresh id is what a lookup of that id finds. */
  lemma PlaceFinds(g: Grid, p: Piece, at: Cell)
    requires Valid(g.pieces) && Valid(g.glyphs)
    requires Rect(p.shape) && at.0 >= 0 && at.1 >= 0
    requires Lookup(g, p.id).None?
    requires PlacePiece(g, p, at).1
    ensures Lookup(PlacePiece(g, p, at).0, p.id) == Some(p.(position := at))
  {
    var g2 := PlacePiece(g, p, at).0;
    if p.kind == "glyph" {
      assert !HasKey(g2.pieces, p.id);
    }
  }

  /** Placing a piece whose id is not yet stored and then removing it gives
      back the same occupancy and the same dictionary contents. */
  lemma PlaceThenRemove(g: Grid, p: Piece, at: Cell)
    requires Valid(g.pieces) && Valid(g.glyphs)
    requires Rect(p.shape) && at.0 >= 0 && at.1 >= 0
    requires Lookup(g, p.id).None?
    requires PlacePiece(g, p, at).1
    ensures var g2 := PlacePiece(g, p, at).0;
            RemovePiece(g2, p.id).1 &&
            RemovePiece(g2, p.id).0.occ == g.occ &&
            RemovePiece(g2, p.id).0.size == g.size &&
            forall k :: Get(RemovePiece(g2, p.id).0.pieces, k) == Get(g.pieces, k) &&
                        Get(RemovePiece(g2, p.id).0.glyphs, k) == Get(g.glyphs, k)
  {
    var g2 := PlacePiece(g, p, at).0;
    PlaceFinds(g, p, at);
    var cs := Footprint(p.shape, at, 0);
    WriteThenClear(g.occ, cs, p.id);
    var g3 := RemovePiece(g2, p.id).0;
    assert g3.occ == g.occ;
    forall k
      ensures Get(g3.pieces, k) == Get(g.pieces, k) && Get(g3.glyphs, k) == Get(g.glyphs, k)
    {
      if k == p.id {
        assert Get(g.pieces, k) == None && Get(g.glyphs, k) == None;
      }
    }
  }

  // ---------------------------------------------------------------------
  // Rotation

  /** Clockwise quarter turn, `new[x][rows - 1 - y] = old[y][x]`: entry
      (x, j) of the result is entry (rows - 1 - j, x) of the original. */
  function RotateShape(s: Shape): (r: Shape)
    requires Rect(s) && |s[0]| >= 1
    ensures Rect(r) && |r| == |s[0]| && |r[0]| == |s|
    ensures forall x, j :: 0 <= x < |s[0]| && 0 <= j < |s| ==> r[x][j] == s[|s| - 1 - j][x]
  {
    var rows, cols := |s|, |s[0]|;
    seq(cols, x requires 0 <= x < cols =>
      seq(rows, j requires 0 <= j < rows => s[rows - 1 - j][x]))
  }

  /** Two quarter turns map entry (i, j) to (rows-1-i, cols-1-j). */
  lemma RotateTwice(s: Shape)
    requires Rect(s) && |s[0]| >= 1
    ensures var t := RotateShape(RotateShape(s));
            Rect(t) && |t| == |s| && |t[0]| == |s[0]| &&
            forall i, j :: 0 <= i < |s| && 0 <= j < |s[0]| ==> t[i][j] == s[|s| - 1 - i][|s[0]| - 1 - j]
  {
    var r := RotateShape(s);
    var t := RotateShape(r);
    forall i, j | 0 <= i < |s| && 0 <= j < |s[0]|
      ensures t[i][j] == s[|s| - 1 - i][|s[0]| - 1 - j]
    {
      assert t[i][j] == r[|r| - 1 - j][i];
    }
  }

  /** Four quarter turns give back the original shape. */
  lemma RotateFour(s: Shape)
    requires Rect(s) && |s[0]| >= 1
    ensures RotateShape(RotateShape(RotateShape(RotateShape(s)))) == s
  {
    var t := RotateShape(RotateShape(s));
    RotateTwice(s);
    RotateTwice(t);
    var u := RotateShape(RotateShape(t));
    assert |u| == |s|;
    forall i | 0 <= i < |s|
      ensures u[i] == s[i]
    {
      assert |u[i]| == |s[i]|;
      forall j | 0 <= j < |s[i]|
        ensures u[i][j] == s[i][j]
      {
        assert u[i][j] == t[|s| - 1 - i][|s[0]| - 1 - j];
      }
    }
  }

  /** The piece after one turn: rotated shape, rotation advanced by 90 modulo 360. */
  function Turned(p: Piece): (q: Piece)
    requires Rect(p.shape) && |p.shape[0]| >= 1
    ensures Rect(q.shape) && |q.shape[0]| >= 1
    ensures 0 <= q.rotation < 360
    ensures q == p.(shape := q.shape, rotation := q.rotation)
  {
    p.(shape := RotateShape(p.shape), rotation := (p.rotation + 90) % 360)
  }

  /** Four successful turns restore the shape and the rotation (taken modulo 360). */
  lemma FourTurns(p: Piece)
    requires Rect(p.shape) && |p.shape[0]| >= 1
    ensures Turned(Turned(Turned(Turned(p)))) == p.(rotation := p.rotation % 360)
  {
    var q := Turned(Turned(Turned(Turned(p))));
    assert q.shape == RotateShape(RotateShape(RotateShape(RotateShape(p.shape))));
    RotateFour(p.shape);
    FourQuarters(p.rotation);
  }

  /** Adding 90 four times modulo 360 comes back to the start. */
  lemma FourQuarters(r: int)
    ensures ((((r + 90) % 360 + 90) % 360 + 90) % 360 + 90) % 360 == r % 360
  {
    QuarterMod(r);
    QuarterMod(r + 90);
    QuarterMod(r + 180);
    QuarterMod(r + 270);
    assert (r + 360) % 360 == r % 360;
  }

  lemma QuarterMod(x: int)
    ensures (x % 360 + 90) % 360 == (x + 90) % 360
  {
  }

  /** The stored piece `id` can be handed to the turn: its shape has a first
      row and its position is non-negative. */
  predicate Turnable(g: Grid, id: string) {
    match Lookup(g, id)
    case None => true
    case Some(p) => Rect(p.shape) && p.position.0 >= 0 && p.position.1 >= 0
  }

  /** `rotate_piece`: the piece is lifted off the board and turned; when the
      turned shape fits at the same position it is placed and the result is
      true, otherwise the old shape is placed again with the rotation undone
      and the result is false. A piece whose rows are empty turns into the
      empty shape, and measuring its first row raises IndexError after the
      piece has already been lifted off: it stays off the board and out of
      both dictionaries. */
  function RotatePiece(g: Grid, id: string): (r: (Grid, Result<bool>))
    requires Valid(g.pieces) && Valid(g.glyphs) && Turnable(g, id)
    ensures Lookup(g, id).None? ==> r == (g, Ok(false))
    ensures r.1 == Ok(true) ==> Lookup(g, id).Some?
    ensures r.1.Err? <==> Lookup(g, id).Some? && |Lookup(g, id).value.shape[0]| == 0
    ensures r.1.Err? ==> r.1.error == "IndexError" && r.0 == RemovePiece(g, id).0 && Lookup(r.0, id).None?
    ensures Valid(r.0.pieces) && Valid(r.0.glyphs) && r.0.size == g.size
    ensures Wf(g) ==> Wf(r.0)
  {
    match Lookup(g, id)
    case None => (g, Ok(false))
    case Some(p) => RotateFound(g, id, p)
  }

  /** The piece put back after a turn that does not fit: the old shape and
      the rotation stepped back by 90 modulo 360. */
  function Reverted(p: Piece): Piece
    requires Rect(p.shape) && |p.shape[0]| >= 1
  {
    var q := Turned(p);
    q.(shape := p.shape, rotation := (q.rotation - 90) % 360)
  }

  /** The body of `rotate_piece` once the piece `p` stored under `id` is found. */
  function RotateFound(g: Grid, id: string, p: Piece): (r: (Grid, Result<bool>))
    requires Valid(g.pieces) && Valid(g.glyphs)
    requires Rect(p.shape) && p.position.0 >= 0 && p.position.1 >= 0
    ensures r.1.Err? <==> |p.shape[0]| == 0
    ensures r.1.Err? ==> r.1.error == "IndexError" && r.0 == RemovePiece(g, id).0
    ensures Valid(r.0.pieces) && Valid(r.0.glyphs) && r.0.size == g.size
    ensures Wf(g) ==> Wf(r.0)
  {
    var g1 := RemovePiece(g, id).0;
    if |p.shape[0]| == 0 then (g1, Err("IndexError"))
    else if CanPlacePiece(g1, Turned(p).shape, p.position) then
      (PlacePiece(g1, Turned(p), p.position).0, Ok(true))
    else
      (PlacePiece(g1, Reverted(p), p.position).0, Ok(false))
  }

  /** Advancing a rotation by 90 and then going back by 90, both modulo 360,
      gives the rotation modulo 360. */
  lemma UndoQuarter(rot: int)
    ensures ((rot + 90) % 360 - 90) % 360 == rot % 360
  {
    var m := rot % 360;
    assert rot == 360 * (rot / 360) + m;
    assert (rot + 90) % 360 == (m + 90) % 360;
    if m < 270 {
      assert (m + 90) % 360 == m + 90;
    } else {
      assert (m + 90) % 360 == m - 270;
      assert (m - 360) % 360 == m;
    }
  }

  /** The piece restored after a failed turn is the original with its
      rotation taken modulo 360. */
  lemma TurnBack(p: Piece)
    requires Rect(p.shape) && |p.shape[0]| >= 1
    ensures Reverted(p).(position := p.position) == p.(rotation := p.rotation % 360)
  {
    UndoQuarter(p.rotation);
  }

  /** A turn that fits stores the turned piece, puts its id under every
      cell of the turned shape, and leaves every cell outside both the old
      and the new shape as it was. */
  lemma RotateTurns(g: Grid, id: string)
    requires Valid(g.pieces) && Valid(g.glyphs) && Turnable(g, id)
    requires Lookup(g, id).Some? && Lookup(g, id).value.id == id
    requires RotatePiece(g, id).1 == Ok(true)
    ensures var p := Lookup(g, id).value;
            var q := Turned(p);
            var r := RotatePiece(g, id).0;
            Lookup(r, id) == Some(q) &&
            (forall c :: Covers(q.shape, p.position, c) ==> c in r.occ && r.occ[c] == id) &&
            (forall c :: !Covers(q.shape, p.position, c) && !Covers(p.shape, p.position, c) ==>
                           (c in r.occ <==> c in g.occ) && (c in r.occ ==> r.occ[c] == g.occ[c]))
  {
    var p := Lookup(g, id).value;
    assert RotatePiece(g, id) == RotateFound(g, id, p);
    var g1 := RemovePiece(g, id).0;
    var q := Turned(p);
    assert Lookup(g1, id).None?;
    PlaceFinds(g1, q, p.position);
  }

  /** A turn that does not fit changes nothing that can be observed: when the
      piece is stored under its own id and every cell under it holds that id,
      the occupancy is the same afterwards and the stored piece has its old
      shape and its rotation taken modulo 360. */
  lemma RotateRevert(g: Grid, id: string)
    requires Valid(g.pieces) && Valid(g.glyphs) && Turnable(g, id)
    requires Lookup(g, id).Some? && Lookup(g, id).value.id == id
    requires var p := Lookup(g, id).value;
             Fits(p.shape, p.position, g.size) &&
             forall c :: Covers(p.shape, p.position, c) ==> c in g.occ && g.occ[c] == id
    requires RotatePiece(g, id).1 == Ok(false)
    ensures var p := Lookup(g, id).value;
            RotatePiece(g, id).0.occ == g.occ &&
            Lookup(RotatePiece(g, id).0, id) == Some(p.(rotation := p.rotation % 360))
  {
    var p := Lookup(g, id).value;
    assert RotatePiece(g, id) == RotateFound(g, id, p);
    var g1 := RemovePiece(g, id).0;
    var back := Reverted(p);
    TurnBack(p);
    var cs := Footprint(p.shape, p.position, 0);
    assert g1.occ == Clear(g.occ, cs, id);
    assert CanPlacePiece(g1, back.shape, p.position);
    assert Lookup(g1, id).None?;
    PlaceFinds(g1, back, p.position);
    ClearThenWrite(g.occ, cs, id);
  }

  /** A new piece with one empty row can be placed, since its width 0 fits
      in any row of the board; turning it afterwards raises IndexError and
      leaves it off the board. */
  lemma FlatPieceRaises(g: Grid, p: Piece, at: Cell)
    requires Valid(g.pieces) && Valid(g.glyphs)
    requires Lookup(g, p.id).None?
    requires p.shape == [[]] && at.0 >= 0 && at.1 >= 0 && at.0 <= g.size && at.1 < g.size
    ensures var h := PlacePiece(g, p, at);
            h.1 && Turnable(h.0, p.id) && RotatePiece(h.0, p.id).1 == Err("IndexError") &&
            Lookup(RotatePiece(h.0, p.id).0, p.id).None?
  {
    var h := PlacePiece(g, p, at);
    assert forall c :: !Covers(p.shape, at, c);
    assert h.1;
    PlaceFinds(g, p, at);
  }

  // ---------------------------------------------------------------------
  // Growth

  /** `expand_grid(direction)`: false at the maximum size; otherwise the side
      grows by one and the occupied cells stay where they are.  The direction
      is not consulted. */
  function ExpandGrid(g: Grid, direction: string): (r: (Grid, bool))
    ensures r.1 <==> g.size < MaxSize
    ensures !r.1 ==> r.0 == g
    ensures r.1 ==> r.0.size == g.size + 1 && r.0.occ == g.occ &&
                    r.0.pieces == g.pieces && r.0.glyphs == g.glyphs
    ensures r.0.size <= MaxSize || r.0.size == g.size
    ensures Wf(g) ==> Wf(r.0)
    ensures Wf(g) && r.1 ==> forall c: Cell :: c.0 == g.size || c.1 == g.size ==> c !in r.0.occ
  {
    if g.size >= MaxSize then (g, false)
    else (g.(size := g.size + 1), true)
  }

  // ---------------------------------------------------------------------
  // Stats

  /** The value of stat `k` in a piece's stats, 0 when absent. */
  function StatOf(stats: Dict<string, int>, k: string): int {
    Get(stats, k).GetOr(0)
  }

  /** The four stat values of one piece. */
  function StatsOf(stats: Dict<string, int>): Totals {
    Totals(StatOf(stats, "hp"), StatOf(stats, "attack"), StatOf(stats, "defense"), StatOf(stats, "speed"))
  }

  /** `total_stats[k] += v`, which raises KeyError for any other key. */
  function AddStat(t: Totals, k: string, v: int): (r: Option<Totals>)
    ensures r.Some? <==> KnownStat(k)
  {
    if KnownStat(k) then Some(Plus(t, Single(k, v))) else None
  }

  /** The inner loop over one piece's stats. */
  function AddStats(t: Totals, stats: Dict<string, int>): Option<Totals>
    decreases |stats|
  {
    if |stats| == 0 then Some(t)
    else
      var t' :- AddStat(t, stats[0].0, stats[0].1);
      AddStats(t', stats[1..])
  }

  /** The outer loop over the stat pieces. */
  function AddPieces(t: Totals, ps: Dict<string, Piece>): Option<Totals>
    decreases |ps|
  {
    if |ps| == 0 then Some(t)
    else
      var t' :- AddStats(t, ps[0].1.stats);
      AddPieces(t', ps[1..])
  }

  /** `calculate_stats`: the glyph loop computes the affected pieces and then
      does nothing with them, so only the stat pieces count. */
  function CalculateStats(g: Grid): Option<Totals> {
    AddPieces(Zero, g.pieces)
  }

  /** Reference total of stat `k` over a sequence of pieces. */
  function Total(ps: Dict<string, Piece>, k: string): int {
    if |ps| == 0 then 0 else StatOf(ps[0].1.stats, k) + Total(ps[1..], k)
  }

  predicate AllKnown(stats: Dict<string, int>) {
    forall i :: 0 <= i < |stats| ==> KnownStat(stats[i].0)
  }

  /** Every stat key of every piece is one of the four totals. */
  predicate PiecesKnown(ps: Dict<string, Piece>) {
    forall i :: 0 <= i < |ps| ==> AllKnown(ps[i].1.stats)
  }

  lemma PiecesKnownCons(ps: Dict<string, Piece>)
    requires |ps| > 0
    ensures PiecesKnown(ps) <==> AllKnown(ps[0].1.stats) && PiecesKnown(ps[1..])
  {
    var rest := ps[1..];
    if AllKnown(ps[0].1.stats) && PiecesKnown(rest) {
      forall i | 0 <= i < |ps| ensures AllKnown(ps[i].1.stats) {
        if i > 0 { assert ps[i] == rest[i - 1]; }
      }
    }
  }

  lemma AllKnownCons(stats: Dict<string, int>)
    requires |stats| > 0
    ensures AllKnown(stats) <==> KnownStat(stats[0].0) && AllKnown(stats[1..])
  {
    var rest := stats[1..];
    if KnownStat(stats[0].0) && AllKnown(rest) {
      forall i | 0 <= i < |stats| ensures KnownStat(stats[i].0) {
        if i > 0 { assert stats[i] == rest[i - 1]; }
      }
    }
    if AllKnown(stats) {
      forall i | 0 <= i < |rest| ensures KnownStat(rest[i].0) {
        assert rest[i] == stats[i + 1];
      }
    }
  }

  /** The value of a stat splits into the head entry's share and the tail's. */
  lemma StatOfCons(stats: Dict<string, int>, k: string)
    requires Valid(stats) && |stats| > 0
    ensures StatOf(stats, k) == (if k == stats[0].0 then stats[0].1 else 0) + StatOf(stats[1..], k)
  {
    TailValid(stats);
    if k == stats[0].0 {
      assert Get(stats[1..], k) == None;
    }
  }

  lemma {:induction false} AddStatsSums(t: Totals, stats: Dict<string, int>)
    requires Valid(stats)
    ensures AddStats(t, stats).Some? <==> AllKnown(stats)
    ensures AddStats(t, stats).Some? ==>
              AddStats(t, stats).value == Plus(t, StatsOf(stats))
    decreases |stats|
  {
    if |stats| > 0 {
      var rest := stats[1..];
      TailValid(stats);
      AllKnownCons(stats);
      match AddStat(t, stats[0].0, stats[0].1)
      case None =>
      case Some(t') =>
        AddStatsSums(t', rest);
        StatsOfCons(stats);
    }
  }

  /** A piece's four totals are its first stat plus those of the rest. */
  lemma StatsOfCons(stats: Dict<string, int>)
    requires Valid(stats) && |stats| > 0 && KnownStat(stats[0].0)
    ensures StatsOf(stats) == Plus(Single(stats[0].0, stats[0].1), StatsOf(stats[1..]))
  {
    StatOfCons(stats, "hp");
    StatOfCons(stats, "attack");
    StatOfCons(stats, "defense");
    StatOfCons(stats, "speed");
  }

  /** `calculate_stats` succeeds exactly when every stat key of every stat
      piece is one of the four totals, and then each total is the sum of that
      stat over the stat pieces; glyphs do not contribute. */
  lemma {:induction false} CalculateStatsSums(t: Totals, ps: Dict<string, Piece>)
    requires forall i :: 0 <= i < |ps| ==> Valid(ps[i].1.stats)
    ensures AddPieces(t, ps).Some? <==> PiecesKnown(ps)
    ensures AddPieces(t, ps).Some? ==>
              AddPieces(t, ps).value == Plus(t, Totals(Total(ps, "hp"), Total(ps, "attack"),
                                                       Total(ps, "defense"), Total(ps, "speed")))
    decreases |ps|
  {
    if |ps| > 0 {
      var rest := ps[1..];
      assert forall i :: 0 <= i < |rest| ==> rest[i] == ps[i + 1];
      PiecesKnownCons(ps);
      AddStatsSums(t, ps[0].1.stats);
      match AddStats(t, ps[0].1.stats)
      case None =>
      case Some(t') =>
        CalculateStatsSums(t', rest);
    }
  }

  // ---------------------------------------------------------------------
  // Overlap

  /** Some cell of `a` also occurs in `b` (the four nested loops). */
  function Meets(a: seq<Cell>, b: seq<Cell>): (r: bool)
    ensures r <==> exists c :: c in a && c in b
  {
    if |a| == 0 then false
    else if a[0] in b then true
    else Meets(a[1..], b)
  }

  /** `shapes_overlap`: the two placed shapes share a filled cell. */
  function ShapesOverlap(x1: int, y1: int, s1: Shape, x2: int, y2: int, s2: Shape): (r: bool)
    ensures r <==> exists c :: Covers(s1, (x1, y1), c) && Covers(s2, (x2, y2), c)
  {
    var a, b := Footprint(s1, (x1, y1), 0), Footprint(s2, (x2, y2), 0);
    assert forall c :: c in a && c in b <==> Covers(s1, (x1, y1), c) && Covers(s2, (x2, y2), c);
    Meets(a, b)
  }

  /** Overlap does not depend on which shape is named first. */
  lemma OverlapSymmetric(x1: int, y1: int, s1: Shape, x2: int, y2: int, s2: Shape)
    ensures ShapesOverlap(x1, y1, s1, x2, y2, s2) == ShapesOverlap(x2, y2, s2, x1, y1, s1)
  {
    if ShapesOverlap(x1, y1, s1, x2, y2, s2) {
      var c :| Covers(s1, (x1, y1), c) && Covers(s2, (x2, y2), c);
      assert Covers(s2, (x2, y2), c) && Covers(s1, (x1, y1), c);
    }
  }
}

=== FILE: voidstate.dfy ===
/** The voidstate, the world's corruption level that scales enemies
    (dream_mecha/core/managers/voidstate_manager.py).  Clock readings are
    parameters, in seconds; the 10% chance of a spontaneous event is a
    boolean parameter; the float stat multipliers are not modelled. */
module Voidstate {
  import opened Wrappers
  import opened PyRandom

  const MaxVoidstate := 100
  /** Twelve hours, in seconds. */
  const Cooldown := 12 * 60 * 60
  /** Below this many active players the void grows restless. */
  const ActivityThreshold := 3

  datatype Manager = Manager(voidstate: int, lastVoidEvent: Option<int>)

  function New(): (m: Manager)
    ensures Bounded(m) && m.voidstate == 0 && m.lastVoidEvent == None
  {
    Manager(0, None)
  }

  predicate Bounded(m: Manager) {
    0 <= m.voidstate <= MaxVoidstate
  }

  /** `increase_voidstate`: capped at the maximum. */
  function Increase(m: Manager, amount: int): (r: Manager)
    ensures r == m.(voidstate := r.voidstate)
    ensures r.voidstate <= MaxVoidstate
    ensures r.voidstate == MaxVoidstate || r.voidstate == m.voidstate + amount
    ensures r.voidstate <= m.voidstate + amount
  {
    m.(voidstate := if MaxVoidstate < m.voidstate + amount then MaxVoidstate else m.voidstate + amount)
  }

  /** `decrease_voidstate`: floored at 0. */
  function Decrease(m: Manager, amount: int): (r: Manager)
    ensures r == m.(voidstate := r.voidstate)
    ensures r.voidstate >= 0
    ensures r.voidstate == 0 || r.voidstate == m.voidstate - amount
    ensures r.voidstate >= m.voidstate - amount
  {
    m.(voidstate := if 0 > m.voidstate - amount then 0 else m.voidstate - amount)
  }

  /** `reset_voidstate` */
  function Reset(m: Manager): (r: Manager)
    ensures r == m.(voidstate := 0) && Bounded(r)
  {
    m.(voidstate := 0)
  }

  /** Moving by non-negative amounts keeps the voidstate within [0, 100]. */
  lemma BoundedKept(m: Manager, amount: int)
    requires Bounded(m) && amount >= 0
    ensures Bounded(Increase(m, amount)) && Bounded(Decrease(m, amount))
  {
  }

  /** Raising then lowering by the same amount away from the cap returns to
      the start; the reverse holds away from the floor. */
  lemma IncreaseDecrease(m: Manager, amount: int)
    requires Bounded(m) && amount >= 0
    ensures m.voidstate + amount <= MaxVoidstate ==> Decrease(Increase(m, amount), amount) == m
    ensures m.voidstate - amount >= 0 ==> Increase(Decrease(m, amount), amount) == m
  {
  }

  /** `_can_trigger_event`: never triggered, or the cooldown has elapsed. */
  predicate CanTriggerEvent(m: Manager, now: int) {
    m.lastVoidEvent.None? || now - m.lastVoidEvent.value >= Cooldown
  }

  /** `should_trigger_void_event`: nothing within the cooldown; otherwise
      low activity over a voidstate of 10 triggers, and above 20 the random
      draw `lucky` (a 10% chance) may. */
  function ShouldTriggerVoidEvent(m: Manager, activePlayers: int, now: int, lucky: bool): (r: bool)
    ensures r ==> CanTriggerEvent(m, now)
    ensures r <==> (CanTriggerEvent(m, now) &&
                    ((activePlayers < ActivityThreshold && m.voidstate > 10) || (m.voidstate > 20 && lucky)))
  {
    if m.lastVoidEvent.Some? && now - m.lastVoidEvent.value < Cooldown then false
    else if activePlayers < ActivityThreshold && m.voidstate > 10 then true
    else if m.voidstate > 20 && lucky then true
    else false
  }

  const EventTypes := ["void_surge", "crystal_convergence", "crimson_void", "shadow_storm", "void_awakening"]

  datatype Event = Event(eventType: string, voidstate: int, zoltanBonus: int, enemyCountBonus: int, durationHours: int)

  /** `trigger_void_event` at time `now`: records the time and reports a
      random event type with bonuses of 50 zoltans per voidstate point and
      one enemy per five points, lasting a day. */
  function TriggerVoidEvent(m: Manager, now: int, roll: nat): (r: (Manager, Event))
    ensures r.0 == m.(lastVoidEvent := Some(now))
    ensures r.1.eventType in EventTypes && r.1.voidstate == m.voidstate
    ensures r.1.zoltanBonus == 50 * m.voidstate
    ensures m.voidstate >= 0 ==> 5 * r.1.enemyCountBonus <= m.voidstate < 5 * r.1.enemyCountBonus + 5
    ensures r.1.durationHours == 24
  {
    var eventType := Choice(EventTypes, roll).GetOr("void_surge");
    (m.(lastVoidEvent := Some(now)), Event(eventType, m.voidstate, m.voidstate * 50, m.voidstate / 5, 24))
  }

  /** Right after an event, none can trigger again for twelve hours. */
  lemma EventStartsCooldown(m: Manager, now: int, roll: nat, later: int, activePlayers: int, lucky: bool)
    requires now <= later < now + Cooldown
    ensures !ShouldTriggerVoidEvent(TriggerVoidEvent(m, now, roll).0, activePlayers, later, lucky)
    ensures CanTriggerEvent(TriggerVoidEvent(m, now, roll).0, now + Cooldown)
  {
  }

  /** The enemy count of `calculate_enemy_scaling`: one more enemy per ten
      voidstate points. */
  function EnemyCount(m: Manager, baseEnemies: int): (r: int)
    ensures m.voidstate >= 0 ==> baseEnemies <= r && 10 * (r - baseEnemies) <= m.voidstate < 10 * (r - baseEnemies) + 10
  {
    baseEnemies + m.voidstate / 10
  }

  /** More voidstate never means fewer enemies. */
  lemma EnemyCountMonotone(m: Manager, n: Manager, baseEnemies: int)
    requires 0 <= m.voidstate <= n.voidstate
    ensures EnemyCount(m, baseEnemies) <= EnemyCount(n, baseEnemies)
  {
  }
}

=== FILE: wrappers.dfy ===
/** Failure-carrying values used wherever the Python code returns None or
    raises an exception. */
module Wrappers {

  /** A value that may be absent (Python's `None`). */
  datatype Option<+T> = None | Some(value: T) {
    predicate IsFailure() { None? }

    function PropagateFailure<U>(): Option<U>
      requires None?
    {
      None
    }

    function Extract(): T
      requires Some?
    {
      value
    }

    function GetOr(default: T): T {
      if Some? then value else default
    }
  }

  /** Either a value or a raised exception, described by its message. */
  datatype Result<+T> = Ok(value: T) | Err(error: string) {
    predicate IsFailure() { Err? }

    function PropagateFailure<U>(): Result<U>
      requires Err?
    {
      Err(error)
    }

    function Extract(): T
      requires Ok?
    {
      value
    }
  }
}
